=== FILE: README.md ===
# Payroll reports for waiters, modelled in Dafny

The system keeps one record per waiter per working day: the waiter's 10 %
share of the service charge (`valor_10_percent`), entry and exit times, an
optional advance (`vale`) with its kind, a paid flag and a free-text note.
From one day's records it computes a total and renders the same report as
CSV, JSON, XML, HTML, DOCX and XLSX. It e-mails a summary with the six files
attached. A desktop and a web front end register records and export single
reports. A mobile back end computes totals, a per-waiter ranking and
histories over all stored rows.

This project models that pipeline as pure functions over immutable data.
Money is a number of cents (`Money.Cents`), so Python's `:.2f` is exact
rendering of cents. Dates are year/month/day triples with the proleptic
Gregorian calendar. Dictionaries are `map<string, Value>`. Each textual
format is held as the structure it is printed from: CSV rows, a JSON tree,
an XML element tree, the cells of an HTML table. The concrete syntax is
modelled far enough to prove that each can be read back.

Modules, one file each:

- `Common`: options, results, sums, filters, de-duplication.
- `Strings`: digits, Python's `int()` and lexicographic order.
- `Dates`: ISO and `DD/MM/YYYY` dates, weekdays, timestamps.
- `Money`: cents.
- `Settings`: `config/settings.py`.
- `Models`: `data/models/funcionario.py`.
- `Utf8`, `Csv`, `Xml`, `Json`: the encoders the report uses.
- `Report`: `services/report_generator.py`.
- `ReportViews`: readers that recover the count and total from each format.
- `Email`: `services/email_service.py`.
- `Stats`: the pure parts of `ui/mobile/src/services/supabase.ts`.
- `Desktop`: `ui/desktop/app_tkinter.py`.
- `Web`: `ui/web/app_streamlit.py`.

The central results:

- **One total, every format.** `ReportViews.EveryFormatAgrees` reads the
  record count and the total back out of every format. They are the same
  in all of them.
- **Round trips.** Each textual format parses back to the structure it was
  rendered from, and each record codec reads back what it writes.
- **Stats.** The ranking is a stable descending sort. Its entries are
  exactly the per-name tallies of the rows.

## Model

| member | source | states |
|---|---|---|
| Settings.GetSecret | config/settings.py:6-13 | The secrets store wins when it was loaded and holds the key. Otherwise the environment variable is used, and otherwise the default. |
| Settings.PortText | config/settings.py:22 | The text `int()` receives is never empty. It is the looked-up value whenever that is non-empty. |
| Settings.LoadSettings | config/settings.py:15-22 | A port that is missing, `""` or `"587"` gives 587. Loading succeeds exactly when `int()` accepts the port text, and the port is the number it reads. The four other text keys and the host are each the lookup of that key with its own default. A missing host gives `smtp.gmail.com`. |
| Settings.LoadSettingsPort | config/settings.py:22 | A port written as a decimal, padded with white space and with or without a sign, loads as that number, negative ones included. |
| Settings.LoadSettingsRejectsWord | config/settings.py:22 | A port such as `abc` stops the load. |
| Strings.PyInt | config/settings.py:22 | `int()` of a text succeeds exactly when, once the white space around it is stripped, it is an optional sign followed by digit groups joined by single underscores. |
| Strings.PyIntPadded | config/settings.py:22 | `int()` reads `str(n)` back as `n`, with surrounding white space and a `+`, and as `-n` after a `-`. |
| Strings.PyIntOfPlain | config/settings.py:22 | On a plain unsigned decimal, `int()` gives the same number as the strict digit reader. |
| Strings.PyRepr | ui/desktop/app_tkinter.py:348 | Python's `repr` of a text, as `float()` and `strptime` put it into their messages, starts and ends with the same quote. |
| Strings.ReprQuoteChoice | ui/desktop/app_tkinter.py:348 | The quote is `"` exactly when the text holds an apostrophe and no double quote. |
| Strings.HexRoundTrip | ui/desktop/app_tkinter.py:348 | A `\xNN` escape's hex digit reads back as its value. |
| Strings.ReprReadsBack | ui/desktop/app_tkinter.py:348 | Undoing the escapes inside the quotes gives back the text, so `repr` loses nothing. |
| Strings.ReprOfPlain | ui/desktop/app_tkinter.py:348 | A text of printable characters with no apostrophe or backslash is shown as it is, between apostrophes. |
| Strings.ReprOfApostrophe | ui/desktop/app_tkinter.py:348 | A printable text holding an apostrophe and no double quote or backslash is shown between double quotes. |
| Strings.ReprOfTab | ui/desktop/app_tkinter.py:348 | A tab is shown as `\t`. |
| Settings.DiasSemanaWellFormed | config/settings.py:26-34 | The weekday table is defined exactly on 0..6, starts with Monday and ends with Sunday. Its seven names are distinct and non-empty. |
| Settings.WeekdayLabel | services/report_generator.py:20 | Every valid date gets a non-empty day name, the table's entry for its weekday, and never the `""` fallback. |
| Settings.WeekdayLabelExample | config/settings.py:26-34 | 1 May 2024 is labelled "Quarta-feira". |
| Dates.IsoRoundTrip | data/models/funcionario.py:28 | Parsing the ISO text of a valid date gives back that date. |
| Dates.IsoParseThenFormat | data/models/funcionario.py:47 | Any text that parses as an ISO date is exactly the ISO text of the parsed date. |
| Dates.IsoFormatInjective | data/models/funcionario.py:28 | Two valid dates with the same ISO text are the same date. |
| Dates.BrRoundTrip | services/report_generator.py:47 | The `DD/MM/YYYY` rendering of a date parses back to that date. |
| Dates.PrevDay | ui/mobile/src/services/supabase.ts:424 | Yesterday exists exactly when the date is not 1 January of year 1, and it is the date whose day number is one less. |
| Dates.PrevDayWeekday | ui/mobile/src/services/supabase.ts:424 | The day before falls on the previous weekday. |
| Dates.StampRoundTrip | services/report_generator.py:68 | The corrected "Gerado em" stamp `DD/MM/YYYY às HH:MM` parses back to the date and time it was made from. |
| Dates.StampAsWrittenIsMidnight | services/report_generator.py:215 | The stamp as written equals the corrected stamp taken at 00:00 of the same day. |
| Dates.StampAsWrittenLosesTime | services/email_service.py:137 | At 14:30 the stamp as written differs from the corrected one. |
| Dates.Strptime | ui/desktop/app_tkinter.py:335 | A date that `strptime` accepts is a valid date. |
| Dates.StrptimeAcceptsIso | ui/desktop/app_tkinter.py:335 | Every text `fromisoformat` reads, `strptime("%Y-%m-%d")` reads to the same date. |
| Dates.StrptimeIsoRoundTrip | ui/desktop/app_tkinter.py:459 | The ISO text of a valid date reads back as that date. |
| Dates.StrptimeUnpadded | ui/desktop/app_tkinter.py:335 | A month and a day written without their leading zero are read as well. |
| Dates.StrptimeUnpaddedExample | ui/desktop/app_tkinter.py:335 | `2024-5-1` reads as 1 May 2024. |
| Dates.StrptimeDayOutOfRange | ui/desktop/app_tkinter.py:335 | `2024-02-30` is refused with "day is out of range for month". |
| Dates.StrptimeUnconverted | ui/desktop/app_tkinter.py:335 | `2024-01-011` is refused with "unconverted data remains: 1". |
| Dates.StrptimeYearZero | ui/desktop/app_tkinter.py:335 | `0000-01-01` is refused because year 0 is out of range. |
| Dates.StrptimeNoMatch | ui/desktop/app_tkinter.py:335 | `2024-13-01` is refused with "time data '2024-13-01' does not match format '%Y-%m-%d'". |
| Dates.NoMatchErrorPlain | ui/desktop/app_tkinter.py:335 | The no-match message shows a plain text between apostrophes, as `repr` does. |
| Money.FormatCentsRoundTrip | services/report_generator.py:124 | The `:.2f` text of an amount parses back to the same number of cents. |
| Money.FormatCentsInjective | services/report_generator.py:160 | Two amounts have the same `:.2f` text exactly when they are equal. |
| Money.ParseMoneyTextOfFormat | ui/desktop/app_tkinter.py:348 | Reading a `:.2f` text as a number gives back the amount. |
| Money.ParseMoneyTextWhole | ui/desktop/app_tkinter.py:348 | A whole number typed in a field is that many units, that is, 100 times as many cents. |
| Money.ParseMoneyTextSigned | ui/desktop/app_tkinter.py:348 | A `+` in front of a `:.2f` amount reads as the same amount. |
| Money.ParseMoneyTextLeadingPoint | ui/desktop/app_tkinter.py:348 | `.d` reads as `d` tenths and `.dd` as `dd` hundredths, as `float()` reads them. |
| Models.Lookup | data/models/funcionario.py:43 | `dict.get`: the stored value when the key is present, otherwise the default. |
| Models.ToInt | data/models/funcionario.py:177 | `int(v)`: an integer is kept, and a float is truncated toward zero. A text is read exactly when `int()` accepts it, and gives the number `int()` reads. `None` and a list are errors. |
| Models.IntField | data/models/funcionario.py:197 | A missing key gives the default. A stored text is read exactly when `int()` accepts it, and gives the number `int()` reads. |
| Models.IdField | data/models/funcionario.py:42 | A missing id reads as none. A present id came from a string stored under `"id"`. |
| Models.OptMoneyField | data/models/funcionario.py:49 | A missing or null advance reads as none. A stored number reads as that amount, so zero stays zero. |
| Models.RawField | data/models/funcionario.py:49 | The field counts as present exactly when the key is stored with a non-null value, which is the `is not None` test. |
| Models.FuncionarioToDict | data/models/funcionario.py:22-37 | `"id"` is written exactly when the record has an id. Timestamps are never written. `tipo_pagamento` is always a non-empty string. |
| Models.FuncionarioFromDict | data/models/funcionario.py:39-55 | An empty dict yields the dataclass defaults. A parsed date is valid. An advance is present exactly when the dict holds a non-null `vale`. |
| Models.FuncionarioFromFields | data/models/funcionario.py:39-55 | `from_dict` is the composition of its thirteen field readers, each with its own default. |
| Models.FuncionarioToDictTexts | data/models/funcionario.py:22-34 | The text fields read back from `to_dict`, except that an empty `tipo_vale` becomes none and an empty `tipo_pagamento` becomes `"pix"`. |
| Models.FuncionarioToDictOthers | data/models/funcionario.py:22-37 | The id, amount, date, advance and paid flag read back from `to_dict`. The timestamps read back as none. |
| Models.FuncionarioRoundTrip | data/models/funcionario.py:22-55 | `from_dict(to_dict(f))` is `f` with the empty-kind normalisations applied and the timestamps dropped. |
| Models.ZeroAdvanceSurvives | data/models/funcionario.py:30 | A zero advance survives the round trip as zero. An absent advance survives as absent. |
| Models.FuncionarioBaseToDict | data/models/funcionario.py:66-70 | `"id"` is written exactly when the record has an id. |
| Models.FuncionarioBaseFromDict | data/models/funcionario.py:72-80 | An empty dict yields an empty name and pix key, with no id and no timestamps. |
| Models.FuncionarioBaseRoundTrip | data/models/funcionario.py:66-80 | A registered waiter reads back unchanged except for the timestamps. |
| Models.RegistroDiarioToDict | data/models/funcionario.py:98-112 | `"id"` is written exactly when there is one. `tipo_vale` is written as it is, including none. |
| Models.RegistroDiarioFromDict | data/models/funcionario.py:114-129 | An empty dict yields the defaults. A missing `tipo_vale` reads as `"pix"`, not none. |
| Models.RegistroDiarioRoundTrip | data/models/funcionario.py:98-129 | A daily record reads back unchanged except for the timestamps. |
| Models.ObservacaoGeralToDict | data/models/funcionario.py:140-147 | `"id"` is written exactly when there is one. |
| Models.ObservacaoGeralFromDict | data/models/funcionario.py:149-157 | An empty dict yields no date and an empty note. |
| Models.ObservacaoGeralRoundTrip | data/models/funcionario.py:140-157 | A day's note reads back unchanged except for the timestamps. |
| Models.ConfiguracaoFromDict | data/models/funcionario.py:169-178 | An empty dict yields empty addresses, `smtp.gmail.com` and port 587. A missing host or port gets its default. The port is `int()` of the stored value: when that raises the record is not built, and otherwise the port is the number it reads. |
| Models.ConfiguracaoPortText | data/models/funcionario.py:177 | A port stored as the text of a number, padded with white space and with or without a `+`, reads as that number. |
| Models.RegistroTrabalhoFromDict | data/models/funcionario.py:191-201 | An empty dict yields zero counts, no date and "not sent". `total_funcionarios` is `int()` of the stored value: when that raises the record is not built, and otherwise the count is the number it reads. |
| Models.LogFromDict | data/models/funcionario.py:227-239 | An empty dict yields the defaults. A missing user is `"sistema"`. |
| Models.HistoricoPresencaFromDict | data/models/funcionario.py:254-266 | An empty dict yields the defaults, with times 08:00 and 16:00. |
| Models.HistoricoPagamentoFromDict | data/models/funcionario.py:282-295 | An empty dict yields the defaults, with the kind `"pix"`. `numero_parcela` is `int()` of the stored value: when that raises the record is not built, and otherwise it is the number read. |
| Models.TotalFuncionariosFromDict | data/models/funcionario.py:309-320 | An empty dict yields all zeros and no dates. Each of the three counts is `int()` of its stored value: the record is not built when any of them raises, and otherwise each count is the number read. |
| Models.NewDataCadastramento | data/models/funcionario.py:333-335 | A missing list of worked days becomes the empty list. A given one is kept. |
| Models.DataCadastramentoFromDict | data/models/funcionario.py:337-347 | An empty dict yields the defaults. A missing or null list of days becomes empty. `total_dias_trabalhados` is `int()` of the stored value: when that raises the record is not built, and otherwise it is the number read. |
| Models.RankingPagamentoFromDict | data/models/funcionario.py:362-374 | An empty dict yields all zeros. `posicao` and `dias_trabalhados` are `int()` of their stored values: the record is not built when either raises, and otherwise each is the number read. |
| Models.TotalOfAppend | services/report_generator.py:21 | The total of two lists of records together is the sum of their totals. |
| Utf8.DecodeEncode | services/report_generator.py:224-227 | Decoding the UTF-8 encoding of a text gives back the text. |
| Utf8.EncodeInjective | services/report_generator.py:224-227 | Two texts have the same UTF-8 bytes exactly when they are equal. |
| Utf8.EncodeAscii | services/report_generator.py:224-227 | An ASCII text is encoded one byte per character, with the same code. |
| Csv.EncodeField | services/report_generator.py:118 | A field that needs quoting is wrapped in double quotes. Any other field is written unchanged. |
| Csv.EncodeRow | services/report_generator.py:119 | Every row written ends in `\r\n`. |
| Csv.ParseFieldOf | services/report_generator.py:118 | Any field, quoted or not, parses back when followed by a comma, a line end or nothing. |
| Csv.ParseEncodeRows | services/report_generator.py:116-130 | Parsing the CSV text of any list of non-empty rows gives back those rows. |
| Xml.Escape | services/report_generator.py:171 | The escaped text is never shorter than the original, and it contains no `<`, `>` or `"`. |
| Xml.UnescapeEscape | services/report_generator.py:171 | Unescaping escaped text gives back the original. |
| Xml.NormalizeLineEnds | services/report_generator.py:37 | After the parser's line-end normalisation no carriage return remains. |
| Xml.NormalizeLineEndsIdentity | services/report_generator.py:37 | Text without a carriage return is left unchanged. |
| Xml.Reparse | services/report_generator.py:36-38 | A successful reparse keeps each element's tag, attributes, shape and number of children. |
| Xml.ReparseAllOk | services/report_generator.py:36-38 | A list of elements reparses exactly when each element does. |
| Xml.PrettyPrint | services/report_generator.py:38 | The pretty-printed document starts with the XML declaration. |
| Json.Find | services/report_generator.py:132-150 | A member found under a key is stored under that key. No member is found exactly when no member has that key. |
| Json.UnescapeEscapeString | services/report_generator.py:151 | Unescaping a JSON string literal gives back the original text. |
| Json.MoneyReprReadsBack | services/report_generator.py:138 | The number JSON prints for an amount reads back as that amount. |
| Report.NewGenerator | services/report_generator.py:17-21 | The generator keeps the records and the day. The day name is the table's label for its weekday. An empty day totals zero. |
| Report.NewGeneratorTotalAppend | services/report_generator.py:21 | The total is additive over concatenated record lists. |
| Report.NewGeneratorTotalSingle | services/report_generator.py:21 | The total of one record is its amount. |
| Common.OrDefault | services/report_generator.py:32 | Python's `text or default`: a present, non-empty text is kept, and a missing or empty one gives the default. With a non-empty default the result is never empty. The note shows `-` and the desktop grid's advance kind (ui/desktop/app_tkinter.py:325) shows `pix`. |
| Report.NoteOrEmpty | services/report_generator.py:127 | A missing note is written as `""`. Any present note is written unchanged. |
| Report.NoteJson | services/report_generator.py:146 | JSON holds the raw note: `null` exactly when it is missing. |
| Report.NoteRules | services/report_generator.py:127 | `-` replaces the note exactly where the CSV/XML rendering is empty. |
| Report.CsvRecord | services/report_generator.py:122-128 | A CSV record has the five columns. The amount column parses back to the record's cents, and the note column uses the CSV rule. |
| Report.CsvRows | services/report_generator.py:116-130 | The header comes first, then one row per record in input order. |
| Report.CsvReadsBack | services/report_generator.py:116-130 | The CSV text parses back to exactly the header and the record rows. |
| Report.CsvOfEmptyDay | services/report_generator.py:119 | An empty day's CSV is the single header line `Nome,10% (R$),Entrada,Saída,Observação`. |
| Report.HtmlPageOf | services/report_generator.py:173-218 | The HTML table has one five-cell row per record. |
| Report.HtmlRowsOf | services/report_generator.py:23-34 | Row `i` of the table body holds the cells of record `i`. |
| Report.GenerateDocx | services/report_generator.py:40-73 | The document is produced exactly when every text of its layout holds only characters XML 1.0 allows, and it is then that layout. |
| Report.CellText | services/report_generator.py:99-103 | A text cell keeps a prefix of at most 32,767 characters of the text, and the whole text when it fits. |
| Report.GenerateExcel | services/report_generator.py:75-111 | The workbook is produced exactly when no text cell holds a control character openpyxl refuses (U+0000-U+0008, U+000B, U+000C, U+000E-U+001F), and it is then the sheet the layout describes. Otherwise the error is the first refused cell's text, in the order the cells are assigned, followed by " cannot be used in worksheets.". |
| Report.FirstRefusedCell | services/report_generator.py:98-103 | Within one row, finds the leftmost refused text cell, with every cell before it accepted, and finds none exactly when the row is accepted. |
| Report.FirstRefused | services/report_generator.py:80-103 | Finds the first refused cell in row order and then column order, and finds none exactly when every row is accepted. |
| Report.FirstRefusedUnique | services/report_generator.py:80-103 | There is only one first refused cell, so the message is determined. |
| Report.SheetOf | services/report_generator.py:78-103 | The sheet is titled "Relatório" and has five layout rows plus one row per record. |
| Report.ExcelHeader | services/report_generator.py:80-96 | A1 holds the title, row 4 is blank and row 5 holds the five headers. |
| Report.ExcelRecords | services/report_generator.py:98-103 | Record `i` sits in row 6+`i`. Column B is the numeric amount and column E is the note with the `-` rule. Each text column holds the text cut to the cell limit. |
| Report.ExcelBlankBelow | services/report_generator.py:98-103 | Nothing is written below the last record. |
| Report.BytesOf | services/report_generator.py:224-227 | The bytes of a textual entry decode as UTF-8 to the report's text. |
| Report.FormatKeysAreReportFormats | config/settings.py:24 | `REPORT_FORMATS` lists exactly the keys `generate_all` produces. |
| Report.Bundle | services/report_generator.py:220-228 | The bundle has exactly the six keys, each mapped to its own payload. |
| Report.GenerateAll | services/report_generator.py:220-228 | The bundle is produced exactly when the DOCX, the workbook and the XML all are, and it has the six keys. |
| Report.GenerateAllCsv | services/report_generator.py:224 | The `csv` entry's bytes decode to `generate_csv`'s text. |
| Report.GenerateAllJson | services/report_generator.py:225 | The `json` entry's bytes decode to `generate_json`'s text. |
| Report.GenerateAllXml | services/report_generator.py:226 | The `xml` entry's bytes decode to `generate_xml`'s text. |
| Report.GenerateAllHtml | services/report_generator.py:227 | The `html` entry holds the page `generate_html` renders. |
| Report.GenerateAllKinds | services/report_generator.py:220-228 | The entries are a document, a workbook, the CSV rows, the JSON tree, a parsed XML tree and the HTML page. |
| Report.GenerateAllDocuments | services/report_generator.py:222-226 | The `docx` and `excel` entries are the DOCX layout and the XLSX sheet. The `xml` entry is the reparsed XML tree. |
| ReportViews.SummaryOf | services/report_generator.py:21 | The summary counts the records. An empty day totals zero. |
| ReportViews.SumAmounts | services/report_generator.py:21 | A list of amounts sums exactly when every amount was readable. |
| ReportViews.SumAmountsOfRecords | services/report_generator.py:21 | Summing the amounts read from each record's row gives the report total. |
| ReportViews.CsvAgrees | services/report_generator.py:116-130 | Reading the CSV text back gives the record count and the report total. |
| ReportViews.JsonAgrees | services/report_generator.py:132-151 | In the JSON tree, `total_funcionarios` is the count, the array has that length, and its amounts sum to `total_valores`, the report total. |
| ReportViews.ReparsedItemsSum | services/report_generator.py:162-171 | The reparsed `funcionarios` element has one item per record, and their amounts sum to the day's total. |
| ReportViews.XmlAgrees | services/report_generator.py:153-171 | In the reparsed XML, `resumo` holds the count and the total, and the `funcionario` amounts sum to that total. |
| ReportViews.XmlRecordOk | services/report_generator.py:163-169 | A record's XML element reparses exactly when its text fields hold only characters XML 1.0 allows. |
| ReportViews.XmlOk | services/report_generator.py:153-171 | `generate_xml` succeeds exactly when every record's text fields hold only characters XML 1.0 allows. |
| ReportViews.XmlOkOf | services/report_generator.py:153-171 | For any generator, `generate_xml` succeeds exactly when the day name and every record's text fields hold only characters XML 1.0 allows. |
| ReportViews.DocxOkOf | services/report_generator.py:40-73 | `generate_docx` succeeds exactly when the day name and every record's text fields hold only characters XML 1.0 allows, which is exactly when `generate_xml` succeeds. |
| ReportViews.DocxOk | services/report_generator.py:40-73 | For a day's records, the DOCX is produced exactly when every record's text fields hold only characters XML 1.0 allows. |
| ReportViews.ExcelOkOf | services/report_generator.py:75-111 | `generate_excel` succeeds exactly when the weekday cell and every record's text cells are free of the control characters openpyxl refuses. |
| ReportViews.ExcelOk | services/report_generator.py:75-111 | For a day's records, the workbook is produced exactly when every record's text cells are free of those control characters. |
| ReportViews.ExcelRefusesName | services/report_generator.py:99 | A name starting with a refused control character stops the workbook at A6, with the name followed by " cannot be used in worksheets." as the message. |
| ReportViews.XmlSafeSheetSafe | services/report_generator.py:99-103 | A record the XML can hold is one the workbook can hold: openpyxl refuses only characters XML 1.0 refuses too. |
| ReportViews.GenerateAllOk | services/report_generator.py:220-228 | `generate_all` succeeds exactly when `generate_xml` does. |
| ReportViews.HtmlAgrees | services/report_generator.py:173-218 | The HTML summary and the table rows give the count and the total. |
| ReportViews.DocxAgrees | services/report_generator.py:46-66 | The DOCX info lines and table give the count and the total. |
| ReportViews.SheetAgrees | services/report_generator.py:86-103 | The XLSX rows 3 and 6 onward give the count and the total. |
| ReportViews.EveryFormatAgrees | services/report_generator.py:21 | All six formats show the same record count and the same total, the sum of the amounts. |
| ReportViews.NoteRenderings | services/report_generator.py:32 | A note is shown as it is in JSON. A missing note is `""` in CSV and XML. A missing or empty note is `-` in HTML, DOCX and XLSX. |
| Email.LongDateRoundTrip | services/email_service.py:82 | The header's `%d de %B de %Y` date parses back to the date. |
| Email.MonthNamesDistinct | services/email_service.py:82 | The twelve month names are distinct. |
| Email.Links | services/email_service.py:125-130 | There are six download links, one per extension, in the button order. |
| Email.CriarTemplate | services/email_service.py:19-31 | The body has one table row per record and six links. |
| Email.SubjectRoundTrip | services/email_service.py:157 | The subject parses back to the day name and the date. |
| Email.FormatosFollowReportFormats | services/email_service.py:163-170 | The attachment table lists the report keys in `REPORT_FORMATS` order. |
| Email.ExcelAttachmentMisnamed | services/email_service.py:177 | As written, the spreadsheet attachment is named `relatorio_<date>.excel`, not `.xlsx`. |
| Email.OtherAttachmentsAsWritten | services/email_service.py:177 | For the five other formats, the as-written name and the corrected name agree. |
| Email.AttachmentsMatchLinks | services/email_service.py:125-130 | Each corrected attachment name is the file its download button links to. |
| Email.Part | services/email_service.py:174-177 | An attachment carries its key and the payload stored under it. Under the source's naming its file is `relatorio_<date>.<key>`. |
| Email.PartNamings | services/email_service.py:172-177 | The source's naming and the corrected one build the same attachment apart from the file name, and the names differ exactly for the `excel` entry. |
| Email.AttachedNamings | services/email_service.py:172-178 | The attachment lists built under the two namings have the same length, agree part by part except for file names, and differ exactly at the `excel` part. |
| Email.PartsOfAppend | services/email_service.py:172-178 | Attaching one more chosen format extends the attachment list in step. |
| Email.AttachEach | services/email_service.py:172-178 | The attachments are exactly the formats that are present and truthy, in table order, each named by the chosen naming. |
| Email.SelectAttachments | services/email_service.py:162-178 | With no files or an empty dict, nothing is attached. Otherwise the present, truthy formats are attached in table order, each named by the chosen naming. |
| Email.EnviarRelatorio | services/email_service.py:143-178 | The message has the sender, the recipient and a subject that parses back. Its body shows the count and the total, and its attachments follow the selection rule. The source's naming sends `relatorio_<date>.<key>`. |
| Email.PayloadsTruthy | services/report_generator.py:220-228 | All six payloads of a bundle are non-empty, so all are attached. |
| Email.EnviarRelatorioComAnexos | services/email_service.py:190-200 | The message is composed exactly when the bundle is, which is exactly when the XML reparses. It attaches all six entries of the `generate_all` map unchanged, in table order, each under the chosen naming's file name. |
| Email.BodyMatchesReport | services/email_service.py:20-31 | The e-mail body shows the date, day name, count, total, rows and stamp of the HTML report for the same records. |
| Email.BodyAgrees | services/email_service.py:152 | Reading the body back gives the count and the sum of the amounts. |
| Stats.AmountValue | ui/mobile/src/services/supabase.ts:341 | An amount that does not parse counts as zero. A parsed amount is kept. |
| Stats.RunningSumsSplit | ui/mobile/src/services/supabase.ts:336-348 | Every row adds to exactly one of paid and pending, so the two add up to the grand total. |
| Stats.GetTotalFuncionarios | ui/mobile/src/services/supabase.ts:317-331 | A failed query gives all zeros. Otherwise the row count is the number of rows. |
| Stats.TotalsMeaning | ui/mobile/src/services/supabase.ts:333-357 | The totals count distinct names and distinct days, sum all amounts, and split that sum into paid and pending. |
| Stats.KeyIndex | ui/mobile/src/services/supabase.ts:371 | A found index holds the name. No index is found exactly when no entry has the name. |
| Stats.GroupRowsSpec | ui/mobile/src/services/supabase.ts:369-395 | Grouping gives one entry per distinct name, in first-seen order. Each entry is the fold of that name's rows. |
| Stats.TallyFacts | ui/mobile/src/services/supabase.ts:383-394 | A name's tally counts its rows and sums their amounts into paid and pending. It records the largest amount, and the smallest is one of the amounts. |
| Stats.PaidPlusPending | ui/mobile/src/services/supabase.ts:390-394 | Paid and pending add up to the total. |
| Stats.Entries | ui/mobile/src/services/supabase.ts:397-407 | Each tally becomes one ranking entry, in order. |
| Stats.InsertDesc | ui/mobile/src/services/supabase.ts:409 | Inserting adds exactly the one new entry. |
| Stats.InsertDescSorted | ui/mobile/src/services/supabase.ts:409 | Inserting into a non-increasing list keeps it non-increasing. |
| Stats.SortDesc | ui/mobile/src/services/supabase.ts:409 | The sort is a permutation, non-increasing by total received. |
| Stats.SortDescStable | ui/mobile/src/services/supabase.ts:409 | Entries with equal totals keep their first-seen order. |
| Stats.SortDescSum | ui/mobile/src/services/supabase.ts:409 | Sorting keeps the sum of totals received. |
| Stats.Numbered | ui/mobile/src/services/supabase.ts:411 | Positions are numbered consecutively and nothing else changes. |
| Stats.ListarRankingPagamentos | ui/mobile/src/services/supabase.ts:360-412 | A failed query gives no ranking. Otherwise there is one entry per distinct name, positions are exactly 1..N, and the totals are non-increasing. |
| Stats.RankingEntry | ui/mobile/src/services/supabase.ts:369-407 | Each entry reports its name's row count and total, the paid/pending split and the average. It gives the largest amount and a smallest amount that is one of the amounts. |
| Stats.RankingExtremes | ui/mobile/src/services/supabase.ts:376-389 | The smallest never exceeds the largest. A single non-negative row shows its amount as both, so no `Infinity` leaks out. |
| Stats.RankingNames | ui/mobile/src/services/supabase.ts:369-381 | A name appears in the ranking exactly when it appears in the rows. |
| Stats.RankingSum | ui/mobile/src/services/supabase.ts:340-348 | The ranking's totals received add up to the grand total of the same rows. |
| Stats.ListarHistoricoPresenca | ui/mobile/src/services/supabase.ts:414-432 | A failed query gives nothing. Otherwise each row is kept, in order, with a label. |
| Stats.DiaFormatadoMeaning | ui/mobile/src/services/supabase.ts:423-431 | The label is "Hoje" exactly for today and "Ontem" exactly for yesterday. Any other day shows its date text. |
| Stats.StatusPagamento | ui/mobile/src/services/supabase.ts:445 | The status is "Pago" or "Pendente". |
| Stats.ListarHistoricoPagamentos | ui/mobile/src/services/supabase.ts:434-447 | A failed query gives nothing. Otherwise each row is kept, in order. |
| Stats.PagamentosStatus | ui/mobile/src/services/supabase.ts:443-446 | A row shows "Pago" exactly when it is paid, so the screen counts as many paid rows as there are. |
| Stats.DataCadastramentoMeaning | ui/mobile/src/services/supabase.ts:449-483 | There is one entry per distinct name. Each counts that name's rows and sums their amounts. Its first and last days are dates of that name and bound all of them in ISO text order. |
| Stats.GetNomesUnicos | ui/mobile/src/services/supabase.ts:144-152 | A failed query is an error. Otherwise the result holds the distinct names, each once, in first-seen order. |
| Stats.HeadCountsAgree | ui/mobile/src/services/supabase.ts:333 | The unique names, the ranking and the registration list have as many entries as there are registered waiters. |
| Desktop.NormalizeTime | ui/desktop/app_tkinter.py:337-343 | The result always has a colon. A time with a colon is kept. A blank time takes the default. Otherwise `:00` is appended. |
| Desktop.NormalizeTimeIdempotent | ui/desktop/app_tkinter.py:340-343 | Normalising a normalised time changes nothing. |
| Desktop.ParseAmountField | ui/desktop/app_tkinter.py:348 | A blank share is 0. Any other text is accepted exactly when it is a non-negative decimal with at most two fractional digits, optionally after a `+`, and is then that amount. A refused text gives "could not convert string to float: " followed by the text's `repr`, which reads back as the text. |
| Desktop.ParseValeField | ui/desktop/app_tkinter.py:351 | A blank advance is none, and only a blank one. Any other text is accepted exactly when it is a non-negative decimal with at most two fractional digits, optionally after a `+`, and is then that amount. A refused text gives the same `float()` message. |
| Desktop.ValeFieldWordMessage | ui/desktop/app_tkinter.py:351 | An advance of `abc` is refused with "could not convert string to float: 'abc'". |
| Desktop.AmountFieldApostropheMessage | ui/desktop/app_tkinter.py:348 | A share of `1'5` is refused with the text between double quotes, as `repr` chooses. |
| Desktop.BlankFields | ui/desktop/app_tkinter.py:348-351 | Blank share gives 0 and blank advance gives none, while `0` is an advance of zero. |
| Desktop.AmountFieldsReadBack | ui/desktop/app_tkinter.py:348-351 | A `:.2f` amount typed into either field reads back as that amount. |
| Desktop.AmountFieldsLenient | ui/desktop/app_tkinter.py:348-351 | A `+` before an amount changes nothing, and `.5` is read as half a unit. |
| Desktop.NovoRegistro | ui/desktop/app_tkinter.py:329-355 | A record is built exactly when there is a name, a date `strptime` reads and readable amounts. A missing name gives the warning, and a refused date gives `strptime`'s own message. Otherwise every field is set from the form, the day being the date read. |
| Desktop.NovoRegistroReadsBack | ui/desktop/app_tkinter.py:335-355 | Filling the form with a record's own values rebuilds that record. |
| Desktop.NovoRegistroDateErrors | ui/desktop/app_tkinter.py:335 | A day the month lacks, trailing characters and a month out of range each give their own `strptime` message. |
| Desktop.NovoRegistroUnpadded | ui/desktop/app_tkinter.py:335 | A date typed as `2024-5-1` registers 1 May 2024. |
| Desktop.FirstNamed | ui/desktop/app_tkinter.py:357-361 | Returns the first loaded record with the name, or none exactly when there is none. |
| Desktop.Decide | ui/desktop/app_tkinter.py:363-367 | It updates exactly when a loaded record has the name, keeping everything but the id. Otherwise the record is inserted unchanged. |
| Desktop.DecideByFilter | ui/desktop/app_tkinter.py:357-367 | It updates exactly when the same-name records are not empty, and takes the id of the first of them. |
| Desktop.ValeCell | ui/desktop/app_tkinter.py:325 | The grid shows `-` exactly for a missing or zero advance. Any other advance reads back from its cell. |
| Desktop.GridRowReadsBack | ui/desktop/app_tkinter.py:323-326 | The grid row's amounts read back and its paid mark is the flag. Its name, times and note are the DOCX report's cells. |
| Desktop.LeadingDigitsOf | ui/desktop/app_tkinter.py:404 | The digit run before a non-digit is exactly the digits. |
| Desktop.TotalLabelReadsBack | ui/desktop/app_tkinter.py:395-404 | The day label reads back as the record count and the total, which is the report generator's total. |
| Desktop.ExtensionsTotalInjective | ui/desktop/app_tkinter.py:461 | The extension map is defined on exactly the six labels and maps no two labels to the same extension. |
| Desktop.ExtensionsAreLinkExtensions | ui/desktop/app_tkinter.py:461 | The extensions are exactly those of the e-mail's download links. |
| Desktop.GeneratesRecords | ui/desktop/app_tkinter.py:463-481 | For a day's records, HTML, CSV and JSON always generate. XML and DOCX generate exactly when every record is XML-safe, and Excel exactly when every record is free of the controls openpyxl refuses. |
| Desktop.ExportPayload | ui/desktop/app_tkinter.py:463-481 | A format's payload exists exactly when its generator does not raise: XML and DOCX on a character XML 1.0 does not allow, Excel on a control character openpyxl refuses. It is of the kind its extension names. |
| Desktop.JsonInBundle | ui/desktop/app_tkinter.py:476-478 | The JSON export is the `json` entry of the bundle. |
| Desktop.XmlInBundle | ui/desktop/app_tkinter.py:479-481 | The XML export is the `xml` entry of the bundle. |
| Desktop.GerarRelatorioAsWritten | ui/desktop/app_tkinter.py:454-484 | As written, a JSON or XML export never writes its report. With records, a date `strptime` reads and a file name, it ends in an error after the file was opened, leaving the file empty. This happens exactly for JSON, XML, and a DOCX or Excel whose generator raises. A refused date gives `strptime`'s message. |
| Desktop.JsonExportFailsAsWritten | ui/desktop/app_tkinter.py:476-478 | As written, the JSON export with loaded records, a good date and a file name leaves the chosen file empty and fails with the `bytes-like object` error. The other four formats behave as corrected. |
| Desktop.GerarRelatorio | ui/desktop/app_tkinter.py:454-484 | No records gives the warning. A file is written exactly when there are records, the date parses, a file name was chosen and the format's generator does not raise. The file has the chosen name and the kind its extension names. A generator that raises leaves the opened file empty. A refused date gives `strptime`'s message. |
| Desktop.JsonExportWritesBundle | ui/desktop/app_tkinter.py:476-478 | The corrected JSON export writes the `json` entry of the bundle. |
| Desktop.XmlExportWritesBundle | ui/desktop/app_tkinter.py:479-481 | The corrected XML export writes the `xml` entry of the bundle. |
| Desktop.ControlCharacterTruncates | ui/desktop/app_tkinter.py:469-481 | A name holding U+0001 leaves the opened file empty for XML, DOCX and Excel, as written and corrected. |
| Web.FuncionariosDoDia | ui/web/app_streamlit.py:52-53 | The result holds exactly the records of the chosen day. |
| Web.FuncionariosDoDiaAppend | ui/web/app_streamlit.py:52-53 | The day filter distributes over concatenation, so input order is kept. |
| Web.FuncionariosDoDiaSingle | ui/web/app_streamlit.py:53 | One record is kept exactly when its date is the day. |
| Web.HourMinuteRoundTrip | ui/web/app_streamlit.py:149-150 | A time widget's `HH:MM` text parses back to the time and is already in desktop normal form. |
| Web.Cadastrar | ui/web/app_streamlit.py:146-173 | A record is created exactly when the name is non-empty and the amount is positive, and the warning is shown otherwise. Fields not on the form keep their defaults. |
| Web.RecordJoinsDay | ui/web/app_streamlit.py:52-53 | A new record of the day joins the end of that day's listing and adds its amount to the total. |
| Web.CadastrarJoinsDay | ui/web/app_streamlit.py:157-166 | A registered record shows up last in its day's listing and adds its amount. |
| Web.Listagem | ui/web/app_streamlit.py:182-209 | There is no listing exactly when the day is empty. Otherwise there is one row per record of the day. |
| Web.ListagemAgrees | ui/web/app_streamlit.py:188-209 | The listing shows the day's count and total, the same as the HTML report of that day. |
| Web.DownloadsFollowEmailTable | ui/web/app_streamlit.py:94-135 | The download table covers the same formats and extensions as the desktop. Its MIME types equal the content-type column of the mailer's format table, a column the mailer never uses. |
| Web.DownloadNameOf | ui/web/app_streamlit.py:98-133 | Each download is named like the corrected e-mail attachment of the same report. |
| Web.DownloadNamesFollowEmailTable | ui/web/app_streamlit.py:98-133 | Every download is named like the corrected e-mail attachment of the same report. |
| Web.Exportar | ui/web/app_streamlit.py:86-137 | An empty day gives the warning. Otherwise the export succeeds exactly when the format's generator does not raise (XML, DOCX and Excel can). The file is `relatorio_<ISO date>.<ext>`, and its payload is of that extension's kind. |

## Left out

- **Network, database and UI:**
  - Supabase queries, server-side `order`/`limit`/`eq`, and the repository calls. Fetched rows are an input sequence, and a failed query is `None`.
  - The configuration and note upserts, and UUID generation.
  - Tk and Streamlit widgets, dialogs, session state and reloads.
- **Mail transport:** SMTP, STARTTLS, login, and MIME/base64 encoding. The message is returned rather than sent, so the `True`/`False` outcome of sending is not modelled.
- **Library serialisation:**
  - DOCX and XLSX bytes. The DOCX is its text layout and the XLSX is its cell grid. What python-docx and openpyxl refuse is modelled: a character outside XML 1.0 in any DOCX text, and a control character openpyxl rejects in any worksheet text.
  - Styling and CSS of the HTML report and the e-mail.
  - `minidom` pretty-printing whitespace and `json.dumps` spacing beyond indentation.
- **Floating point:** amounts are cents.
  - Float sums, float `repr` in JSON beyond the two decimals the amounts carry, and `parseFloat` syntax beyond plain decimals (signs, exponents, whitespace) are not modelled.
  - Unparsable text is a separate value that counts as 0.
- Desktop.ParseAmountField: reads only non-negative decimals with at most two fractional digits, after an optional `+`. Python's `float()` also takes a `-` sign, surrounding white space, more fractional digits (`12.345`), underscores (`1_000`), exponents, `inf` and `nan`. Such input is reported as an error here, because amounts are whole cents and never negative.
- Desktop.ParseValeField: the same restriction as the share field, for the same reason.
- Strings.PyInt: Python's `int()` also reads decimal digits outside ASCII (Arabic-Indic, full-width and so on). The model reads only `0`-`9`, so such a text is refused here.
- Models.ToInt: a text of non-ASCII digits is refused, as in `Strings.PyInt`. Floats are held as whole cents, so a float with more than two decimals is not representable.
- Models.ConfiguracaoFromDict: the port is read by `Models.ToInt`, so a port of non-ASCII digits is refused. The text fields are read by `Models.TextField`, which refuses `None` or a number where `data.get` would keep it.
- Models.RegistroTrabalhoFromDict: the count is read by `Models.ToInt`, with the same non-ASCII digit gap. Text fields are read by `Models.TextField`, as for `Models.ConfiguracaoFromDict`.
- Models.HistoricoPagamentoFromDict: the same two gaps, for `numero_parcela` and the text fields.
- Models.TotalFuncionariosFromDict: the same non-ASCII digit gap, for the three counts.
- Models.DataCadastramentoFromDict: the same two gaps, for `total_dias_trabalhados` and the text fields.
- Models.RankingPagamentoFromDict: the same two gaps, for `posicao`, `dias_trabalhados` and the text fields.
- Dates.Strptime: reads only ASCII digits, where Python's `\d` also matches other Unicode digits.
- Strings.PyRepr: characters above U+00FF that Unicode does not count as printable (U+2028 or U+200B, for instance) are shown as they are. Python writes them as `\uXXXX` escapes.
- Xml.Reparse: expat's message also gives the line and column of the refused character (": line L, column C"). That position depends on ElementTree's whole serialisation, including its character references, so the model gives the message without it.
- Report.SheetOf: A3 and B3 are not cut to the cell limit, since a count or total would need over 32,000 digits to reach it. A text starting with `=` becomes a formula in openpyxl, and an error code such as `#N/A` becomes an error cell. Neither is modelled; such a text is a plain text cell here.
- Settings.LoadSettings: `int()` also reads digits outside ASCII (Arabic-Indic, full-width and so on). The model reads only `0`-`9`, so such a port is an error here.
- Models.FuncionarioFromDict: Python's `data.get` stores whatever value the dictionary holds, and `Models.TextField` does not. A `None` or a number under `nome`, `hora_entrada`, `hora_saida`, `observacao` or `tipo_pagamento` is kept as it is; the model's text fields return an error instead. A negative amount (`-5` gives `-5.0`) is also an error here, because cents are non-negative. So are amount strings that `float()` reads beyond the decimals described for the desktop fields, and float values with more than two decimals.
- Models.IdField: accepts any non-empty text as an id, where `uuid.UUID` raises on text that is not a UUID (`"abc"`). A truthy id that is not text is an error, as `uuid.UUID` raises on it too.
- **Clock and locale:** today and now are parameters. The report and e-mail stamps are rendered by the corrected `Stamp(now)`, which shows the hour and minute. As written, the source prints midnight (see Findings). Python's `%B` is the C-locale English month name, since the program never sets a locale. The mobile "today" is the UTC date, passed in as given.
- **Dates.FromIsoFormat:** accepts only the `YYYY-MM-DD` form. It is used for dates stored as ISO text. The desktop's entry fields are read by `Dates.Strptime`, which also accepts unpadded fields.
- **Text mode:** newline translation of files written in text mode on Windows.
- **JavaScript object key order:** `Object.values` lists integer-like keys before the others. The model lists groups in first-seen order, which matches only when no name is a canonical array index. The grouping objects are plain `{}` literals, so a name such as `constructor` or `toString` finds an inherited `Object.prototype` member. The model treats every name as a fresh key.
- **String order:** JavaScript compares strings by UTF-16 code units and Dafny compares by code points. They agree on the ISO date strings compared here.
- **A null `dia_trabalho` on the mobile side:** the row date is a string.
- **HTML escaping:** the HTML and e-mail templates interpolate names unescaped, so no escaping property is stated.
- **The desktop save dialog:** the chosen file name is a parameter, where an empty name means cancelled.
- **Behaviour that follows the code rather than the written design:**
  - The attendance label falls back to the raw ISO date text.
  - The registration summary has no set of distinct dates and no sorting.
  - The grand totals carry no first or last date.

## Findings

| source | as written | input that shows it | evidently intended | confidence | as-written member | corrected member |
|---|---|---|---|---|---|---|
| services/report_generator.py:68 | The "Gerado em" stamp formats `date.today()` with `%H:%M`. A `date` has no time, so the stamp always reads 00:00. This also holds for the HTML report at line 215 and the e-mail at services/email_service.py:137. | Generated at 14:30 on 01/05/2024, the stamp reads `01/05/2024 às 00:00`. | The current time: `datetime.now()`. | not executed | Dates.StampAsWrittenLosesTime | Dates.StampRoundTrip |
| services/email_service.py:177 | The attachment file name uses the dictionary key as its extension, so the spreadsheet is sent as `relatorio_<date>.excel`. | The `excel` entry on 2024-05-01 is named `relatorio_2024-05-01.excel`. | `.xlsx`, the extension of the table's own file name and of the download link. | not executed | Email.ExcelAttachmentMisnamed | Email.AttachmentsMatchLinks |
| ui/desktop/app_tkinter.py:476-481 | JSON and XML reports, which are `str`, are written to a file opened in binary mode (`'wb'`). `write` raises `TypeError` after `open` has created or emptied the file, so the chosen file is left empty and no report is saved. | Loaded records, date `2024-05-01`, format JSON, any file name. | Write the text as UTF-8, as the CSV and HTML branches do. | not executed | Desktop.JsonExportFailsAsWritten | Desktop.JsonExportWritesBundle |

=== FILE: common.dfy ===
/** Shared vocabulary: optional values, fallible results, and the handful of
    sequence operations (sums, filters, first-occurrence de-duplication) that
    every part of the payroll pipeline uses. */
module Common {

  /** A value that may be absent: Python's `None`, JavaScript's `null`. */
  datatype Option<+T> = None | Some(value: T) {

    /** The carried value, or `default` when absent. */
    function GetOr(default: T): T {
      match this
      case Some(v) => v
      case None => default
    }
  }

  /** The outcome of an operation that the source lets raise an exception. */
  datatype Result<+T> = Ok(value: T) | Err(message: string) {
    predicate IsFailure() { Err? }
    function PropagateFailure<U>(): Result<U>
      requires Err?
    {
      Err(message)
    }
    function Extract(): T
      requires Ok?
    {
      value
    }
  }

  /** Python's `text or default` on an optional text: `None` and `""` are
      both falsy and give way to the default. */
  function OrDefault(o: Option<string>, default: string): (r: string)
    ensures o.Some? && o.value != "" ==> r == o.value
    ensures o.None? || o.value == "" ==> r == default
    ensures default != "" ==> r != ""
  {
    match o
    case Some(s) => if s == "" then default else s
    case None => default
  }

  /** Sum of `f` over `s`, accumulated left to right (last element added last). */
  function SumBy<T>(s: seq<T>, f: T -> int): int {
    if |s| == 0 then 0 else SumBy(s[..|s| - 1], f) + f(s[|s| - 1])
  }

  lemma {:induction false} SumByAppend<T>(a: seq<T>, b: seq<T>, f: T -> int)
    ensures SumBy(a + b, f) == SumBy(a, f) + SumBy(b, f)
    decreases |b|
  {
    if |b| == 0 {
      assert a + b == a;
    } else {
      var b' := b[..|b| - 1];
      assert (a + b)[..|a + b| - 1] == a + b';
      SumByAppend(a, b', f);
    }
  }

  lemma SumByCons<T>(x: T, s: seq<T>, f: T -> int)
    ensures SumBy([x] + s, f) == f(x) + SumBy(s, f)
  {
    SumByAppend([x], s, f);
    assert [x][..0] == [];
  }

  lemma {:induction false} SumByNonNegative<T>(s: seq<T>, f: T -> int)
    requires forall x :: x in s ==> f(x) >= 0
    ensures SumBy(s, f) >= 0
    decreases |s|
  {
    if |s| > 0 {
      assert forall x :: x in s[..|s| - 1] ==> x in s;
      SumByNonNegative(s[..|s| - 1], f);
    }
  }

  /** Replacing one element changes the sum by the difference. */
  lemma {:induction false} SumByUpdate<T>(s: seq<T>, i: nat, x: T, f: T -> int)
    requires i < |s|
    ensures SumBy(s[i := x], f) == SumBy(s, f) - f(s[i]) + f(x)
    decreases |s|
  {
    var s' := s[..|s| - 1];
    assert s[i := x][..|s| - 1] == if i == |s| - 1 then s' else s'[i := x];
    if i < |s| - 1 {
      SumByUpdate(s', i, x, f);
    }
  }

  /** Sums agree when the summands agree position by position. */
  lemma {:induction false} SumByPointwise<A, B>(a: seq<A>, b: seq<B>, f: A -> int, g: B -> int)
    requires |a| == |b|
    requires forall i :: 0 <= i < |a| ==> f(a[i]) == g(b[i])
    ensures SumBy(a, f) == SumBy(b, g)
    decreases |a|
  {
    if |a| > 0 {
      SumByPointwise(a[..|a| - 1], b[..|b| - 1], f, g);
    }
  }

  /** `f` applied to every element of `s`, in order. */
  function Map<A, B>(s: seq<A>, f: A -> B): (r: seq<B>)
    ensures |r| == |s|
    ensures forall i :: 0 <= i < |s| ==> r[i] == f(s[i])
  {
    if |s| == 0 then [] else [f(s[0])] + Map(s[1..], f)
  }

  /** The elements of `s` that satisfy `p`, in their original order. */
  function Filter<T(!new)>(s: seq<T>, p: T -> bool): (r: seq<T>)
    ensures |r| <= |s|
    ensures forall x :: x in r <==> x in s && p(x)
  {
    if |s| == 0 then []
    else Filter(s[..|s| - 1], p) + (if p(s[|s| - 1]) then [s[|s| - 1]] else [])
  }

  /** Filtering distributes over concatenation: together with the one-element
      case this pins down both the content and the order of a filter. */
  lemma {:induction false} FilterAppend<T(!new)>(a: seq<T>, b: seq<T>, p: T -> bool)
    ensures Filter(a + b, p) == Filter(a, p) + Filter(b, p)
    decreases |b|
  {
    if |b| == 0 {
      assert a + b == a;
    } else {
      var b' := b[..|b| - 1];
      assert (a + b)[..|a + b| - 1] == a + b';
      FilterAppend(a, b', p);
    }
  }

  lemma SplitLast<T>(s: seq<T>)
    requires |s| > 0
    ensures s == s[..|s| - 1] + [s[|s| - 1]]
  {
  }

  lemma SplitFirst<T>(s: seq<T>)
    requires |s| > 0
    ensures s == [s[0]] + s[1..]
  {
  }

  /** An element of one of two permutations of each other is an element of
      the other. */
  lemma PermutationMember<T>(s: seq<T>, t: seq<T>, k: nat)
    requires multiset(s) == multiset(t) && k < |t|
    ensures t[k] in s
  {
    assert t[k] in multiset(t);
  }

  /** Indexing into a sequence with one element put in front. */
  lemma ConsIndex<T>(x: T, s: seq<T>)
    ensures ([x] + s)[0] == x
    ensures forall i :: 0 <= i < |s| ==> ([x] + s)[i + 1] == s[i]
  {
  }

  /** Two sequences commute under concatenation when one is empty. */
  lemma AppendEmptyCommutes<T>(a: seq<T>, b: seq<T>)
    requires a == [] || b == []
    ensures a + b == b + a
  {
    if a == [] {
      assert a + b == b && b + a == b;
    } else {
      assert a + b == a && b + a == a;
    }
  }

  lemma ConcatAssociative<T>(a: seq<T>, b: seq<T>, c: seq<T>)
    ensures a + (b + c) == (a + b) + c
  {
  }

  /** The last element of a sequence is kept exactly when it passes. */
  lemma FilterSnoc<T(!new)>(s: seq<T>, x: T, p: T -> bool)
    ensures Filter(s + [x], p) == Filter(s, p) + (if p(x) then [x] else [])
  {
    assert (s + [x])[..|s|] == s;
  }

  lemma FilterSingle<T(!new)>(x: T, p: T -> bool)
    ensures Filter([x], p) == if p(x) then [x] else []
  {
    assert [x][..0] == [];
  }

  /** The sum over a filter grows by the last element exactly when it
      passes. */
  lemma SumByFilterLast<T(!new)>(s: seq<T>, p: T -> bool, f: T -> int)
    requires |s| > 0
    ensures SumBy(Filter(s, p), f)
            == SumBy(Filter(s[..|s| - 1], p), f) + (if p(s[|s| - 1]) then f(s[|s| - 1]) else 0)
  {
    var x := s[|s| - 1];
    var a := Filter(s[..|s| - 1], p);
    if p(x) {
      SumByAppend(a, [x], f);
      assert [x][..0] == [];
    } else {
      assert a + [] == a;
    }
  }

  /** A filter every element passes keeps the whole sequence; one no
      element passes keeps nothing. */
  lemma {:induction false} FilterAll<T(!new)>(s: seq<T>, p: T -> bool)
    requires forall i :: 0 <= i < |s| ==> p(s[i])
    ensures Filter(s, p) == s
    decreases |s|
  {
    if |s| > 0 {
      var init, last := s[..|s| - 1], s[|s| - 1];
      FilterAll(init, p);
      assert Filter(s, p) == init + [last];
      SplitLast(s);
    }
  }

  lemma {:induction false} FilterNone<T(!new)>(s: seq<T>, p: T -> bool)
    requires forall i :: 0 <= i < |s| ==> !p(s[i])
    ensures Filter(s, p) == []
    decreases |s|
  {
    if |s| > 0 {
      FilterNone(s[..|s| - 1], p);
    }
  }

  /** The first element a filter keeps is the first element that passes. */
  lemma {:induction false} FilterFirst<T(!new)>(s: seq<T>, p: T -> bool, i: nat)
    requires i < |s| && p(s[i])
    requires forall j :: 0 <= j < i ==> !p(s[j])
    ensures |Filter(s, p)| > 0 && Filter(s, p)[0] == s[i]
    decreases |s|
  {
    var n := |s| - 1;
    if i == n {
      FilterNone(s[..n], p);
    } else {
      FilterFirst(s[..n], p, i);
    }
  }

  /** Number of elements of `s` that satisfy `p`. */
  function CountBy<T>(s: seq<T>, p: T -> bool): nat {
    if |s| == 0 then 0
    else CountBy(s[..|s| - 1], p) + (if p(s[|s| - 1]) then 1 else 0)
  }

  lemma {:induction false} FilterLength<T(!new)>(s: seq<T>, p: T -> bool)
    ensures |Filter(s, p)| == CountBy(s, p)
    decreases |s|
  {
    if |s| > 0 {
      FilterLength(s[..|s| - 1], p);
    }
  }

  predicate NoDuplicates<T(==)>(s: seq<T>) {
    forall i, j :: 0 <= i < j < |s| ==> s[i] != s[j]
  }

  lemma DistinctAt<T>(s: seq<T>, i: nat, j: nat)
    requires NoDuplicates(s) && i < |s| && j < |s| && i != j
    ensures s[i] != s[j]
  {
  }

  /** Index of the first occurrence of `x` in `s`. */
  function FirstIndex<T(==)>(s: seq<T>, x: T): (k: nat)
    requires x in s
    ensures k < |s| && s[k] == x
    ensures forall j :: 0 <= j < k ==> s[j] != x
  {
    if s[0] == x then 0 else 1 + FirstIndex(s[1..], x)
  }

  /** The distinct elements of `s` in order of first occurrence: what
      `[...new Set(xs)]` returns in JavaScript. */
  function Dedup<T(==,!new)>(s: seq<T>): (r: seq<T>)
    ensures NoDuplicates(r)
    ensures forall x :: x in r <==> x in s
    ensures |r| <= |s|
  {
    if |s| == 0 then []
    else
      var prefix := Dedup(s[..|s| - 1]);
      if s[|s| - 1] in s[..|s| - 1] then prefix else prefix + [s[|s| - 1]]
  }

  lemma FirstIndexPrefix<T>(s: seq<T>, n: nat, x: T)
    requires n <= |s| && x in s[..n]
    ensures x in s && FirstIndex(s, x) == FirstIndex(s[..n], x)
  {
    var k := FirstIndex(s[..n], x);
    var k' := FirstIndex(s, x);
    assert k' <= k by { assert s[k] == x; }
    assert k <= k' by { assert s[..n][k'] == x; }
  }

  lemma FirstIndexOfFresh<T>(s: seq<T>)
    requires |s| > 0 && s[|s| - 1] !in s[..|s| - 1]
    ensures FirstIndex(s, s[|s| - 1]) == |s| - 1
  {
    var s' := s[..|s| - 1];
    assert forall m | 0 <= m < |s'| :: s[m] == s'[m] && s[m] != s[|s| - 1];
  }

  /** The elements of `r`, all taken from `s`, appear in `r` in the order of
      their first occurrence in `s`. */
  ghost predicate InFirstSeenOrder<T(!new)>(s: seq<T>, r: seq<T>)
    requires forall x :: x in r ==> x in s
  {
    forall i, j :: 0 <= i < j < |r| ==> FirstIndex(s, r[i]) < FirstIndex(s, r[j])
  }

  /** `Dedup` keeps first occurrences: its elements appear in the order in
      which they were first seen. */
  lemma {:induction false} DedupFirstSeenOrder<T(!new)>(s: seq<T>)
    ensures InFirstSeenOrder(s, Dedup(s))
    decreases |s|
  {
    if |s| > 0 {
      var s' := s[..|s| - 1];
      DedupFirstSeenOrder(s');
      var r := Dedup(s);
      var r' := Dedup(s');
      DedupSnoc(s);
      forall i, j | 0 <= i < j < |r|
        ensures FirstIndex(s, r[i]) < FirstIndex(s, r[j])
      {
        if j < |r'| {
          assert FirstIndex(s', r'[i]) < FirstIndex(s', r'[j]);
          DedupStepSeen(s, i, j);
        } else {
          DedupStepFresh(s, i);
        }
      }
    }
  }

  /** One more element never moves the elements already kept. */
  lemma DedupKeepsPrefix<T(!new)>(s: seq<T>, i: nat)
    requires |s| > 0 && i < |Dedup(s[..|s| - 1])|
    ensures i < |Dedup(s)| && Dedup(s)[i] == Dedup(s[..|s| - 1])[i]
    ensures Dedup(s)[i] in s[..|s| - 1]
  {
    DedupSnoc(s);
    assert Dedup(s[..|s| - 1])[i] in Dedup(s[..|s| - 1]);
  }

  /** Two elements seen before the last one keep their order. */
  lemma DedupStepSeen<T(!new)>(s: seq<T>, i: nat, j: nat)
    requires |s| > 0 && i < j < |Dedup(s[..|s| - 1])|
    requires FirstIndex(s[..|s| - 1], Dedup(s[..|s| - 1])[i]) < FirstIndex(s[..|s| - 1], Dedup(s[..|s| - 1])[j])
    ensures j < |Dedup(s)| && FirstIndex(s, Dedup(s)[i]) < FirstIndex(s, Dedup(s)[j])
  {
    var p := s[..|s| - 1];
    DedupKeepsPrefix(s, i);
    DedupKeepsPrefix(s, j);
    var a, b := Dedup(p)[i], Dedup(p)[j];
    assert Dedup(s)[i] == a && Dedup(s)[j] == b;
    FirstIndexPrefix(s, |s| - 1, a);
    FirstIndexPrefix(s, |s| - 1, b);
  }

  /** A fresh last element comes after everything seen before it. */
  lemma DedupStepFresh<T(!new)>(s: seq<T>, i: nat)
    requires |s| > 0 && i < |Dedup(s[..|s| - 1])|
    ensures |Dedup(s)| > |Dedup(s[..|s| - 1])| ==>
      FirstIndex(s, Dedup(s)[i]) < FirstIndex(s, Dedup(s)[|Dedup(s[..|s| - 1])|])
  {
    var s' := s[..|s| - 1];
    var r' := Dedup(s');
    DedupSnoc(s);
    if |Dedup(s)| > |r'| {
      assert Dedup(s)[i] == r'[i] && Dedup(s)[|r'|] == s[|s| - 1];
      assert r'[i] in r';
      FirstIndexPrefix(s, |s| - 1, r'[i]);
      FirstIndexOfFresh(s);
    }
  }

  /** A repeated last element leaves the de-duplication unchanged; a fresh
      one is appended. */
  lemma DedupSnoc<T(!new)>(s: seq<T>)
    requires |s| > 0
    ensures s[|s| - 1] in s[..|s| - 1] ==> Dedup(s) == Dedup(s[..|s| - 1])
    ensures s[|s| - 1] !in s[..|s| - 1] ==> Dedup(s) == Dedup(s[..|s| - 1]) + [s[|s| - 1]]
  {
  }

  lemma DedupLengthOfSet<T(!new)>(s: seq<T>)
    ensures |Dedup(s)| == |set x | x in s|
  {
    var r := Dedup(s);
    assert (set x | x in s) == (set x | x in r);
    DistinctCardinality(r);
  }

  lemma {:induction false} DistinctCardinality<T(!new)>(r: seq<T>)
    requires NoDuplicates(r)
    ensures |set x | x in r| == |r|
    decreases |r|
  {
    if |r| > 0 {
      var r' := r[..|r| - 1];
      var last := r[|r| - 1];
      DistinctCardinality(r');
      assert (set x | x in r) == (set x | x in r') + {last};
      assert forall k | 0 <= k < |r'| :: r'[k] == r[k] && r[k] != last;
      assert last !in r';
    }
  }
}

=== FILE: csv.dfy ===
/** The text `csv.writer` produces with Python's default `excel` dialect:
    comma-separated fields, `"\r\n"` after every row, and `QUOTE_MINIMAL`
    quoting (a field is quoted only when it holds a comma, a double quote or a
    line break; a quote inside a quoted field is doubled). A reader for that
    text is given as the writer's inverse. */
module Csv {
  import opened Common

  predicate IsSpecial(c: char) {
    c == ',' || c == '"' || c == '\r' || c == '\n'
  }

  predicate NeedsQuotes(s: string) {
    exists i :: 0 <= i < |s| && IsSpecial(s[i])
  }

  /** The field body with every `"` doubled. */
  function DoubleQuotes(s: string): (r: string)
    ensures |r| >= |s|
  {
    if |s| == 0 then ""
    else (if s[0] == '"' then "\"\"" else [s[0]]) + DoubleQuotes(s[1..])
  }

  function EncodeField(s: string): (r: string)
    ensures NeedsQuotes(s) ==> |r| >= 2 && r[0] == '"' && r[|r| - 1] == '"'
    ensures !NeedsQuotes(s) ==> r == s
  {
    if NeedsQuotes(s) then "\"" + DoubleQuotes(s) + "\"" else s
  }

  /** The encoded fields separated by commas. */
  function JoinFields(fields: seq<string>): string
    requires |fields| >= 1
  {
    if |fields| == 1 then EncodeField(fields[0])
    else EncodeField(fields[0]) + "," + JoinFields(fields[1..])
  }

  /** One `writerow` call. A row made of one empty field is written as `""`
      so that it does not read back as a blank line. */
  function EncodeRow(row: seq<string>): (r: string)
    requires |row| >= 1
    ensures |r| >= 2 && r[|r| - 2..] == "\r\n"
  {
    (if |row| == 1 && row[0] == "" then "\"\"" else JoinFields(row)) + "\r\n"
  }

  predicate WellFormedRows(rows: seq<seq<string>>) {
    forall i :: 0 <= i < |rows| ==> |rows[i]| >= 1
  }

  /** The whole output of a writer after one `writerow` per row. */
  function EncodeRows(rows: seq<seq<string>>): string
    requires WellFormedRows(rows)
  {
    if |rows| == 0 then "" else EncodeRow(rows[0]) + EncodeRows(rows[1..])
  }

  // ------------------------------------------------------------------
  // Reading the text back.

  /** An unquoted field runs up to the next comma or carriage return. */
  function ParseUnquoted(s: string): (r: (string, string))
    ensures |r.1| <= |s|
  {
    if |s| == 0 || s[0] == ',' || s[0] == '\r' then ("", s)
    else
      var (f, rest) := ParseUnquoted(s[1..]);
      ([s[0]] + f, rest)
  }

  /** The body of a quoted field, after its opening quote: `""` stands for one
      quote and a lone `"` closes the field. */
  function ParseQuoted(s: string): (r: Option<(string, string)>)
    ensures r.Some? ==> |r.value.1| < |s|
  {
    if |s| == 0 then None
    else if s[0] == '"' then
      if |s| >= 2 && s[1] == '"' then
        match ParseQuoted(s[2..])
        case None => None
        case Some((f, rest)) => Some(("\"" + f, rest))
      else Some(("", s[1..]))
    else
      match ParseQuoted(s[1..])
      case None => None
      case Some((f, rest)) => Some(([s[0]] + f, rest))
  }

  function ParseField(s: string): (r: Option<(string, string)>)
    ensures r.Some? ==> |r.value.1| <= |s|
  {
    if |s| > 0 && s[0] == '"' then ParseQuoted(s[1..]) else Some(ParseUnquoted(s))
  }

  /** The fields of one row and the text after its `"\r\n"`. */
  function ParseFields(s: string): (r: Option<(seq<string>, string)>)
    ensures r.Some? ==> |r.value.0| >= 1 && |r.value.1| < |s|
    decreases |s|
  {
    match ParseField(s)
    case None => None
    case Some((f, rest)) =>
      if |rest| > 0 && rest[0] == ',' then
        match ParseFields(rest[1..])
        case None => None
        case Some((fs, after)) => Some(([f] + fs, after))
      else if |rest| >= 2 && rest[..2] == "\r\n" then Some(([f], rest[2..]))
      else None
  }

  function ParseRows(s: string): (r: Option<seq<seq<string>>>)
    ensures r.Some? ==> WellFormedRows(r.value)
    decreases |s|
  {
    if |s| == 0 then Some([])
    else match ParseFields(s)
      case None => None
      case Some((row, rest)) =>
        match ParseRows(rest)
        case None => None
        case Some(rows) => Some([row] + rows)
  }

  // ------------------------------------------------------------------
  // The reader inverts the writer.

  predicate FieldEnd(rest: string) {
    |rest| > 0 && (rest[0] == ',' || rest[0] == '\r')
  }

  lemma {:induction false} ParseUnquotedOf(s: string, rest: string)
    requires !NeedsQuotes(s) && FieldEnd(rest)
    ensures ParseUnquoted(s + rest) == (s, rest)
    decreases |s|
  {
    if |s| == 0 {
      assert s + rest == rest;
    } else {
      assert !IsSpecial(s[0]);
      assert !NeedsQuotes(s[1..]) by {
        assert forall i :: 0 <= i < |s[1..]| ==> s[1..][i] == s[i + 1];
      }
      assert (s + rest)[0] == s[0];
      assert (s + rest)[1..] == s[1..] + rest;
      ParseUnquotedOf(s[1..], rest);
      assert s == [s[0]] + s[1..];
    }
  }

  lemma {:induction false} ParseQuotedOf(s: string, rest: string)
    requires |rest| == 0 || rest[0] != '"'
    ensures ParseQuoted(DoubleQuotes(s) + "\"" + rest) == Some((s, rest))
    decreases |s|
  {
    var t := DoubleQuotes(s) + "\"" + rest;
    if |s| == 0 {
      assert t == "\"" + rest;
      assert t[1..] == rest;
    } else if s[0] == '"' {
      assert t == "\"\"" + (DoubleQuotes(s[1..]) + "\"" + rest);
      assert t[2..] == DoubleQuotes(s[1..]) + "\"" + rest;
      ParseQuotedOf(s[1..], rest);
      assert s == "\"" + s[1..];
    } else {
      assert t == [s[0]] + (DoubleQuotes(s[1..]) + "\"" + rest);
      assert t[1..] == DoubleQuotes(s[1..]) + "\"" + rest;
      ParseQuotedOf(s[1..], rest);
      assert s == [s[0]] + s[1..];
    }
  }

  /** A quoted field reads back up to its closing quote. */
  lemma ParseFieldQuoted(s: string, rest: string)
    requires FieldEnd(rest) && NeedsQuotes(s)
    ensures ParseField(EncodeField(s) + rest) == Some((s, rest))
  {
    var t := EncodeField(s) + rest;
    assert t == "\"" + (DoubleQuotes(s) + "\"" + rest);
    assert t[1..] == DoubleQuotes(s) + "\"" + rest;
    ParseQuotedOf(s, rest);
  }

  /** A field written as it is reads back up to the next separator. */
  lemma ParseFieldPlain(s: string, rest: string)
    requires FieldEnd(rest) && !NeedsQuotes(s)
    ensures ParseField(EncodeField(s) + rest) == Some((s, rest))
  {
    ParseUnquotedOf(s, rest);
    if |s| > 0 {
      assert !IsSpecial(s[0]);
      assert (s + rest)[0] == s[0];
    } else {
      assert s + rest == rest;
    }
  }

  lemma ParseFieldOf(s: string, rest: string)
    requires FieldEnd(rest)
    ensures ParseField(EncodeField(s) + rest) == Some((s, rest))
  {
    if NeedsQuotes(s) {
      ParseFieldQuoted(s, rest);
    } else {
      ParseFieldPlain(s, rest);
    }
  }

  lemma ParseFieldsSingle(f: string, rest: string)
    ensures ParseFields(JoinFields([f]) + "\r\n" + rest) == Some(([f], rest))
  {
    var tail := "\r\n" + rest;
    assert JoinFields([f]) + "\r\n" + rest == EncodeField(f) + tail;
    ParseFieldOf(f, tail);
    assert tail[0] != ',' && tail[..2] == "\r\n" && tail[2..] == rest;
  }

  lemma Assoc(a: string, b: string, c: string, d: string, e: string)
    ensures a + b + c + d + e == a + (b + (c + d + e))
  {
  }

  lemma ParseFieldsCons(f: string, fs: seq<string>, rest: string)
    requires |fs| >= 1
    requires ParseFields(JoinFields(fs) + "\r\n" + rest) == Some((fs, rest))
    ensures ParseFields(JoinFields([f] + fs) + "\r\n" + rest) == Some(([f] + fs, rest))
  {
    var row := [f] + fs;
    assert row[0] == f && row[1..] == fs;
    var inner := JoinFields(fs) + "\r\n" + rest;
    var more := "," + inner;
    var t := EncodeField(f) + more;
    assert JoinFields(row) == EncodeField(f) + "," + JoinFields(fs);
    Assoc(EncodeField(f), ",", JoinFields(fs), "\r\n", rest);
    ParseFieldOf(f, more);
    assert more[0] == ',' && more[1..] == inner;
    assert ParseFields(t) == Some(([f] + fs, rest));
  }

  lemma {:induction false} ParseFieldsOf(row: seq<string>, rest: string)
    requires |row| >= 1
    ensures ParseFields(JoinFields(row) + "\r\n" + rest) == Some((row, rest))
    decreases |row|
  {
    if |row| == 1 {
      assert row == [row[0]];
      ParseFieldsSingle(row[0], rest);
    } else {
      ParseFieldsOf(row[1..], rest);
      assert row == [row[0]] + row[1..];
      ParseFieldsCons(row[0], row[1..], rest);
    }
  }

  lemma ParseRowOf(row: seq<string>, rest: string)
    requires |row| >= 1
    ensures ParseFields(EncodeRow(row) + rest) == Some((row, rest))
  {
    if |row| == 1 && row[0] == "" {
      var t := EncodeRow(row) + rest;
      assert t == "\"" + (DoubleQuotes("") + "\"" + ("\r\n" + rest));
      ParseQuotedOf("", "\r\n" + rest);
      assert t[1..] == DoubleQuotes("") + "\"" + ("\r\n" + rest);
      assert t[0] == '"';
      assert ParseField(t) == Some(("", "\r\n" + rest));
      assert ("\r\n" + rest)[0] != ',';
      assert ("\r\n" + rest)[..2] == "\r\n" && ("\r\n" + rest)[2..] == rest;
      assert row == [""];
    } else {
      assert EncodeRow(row) + rest == JoinFields(row) + "\r\n" + rest;
      ParseFieldsOf(row, rest);
    }
  }

  /** Reading the written text gives back exactly the rows written, fields
      with commas, quotes and line breaks included. */
  lemma {:induction false} ParseEncodeRows(rows: seq<seq<string>>)
    requires WellFormedRows(rows)
    ensures ParseRows(EncodeRows(rows)) == Some(rows)
    decreases |rows|
  {
    if |rows| > 0 {
      var rest := EncodeRows(rows[1..]);
      ParseRowOf(rows[0], rest);
      ParseEncodeRows(rows[1..]);
      assert rows == [rows[0]] + rows[1..];
    }
  }
}

=== FILE: dates.dfy ===
/** Calendar dates as Python's `datetime.date` handles them: the proleptic
    Gregorian calendar for years 1 to 9999, ISO-8601 text, the `%d/%m/%Y`
    rendering, ordinals and weekdays. */
module Dates {
  import opened Common
  import opened Strings

  datatype Date = Date(year: int, month: int, day: int)

  predicate IsLeap(y: int) {
    y % 4 == 0 && (y % 100 != 0 || y % 400 == 0)
  }

  function DaysInMonth(y: int, m: int): (n: int)
    requires 1 <= m <= 12
    ensures 28 <= n <= 31
  {
    if m == 2 then (if IsLeap(y) then 29 else 28)
    else if m == 4 || m == 6 || m == 9 || m == 11 then 30
    else 31
  }

  /** The dates `datetime.date` can represent. */
  predicate Valid(d: Date) {
    1 <= d.year <= 9999 && 1 <= d.month <= 12 && 1 <= d.day <= DaysInMonth(d.year, d.month)
  }

  /** `d.isoformat()`, also what `str(d)` gives: `YYYY-MM-DD`. */
  function IsoFormat(d: Date): (s: string)
    requires Valid(d)
    ensures |s| == 10 && s[4] == '-' && s[7] == '-'
  {
    PadDigits(d.year, 4) + "-" + PadDigits(d.month, 2) + "-" + PadDigits(d.day, 2)
  }

  /** `date.fromisoformat(s)`: `None` where Python raises `ValueError`. */
  function FromIsoFormat(s: string): (r: Option<Date>)
    ensures r.Some? ==> Valid(r.value)
  {
    if |s| == 10 && s[4] == '-' && s[7] == '-'
       && AllDigits(s[..4]) && AllDigits(s[5..7]) && AllDigits(s[8..])
    then
      var d := Date(DigitsValue(s[..4]), DigitsValue(s[5..7]), DigitsValue(s[8..]));
      if Valid(d) then Some(d) else None
    else None
  }

  lemma Pow10Values()
    ensures Pow10(2) == 100 && Pow10(4) == 10000
  {
    assert Pow10(1) == 10;
    assert Pow10(3) == 1000;
  }

  /** Every representable date survives `fromisoformat(isoformat(d))`. */
  lemma IsoRoundTrip(d: Date)
    requires Valid(d)
    ensures FromIsoFormat(IsoFormat(d)) == Some(d)
  {
    var s := IsoFormat(d);
    assert s[..4] == PadDigits(d.year, 4);
    assert s[5..7] == PadDigits(d.month, 2);
    assert s[8..] == PadDigits(d.day, 2);
    Pow10Values();
    PadDigitsValue(d.year, 4);
    PadDigitsValue(d.month, 2);
    PadDigitsValue(d.day, 2);
  }

  /** And every accepted ISO string is the canonical rendering of its date, so
      parsing is injective on the strings it accepts. */
  lemma IsoParseThenFormat(s: string)
    requires FromIsoFormat(s).Some?
    ensures IsoFormat(FromIsoFormat(s).value) == s
  {
    DigitsValuePad(s[..4]);
    DigitsValuePad(s[5..7]);
    DigitsValuePad(s[8..]);
    assert s == s[..4] + "-" + s[5..7] + "-" + s[8..];
  }

  lemma IsoFormatInjective(d1: Date, d2: Date)
    requires Valid(d1) && Valid(d2) && IsoFormat(d1) == IsoFormat(d2)
    ensures d1 == d2
  {
    IsoRoundTrip(d1);
    IsoRoundTrip(d2);
  }

  /** `d.strftime('%d/%m/%Y')`. */
  function BrFormat(d: Date): (s: string)
    requires Valid(d)
    ensures |s| == 10 && s[2] == '/' && s[5] == '/'
  {
    PadDigits(d.day, 2) + "/" + PadDigits(d.month, 2) + "/" + PadDigits(d.year, 4)
  }

  /** Reads a `DD/MM/YYYY` string back into a date. */
  function ParseBrFormat(s: string): (r: Option<Date>)
    ensures r.Some? ==> Valid(r.value)
  {
    if |s| == 10 && s[2] == '/' && s[5] == '/'
       && AllDigits(s[..2]) && AllDigits(s[3..5]) && AllDigits(s[6..])
    then
      var d := Date(DigitsValue(s[6..]), DigitsValue(s[3..5]), DigitsValue(s[..2]));
      if Valid(d) then Some(d) else None
    else None
  }

  lemma BrRoundTrip(d: Date)
    requires Valid(d)
    ensures ParseBrFormat(BrFormat(d)) == Some(d)
  {
    var s := BrFormat(d);
    assert s[..2] == PadDigits(d.day, 2);
    assert s[3..5] == PadDigits(d.month, 2);
    assert s[6..] == PadDigits(d.year, 4);
    Pow10Values();
    PadDigitsValue(d.year, 4);
    PadDigitsValue(d.month, 2);
    PadDigitsValue(d.day, 2);
  }

  // ------------------------------------------------------------------
  // datetime.strptime(s, "%Y-%m-%d"), the desktop's date reader.

  /** The month `_strptime` reads for `%m`, whose pattern is
      `1[0-2]|0[1-9]|[1-9]`: the first alternative that fits, with the number
      of characters it took. A two-character match is never given back for
      the one-character one, since the next character would then be a digit
      where the pattern wants `-`. */
  function MonthField(s: string): (r: Option<(int, nat)>)
    ensures r.Some? ==> 1 <= r.value.0 <= 12 && 1 <= r.value.1 <= 2 && r.value.1 <= |s|
  {
    if |s| >= 2 && s[0] == '1' && '0' <= s[1] <= '2' then Some((10 + DigitValue(s[1]), 2))
    else if |s| >= 2 && s[0] == '0' && '1' <= s[1] <= '9' then Some((DigitValue(s[1]), 2))
    else if |s| >= 1 && '1' <= s[0] <= '9' then Some((DigitValue(s[0]), 1))
    else None
  }

  /** The day `_strptime` reads for `%d`, whose pattern is
      `3[01]|[12]\d|0[1-9]|[1-9]| [1-9]`; it ends the format, so the first
      alternative that fits is the one taken. */
  function DayField(s: string): (r: Option<(int, nat)>)
    ensures r.Some? ==> 1 <= r.value.0 <= 31 && 1 <= r.value.1 <= 2 && r.value.1 <= |s|
  {
    if |s| >= 2 && s[0] == '3' && '0' <= s[1] <= '1' then Some((30 + DigitValue(s[1]), 2))
    else if |s| >= 2 && '1' <= s[0] <= '2' && IsDigit(s[1]) then Some((10 * DigitValue(s[0]) + DigitValue(s[1]), 2))
    else if |s| >= 2 && s[0] == '0' && '1' <= s[1] <= '9' then Some((DigitValue(s[1]), 2))
    else if |s| >= 1 && '1' <= s[0] <= '9' then Some((DigitValue(s[0]), 1))
    else if |s| >= 2 && s[0] == ' ' && '1' <= s[1] <= '9' then Some((DigitValue(s[1]), 2))
    else None
  }

  /** `_strptime`'s message, which quotes the text and the format with
      `repr`. */
  function NoMatchError(s: string): string {
    "time data " + PyRepr(s) + " does not match format '%Y-%m-%d'"
  }

  /** `datetime.strptime(s, "%Y-%m-%d").date()`, or the message of the
      `ValueError` it raises: the text must start with four digits, a month,
      a dash and a day; anything after the day is refused; then the date must
      exist. */
  function Strptime(s: string): (r: Result<Date>)
    ensures r.Ok? ==> Valid(r.value)
  {
    if |s| < 5 || !AllDigits(s[..4]) || s[4] != '-' then Err(NoMatchError(s))
    else match MonthField(s[5..])
      case None => Err(NoMatchError(s))
      case Some((month, k)) =>
        if |s| <= 5 + k || s[5 + k] != '-' then Err(NoMatchError(s))
        else match DayField(s[6 + k..])
          case None => Err(NoMatchError(s))
          case Some((day, j)) =>
            var year := DigitsValue(s[..4]);
            if 6 + k + j < |s| then Err("unconverted data remains: " + s[6 + k + j..])
            else if year == 0 then Err("year 0 is out of range")
            else if day > DaysInMonth(year, month) then Err("day is out of range for month")
            else Ok(Date(year, month, day))
  }

  lemma DigitsValueTwo(t: string)
    requires |t| == 2 && AllDigits(t)
    ensures DigitsValue(t) == 10 * DigitValue(t[0]) + DigitValue(t[1])
  {
    assert t[..1][..0] == [];
  }

  /** `strptime` reads every text `fromisoformat` reads, to the same date. */
  lemma StrptimeAcceptsIso(s: string)
    requires FromIsoFormat(s).Some?
    ensures Strptime(s) == Ok(FromIsoFormat(s).value)
  {
    var d := FromIsoFormat(s).value;
    DigitsValueTwo(s[5..7]);
    DigitsValueTwo(s[8..]);
    assert s[5..][..2] == s[5..7];
    assert s[5..][0] == s[5] && s[5..][1] == s[6];
    assert s[8..][0] == s[8] && s[8..][1] == s[9];
    assert MonthField(s[5..]) == Some((d.month, 2));
    assert DayField(s[8..]) == Some((d.day, 2));
  }

  lemma StrptimeIsoRoundTrip(d: Date)
    requires Valid(d)
    ensures Strptime(IsoFormat(d)) == Ok(d)
  {
    IsoRoundTrip(d);
    StrptimeAcceptsIso(IsoFormat(d));
  }

  /** Unlike `fromisoformat`, `strptime` also reads a month and a day
      written without their leading zero. */
  lemma StrptimeUnpadded(d: Date)
    requires Valid(d) && d.month < 10 && d.day < 10
    ensures Strptime(PadDigits(d.year, 4) + "-" + [DigitChar(d.month)] + "-" + [DigitChar(d.day)]) == Ok(d)
  {
    var y := PadDigits(d.year, 4);
    var s := y + "-" + [DigitChar(d.month)] + "-" + [DigitChar(d.day)];
    assert s[..4] == y;
    Pow10Values();
    PadDigitsValue(d.year, 4);
    assert s[5..] == [DigitChar(d.month)] + "-" + [DigitChar(d.day)];
    assert MonthField(s[5..]) == Some((d.month, 1));
    assert s[7..] == [DigitChar(d.day)];
    assert DayField(s[7..]) == Some((d.day, 1));
  }

  lemma StrptimeUnpaddedExample()
    ensures Strptime("2024-5-1") == Ok(Date(2024, 5, 1))
  {
    DigitsValue2024();
    var s := "2024-5-1";
    assert s[..4] == "2024" && s[5..] == "5-1" && s[7..] == "1";
  }

  lemma DigitsValue2024()
    ensures AllDigits("2024") && DigitsValue("2024") == 2024
  {
    assert "2024"[..3] == "202" && "202"[..2] == "20" && "20"[..1] == "2" && "2"[..0] == "";
  }

  /** A well-shaped text can still fail in three ways, each with its own
      message: a day the month does not have, ... */
  lemma StrptimeDayOutOfRange(s: string)
    requires s == "2024-02-30"
    ensures Strptime(s) == Err("day is out of range for month")
  {
    DigitsValue2024();
    assert s[..4] == "2024" && s[5..] == "02-30" && s[8..] == "30";
  }

  /** ... characters left after the day, ... */
  lemma StrptimeUnconverted(s: string)
    requires s == "2024-01-011"
    ensures Strptime(s) == Err("unconverted data remains: 1")
  {
    assert s[..4] == "2024" && s[5..] == "01-011" && s[8..] == "011" && s[10..] == "1";
  }

  /** ... and the year zero. */
  lemma StrptimeYearZero(s: string)
    requires s == "0000-01-01"
    ensures Strptime(s) == Err("year 0 is out of range")
  {
    assert s[..4] == "0000" && s[5..] == "01-01" && s[8..] == "01";
    assert DigitsValue("0000") == 0 by {
      assert "0000"[..3] == "000" && "000"[..2] == "00" && "00"[..1] == "0" && "0"[..0] == "";
    }
  }

  /** The no-match message of a printable text without `'` or a backslash
      quotes it as it is. */
  lemma NoMatchErrorPlain(s: string)
    requires ReprPlain(s)
    ensures NoMatchError(s) == "time data '" + s + "' does not match format '%Y-%m-%d'"
  {
    ReprOfPlain(s);
  }

  /** A month the pattern does not admit is a text that does not match, and
      the message quotes it with `repr`. */
  lemma StrptimeNoMatch(s: string)
    requires s == "2024-13-01"
    ensures Strptime(s) == Err("time data '" + s + "' does not match format '%Y-%m-%d'")
  {
    assert s[..4] == "2024" && s[5..] == "13-01" && s[6] == '3';
    assert Strptime(s) == Err(NoMatchError(s));
    assert ReprPlain(s);
    NoMatchErrorPlain(s);
  }

  /** Days in the years before `y`, as CPython's `_days_before_year`. */
  function DaysBeforeYear(y: int): int
    requires y >= 1
  {
    var p := y - 1;
    p * 365 + p / 4 - p / 100 + p / 400
  }

  /** Days in the months of year `y` before month `m`, as CPython's
      `_days_before_month` table. */
  function DaysBeforeMonth(y: int, m: int): int
    requires 1 <= m <= 12
  {
    [0, 31, 59, 90, 120, 151, 181, 212, 243, 273, 304, 334][m - 1]
      + (if m > 2 && IsLeap(y) then 1 else 0)
  }

  /** `d.toordinal()`: 0001-01-01 is day 1. */
  function Ordinal(d: Date): (n: int)
    requires Valid(d)
    ensures n >= 1
  {
    DaysBeforeYear(d.year) + DaysBeforeMonth(d.year, d.month) + d.day
  }

  /** `d.weekday()`: Monday is 0, Sunday is 6. */
  function Weekday(d: Date): (w: int)
    requires Valid(d)
    ensures 0 <= w < 7
  {
    (Ordinal(d) + 6) % 7
  }

  lemma DaysBeforeMonthStep(y: int, m: int)
    requires 1 <= m < 12
    ensures DaysBeforeMonth(y, m + 1) == DaysBeforeMonth(y, m) + DaysInMonth(y, m)
  {
  }

  lemma DivStep(p: int)
    requires p >= 1
    ensures p / 4 - (p - 1) / 4 == (if p % 4 == 0 then 1 else 0)
    ensures p / 100 - (p - 1) / 100 == (if p % 100 == 0 then 1 else 0)
    ensures p / 400 - (p - 1) / 400 == (if p % 400 == 0 then 1 else 0)
  {
  }

  /** A multiple of 400 is a multiple of 100, and a multiple of 100 is a
      multiple of 4. */
  lemma MultipleSteps(p: int)
    ensures p % 400 == 0 ==> p % 100 == 0
    ensures p % 100 == 0 ==> p % 4 == 0
  {
    if p % 400 == 0 {
      Multiple400(p);
    }
    if p % 100 == 0 {
      Multiple100(p);
    }
  }

  lemma Multiple400(p: int)
    requires p % 400 == 0
    ensures p % 100 == 0
  {
    var k := p / 400;
    assert p == 400 * k;
    assert p / 100 == 4 * k;
  }

  lemma Multiple100(p: int)
    requires p % 100 == 0
    ensures p % 4 == 0
  {
    var k := p / 100;
    assert p == 100 * k;
    assert p / 4 == 25 * k;
  }

  lemma DaysBeforeYearStep(y: int)
    requires y >= 2
    ensures DaysBeforeYear(y) == DaysBeforeYear(y - 1) + 365 + (if IsLeap(y - 1) then 1 else 0)
  {
    var p := y - 1;
    DivStep(p);
    MultipleSteps(p);
    assert p * 365 == (p - 1) * 365 + 365;
  }

  /** The day before `d` (`d - timedelta(days=1)`); `None` for 0001-01-01,
      where Python raises `OverflowError`. */
  function PrevDay(d: Date): (r: Option<Date>)
    requires Valid(d)
    ensures r.Some? <==> Ordinal(d) > 1
    ensures r.Some? ==> Valid(r.value) && Ordinal(r.value) == Ordinal(d) - 1
  {
    if d.day > 1 then Some(Date(d.year, d.month, d.day - 1))
    else if d.month > 1 then
      DaysBeforeMonthStep(d.year, d.month - 1);
      Some(Date(d.year, d.month - 1, DaysInMonth(d.year, d.month - 1)))
    else if d.year > 1 then
      DaysBeforeYearStep(d.year);
      Some(Date(d.year - 1, 12, 31))
    else None
  }

  /** Consecutive days have consecutive weekdays. */
  lemma PrevDayWeekday(d: Date)
    requires Valid(d) && PrevDay(d).Some?
    ensures (Weekday(PrevDay(d).value) + 1) % 7 == Weekday(d)
  {
    var o := Ordinal(PrevDay(d).value);
    assert Ordinal(d) == o + 1;
    ModStep(o + 6);
  }

  lemma ModStep(a: int)
    ensures (a % 7 + 1) % 7 == (a + 1) % 7
  {
  }

  // ------------------------------------------------------------------
  // The "generated at" stamp of the reports and the e-mail.

  datatype DateTime = DateTime(date: Date, hour: int, minute: int)

  predicate ValidDateTime(t: DateTime) {
    Valid(t.date) && 0 <= t.hour < 24 && 0 <= t.minute < 60
  }

  /** `date.today().strftime('%d/%m/%Y às %H:%M')` as the source writes it: a
      `date` carries no time of day, so `%H` and `%M` always print `00`. */
  function StampAsWritten(today: Date): (s: string)
    requires Valid(today)
    ensures |s| == 19 && s[..10] == BrFormat(today)
  {
    BrFormat(today) + " às 00:00"
  }

  /** The stamp with the time of day the format asks for: what
      `datetime.now().strftime('%d/%m/%Y às %H:%M')` prints. */
  function Stamp(now: DateTime): (s: string)
    requires ValidDateTime(now)
    ensures |s| == 19 && s[..10] == BrFormat(now.date)
  {
    BrFormat(now.date) + " às " + PadDigits(now.hour, 2) + ":" + PadDigits(now.minute, 2)
  }

  /** Reads a stamp back. */
  function ParseStamp(s: string): (r: Option<DateTime>)
    ensures r.Some? ==> ValidDateTime(r.value)
  {
    if |s| == 19 && s[10..14] == " às " && s[16] == ':' && AllDigits(s[14..16]) && AllDigits(s[17..]) then
      match ParseBrFormat(s[..10])
      case None => None
      case Some(d) =>
        var t := DateTime(d, DigitsValue(s[14..16]), DigitsValue(s[17..]));
        if ValidDateTime(t) then Some(t) else None
    else None
  }

  /** The intended stamp records the date, hour and minute it was made. */
  lemma StampRoundTrip(now: DateTime)
    requires ValidDateTime(now)
    ensures ParseStamp(Stamp(now)) == Some(now)
  {
    var s := Stamp(now);
    assert s[..10] == BrFormat(now.date);
    assert s[10..14] == " às ";
    assert s[14..16] == PadDigits(now.hour, 2);
    assert s[17..] == PadDigits(now.minute, 2);
    BrRoundTrip(now.date);
    Pow10Values();
    PadDigitsValue(now.hour, 2);
    PadDigitsValue(now.minute, 2);
  }

  /** The stamp as written is the intended stamp of midnight, whatever the
      clock says. */
  lemma StampAsWrittenIsMidnight(now: DateTime)
    requires ValidDateTime(now)
    ensures StampAsWritten(now.date) == Stamp(now.(hour := 0, minute := 0))
  {
    assert PadDigits(0, 2) == "00";
  }

  /** A report made at 14:30 on 1 May 2024 claims to have been made at
      00:00. */
  lemma StampAsWrittenLosesTime()
    ensures var now := DateTime(Date(2024, 5, 1), 14, 30);
            ValidDateTime(now) && ParseStamp(StampAsWritten(now.date)) != Some(now)
  {
    var now := DateTime(Date(2024, 5, 1), 14, 30);
    StampAsWrittenIsMidnight(now);
    StampRoundTrip(now.(hour := 0, minute := 0));
  }
}

=== FILE: desktop.dfy ===
/** ui/desktop/app_tkinter.py: the rules of the Tk front end that do not
    depend on its widgets. A widget is replaced by the text it holds: how a
    typed record is normalised and whether it updates or inserts, the grid
    rows and the day summary of the send tab, and how a report is written to
    the file the operator picks. */
module Desktop {
  import opened Common
  import opened Strings
  import opened Dates
  import opened Money
  import opened Models
  import opened Report
  import ReportViews
  import Email
  import Xml

  // ------------------------------------------------------------------
  // Typed times and amounts.

  /** `entry.get() or default`, then `":00"` appended when the text has no
      colon, so that a bare hour becomes a whole hour. */
  function NormalizeTime(entry: string, default: string): (r: string)
    ensures ':' in r
    ensures ':' in entry ==> r == entry
    ensures entry == "" && ':' in default ==> r == default
    ensures entry != "" ==> r == entry || r == entry + ":00"
  {
    var t := if entry == "" then default else entry;
    if ':' in t then t else t + ":00"
  }

  /** Normalising twice changes nothing, whatever default the second round
      would use. */
  lemma NormalizeTimeIdempotent(entry: string, default: string, other: string)
    ensures NormalizeTime(NormalizeTime(entry, default), other) == NormalizeTime(entry, default)
  {
  }

  /** Python's message for `float(text)` on text it cannot read, which
      quotes the text with `repr`. */
  function FloatError(text: string): string {
    FloatErrorPrefix + PyRepr(text)
  }

  const FloatErrorPrefix := "could not convert string to float: "

  /** `float(entry.get() or 0)`: a blank field is zero. */
  function ParseAmountField(text: string): (r: Result<Cents>)
    ensures text == "" ==> r == Ok(0)
    ensures text != "" ==> (r.Ok? <==> ParseMoneyText(text).Some?)
    ensures text != "" && r.Ok? ==> ParseMoneyText(text) == Some(r.value)
    ensures r.Err? ==> text != "" && ParseMoneyText(text).None?
    ensures r.Err? ==>
      && |r.message| > |FloatErrorPrefix| && r.message[..|FloatErrorPrefix|] == FloatErrorPrefix
      && ReadRepr(r.message[|FloatErrorPrefix|..]) == Some(text)
  {
    ReprReadsBack(text);
    if text == "" then Ok(0)
    else match ParseMoneyText(text)
      case Some(c) => Ok(c)
      case None => Err(FloatError(text))
  }

  /** `float(entry.get()) if entry.get() else None`: a blank advance is no
      advance at all, and only a blank one. */
  function ParseValeField(text: string): (r: Result<Option<Cents>>)
    ensures r == Ok(None) <==> text == ""
    ensures text != "" ==> (r.Ok? <==> ParseMoneyText(text).Some?)
    ensures text != "" && r.Ok? ==> r.value == ParseMoneyText(text)
    ensures r.Err? ==> text != "" && ParseMoneyText(text).None?
    ensures r.Err? ==>
      && |r.message| > |FloatErrorPrefix| && r.message[..|FloatErrorPrefix|] == FloatErrorPrefix
      && ReadRepr(r.message[|FloatErrorPrefix|..]) == Some(text)
  {
    ReprReadsBack(text);
    if text == "" then Ok(None)
    else match ParseMoneyText(text)
      case Some(c) => Ok(Some(c))
      case None => Err(FloatError(text))
  }

  /** The message quotes the text as `repr` does: a plain word between
      single quotes, ... */
  lemma ValeFieldWordMessage(text: string)
    requires text == "abc"
    ensures ParseValeField(text) == Err(FloatErrorPrefix + "'" + text + "'")
  {
    assert !IsDigit(text[0]) && text[0] != '.' && text[0] != '+';
    assert ParseMoneyText(text).None?;
    assert ReprPlain(text);
    ReprOfPlain(text);
  }

  /** ... and a text holding an apostrophe between double quotes. */
  lemma AmountFieldApostropheMessage(text: string)
    requires text == "1'5"
    ensures ParseAmountField(text) == Err(FloatError(text))
    ensures FloatError(text) == FloatErrorPrefix + "\"1'5\""
  {
    assert ParseMoneyText(text).None? by {
      assert !IsDigit(text[1]) && text[0] != '+' && |text| == 3;
    }
    FloatErrorApostrophe(text);
  }

  lemma FloatErrorApostrophe(text: string)
    requires text == "1'5"
    ensures FloatError(text) == FloatErrorPrefix + "\"1'5\""
  {
    assert ReprPlainIn(text, '"') && text[1] == '\'';
    ReprOfApostrophe(text);
  }

  /** A blank share is zero and a blank advance is absent, while a typed zero
      advance is an advance of zero. */
  lemma BlankFields()
    ensures ParseAmountField("") == Ok(0)
    ensures ParseValeField("") == Ok(None)
    ensures ParseValeField("0") == Ok(Some(0))
  {
    ParseMoneyTextWhole(0);
    assert NatToString(0) == "0";
  }

  /** What `:.2f` prints, both amount fields read back. */
  lemma AmountFieldsReadBack(c: Cents)
    ensures ParseAmountField(FormatCents(c)) == Ok(c)
    ensures ParseValeField(FormatCents(c)) == Ok(Some(c))
  {
    ParseMoneyTextOfFormat(c);
  }

  /** A leading `+` and a missing integer part are accepted as `float()`
      accepts them. */
  lemma AmountFieldsLenient(c: Cents, a: char)
    requires IsDigit(a)
    ensures ParseAmountField("+" + FormatCents(c)) == Ok(c)
    ensures ParseValeField("+" + FormatCents(c)) == Ok(Some(c))
    ensures ParseAmountField(['.', a]) == Ok(DigitValue(a) * 10)
  {
    ParseMoneyTextSigned(c);
    ParseMoneyTextLeadingPoint(a, '0');
  }

  // ------------------------------------------------------------------
  // adicionar_registro.

  /** The values of the read-only advance-kind combobox. */
  const TiposVale: seq<string> := ["pix", "dinheiro"]

  /** The texts of the record form, field by field. */
  datatype Form = Form(
    nome: string, dia: string, entrada: string, saida: string,
    valor: string, vale: string, tipoVale: string, pago: bool, observacao: string)

  const NoNameWarning := "Selecione um funcionário"

  /** The `Funcionario` that `adicionar_registro` builds from the form, or the
      message it shows instead: a warning when no name is chosen, otherwise
      the error of the first conversion that fails, in the source's order
      (the date, the share, the advance). */
  function NovoRegistro(form: Form): (r: Result<Funcionario>)
    ensures r.Ok? <==>
      && form.nome != "" && Strptime(form.dia).Ok?
      && ParseAmountField(form.valor).Ok? && ParseValeField(form.vale).Ok?
    ensures form.nome == "" ==> r == Err(NoNameWarning)
    ensures form.nome != "" && Strptime(form.dia).Err? ==> r == Err(Strptime(form.dia).message)
    ensures r.Ok? ==>
      && r.value.id.None? && r.value.nome == form.nome
      && r.value.diaTrabalho == Some(Strptime(form.dia).value)
      && ParseAmountField(form.valor) == Ok(r.value.valor)
      && ParseValeField(form.vale) == Ok(r.value.vale)
      && ':' in r.value.horaEntrada && ':' in r.value.horaSaida
      && (form.entrada == "" ==> r.value.horaEntrada == DefaultFuncionario.horaEntrada)
      && (form.saida == "" ==> r.value.horaSaida == DefaultFuncionario.horaSaida)
      && r.value.tipoVale == Some(form.tipoVale) && r.value.pago == form.pago
      && r.value.observacao == Some(form.observacao)
      && r.value.tipoPagamento == DefaultFuncionario.tipoPagamento
  {
    if form.nome == "" then Err(NoNameWarning)
    else match Strptime(form.dia)
      case Err(m) => Err(m)
      case Ok(dia) =>
        var valor :- ParseAmountField(form.valor);
        var vale :- ParseValeField(form.vale);
        Ok(Funcionario(
          None, form.nome, valor,
          NormalizeTime(form.entrada, "08:00"), NormalizeTime(form.saida, "16:00"),
          Some(dia), Some(form.observacao), vale, Some(form.tipoVale), form.pago,
          Some("pix"), None, None))
  }

  /** The text an operator types for an advance: nothing, or its amount. */
  function ValeText(v: Option<Cents>): string {
    match v
    case None => ""
    case Some(c) => FormatCents(c)
  }

  /** The form loses nothing: typing back the fields of a record it could
      have produced (a chosen name, a date, times with a colon, the amounts as
      `:.2f` prints them) yields the same record. */
  lemma NovoRegistroReadsBack(f: Funcionario, dia: Date)
    requires f.nome != "" && Valid(dia) && f.diaTrabalho == Some(dia)
    requires ':' in f.horaEntrada && ':' in f.horaSaida
    requires f.id.None? && f.tipoVale.Some? && f.observacao.Some?
    requires f.tipoPagamento == Some("pix") && f.createdAt.None? && f.updatedAt.None?
    ensures NovoRegistro(Form(
      f.nome, IsoFormat(dia), f.horaEntrada, f.horaSaida, FormatCents(f.valor), ValeText(f.vale),
      f.tipoVale.value, f.pago, f.observacao.value)) == Ok(f)
  {
    StrptimeIsoRoundTrip(dia);
    AmountFieldsReadBack(f.valor);
    if f.vale.Some? {
      AmountFieldsReadBack(f.vale.value);
    }
  }

  /** The date field's message is the one `strptime` gives: a day the month
      lacks and trailing characters are reported as such, not as a text that
      does not match the format. */
  lemma NovoRegistroDateErrors(form: Form)
    requires form.nome != ""
    ensures form.dia == "2024-02-30" ==> NovoRegistro(form) == Err("day is out of range for month")
    ensures form.dia == "2024-01-011" ==> NovoRegistro(form) == Err("unconverted data remains: 1")
    ensures form.dia == "2024-13-01" ==>
      NovoRegistro(form) == Err("time data '" + form.dia + "' does not match format '%Y-%m-%d'")
  {
    if form.dia == "2024-02-30" {
      StrptimeDayOutOfRange(form.dia);
    } else if form.dia == "2024-01-011" {
      StrptimeUnconverted(form.dia);
    } else if form.dia == "2024-13-01" {
      StrptimeNoMatch(form.dia);
    }
  }

  /** A date typed without its leading zeros is registered as that date. */
  lemma NovoRegistroUnpadded(form: Form)
    requires form.dia == "2024-5-1" && NovoRegistro(form).Ok?
    ensures NovoRegistro(form).value.diaTrabalho == Some(Date(2024, 5, 1))
  {
    StrptimeUnpaddedExample();
  }

  /** Whether a loaded record has the name being registered. */
  function SameName(nome: string): Funcionario -> bool {
    (f: Funcionario) => f.nome == nome
  }

  /** The `for f in self.funcionarios: if f.nome == nome: break` loop: the
      index of the first loaded record with that name. */
  function FirstNamed(day: seq<Funcionario>, nome: string): (r: Option<nat>)
    ensures r.Some? ==> r.value < |day| && day[r.value].nome == nome
    ensures r.Some? ==> forall j :: 0 <= j < r.value ==> day[j].nome != nome
    ensures r.None? <==> forall j :: 0 <= j < |day| ==> day[j].nome != nome
  {
    if |day| == 0 then None
    else if day[0].nome == nome then Some(0)
    else match FirstNamed(day[1..], nome)
      case None =>
        assert forall j :: 1 <= j < |day| ==> day[j] == day[1..][j - 1];
        None
      case Some(i) =>
        assert forall j :: 1 <= j <= i ==> day[j] == day[1..][j - 1];
        Some(i + 1)
  }

  /** What the repository is asked to do with the new record. */
  datatype Upsert = Update(record: Funcionario) | Insert(record: Funcionario)

  /** The new record takes the id of the first loaded record with its name
      and updates it; without one it is inserted. */
  function Decide(day: seq<Funcionario>, f: Funcionario): (u: Upsert)
    ensures u.record == f.(id := u.record.id)
    ensures u.Insert? ==> u.record == f
    ensures u.Update? <==> exists j :: 0 <= j < |day| && day[j].nome == f.nome
  {
    match FirstNamed(day, f.nome)
    case Some(i) => Update(f.(id := day[i].id))
    case None => Insert(f)
  }

  /** The decision against a reference definition: the records sharing the
      name, in loaded order. There is an update exactly when there is one,
      and it carries the id of the first. */
  lemma DecideByFilter(day: seq<Funcionario>, f: Funcionario)
    ensures var same := Filter(day, SameName(f.nome));
      && (Decide(day, f).Update? <==> |same| > 0)
      && (Decide(day, f).Update? ==> Decide(day, f).record.id == same[0].id)
  {
    var same := Filter(day, SameName(f.nome));
    match FirstNamed(day, f.nome)
    case Some(i) =>
      FilterFirst(day, SameName(f.nome), i);
    case None =>
      FilterNone(day, SameName(f.nome));
  }

  // ------------------------------------------------------------------
  // The grids of the two tabs.

  /** `f"{f.vale:.2f}" if f.vale else "-"`: a zero advance is falsy. */
  function ValeCell(v: Option<Cents>): (r: string)
    ensures r == "-" <==> v.None? || v == Some(0)
    ensures v.Some? && v.value != 0 ==> ParseMoneyText(r) == v
  {
    match v
    case None => "-"
    case Some(c) =>
      if c == 0 then "-"
      else
        ParseMoneyTextOfFormat(c);
        FormatCents(c)
  }


  /** The eight cells a record gets in both grids. */
  function GridRow(f: Funcionario): (cells: seq<string>) {
    [f.nome, FormatCents(f.valor), f.horaEntrada, f.horaSaida,
     ValeCell(f.vale), OrDefault(f.tipoVale, "pix"),
     if f.pago then "✅" else "❌", OrDefault(f.observacao, "-")]
  }

  /** What the grid shows reads back: the share and a non-zero advance are
      the record's amounts, the paid mark is the flag, and the name, times and
      note are the cells of the DOCX report's table. */
  lemma GridRowReadsBack(f: Funcionario)
    ensures var cells := GridRow(f);
      && |cells| == 8
      && ParseAmountField(cells[1]) == Ok(f.valor)
      && (cells[4] == "-" <==> f.vale.None? || f.vale == Some(0))
      && (cells[4] != "-" ==> ParseValeField(cells[4]) == Ok(f.vale))
      && (cells[6] == "✅" <==> f.pago)
      && [cells[0], cells[1], cells[2], cells[3], cells[7]] == DocxCells(f)
  {
    AmountFieldsReadBack(f.valor);
  }

  // ------------------------------------------------------------------
  // The day summary of the send tab.

  /** `f"Total: {len(self.funcionarios)} | R$ {total:.2f}"`, the total being
      summed record by record as the grid is filled. */
  function TotalLabel(fs: seq<Funcionario>): string {
    "Total: " + NatToString(|fs|) + " | R$ " + FormatCents(TotalOf(fs))
  }

  /** The number of digits `s` starts with. */
  function LeadingDigits(s: string): (k: nat)
    ensures k <= |s| && AllDigits(s[..k])
    ensures k < |s| ==> !IsDigit(s[k])
  {
    if |s| == 0 || !IsDigit(s[0]) then 0
    else
      var k := LeadingDigits(s[1..]);
      assert s[..k + 1] == [s[0]] + s[1..][..k];
      k + 1
  }

  lemma {:induction false} LeadingDigitsOf(d: string, tail: string)
    requires AllDigits(d) && |tail| > 0 && !IsDigit(tail[0])
    ensures LeadingDigits(d + tail) == |d|
    decreases |d|
  {
    if |d| > 0 {
      assert (d + tail)[1..] == d[1..] + tail;
      LeadingDigitsOf(d[1..], tail);
    } else {
      assert d + tail == tail;
    }
  }

  /** A reader of the label: the count before the bar, the amount after it. */
  function ParseTotalLabel(s: string): (r: Option<ReportViews.Summary>) {
    match ReportViews.After(s, "Total: ")
    case None => None
    case Some(rest) =>
      var k := LeadingDigits(rest);
      match (ParseNat(rest[..k]), ReportViews.After(rest[k..], " | R$ "))
      case (Some(n), Some(amount)) =>
        (match ParseCents(amount)
         case Some(t) => Some(ReportViews.Summary(n, t))
         case None => None)
      case _ => None
  }

  /** The label shows the day's summary: the number of loaded records and the
      total a report of them prints. */
  lemma TotalLabelReadsBack(fs: seq<Funcionario>, dia: Date)
    requires Valid(dia)
    ensures ParseTotalLabel(TotalLabel(fs)) == Some(ReportViews.SummaryOf(fs))
    ensures ReportViews.SummaryOf(fs).total == NewGenerator(fs, dia).total
  {
    var count := NatToString(|fs|);
    var amount := FormatCents(TotalOf(fs));
    var rest := count + " | R$ " + amount;
    assert TotalLabel(fs) == "Total: " + rest;
    ReportViews.AfterPrefix("Total: ", rest);
    assert rest == count + (" | R$ " + amount);
    LeadingDigitsOf(count, " | R$ " + amount);
    assert rest[..|count|] == count;
    assert rest[|count|..] == " | R$ " + amount;
    ParseNatToString(|fs|);
    ReportViews.AfterPrefix(" | R$ ", amount);
    FormatCentsRoundTrip(TotalOf(fs));
  }

  // ------------------------------------------------------------------
  // gerar_relatorio.

  /** The values of the read-only format combobox. */
  const FormatLabels: seq<string> := ["HTML", "Excel", "DOCX", "CSV", "JSON", "XML"]

  /** The extension handed to the save dialog for each format. */
  const Extensions: map<string, string> :=
    map["HTML" := "html", "Excel" := "xlsx", "DOCX" := "docx", "CSV" := "csv", "JSON" := "json", "XML" := "xml"]

  /** The map is defined on exactly the combobox labels and tells them
      apart. */
  lemma ExtensionsTotalInjective()
    ensures Extensions.Keys == set l | l in FormatLabels
    ensures forall a, b :: a in Extensions && b in Extensions && Extensions[a] == Extensions[b] ==> a == b
  {
  }

  /** The extensions offered are the six of the e-mail's download links. */
  lemma ExtensionsAreLinkExtensions()
    ensures Extensions.Values == set e | e in Email.LinkExtensions
  {
    assert Extensions["DOCX"] == Email.LinkExtensions[0] && Extensions["Excel"] == Email.LinkExtensions[1];
    assert Extensions["CSV"] == Email.LinkExtensions[2] && Extensions["JSON"] == Email.LinkExtensions[3];
    assert Extensions["XML"] == Email.LinkExtensions[4] && Extensions["HTML"] == Email.LinkExtensions[5];
  }

  /** The key of `generate_all` whose value is the format's report. */
  const ReportKeys: map<string, string> :=
    map["HTML" := "html", "Excel" := "excel", "DOCX" := "docx", "CSV" := "csv", "JSON" := "json", "XML" := "xml"]

  /** Whether a payload is a file of the kind an extension names. */
  predicate PayloadIsA(ext: string, p: Payload) {
    if ext == "xlsx" then p.Workbook?
    else if ext == "docx" then p.Document?
    else if ext == "html" then p.Utf8Text? && p.report.HtmlReport?
    else if ext == "csv" then p.Utf8Text? && p.report.CsvReport?
    else if ext == "json" then p.Utf8Text? && p.report.JsonReport?
    else if ext == "xml" then p.Utf8Text? && p.report.XmlReport?
    else false
  }

  /** The three generators that can raise, each for the format it serves:
      XML and DOCX on a character XML 1.0 does not allow, Excel on a control
      character openpyxl refuses. */
  predicate Generates(g: Generator, formato: string, now: DateTime)
    requires Valid(g.dia) && ValidDateTime(now)
  {
    && (formato == "XML" ==> GenerateXml(g).Ok?)
    && (formato == "DOCX" ==> GenerateDocx(g, now).Ok?)
    && (formato == "Excel" ==> GenerateExcel(g).Ok?)
  }

  /** For a day's records: HTML, CSV and JSON always generate, XML and DOCX
      exactly when every record is XML-safe, Excel exactly when every record
      is free of the controls openpyxl refuses. */
  lemma GeneratesRecords(fs: seq<Funcionario>, dia: Date, formato: string, now: DateTime)
    requires Valid(dia) && ValidDateTime(now)
    ensures Generates(NewGenerator(fs, dia), formato, now) <==>
      && (formato == "XML" || formato == "DOCX" ==> forall i :: 0 <= i < |fs| ==> XmlSafe(fs[i]))
      && (formato == "Excel" ==> forall i :: 0 <= i < |fs| ==> SheetSafe(fs[i]))
  {
    ReportViews.XmlOk(fs, dia);
    ReportViews.DocxOk(fs, dia, now);
    ReportViews.ExcelOk(fs, dia);
  }

  /** The report a format label asks for, when it can be generated: the two
      documents, or a text held as the UTF-8 encoding of its text, which is
      what a text file opened with `encoding='utf-8'` receives. */
  function ExportPayload(g: Generator, formato: string, now: DateTime): (r: Result<Payload>)
    requires formato in FormatLabels && Valid(g.dia) && ValidDateTime(now)
    ensures r.Ok? <==> Generates(g, formato, now)
    ensures r.Ok? ==> PayloadIsA(Extensions[formato], r.value)
  {
    if formato == "HTML" then Ok(Utf8Text(HtmlReport(HtmlPageOf(g, now))))
    else if formato == "Excel" then
      var ws :- GenerateExcel(g);
      Ok(Workbook(ws))
    else if formato == "DOCX" then
      var d :- GenerateDocx(g, now);
      Ok(Document(d))
    else if formato == "CSV" then Ok(Utf8Text(CsvReport(CsvRows(g))))
    else if formato == "JSON" then Ok(Utf8Text(JsonReport(JsonTree(g))))
    else
      var root :- Xml.Reparse(XmlTree(g));
      Ok(Utf8Text(XmlReport(root)))
  }

  /** The JSON file written is the `json` entry of `generate_all`. */
  lemma JsonInBundle(g: Generator, now: DateTime)
    requires Valid(g.dia) && ValidDateTime(now)
    requires GenerateAll(g, now).Ok?
    ensures ExportPayload(g, "JSON", now) == Ok(GenerateAll(g, now).value["json"])
  {
    GenerateAllKinds(g, now);
  }

  /** The XML file written is the `xml` entry of `generate_all`. */
  lemma XmlInBundle(g: Generator, now: DateTime)
    requires Valid(g.dia) && ValidDateTime(now)
    requires GenerateAll(g, now).Ok?
    ensures ExportPayload(g, "XML", now) == Ok(GenerateAll(g, now).value["xml"])
  {
    GenerateAllDocuments(g, now);
  }

  /** How a click on the generate button ends. `Truncated` is an error raised
      after `open` has already created the file, or emptied it. */
  datatype Saved =
    | Warned(message: string)
    | Cancelled
    | Written(defaultExtension: string, fileName: string, payload: Payload)
    | Truncated(fileName: string, message: string)
    | Failed(message: string)

  const NotLoadedWarning := "Carregue os dados primeiro"

  /** Python's message for `write` of a `str` on a file opened with `'wb'`. */
  const StrToBinaryError := "a bytes-like object is required, not 'str'"

  /** `gerar_relatorio` as written. `fileName` is what the save dialog
      returns, empty when the operator cancels. The file is opened before
      the report is generated. JSON and XML open it with `'wb'` and write the
      `str` their generator returns, which Python refuses; XML, DOCX and
      Excel fail earlier when their generator raises. Either way the file is
      left empty. */
  function GerarRelatorioAsWritten(loaded: seq<Funcionario>, diaText: string, formato: string, fileName: string, now: DateTime)
    : (r: Saved)
    requires formato in FormatLabels && ValidDateTime(now)
    ensures r.Written? ==> formato != "JSON" && formato != "XML"
    ensures r.Truncated? <==>
      && |loaded| > 0 && Strptime(diaText).Ok? && fileName != ""
      && (|| formato == "JSON" || formato == "XML"
          || !Generates(NewGenerator(loaded, Strptime(diaText).value), formato, now))
    ensures r.Truncated? ==> r.fileName == fileName
    ensures |loaded| > 0 && Strptime(diaText).Err? ==> r == Failed(Strptime(diaText).message)
  {
    if |loaded| == 0 then Warned(NotLoadedWarning)
    else match Strptime(diaText)
      case Err(m) => Failed(m)
      case Ok(dia) =>
        if fileName == "" then Cancelled
        else match ExportPayload(NewGenerator(loaded, dia), formato, now)
          case Err(m) => Truncated(fileName, m)
          case Ok(p) =>
            if formato == "JSON" || formato == "XML" then Truncated(fileName, StrToBinaryError)
            else Written("." + Extensions[formato], fileName, p)
  }

  /** As written, the JSON export of any loaded day fails on the write and
      leaves an empty file; the other four formats are written as intended. */
  lemma JsonExportFailsAsWritten(loaded: seq<Funcionario>, diaText: string, formato: string, fileName: string, now: DateTime)
    requires formato in FormatLabels && ValidDateTime(now)
    ensures formato == "JSON" && |loaded| > 0 && Strptime(diaText).Ok? && fileName != "" ==>
      GerarRelatorioAsWritten(loaded, diaText, formato, fileName, now) == Truncated(fileName, StrToBinaryError)
    ensures formato != "JSON" && formato != "XML" ==>
      GerarRelatorioAsWritten(loaded, diaText, formato, fileName, now) == GerarRelatorio(loaded, diaText, formato, fileName, now)
  {
  }

  /** `gerar_relatorio` with JSON and XML written like HTML and CSV, through
      a UTF-8 text file. The file is written exactly when records are loaded,
      the date reads, the operator names a file and the report can be
      generated, and it holds a report of the kind its extension names. A
      generator that raises still leaves the opened file empty. */
  function GerarRelatorio(loaded: seq<Funcionario>, diaText: string, formato: string, fileName: string, now: DateTime)
    : (r: Saved)
    requires formato in FormatLabels && ValidDateTime(now)
    ensures |loaded| == 0 <==> r == Warned(NotLoadedWarning)
    ensures r.Written? <==>
      && |loaded| > 0 && Strptime(diaText).Ok? && fileName != ""
      && Generates(NewGenerator(loaded, Strptime(diaText).value), formato, now)
    ensures r.Written? ==>
      && r.fileName == fileName && r.defaultExtension == "." + Extensions[formato]
      && PayloadIsA(Extensions[formato], r.payload)
    ensures r.Truncated? <==>
      && |loaded| > 0 && Strptime(diaText).Ok? && fileName != ""
      && !Generates(NewGenerator(loaded, Strptime(diaText).value), formato, now)
    ensures |loaded| > 0 && Strptime(diaText).Err? ==> r == Failed(Strptime(diaText).message)
  {
    if |loaded| == 0 then Warned(NotLoadedWarning)
    else match Strptime(diaText)
      case Err(m) => Failed(m)
      case Ok(dia) =>
        if fileName == "" then Cancelled
        else match ExportPayload(NewGenerator(loaded, dia), formato, now)
          case Err(m) => Truncated(fileName, m)
          case Ok(p) => Written("." + Extensions[formato], fileName, p)
  }

  /** The corrected export writes whatever report the format calls for. */
  lemma GerarRelatorioOfPayload(loaded: seq<Funcionario>, diaText: string, dia: Date, formato: string,
                                fileName: string, now: DateTime, p: Payload)
    requires formato in FormatLabels && ValidDateTime(now)
    requires Strptime(diaText) == Ok(dia) && |loaded| > 0 && fileName != ""
    requires ExportPayload(NewGenerator(loaded, dia), formato, now) == Ok(p)
    ensures GerarRelatorio(loaded, diaText, formato, fileName, now).Written?
    ensures GerarRelatorio(loaded, diaText, formato, fileName, now).payload == p
  {
  }

  /** The corrected JSON export of a loaded day writes a file, and it holds
      the `json` entry `generate_all` bundles for the same records. */
  lemma JsonExportWritesBundle(loaded: seq<Funcionario>, diaText: string, dia: Date, fileName: string, now: DateTime)
    requires ValidDateTime(now) && Strptime(diaText) == Ok(dia) && |loaded| > 0 && fileName != ""
    requires GenerateAll(NewGenerator(loaded, dia), now).Ok?
    ensures var r := GerarRelatorio(loaded, diaText, "JSON", fileName, now);
      r.Written? && r.payload == GenerateAll(NewGenerator(loaded, dia), now).value["json"]
  {
    var g := NewGenerator(loaded, dia);
    JsonInBundle(g, now);
    GerarRelatorioOfPayload(loaded, diaText, dia, "JSON", fileName, now, GenerateAll(g, now).value["json"]);
  }

  /** Likewise the corrected XML export, whenever the document parses. */
  lemma XmlExportWritesBundle(loaded: seq<Funcionario>, diaText: string, dia: Date, fileName: string, now: DateTime)
    requires ValidDateTime(now) && Strptime(diaText) == Ok(dia) && |loaded| > 0 && fileName != ""
    requires GenerateAll(NewGenerator(loaded, dia), now).Ok?
    ensures var r := GerarRelatorio(loaded, diaText, "XML", fileName, now);
      r.Written? && r.payload == GenerateAll(NewGenerator(loaded, dia), now).value["xml"]
  {
    var g := NewGenerator(loaded, dia);
    XmlInBundle(g, now);
    GerarRelatorioOfPayload(loaded, diaText, dia, "XML", fileName, now, GenerateAll(g, now).value["xml"]);
  }

  /** A name holding U+0001 cannot go into the XML, DOCX or XLSX report: the
      export stops after the file was opened, and leaves it empty. */
  lemma ControlCharacterTruncates(f: Funcionario, diaText: string, dia: Date, formato: string,
                                  fileName: string, now: DateTime)
    requires formato in FormatLabels && ValidDateTime(now)
    requires Strptime(diaText) == Ok(dia) && fileName != ""
    requires |f.nome| > 0 && f.nome[0] == '\U{1}'
    requires formato == "XML" || formato == "DOCX" || formato == "Excel"
    ensures GerarRelatorio([f], diaText, formato, fileName, now).Truncated?
    ensures GerarRelatorioAsWritten([f], diaText, formato, fileName, now).Truncated?
  {
    assert !Generates(NewGenerator([f], dia), formato, now) by {
      assert !XmlSafe(f) by {
        assert !Xml.IsXmlChar(f.nome[0]);
      }
      assert !SheetSafe(f) by {
        assert CellText(f.nome)[0] == f.nome[0];
        assert SheetIllegal(CellText(f.nome)[0]);
      }
      GeneratesRecords([f], dia, formato, now);
    }
  }
}

=== FILE: email.dfy ===
/** `EmailService`: the HTML message that announces a day's payroll, its
    subject line, and the report files attached to it. Connecting to the
    SMTP server and sending are not modelled; what is modelled is the
    message handed to `send_message`. */
module Email {
  import opened Common
  import opened Strings
  import opened Dates
  import opened Money
  import opened Models
  import opened Report
  import opened ReportViews
  import Settings

  // ------------------------------------------------------------------
  // The long date of the heading.

  /** What `%B` prints: the application never sets a locale, so Python keeps
      the C locale and its English month names. */
  const MonthNames: seq<string> := [
    "January", "February", "March", "April", "May", "June",
    "July", "August", "September", "October", "November", "December"]

  lemma MonthNamesDistinct()
    ensures |MonthNames| == 12
    ensures forall i, j :: 0 <= i < j < 12 ==> MonthNames[i] != MonthNames[j]
  {
    forall i, j | 0 <= i < j < 12
      ensures MonthNames[i] != MonthNames[j]
    {
      assert MonthNames[i][0] != MonthNames[j][0] || |MonthNames[i]| != |MonthNames[j]|
        || MonthNames[i][1] != MonthNames[j][1] || MonthNames[i][2] != MonthNames[j][2];
    }
  }

  /** `dia_trabalho.strftime('%d de %B de %Y')`. */
  function LongDate(d: Date): (s: string)
    requires Valid(d)
  {
    PadDigits(d.day, 2) + " de " + MonthNames[d.month - 1] + " de " + PadDigits(d.year, 4)
  }

  /** The number of the first month at or after `i` with this name. */
  function MonthNumber(name: string, i: nat): (r: Option<nat>)
    requires i <= 12
    ensures r.Some? ==> i < r.value <= 12 && MonthNames[r.value - 1] == name
    decreases 12 - i
  {
    if i == 12 then None
    else if MonthNames[i] == name then Some(i + 1)
    else MonthNumber(name, i + 1)
  }

  lemma {:induction false} MonthNumberOf(m: nat, i: nat)
    requires i < m <= 12
    ensures MonthNumber(MonthNames[m - 1], i) == Some(m)
    decreases 12 - i
  {
    MonthNamesDistinct();
    if i < m - 1 {
      assert MonthNames[i] != MonthNames[m - 1];
      MonthNumberOf(m, i + 1);
    }
  }

  /** Reads a long date back: two digits, the month's name, four digits. */
  function ParseLongDate(s: string): (r: Option<Date>)
    ensures r.Some? ==> Valid(r.value)
  {
    if |s| >= 16 && s[2..6] == " de " && s[|s| - 8..|s| - 4] == " de "
       && AllDigits(s[..2]) && AllDigits(s[|s| - 4..])
    then
      match MonthNumber(s[6..|s| - 8], 0)
      case None => None
      case Some(m) =>
        var d := Date(DigitsValue(s[|s| - 4..]), m, DigitsValue(s[..2]));
        if Valid(d) then Some(d) else None
    else None
  }

  /** The heading's date names its day unambiguously. */
  lemma LongDateRoundTrip(d: Date)
    requires Valid(d)
    ensures ParseLongDate(LongDate(d)) == Some(d)
  {
    var s := LongDate(d);
    var name := MonthNames[d.month - 1];
    assert |name| >= 3;
    assert s[..2] == PadDigits(d.day, 2);
    assert s[2..6] == " de ";
    assert s[6..|s| - 8] == name;
    assert s[|s| - 8..|s| - 4] == " de ";
    assert s[|s| - 4..] == PadDigits(d.year, 4);
    Pow10Values();
    PadDigitsValue(d.day, 2);
    PadDigitsValue(d.year, 4);
    MonthNumberOf(d.month, 0);
  }

  // ------------------------------------------------------------------
  // The message body.

  const BaseUrl := "https://seusite.com/downloads"

  /** The file extensions of the six download buttons, in page order. */
  const LinkExtensions: seq<string> := ["docx", "xlsx", "csv", "json", "xml", "html"]

  /** `{base_url}/relatorio_{dia_trabalho}.<ext>`: a `date` prints in ISO
      form inside an f-string. */
  function DownloadLink(dia: Date, ext: string): string
    requires Valid(dia)
  {
    BaseUrl + "/relatorio_" + IsoFormat(dia) + "." + ext
  }

  function Links(dia: Date): (r: seq<string>)
    requires Valid(dia)
    ensures |r| == |LinkExtensions|
    ensures forall i :: 0 <= i < |r| ==> r[i] == DownloadLink(dia, LinkExtensions[i])
  {
    Map(LinkExtensions, ext => DownloadLink(dia, ext))
  }

  /** The values `_criar_template_html` writes into its template. The table
      rows hold the same five cells as the HTML report's table. The
      surrounding markup and its CSS are fixed text and left out. */
  datatype EmailBody = EmailBody(
    heading: string, date: string, diaSemana: string, count: string, total: string,
    rows: seq<seq<string>>, links: seq<string>, stamp: string)

  /** `_criar_template_html(funcionarios, dia_trabalho, dia_semana, total)`,
      with the footer stamp taken from `now`. */
  function CriarTemplate(fs: seq<Funcionario>, dia: Date, diaSemana: string, total: Cents, now: DateTime)
    : (b: EmailBody)
    requires Valid(dia) && ValidDateTime(now)
    ensures |b.rows| == |fs| && |b.links| == 6
  {
    EmailBody(
      diaSemana + ", " + LongDate(dia), BrFormat(dia), diaSemana, NatToString(|fs|),
      FormatCents(total), HtmlRowsOf(fs), Links(dia), Stamp(now))
  }

  /** A reader of the body: the count and the total are checked against
      the table, as for the HTML report. */
  function EmailSummary(b: EmailBody): Option<Summary> {
    HtmlSummary(HtmlPage(b.date, b.diaSemana, b.count, b.total, b.rows, b.stamp))
  }

  // ------------------------------------------------------------------
  // The subject line.

  const SubjectPrefix := "\U{1F4BC} Relatório Salários Garçons - "

  function Subject(diaSemana: string, dia: Date): (s: string)
    requires Valid(dia)
  {
    SubjectPrefix + diaSemana + ", " + BrFormat(dia)
  }

  /** Reads the weekday label and the date back from a subject. */
  function ParseSubject(s: string): (r: Option<(string, Date)>)
    ensures r.Some? ==> Valid(r.value.1)
  {
    match After(s, SubjectPrefix)
    case None => None
    case Some(rest) =>
      if |rest| >= 12 && rest[|rest| - 12..|rest| - 10] == ", " then
        match ParseBrFormat(rest[|rest| - 10..])
        case None => None
        case Some(d) => Some((rest[..|rest| - 12], d))
      else None
  }

  /** A label, a comma and a ten-character date split apart again. */
  lemma LabelDateSplit(name: string, date: string)
    requires |date| == 10
    ensures var rest := name + ", " + date;
      && |rest| >= 12
      && rest[|rest| - 12..|rest| - 10] == ", "
      && rest[|rest| - 10..] == date
      && rest[..|rest| - 12] == name
  {
  }

  /** Whatever the label, the subject names it and the day. */
  lemma SubjectRoundTrip(diaSemana: string, dia: Date)
    requires Valid(dia)
    ensures ParseSubject(Subject(diaSemana, dia)) == Some((diaSemana, dia))
  {
    var rest := diaSemana + ", " + BrFormat(dia);
    assert Subject(diaSemana, dia) == SubjectPrefix + rest;
    AfterPrefix(SubjectPrefix, rest);
    LabelDateSplit(diaSemana, BrFormat(dia));
    BrRoundTrip(dia);
  }

  // ------------------------------------------------------------------
  // Attachments.

  /** One entry of the `formatos` table of `enviar_relatorio`. The loop
      unpacks the content type but never uses it: every part is sent as
      `application/octet-stream`, which the MIME layer (left out) would add. */
  datatype Formato = Formato(key: string, fileName: string, contentType: string)

  const Formatos: seq<Formato> := [
    Formato("docx", "relatorio.docx",
      "application/vnd.openxmlformats-officedocument.wordprocessingml.document"),
    Formato("excel", "relatorio.xlsx",
      "application/vnd.openxmlformats-officedocument.spreadsheetml.sheet"),
    Formato("csv", "relatorio.csv", "text/csv"),
    Formato("json", "relatorio.json", "application/json"),
    Formato("xml", "relatorio.xml", "application/xml"),
    Formato("html", "relatorio.html", "text/html")]

  /** The table is keyed by the report formats, in their order. */
  lemma FormatosFollowReportFormats()
    ensures |Formatos| == |Settings.ReportFormats|
    ensures forall i :: 0 <= i < |Formatos| ==> Formatos[i].key == Settings.ReportFormats[i]
  {
  }

  /** The extension of a file name of the table: what follows `relatorio.`. */
  function Extension(fileName: string): string {
    if |fileName| >= 10 && fileName[..10] == "relatorio." then fileName[10..] else fileName
  }

  /** The attachment file name as the source writes it: the format key is
      used as the extension, so the workbook is sent as `.excel`. */
  function AttachmentNameAsWritten(dia: Date, f: Formato): string
    requires Valid(dia)
  {
    "relatorio_" + IsoFormat(dia) + "." + f.key
  }

  /** The file name with the extension the table gives for the format. */
  function AttachmentName(dia: Date, f: Formato): string
    requires Valid(dia)
  {
    "relatorio_" + IsoFormat(dia) + "." + Extension(f.fileName)
  }

  /** As written, the workbook attachment is named `.excel`, not `.xlsx`
      as the table and the download button say. */
  lemma ExcelAttachmentMisnamed(dia: Date)
    requires Valid(dia)
    ensures Formatos[1].key == "excel" && Extension(Formatos[1].fileName) == "xlsx"
    ensures AttachmentNameAsWritten(dia, Formatos[1]) == "relatorio_" + IsoFormat(dia) + ".excel"
    ensures AttachmentNameAsWritten(dia, Formatos[1]) != AttachmentName(dia, Formatos[1])
  {
    var a := AttachmentNameAsWritten(dia, Formatos[1]);
    var b := AttachmentName(dia, Formatos[1]);
    assert Formatos[1].fileName[..10] == "relatorio.";
    assert |a| == 26 && |b| == 25;
  }

  /** For the other five formats the two names agree. */
  lemma OtherAttachmentsAsWritten(dia: Date)
    requires Valid(dia)
    ensures forall i :: 0 <= i < |Formatos| && i != 1 ==>
      AttachmentNameAsWritten(dia, Formatos[i]) == AttachmentName(dia, Formatos[i])
  {
    forall i | 0 <= i < |Formatos| && i != 1
      ensures Extension(Formatos[i].fileName) == Formatos[i].key
    {
      assert Formatos[i].fileName[..10] == "relatorio.";
    }
  }

  lemma LinkOfName(dia: Date, ext: string)
    requires Valid(dia)
    ensures DownloadLink(dia, ext) == BaseUrl + "/" + ("relatorio_" + IsoFormat(dia) + "." + ext)
  {
  }

  /** With the table's extensions, every attachment is named like the file
      its download button points to. */
  lemma AttachmentsMatchLinks(dia: Date)
    requires Valid(dia)
    ensures forall i :: 0 <= i < |Formatos| ==>
      Links(dia)[i] == BaseUrl + "/" + AttachmentName(dia, Formatos[i])
  {
    forall i | 0 <= i < |Formatos|
      ensures Links(dia)[i] == BaseUrl + "/" + AttachmentName(dia, Formatos[i])
    {
      assert Formatos[i].fileName[..10] == "relatorio.";
      assert Extension(Formatos[i].fileName) == LinkExtensions[i];
      LinkOfName(dia, LinkExtensions[i]);
    }
  }

  /** Whether `arquivos[formato]` is present and truthy; `truthy` is
      Python's truth value of a dictionary value. */
  predicate Attachable<P>(arquivos: map<string, P>, truthy: P -> bool, f: Formato) {
    f.key in arquivos && truthy(arquivos[f.key])
  }

  /** One MIME part: the format it was made for, its file name and the
      payload it carries. */
  datatype Attachment<P> = Attachment(formato: string, fileName: string, payload: P)

  /** How the parts are named: `AsWritten` is the source's
      `relatorio_{dia}.{formato}`, `Corrected` uses the table's extension. */
  datatype Naming = AsWritten | Corrected

  function NameFor(naming: Naming, dia: Date, f: Formato): string
    requires Valid(dia)
  {
    match naming
    case AsWritten => AttachmentNameAsWritten(dia, f)
    case Corrected => AttachmentName(dia, f)
  }

  /** The part the loop makes for an entry: named after the day, carrying
      the dictionary's value. */
  function Part<P>(a: map<string, P>, dia: Date, f: Formato, naming: Naming): (r: Attachment<P>)
    requires Valid(dia) && f.key in a
    ensures r.formato == f.key && r.payload == a[f.key]
    ensures naming == AsWritten ==> r.fileName == "relatorio_" + IsoFormat(dia) + "." + f.key
  {
    Attachment(f.key, NameFor(naming, dia, f), a[f.key])
  }

  /** The two namings make the same part for every entry of the table
      except the workbook, whose name alone differs. */
  lemma PartNamings<P>(a: map<string, P>, dia: Date, i: nat)
    requires Valid(dia) && i < |Formatos| && Formatos[i].key in a
    ensures Part(a, dia, Formatos[i], AsWritten).(fileName := "") == Part(a, dia, Formatos[i], Corrected).(fileName := "")
    ensures Part(a, dia, Formatos[i], AsWritten) == Part(a, dia, Formatos[i], Corrected) <==> Formatos[i].key != "excel"
  {
    ExcelAttachmentMisnamed(dia);
    OtherAttachmentsAsWritten(dia);
  }

  /** One part per entry of `chosen`, in order. */
  ghost predicate PartsOf<P>(parts: seq<Attachment<P>>, chosen: seq<Formato>, a: map<string, P>, dia: Date, naming: Naming)
    requires Valid(dia)
  {
    |parts| == |chosen|
    && forall j :: 0 <= j < |parts| ==> chosen[j].key in a && parts[j] == Part(a, dia, chosen[j], naming)
  }

  lemma PartsOfAppend<P>(
    parts: seq<Attachment<P>>, chosen: seq<Formato>, a: map<string, P>, dia: Date, f: Formato, naming: Naming)
    requires Valid(dia) && f.key in a
    requires PartsOf(parts, chosen, a, dia, naming)
    ensures PartsOf(parts + [Part(a, dia, f, naming)], chosen + [f], a, dia, naming)
  {
  }

  /** `Attachable` as a filter over the table. */
  function Chooses<P>(arquivos: map<string, P>, truthy: P -> bool): Formato -> bool {
    f => Attachable(arquivos, truthy, f)
  }

  /** One more entry of the table adds itself to the chosen ones exactly
      when it is attachable. */
  lemma ChosenSnoc<P>(table: seq<Formato>, i: nat, a: map<string, P>, truthy: P -> bool)
    requires i < |table|
    ensures Filter(table[..i + 1], Chooses(a, truthy))
         == Filter(table[..i], Chooses(a, truthy)) + (if Attachable(a, truthy, table[i]) then [table[i]] else [])
  {
    assert table[..i + 1] == table[..i] + [table[i]];
    FilterSnoc(table[..i], table[i], Chooses(a, truthy));
  }

  /** `parts` are the parts the loop makes from `arquivos` going through
      `table`: one for each entry whose value is present and truthy, in
      table order. */
  ghost predicate AttachedFrom<P>(
    parts: seq<Attachment<P>>, table: seq<Formato>, arquivos: map<string, P>, truthy: P -> bool, dia: Date,
    naming: Naming)
    requires Valid(dia)
  {
    PartsOf(parts, Filter(table, Chooses(arquivos, truthy)), arquivos, dia, naming)
  }

  /** The attachments the two namings make from the same dictionary differ
      only in the workbook's file name. */
  lemma AttachedNamings<P>(
    p: seq<Attachment<P>>, q: seq<Attachment<P>>, arquivos: map<string, P>, truthy: P -> bool, dia: Date)
    requires Valid(dia)
    requires AttachedFrom(p, Formatos, arquivos, truthy, dia, AsWritten)
    requires AttachedFrom(q, Formatos, arquivos, truthy, dia, Corrected)
    ensures |p| == |q|
    ensures forall j :: 0 <= j < |p| ==> p[j].(fileName := "") == q[j].(fileName := "")
    ensures forall j :: 0 <= j < |p| ==> (p[j] == q[j] <==> p[j].formato != "excel")
  {
    var chosen := Filter(Formatos, Chooses(arquivos, truthy));
    forall j | 0 <= j < |p|
      ensures p[j].(fileName := "") == q[j].(fileName := "")
      ensures p[j] == q[j] <==> p[j].formato != "excel"
    {
      assert chosen[j] in Formatos;
      var i :| 0 <= i < |Formatos| && Formatos[i] == chosen[j];
      PartNamings(arquivos, dia, i);
    }
  }

  /** The `for` loop over a table of formats. */
  method AttachEach<P>(table: seq<Formato>, a: map<string, P>, truthy: P -> bool, dia: Date, naming: Naming)
    returns (parts: seq<Attachment<P>>)
    requires Valid(dia)
    ensures AttachedFrom(parts, table, a, truthy, dia, naming)
  {
    parts := [];
    ghost var chosen: seq<Formato> := [];
    var i := 0;
    while i < |table|
      invariant 0 <= i <= |table|
      invariant chosen == Filter(table[..i], Chooses(a, truthy))
      invariant PartsOf(parts, chosen, a, dia, naming)
    {
      var f := table[i];
      ChosenSnoc(table, i, a, truthy);
      if f.key in a && truthy(a[f.key]) {
        PartsOfAppend(parts, chosen, a, dia, f, naming);
        parts := parts + [Part(a, dia, f, naming)];
        chosen := chosen + [f];
      }
      i := i + 1;
    }
    assert table[..i] == table;
  }

  /** The attachment step of `enviar_relatorio`: `None` or an empty dict
      attaches nothing; otherwise each format of the table, in table order,
      whose value is present and truthy. */
  method SelectAttachments<P>(arquivos: Option<map<string, P>>, truthy: P -> bool, dia: Date, naming: Naming)
    returns (parts: seq<Attachment<P>>)
    requires Valid(dia)
    ensures arquivos.None? || arquivos.value == map[] ==> parts == []
    ensures arquivos.Some? ==> AttachedFrom(parts, Formatos, arquivos.value, truthy, dia, naming)
  {
    if arquivos.None? || arquivos.value == map[] {
      parts := [];
      if arquivos.Some? {
        FilterNone(Formatos, Chooses(arquivos.value, truthy));
      }
    } else {
      parts := AttachEach(Formatos, arquivos.value, truthy, dia, naming);
    }
  }

  /** The message `enviar_relatorio` hands to the SMTP server. */
  datatype Message<P> = Message(
    sender: string, recipient: string, subject: string, body: EmailBody,
    attachments: seq<Attachment<P>>)

  /** `enviar_relatorio(destinatario, funcionarios, dia_trabalho, dia_semana,
      arquivos)`, up to the call that sends the message; `AsWritten` naming
      is the source's. */
  method EnviarRelatorio<P>(
    remetente: string, destinatario: string, fs: seq<Funcionario>, dia: Date,
    diaSemana: string, arquivos: Option<map<string, P>>, truthy: P -> bool, now: DateTime, naming: Naming)
    returns (m: Message<P>)
    requires Valid(dia) && ValidDateTime(now)
    ensures m.sender == remetente && m.recipient == destinatario
    ensures ParseSubject(m.subject) == Some((diaSemana, dia))
    ensures EmailSummary(m.body) == Some(SummaryOf(fs))
    ensures arquivos.None? ==> m.attachments == []
    ensures arquivos.Some? ==> AttachedFrom(m.attachments, Formatos, arquivos.value, truthy, dia, naming)
  {
    var total := TotalOf(fs);
    var subject := Subject(diaSemana, dia);
    SubjectRoundTrip(diaSemana, dia);
    var body := CriarTemplate(fs, dia, diaSemana, total, now);
    BodyAgrees(fs, dia, diaSemana, now);
    var parts := SelectAttachments(arquivos, truthy, dia, naming);
    m := Message(remetente, destinatario, subject, body, parts);
  }

  // ------------------------------------------------------------------
  // Sending the generated reports.

  /** The truth value of a `generate_all` payload: the bytes of a saved
      document or workbook are never empty, and encoded text is empty
      exactly when the text is. */
  predicate Truthy(p: Payload) {
    match p
    case Document(_) => true
    case Workbook(_) => true
    case Utf8Text(t) => Renderable(t) && TextOf(t) != ""
  }

  /** The six keys present with truthy values make every entry of the
      table attachable. */
  lemma AllAttachable<P>(m: map<string, P>, truthy: P -> bool)
    requires "docx" in m && truthy(m["docx"]) && "excel" in m && truthy(m["excel"])
    requires "csv" in m && truthy(m["csv"]) && "json" in m && truthy(m["json"])
    requires "xml" in m && truthy(m["xml"]) && "html" in m && truthy(m["html"])
    ensures forall i :: 0 <= i < |Formatos| ==> Attachable(m, truthy, Formatos[i])
  {
  }

  /** A document, a workbook and four texts, none of them empty. */
  lemma PayloadsTruthy(m: map<string, Payload>, rows: seq<seq<string>>, p: HtmlPage)
    requires "docx" in m && m["docx"].Document?
    requires "excel" in m && m["excel"].Workbook?
    requires "csv" in m && m["csv"] == Utf8Text(CsvReport(rows)) && Csv.WellFormedRows(rows) && |rows| > 0
    requires "json" in m && m["json"].Utf8Text? && m["json"].report.JsonReport?
    requires "xml" in m && m["xml"].Utf8Text? && m["xml"].report.XmlReport?
    requires "html" in m && m["html"] == Utf8Text(HtmlReport(p)) && FiveCells(p.rows)
    ensures Truthy(m["docx"]) && Truthy(m["excel"]) && Truthy(m["csv"])
    ensures Truthy(m["json"]) && Truthy(m["xml"]) && Truthy(m["html"])
  {
    HtmlPayloadTruthy(p);
    CsvPayloadTruthy(rows);
    TextPayloadTruthy(m["json"].report);
    TextPayloadTruthy(m["xml"].report);
  }

  lemma TextPayloadTruthy(t: TextReport)
    requires t.JsonReport? || t.XmlReport?
    ensures Truthy(Utf8Text(t))
  {
  }

  lemma HtmlPayloadTruthy(p: HtmlPage)
    requires FiveCells(p.rows)
    ensures Truthy(Utf8Text(HtmlReport(p)))
  {
    assert |HtmlTemplate[0]| > 0;
  }

  lemma CsvPayloadTruthy(rows: seq<seq<string>>)
    requires Csv.WellFormedRows(rows) && |rows| > 0
    ensures Truthy(Utf8Text(CsvReport(rows)))
  {
  }

  /** `enviar_relatorio_com_anexos`: the message carries all six reports
      `generate_all` makes, in table order; where `generate_all` raises, so
      does this. */
  method EnviarRelatorioComAnexos(
    remetente: string, destinatario: string, fs: seq<Funcionario>, dia: Date,
    diaSemana: string, g: Generator, now: DateTime, naming: Naming)
    returns (r: Result<Message<Payload>>)
    requires Valid(dia) && Valid(g.dia) && ValidDateTime(now)
    ensures r.Ok? <==> GenerateAll(g, now).Ok?
    ensures r.Ok? <==> GenerateXml(g).Ok?
    ensures r.Ok? ==> EmailSummary(r.value.body) == Some(SummaryOf(fs))
    ensures r.Ok? ==> |r.value.attachments| == |Formatos|
    ensures r.Ok? ==> forall i :: 0 <= i < |Formatos| ==>
      var key := Settings.ReportFormats[i];
      key in GenerateAll(g, now).value
      && r.value.attachments[i] == Attachment(key, NameFor(naming, dia, Formatos[i]), GenerateAll(g, now).value[key])
  {
    var arquivos := GenerateAll(g, now);
    assert arquivos.Ok? <==> GenerateXml(g).Ok? by {
      GenerateAllOk(g, now);
    }
    if arquivos.Err? {
      return Err(arquivos.message);
    }
    var m := EnviarRelatorio(remetente, destinatario, fs, dia, diaSemana, Some(arquivos.value), Truthy, now, naming);
    GenerateAllKinds(g, now);
    FormatKeysAreReportFormats();
    PayloadsTruthy(arquivos.value, CsvRows(g), HtmlPageOf(g, now));
    AllAttachable(arquivos.value, Truthy);
    FilterAll(Formatos, Chooses(arquivos.value, Truthy));
    FormatosFollowReportFormats();
    r := Ok(m);
  }

  /** The body of `enviar_relatorio` shows the figures of the HTML report
      the generator renders for the same records and day. */
  lemma BodyMatchesReport(fs: seq<Funcionario>, dia: Date, now: DateTime)
    requires Valid(dia) && ValidDateTime(now)
    ensures var b := CriarTemplate(fs, dia, Settings.WeekdayLabel(dia), TotalOf(fs), now);
      var p := HtmlPageOf(NewGenerator(fs, dia), now);
      b.date == p.date && b.diaSemana == p.diaSemana && b.count == p.count
      && b.total == p.total && b.rows == p.rows && b.stamp == p.stamp
  {
  }

  /** Reading the body gives the number of records and their total. */
  lemma BodyAgrees(fs: seq<Funcionario>, dia: Date, diaSemana: string, now: DateTime)
    requires Valid(dia) && ValidDateTime(now)
    ensures EmailSummary(CriarTemplate(fs, dia, diaSemana, TotalOf(fs), now)) == Some(SummaryOf(fs))
  {
    var b := CriarTemplate(fs, dia, diaSemana, TotalOf(fs), now);
    var p := HtmlPage(b.date, b.diaSemana, b.count, b.total, b.rows, b.stamp);
    assert p.rows == HtmlRowsOf(fs) && p.count == NatToString(|fs|) && p.total == FormatCents(TotalOf(fs));
    HtmlSummaryOf(p, fs);
  }
}

=== FILE: json.dfy ===
/** The JSON the report generator emits with
    `json.dumps(data, ensure_ascii=False, indent=2)`: a value tree whose
    objects keep their insertion order, and its text with two-space
    indentation, `,` between items and `: ` between a key and its value. */
module Json {
  import opened Common
  import opened Strings
  import opened Money

  /** A float in the source is always an amount of money, so it carries
      cents. */
  datatype Json =
    | JNull
    | JBool(b: bool)
    | JInt(i: int)
    | JMoney(cents: Cents)
    | JStr(s: string)
    | JArray(items: seq<Json>)
    | JObject(members: seq<(string, Json)>)

  /** `obj.get(key)` on an object: the first member with that key. */
  function Get(j: Json, key: string): (r: Option<Json>)
    ensures r.Some? ==> j.JObject? && (key, r.value) in j.members
  {
    if !j.JObject? then None else Find(j.members, key)
  }

  function Find(ms: seq<(string, Json)>, key: string): (r: Option<Json>)
    ensures r.Some? ==> (key, r.value) in ms
    ensures r.None? ==> forall i :: 0 <= i < |ms| ==> ms[i].0 != key
  {
    if |ms| == 0 then None
    else if ms[0].0 == key then Some(ms[0].1)
    else
      var r := Find(ms[1..], key);
      r
  }

  // ------------------------------------------------------------------
  // Strings.

  function HexDigit(d: nat): (c: char)
    requires d < 16
  {
    if d < 10 then (48 + d) as char else (87 + d) as char
  }

  function HexValue(c: char): (r: Option<nat>)
    ensures r.Some? ==> r.value < 16
  {
    if '0' <= c <= '9' then Some(c as int - 48)
    else if 'a' <= c <= 'f' then Some(c as int - 87)
    else if 'A' <= c <= 'F' then Some(c as int - 55)
    else None
  }

  /** The escape `encode_basestring` writes for one character when
      `ensure_ascii` is off: quote, backslash and the control characters are
      escaped, everything else is written as it is. */
  function EscapeChar(c: char): (r: string)
    ensures |r| >= 1
  {
    var n := c as int;
    if c == '"' then "\\\""
    else if c == '\\' then "\\\\"
    else if c == '\n' then "\\n"
    else if c == '\r' then "\\r"
    else if c == '\t' then "\\t"
    else if n == 8 then "\\b"
    else if n == 12 then "\\f"
    else if n < 0x20 then "\\u00" + [HexDigit(n / 16), HexDigit(n % 16)]
    else [c]
  }

  function EscapeString(s: string): (r: string)
    ensures |r| >= |s|
  {
    if |s| == 0 then "" else EscapeChar(s[0]) + EscapeString(s[1..])
  }

  /** A JSON reader's view of an escaped string body: the character and the
      length of the escape at the head. */
  function UnescapeStep(s: string): (r: Option<(char, nat)>)
    requires |s| > 0
    ensures r.Some? ==> 1 <= r.value.1 <= |s|
  {
    if s[0] == '"' then None
    else if s[0] != '\\' then Some((s[0], 1))
    else if |s| < 2 then None
    else if s[1] == '"' then Some(('"', 2))
    else if s[1] == '\\' then Some(('\\', 2))
    else if s[1] == '/' then Some(('/', 2))
    else if s[1] == 'n' then Some(('\n', 2))
    else if s[1] == 'r' then Some(('\r', 2))
    else if s[1] == 't' then Some(('\t', 2))
    else if s[1] == 'b' then Some((8 as char, 2))
    else if s[1] == 'f' then Some((12 as char, 2))
    else if s[1] == 'u' && |s| >= 6 then
      match (HexValue(s[2]), HexValue(s[3]), HexValue(s[4]), HexValue(s[5]))
      case (Some(a), Some(b), Some(c), Some(d)) =>
        var n := ((a * 16 + b) * 16 + c) * 16 + d;
        if n < 0xD800 || 0xE000 <= n then Some((n as char, 6)) else None
      case _ => None
    else None
  }

  function UnescapeString(s: string): (r: Option<string>)
    decreases |s|
  {
    if |s| == 0 then Some("")
    else match UnescapeStep(s)
      case None => None
      case Some((c, k)) =>
        match UnescapeString(s[k..])
        case None => None
        case Some(rest) => Some([c] + rest)
  }

  lemma UnescapeStepOfEscape(c: char, rest: string)
    ensures UnescapeStep(EscapeChar(c) + rest) == Some((c, |EscapeChar(c)|))
  {
    var t := EscapeChar(c) + rest;
    var e := EscapeChar(c);
    assert t[..|e|] == e;
    var n := c as int;
    if n < 0x20 && c != '\n' && c != '\r' && c != '\t' && n != 8 && n != 12 {
      assert e == "\\u00" + [HexDigit(n / 16), HexDigit(n % 16)];
      assert t[1] == 'u' && t[2] == '0' && t[3] == '0';
      assert t[4] == HexDigit(n / 16) && t[5] == HexDigit(n % 16);
      assert HexValue(t[4]) == Some(n / 16) && HexValue(t[5]) == Some(n % 16);
    }
  }

  /** The escaping `json.dumps` applies is undone by a JSON reader. */
  lemma {:induction false} UnescapeEscapeString(s: string)
    ensures UnescapeString(EscapeString(s)) == Some(s)
    decreases |s|
  {
    if |s| > 0 {
      var e := EscapeChar(s[0]);
      UnescapeStepOfEscape(s[0], EscapeString(s[1..]));
      assert (e + EscapeString(s[1..]))[|e|..] == EscapeString(s[1..]);
      UnescapeEscapeString(s[1..]);
      assert s == [s[0]] + s[1..];
    }
  }

  // ------------------------------------------------------------------
  // Text.

  function IntToString(i: int): string {
    if i < 0 then "-" + NatToString(-i) else NatToString(i)
  }

  /** `repr(float)` of an amount of cents: the shortest decimal that reads
      back, so whole amounts end in `.0` and trailing zeros are dropped. */
  function MoneyRepr(c: Cents): (s: string)
    ensures |s| >= 3
  {
    NatToString(c / 100) + "." +
      (if c % 100 == 0 then "0"
       else if c % 10 == 0 then [DigitChar(c % 100 / 10)]
       else PadDigits(c % 100, 2))
  }

  /** What `repr` prints, `float()` reads back to the same amount. */
  lemma MoneyReprReadsBack(c: Cents)
    ensures ParseMoneyText(MoneyRepr(c)) == Some(c)
  {
    if c % 10 == 0 {
      OneDecimalReadsBack(c);
    } else {
      assert MoneyRepr(c) == FormatCents(c);
      ParseMoneyTextOfFormat(c);
    }
  }

  lemma OneDecimalReadsBack(c: Cents)
    requires c % 10 == 0
    ensures ParseMoneyText(MoneyRepr(c)) == Some(c)
  {
    var whole := NatToString(c / 100);
    var d := c % 100 / 10;
    var s := MoneyRepr(c);
    assert s == whole + "." + [DigitChar(d)];
    assert DecimalCents(s) == Some(c) by {
      NatToStringValue(c / 100);
      assert s[..|s| - 2] == whole;
      assert s[|s| - 2] == '.' && !IsDigit(s[|s| - 2]);
      assert !AllDigits(s);
      assert IsDigit(s[|s| - 1]) && DigitValue(s[|s| - 1]) == d;
      assert c == c / 100 * 100 + d * 10;
    }
    assert IsDigit(s[0]) by { assert s[0] == whole[0]; }
  }

  function Spaces(n: nat): (s: string)
    ensures |s| == n
  {
    if n == 0 then "" else " " + Spaces(n - 1)
  }

  /** The text of `j` as the encoder writes it at nesting `level`. */
  function Render(j: Json, level: nat): (s: string)
    ensures |s| > 0
    decreases j, 1
  {
    match j
    case JNull => "null"
    case JBool(b) => if b then "true" else "false"
    case JInt(i) => IntToString(i)
    case JMoney(c) => MoneyRepr(c)
    case JStr(s) => "\"" + EscapeString(s) + "\""
    case JArray(items) =>
      if |items| == 0 then "[]"
      else "[" + RenderItems(items, level + 1) + "\n" + Spaces(2 * level) + "]"
    case JObject(ms) =>
      if |ms| == 0 then "{}"
      else "{" + RenderMembers(ms, level + 1) + "\n" + Spaces(2 * level) + "}"
  }

  function RenderItems(items: seq<Json>, level: nat): string
    requires |items| > 0
    decreases items, 0
  {
    "\n" + Spaces(2 * level) + Render(items[0], level)
      + (if |items| == 1 then "" else "," + RenderItems(items[1..], level))
  }

  function RenderMembers(ms: seq<(string, Json)>, level: nat): string
    requires |ms| > 0
    decreases ms, 0
  {
    "\n" + Spaces(2 * level) + RenderMember(ms[0], level)
      + (if |ms| == 1 then "" else "," + RenderMembers(ms[1..], level))
  }

  function RenderMember(m: (string, Json), level: nat): string
    decreases m, 0
  {
    "\"" + EscapeString(m.0) + "\": " + Render(m.1, level)
  }

  /** `json.dumps(j, ensure_ascii=False, indent=2)`. */
  function Dumps(j: Json): string {
    Render(j, 0)
  }
}

=== FILE: models.dfy ===
/** The record classes of data/models/funcionario.py and their dictionary
    codecs. A record crosses the store boundary as a Python `dict`; here a
    dictionary is a `map<string, Value>` whose values mirror the Python values
    the store hands back (money as whole cents). Where Python raises while
    decoding (`float(None)`, a malformed ISO date, ...), the decoder returns
    `Err`. */
module Models {
  import opened Common
  import opened Strings
  import opened Dates
  import opened Money

  datatype Value =
    | VNone
    | VBool(b: bool)
    | VInt(i: int)
    | VFloat(cents: Cents)
    | VStr(s: string)
    | VList(items: seq<Value>)

  type Dict = map<string, Value>

  /** Python truthiness: `None`, `False`, zero, `""` and `[]` are false. */
  predicate Truthy(v: Value) {
    match v
    case VNone => false
    case VBool(b) => b
    case VInt(i) => i != 0
    case VFloat(c) => c != 0
    case VStr(s) => s != ""
    case VList(items) => |items| > 0
  }

  /** `data.get(key, default)`. */
  function Lookup(data: Dict, key: string, default: Value): (v: Value)
    ensures key in data ==> v == data[key]
    ensures key !in data ==> v == default
  {
    if key in data then data[key] else default
  }

  /** `float(v)`; a negative number lies outside the cents model. */
  function ToFloat(v: Value): (r: Result<Cents>)
    ensures v.VFloat? ==> r == Ok(v.cents)
    ensures v.VNone? || v.VList? ==> r.Err?
  {
    match v
    case VFloat(c) => Ok(c)
    case VInt(i) => if i >= 0 then Ok(i * 100) else Err("negative amount")
    case VBool(b) => Ok(if b then 100 else 0)
    case VStr(s) =>
      (match ParseMoneyText(s)
       case Some(c) => Ok(c)
       case None => Err("could not convert string to float: " + s))
    case VNone => FloatError("NoneType")
    case VList(_) => FloatError("list")
  }

  function FloatError(typeName: string): (r: Result<Cents>)
    ensures r.Err?
  {
    Err("float() argument must be a string or a real number, not '" + typeName + "'")
  }

  /** `int(v)`: floats truncate toward zero, and text is read as `int()`
      reads a base-10 literal. */
  function ToInt(v: Value): (r: Result<int>)
    ensures v.VInt? ==> r == Ok(v.i)
    ensures v.VFloat? ==> r.Ok? && r.value * 100 <= v.cents < (r.value + 1) * 100
    ensures v.VStr? ==> (r.Ok? <==> PyInt(v.s).Some?)
    ensures v.VStr? && r.Ok? ==> r.value == PyInt(v.s).value
    ensures v.VNone? || v.VList? ==> r.Err?
  {
    match v
    case VInt(i) => Ok(i)
    case VFloat(c) => Ok(c / 100)
    case VBool(b) => Ok(if b then 1 else 0)
    case VStr(s) =>
      (match PyInt(s)
       case Some(n) => Ok(n)
       case None => Err("invalid literal for int() with base 10: " + s))
    case VNone => Err("int() argument must be a string, a bytes-like object or a real number, not 'NoneType'")
    case VList(_) => Err("int() argument must be a string, a bytes-like object or a real number, not 'list'")
  }

  /** A record id. Its text is what `str(uuid)` prints; the UUID syntax itself
      is not checked here. */
  datatype Uuid = Uuid(text: string)

  predicate WellFormedId(id: Option<Uuid>) {
    id.Some? ==> id.value.text != ""
  }

  predicate WellFormedDate(d: Option<Date>) {
    d.Some? ==> Valid(d.value)
  }

  /** `uuid.UUID(data["id"]) if data.get("id") else None`. */
  function IdField(data: Dict): (r: Result<Option<Uuid>>)
    ensures "id" !in data ==> r == Ok(None)
    ensures r.Ok? && r.value.Some? ==> "id" in data && data["id"] == VStr(r.value.value.text)
  {
    var v := Lookup(data, "id", VNone);
    if !Truthy(v) then Ok(None)
    else match v
      case VStr(s) => Ok(Some(Uuid(s)))
      case _ => Err("badly formed hexadecimal UUID string")
  }

  /** `data.get(key, default)` for a field the model keeps as plain text. */
  function TextField(data: Dict, key: string, default: string): (r: Result<string>)
    ensures key !in data ==> r == Ok(default)
    ensures key in data && data[key].VStr? ==> r == Ok(data[key].s)
  {
    match Lookup(data, key, VStr(default))
    case VStr(s) => Ok(s)
    case _ => Err("non-text value under " + key)
  }

  /** `data.get(key, default)` for a text field that may hold `None`. */
  function OptTextField(data: Dict, key: string, default: Option<string>): (r: Result<Option<string>>)
    ensures key !in data ==> r == Ok(default)
    ensures key in data && data[key].VStr? ==> r == Ok(Some(data[key].s))
    ensures key in data && data[key].VNone? ==> r == Ok(None)
  {
    if key !in data then Ok(default)
    else match data[key]
      case VNone => Ok(None)
      case VStr(s) => Ok(Some(s))
      case _ => Err("non-text value under " + key)
  }

  /** `date.fromisoformat(data[key]) if data.get(key) else None`. */
  function DateField(data: Dict, key: string): (r: Result<Option<Date>>)
    ensures key !in data ==> r == Ok(None)
    ensures r.Ok? && r.value.Some? ==> Valid(r.value.value)
  {
    var v := Lookup(data, key, VNone);
    if !Truthy(v) then Ok(None)
    else match v
      case VStr(s) =>
        (match FromIsoFormat(s)
         case Some(d) => Ok(Some(d))
         case None => Err("Invalid isoformat string: " + s))
      case _ => Err("fromisoformat: argument must be str")
  }

  /** `float(data.get(key, 0))`. */
  function MoneyField(data: Dict, key: string): (r: Result<Cents>)
    ensures key !in data ==> r == Ok(0)
  {
    ToFloat(Lookup(data, key, VInt(0)))
  }

  /** `float(data[key]) if data.get(key) is not None else None`: zero stays a
      number, only a missing key or `None` gives `None`. */
  function OptMoneyField(data: Dict, key: string): (r: Result<Option<Cents>>)
    ensures key !in data || data[key] == VNone ==> r == Ok(None)
    ensures key in data && data[key].VFloat? ==> r == Ok(Some(data[key].cents))
  {
    var v := Lookup(data, key, VNone);
    if v == VNone then Ok(None)
    else
      var c :- ToFloat(v);
      Ok(Some(c))
  }

  /** `int(data.get(key, default))`. */
  function IntField(data: Dict, key: string, default: int): (r: Result<int>)
    ensures key !in data ==> r == Ok(default)
    ensures key in data && data[key].VStr? ==> (r.Ok? <==> PyInt(data[key].s).Some?)
    ensures key in data && data[key].VStr? && r.Ok? ==> r.value == PyInt(data[key].s).value
  {
    ToInt(Lookup(data, key, VInt(default)))
  }

  /** `bool(data.get(key, False))`. */
  function BoolField(data: Dict, key: string): (b: bool)
    ensures key !in data ==> !b
  {
    Truthy(Lookup(data, key, VBool(false)))
  }

  /** `data.get(key)` for a raw value kept as is. */
  function RawField(data: Dict, key: string): (r: Option<Value>)
    ensures r.Some? <==> key in data && data[key] != VNone
  {
    if key in data && data[key] != VNone then Some(data[key]) else None
  }

  function TextValue(o: Option<string>): Value {
    match o
    case None => VNone
    case Some(s) => VStr(s)
  }

  /** `d.isoformat() if d else None`. */
  function DateValue(o: Option<Date>): Value
    requires WellFormedDate(o)
  {
    match o
    case None => VNone
    case Some(d) => VStr(IsoFormat(d))
  }

  function MoneyValue(o: Option<Cents>): Value {
    match o
    case None => VNone
    case Some(c) => VFloat(c)
  }

  /** `s if s else fallback` on an optional text. */
  function NonEmptyOr(o: Option<string>, fallback: Option<string>): Option<string> {
    if o.Some? && o.value != "" then o else fallback
  }

  /** `data["id"] = str(self.id)` when the record has an id. */
  function WithId(data: Dict, id: Option<Uuid>): (r: Dict)
    ensures "id" in r <==> "id" in data || id.Some?
  {
    match id
    case None => data
    case Some(u) => data["id" := VStr(u.text)]
  }

  lemma DateFieldOfValue(data: Dict, key: string, d: Option<Date>)
    requires WellFormedDate(d) && key in data && data[key] == DateValue(d)
    ensures DateField(data, key) == Ok(d)
  {
    if d.Some? {
      IsoRoundTrip(d.value);
    }
  }

  // ------------------------------------------------------------------
  // Funcionario: one waiter on one day.

  datatype Funcionario = Funcionario(
    id: Option<Uuid>,
    nome: string,
    valor: Cents,
    horaEntrada: string,
    horaSaida: string,
    diaTrabalho: Option<Date>,
    observacao: Option<string>,
    vale: Option<Cents>,
    tipoVale: Option<string>,
    pago: bool,
    tipoPagamento: Option<string>,
    createdAt: Option<string>,
    updatedAt: Option<string>)

  /** The dataclass defaults. */
  const DefaultFuncionario := Funcionario(
    None, "", 0, "08:00", "16:00", None, Some(""), None, None, false, Some("pix"), None, None)

  predicate WellFormedFuncionario(f: Funcionario) {
    WellFormedId(f.id) && WellFormedDate(f.diaTrabalho)
  }

  /** `Funcionario.to_dict`: timestamps are not written, an empty `tipo_vale`
      is written as `None` and an empty `tipo_pagamento` as `"pix"`. */
  function FuncionarioToDict(f: Funcionario): (d: Dict)
    requires WellFormedDate(f.diaTrabalho)
    ensures "id" in d <==> f.id.Some?
    ensures "created_at" !in d && "updated_at" !in d
    ensures "tipo_pagamento" in d && d["tipo_pagamento"].VStr? && d["tipo_pagamento"].s != ""
  {
    var data := map[
      "nome" := VStr(f.nome),
      "valor_10_percent" := VFloat(f.valor),
      "hora_entrada" := VStr(f.horaEntrada),
      "hora_saida" := VStr(f.horaSaida),
      "dia_trabalho" := DateValue(f.diaTrabalho),
      "observacao" := TextValue(f.observacao),
      "vale" := MoneyValue(f.vale),
      "tipo_vale" := TextValue(NonEmptyOr(f.tipoVale, None)),
      "pago" := VBool(f.pago),
      "tipo_pagamento" := TextValue(NonEmptyOr(f.tipoPagamento, Some("pix")))];
    WithId(data, f.id)
  }

  /** `Funcionario.from_dict`. */
  function FuncionarioFromDict(data: Dict): (r: Result<Funcionario>)
    ensures data == map[] ==> r == Ok(DefaultFuncionario)
    ensures r.Ok? ==> WellFormedDate(r.value.diaTrabalho)
    ensures r.Ok? ==> (r.value.vale.Some? <==> "vale" in data && data["vale"] != VNone)
  {
    var id :- IdField(data);
    var nome :- TextField(data, "nome", "");
    var valor :- MoneyField(data, "valor_10_percent");
    var entrada :- TextField(data, "hora_entrada", "08:00");
    var saida :- TextField(data, "hora_saida", "16:00");
    var dia :- DateField(data, "dia_trabalho");
    var obs :- OptTextField(data, "observacao", Some(""));
    var vale :- OptMoneyField(data, "vale");
    var tipoVale :- OptTextField(data, "tipo_vale", None);
    var tipoPagamento :- OptTextField(data, "tipo_pagamento", Some("pix"));
    var createdAt :- OptTextField(data, "created_at", None);
    var updatedAt :- OptTextField(data, "updated_at", None);
    Ok(Funcionario(id, nome, valor, entrada, saida, dia, obs, vale, tipoVale,
                   BoolField(data, "pago"), tipoPagamento, createdAt, updatedAt))
  }

  /** What survives a trip through a dictionary: everything but the
      timestamps, with the two normalisations `to_dict` applies. */
  function FuncionarioStored(f: Funcionario): Funcionario {
    f.(tipoVale := NonEmptyOr(f.tipoVale, None),
       tipoPagamento := NonEmptyOr(f.tipoPagamento, Some("pix")),
       createdAt := None, updatedAt := None)
  }

  /** `from_dict` is its field readers put together. */
  lemma FuncionarioFromFields(data: Dict, f: Funcionario)
    requires IdField(data) == Ok(f.id)
    requires TextField(data, "nome", "") == Ok(f.nome)
    requires MoneyField(data, "valor_10_percent") == Ok(f.valor)
    requires TextField(data, "hora_entrada", "08:00") == Ok(f.horaEntrada)
    requires TextField(data, "hora_saida", "16:00") == Ok(f.horaSaida)
    requires DateField(data, "dia_trabalho") == Ok(f.diaTrabalho)
    requires OptTextField(data, "observacao", Some("")) == Ok(f.observacao)
    requires OptMoneyField(data, "vale") == Ok(f.vale)
    requires OptTextField(data, "tipo_vale", None) == Ok(f.tipoVale)
    requires OptTextField(data, "tipo_pagamento", Some("pix")) == Ok(f.tipoPagamento)
    requires OptTextField(data, "created_at", None) == Ok(f.createdAt)
    requires OptTextField(data, "updated_at", None) == Ok(f.updatedAt)
    requires BoolField(data, "pago") == f.pago
    ensures FuncionarioFromDict(data) == Ok(f)
  {
  }

  lemma FuncionarioToDictTexts(f: Funcionario)
    requires WellFormedFuncionario(f)
    ensures var d := FuncionarioToDict(f);
      && TextField(d, "nome", "") == Ok(f.nome)
      && TextField(d, "hora_entrada", "08:00") == Ok(f.horaEntrada)
      && TextField(d, "hora_saida", "16:00") == Ok(f.horaSaida)
      && OptTextField(d, "observacao", Some("")) == Ok(f.observacao)
      && OptTextField(d, "tipo_vale", None) == Ok(NonEmptyOr(f.tipoVale, None))
      && OptTextField(d, "tipo_pagamento", Some("pix")) == Ok(NonEmptyOr(f.tipoPagamento, Some("pix")))
  {
  }

  lemma FuncionarioToDictNumbers(f: Funcionario)
    requires WellFormedFuncionario(f)
    ensures var d := FuncionarioToDict(f);
      && IdField(d) == Ok(f.id)
      && MoneyField(d, "valor_10_percent") == Ok(f.valor)
      && OptMoneyField(d, "vale") == Ok(f.vale)
      && BoolField(d, "pago") == f.pago
  {
  }

  lemma FuncionarioToDictOthers(f: Funcionario)
    requires WellFormedFuncionario(f)
    ensures var d := FuncionarioToDict(f);
      && IdField(d) == Ok(f.id)
      && MoneyField(d, "valor_10_percent") == Ok(f.valor)
      && DateField(d, "dia_trabalho") == Ok(f.diaTrabalho)
      && OptMoneyField(d, "vale") == Ok(f.vale)
      && OptTextField(d, "created_at", None) == Ok(None)
      && OptTextField(d, "updated_at", None) == Ok(None)
      && BoolField(d, "pago") == f.pago
  {
    FuncionarioToDictNumbers(f);
    DateFieldOfValue(FuncionarioToDict(f), "dia_trabalho", f.diaTrabalho);
    assert "created_at" !in FuncionarioToDict(f) && "updated_at" !in FuncionarioToDict(f);
  }

  lemma FuncionarioRoundTrip(f: Funcionario)
    requires WellFormedFuncionario(f)
    ensures FuncionarioFromDict(FuncionarioToDict(f)) == Ok(FuncionarioStored(f))
  {
    FuncionarioToDictTexts(f);
    FuncionarioToDictOthers(f);
    FuncionarioFromFields(FuncionarioToDict(f), FuncionarioStored(f));
  }

  /** A zero advance comes back as zero, an absent one as absent: `from_dict`
      tests `is not None`, not truthiness. */
  lemma ZeroAdvanceSurvives(f: Funcionario)
    requires WellFormedFuncionario(f) && f.vale == Some(0)
    ensures var r := FuncionarioFromDict(FuncionarioToDict(f)); r.Ok? && r.value.vale == Some(0)
    ensures var r := FuncionarioFromDict(FuncionarioToDict(f.(vale := None))); r.Ok? && r.value.vale == None
  {
    FuncionarioRoundTrip(f);
    assert FuncionarioStored(f).vale == Some(0);
    var g := f.(vale := None);
    FuncionarioRoundTrip(g);
    assert FuncionarioStored(g).vale == None;
  }

  // ------------------------------------------------------------------
  // FuncionarioBase: a registered waiter.

  datatype FuncionarioBase = FuncionarioBase(
    id: Option<Uuid>, nome: string, pix: string,
    createdAt: Option<string>, updatedAt: Option<string>)

  function FuncionarioBaseToDict(b: FuncionarioBase): (d: Dict)
    ensures "id" in d <==> b.id.Some?
  {
    WithId(map["nome" := VStr(b.nome), "pix" := VStr(b.pix)], b.id)
  }

  function FuncionarioBaseFromDict(data: Dict): (r: Result<FuncionarioBase>)
    ensures data == map[] ==> r == Ok(FuncionarioBase(None, "", "", None, None))
  {
    var id :- IdField(data);
    var nome :- TextField(data, "nome", "");
    var pix :- TextField(data, "pix", "");
    var createdAt :- OptTextField(data, "created_at", None);
    var updatedAt :- OptTextField(data, "updated_at", None);
    Ok(FuncionarioBase(id, nome, pix, createdAt, updatedAt))
  }

  lemma FuncionarioBaseRoundTrip(b: FuncionarioBase)
    requires WellFormedId(b.id)
    ensures FuncionarioBaseFromDict(FuncionarioBaseToDict(b)) == Ok(b.(createdAt := None, updatedAt := None))
  {
  }

  // ------------------------------------------------------------------
  // RegistroDiario: a daily entry keyed by the waiter's name.

  datatype RegistroDiario = RegistroDiario(
    id: Option<Uuid>,
    nomeFuncionario: string,
    diaTrabalho: Option<Date>,
    valor: Cents,
    horaEntrada: string,
    horaSaida: string,
    vale: Option<Cents>,
    tipoVale: Option<string>,
    pago: bool,
    observacao: Option<string>,
    createdAt: Option<string>,
    updatedAt: Option<string>)

  const DefaultRegistroDiario := RegistroDiario(
    None, "", None, 0, "08:00", "16:00", None, Some("pix"), false, Some(""), None, None)

  /** `RegistroDiario.to_dict`: unlike `Funcionario`, `tipo_vale` is written
      as it is. */
  function RegistroDiarioToDict(r: RegistroDiario): (d: Dict)
    requires WellFormedDate(r.diaTrabalho)
    ensures "id" in d <==> r.id.Some?
    ensures "tipo_vale" in d && d["tipo_vale"] == TextValue(r.tipoVale)
  {
    WithId(map[
      "nome_funcionario" := VStr(r.nomeFuncionario),
      "dia_trabalho" := DateValue(r.diaTrabalho),
      "valor_10_percent" := VFloat(r.valor),
      "hora_entrada" := VStr(r.horaEntrada),
      "hora_saida" := VStr(r.horaSaida),
      "vale" := MoneyValue(r.vale),
      "tipo_vale" := TextValue(r.tipoVale),
      "pago" := VBool(r.pago),
      "observacao" := TextValue(r.observacao)], r.id)
  }

  /** `RegistroDiario.from_dict`: a missing `tipo_vale` defaults to `"pix"`. */
  function RegistroDiarioFromDict(data: Dict): (r: Result<RegistroDiario>)
    ensures data == map[] ==> r == Ok(DefaultRegistroDiario)
    ensures "tipo_vale" !in data && r.Ok? ==> r.value.tipoVale == Some("pix")
  {
    var id :- IdField(data);
    var nome :- TextField(data, "nome_funcionario", "");
    var dia :- DateField(data, "dia_trabalho");
    var valor :- MoneyField(data, "valor_10_percent");
    var entrada :- TextField(data, "hora_entrada", "08:00");
    var saida :- TextField(data, "hora_saida", "16:00");
    var vale :- OptMoneyField(data, "vale");
    var tipoVale :- OptTextField(data, "tipo_vale", Some("pix"));
    var obs :- OptTextField(data, "observacao", Some(""));
    var createdAt :- OptTextField(data, "created_at", None);
    var updatedAt :- OptTextField(data, "updated_at", None);
    Ok(RegistroDiario(id, nome, dia, valor, entrada, saida, vale, tipoVale,
                      BoolField(data, "pago"), obs, createdAt, updatedAt))
  }

  lemma RegistroDiarioFromFields(data: Dict, r: RegistroDiario)
    requires IdField(data) == Ok(r.id)
    requires TextField(data, "nome_funcionario", "") == Ok(r.nomeFuncionario)
    requires DateField(data, "dia_trabalho") == Ok(r.diaTrabalho)
    requires MoneyField(data, "valor_10_percent") == Ok(r.valor)
    requires TextField(data, "hora_entrada", "08:00") == Ok(r.horaEntrada)
    requires TextField(data, "hora_saida", "16:00") == Ok(r.horaSaida)
    requires OptMoneyField(data, "vale") == Ok(r.vale)
    requires OptTextField(data, "tipo_vale", Some("pix")) == Ok(r.tipoVale)
    requires OptTextField(data, "observacao", Some("")) == Ok(r.observacao)
    requires OptTextField(data, "created_at", None) == Ok(r.createdAt)
    requires OptTextField(data, "updated_at", None) == Ok(r.updatedAt)
    requires BoolField(data, "pago") == r.pago
    ensures RegistroDiarioFromDict(data) == Ok(r)
  {
  }

  lemma RegistroDiarioToDictTexts(r: RegistroDiario)
    requires WellFormedDate(r.diaTrabalho)
    ensures var d := RegistroDiarioToDict(r);
      && TextField(d, "nome_funcionario", "") == Ok(r.nomeFuncionario)
      && TextField(d, "hora_entrada", "08:00") == Ok(r.horaEntrada)
      && TextField(d, "hora_saida", "16:00") == Ok(r.horaSaida)
      && OptTextField(d, "tipo_vale", Some("pix")) == Ok(r.tipoVale)
      && OptTextField(d, "observacao", Some("")) == Ok(r.observacao)
  {
  }

  lemma RegistroDiarioToDictNumbers(r: RegistroDiario)
    requires WellFormedId(r.id) && WellFormedDate(r.diaTrabalho)
    ensures var d := RegistroDiarioToDict(r);
      && IdField(d) == Ok(r.id)
      && MoneyField(d, "valor_10_percent") == Ok(r.valor)
      && OptMoneyField(d, "vale") == Ok(r.vale)
      && BoolField(d, "pago") == r.pago
  {
  }

  lemma RegistroDiarioToDictOthers(r: RegistroDiario)
    requires WellFormedId(r.id) && WellFormedDate(r.diaTrabalho)
    ensures var d := RegistroDiarioToDict(r);
      && IdField(d) == Ok(r.id)
      && DateField(d, "dia_trabalho") == Ok(r.diaTrabalho)
      && MoneyField(d, "valor_10_percent") == Ok(r.valor)
      && OptMoneyField(d, "vale") == Ok(r.vale)
      && OptTextField(d, "created_at", None) == Ok(None)
      && OptTextField(d, "updated_at", None) == Ok(None)
      && BoolField(d, "pago") == r.pago
  {
    RegistroDiarioToDictNumbers(r);
    DateFieldOfValue(RegistroDiarioToDict(r), "dia_trabalho", r.diaTrabalho);
    assert "created_at" !in RegistroDiarioToDict(r) && "updated_at" !in RegistroDiarioToDict(r);
  }

  lemma RegistroDiarioRoundTrip(r: RegistroDiario)
    requires WellFormedId(r.id) && WellFormedDate(r.diaTrabalho)
    ensures RegistroDiarioFromDict(RegistroDiarioToDict(r)) == Ok(r.(createdAt := None, updatedAt := None))
  {
    RegistroDiarioToDictTexts(r);
    RegistroDiarioToDictOthers(r);
    RegistroDiarioFromFields(RegistroDiarioToDict(r), r.(createdAt := None, updatedAt := None));
  }

  // ------------------------------------------------------------------
  // ObservacaoGeral: the free-text note of one day.

  datatype ObservacaoGeral = ObservacaoGeral(
    id: Option<Uuid>, diaTrabalho: Option<Date>, observacao: Option<string>,
    createdAt: Option<string>, updatedAt: Option<string>)

  function ObservacaoGeralToDict(o: ObservacaoGeral): (d: Dict)
    requires WellFormedDate(o.diaTrabalho)
    ensures "id" in d <==> o.id.Some?
  {
    WithId(map["dia_trabalho" := DateValue(o.diaTrabalho), "observacao" := TextValue(o.observacao)], o.id)
  }

  function ObservacaoGeralFromDict(data: Dict): (r: Result<ObservacaoGeral>)
    ensures data == map[] ==> r == Ok(ObservacaoGeral(None, None, Some(""), None, None))
  {
    var id :- IdField(data);
    var dia :- DateField(data, "dia_trabalho");
    var obs :- OptTextField(data, "observacao", Some(""));
    var createdAt :- OptTextField(data, "created_at", None);
    var updatedAt :- OptTextField(data, "updated_at", None);
    Ok(ObservacaoGeral(id, dia, obs, createdAt, updatedAt))
  }

  lemma ObservacaoGeralRoundTrip(o: ObservacaoGeral)
    requires WellFormedId(o.id) && WellFormedDate(o.diaTrabalho)
    ensures ObservacaoGeralFromDict(ObservacaoGeralToDict(o)) == Ok(o.(createdAt := None, updatedAt := None))
  {
    var d := ObservacaoGeralToDict(o);
    DateFieldOfValue(d, "dia_trabalho", o.diaTrabalho);
    assert IdField(d) == Ok(o.id);
    assert OptTextField(d, "observacao", Some("")) == Ok(o.observacao);
    assert OptTextField(d, "created_at", None) == Ok(None);
    assert OptTextField(d, "updated_at", None) == Ok(None);
  }

  // ------------------------------------------------------------------
  // The classes that are only ever decoded.

  datatype Configuracao = Configuracao(
    id: Option<Uuid>, emailDestinatario: string, emailRemetente: string,
    senhaApp: string, smtpHost: string, smtpPort: int)

  /** `Configuracao.from_dict`: SMTP host and port default to Gmail's
      submission service. */
  function ConfiguracaoFromDict(data: Dict): (r: Result<Configuracao>)
    ensures data == map[] ==> r == Ok(Configuracao(None, "", "", "", "smtp.gmail.com", 587))
    ensures r.Ok? && "smtp_host" !in data ==> r.value.smtpHost == "smtp.gmail.com"
    ensures r.Ok? && "smtp_port" !in data ==> r.value.smtpPort == 587
    ensures r.Ok? ==> IntField(data, "smtp_port", 587) == Ok(r.value.smtpPort)
    ensures IntField(data, "smtp_port", 587).Err? ==> r.Err?
  {
    var id :- IdField(data);
    var dest :- TextField(data, "email_destinatario", "");
    var rem :- TextField(data, "email_remetente", "");
    var senha :- TextField(data, "senha_app", "");
    var host :- TextField(data, "smtp_host", "smtp.gmail.com");
    var port :- IntField(data, "smtp_port", 587);
    Ok(Configuracao(id, dest, rem, senha, host, port))
  }

  /** A port stored as text is read as `int()` reads it: padded with white
      space, and with a plus sign. */
  lemma {:induction false} ConfiguracaoPortText(pre: string, n: nat, post: string)
    requires AllSpace(pre) && AllSpace(post)
    ensures ConfiguracaoFromDict(map["smtp_port" := VStr(pre + NatToString(n) + post)])
      == Ok(Configuracao(None, "", "", "", "smtp.gmail.com", n))
    ensures ConfiguracaoFromDict(map["smtp_port" := VStr(pre + ("+" + NatToString(n)) + post)])
      == Ok(Configuracao(None, "", "", "", "smtp.gmail.com", n))
  {
    var plain := pre + NatToString(n) + post;
    var signed := pre + ("+" + NatToString(n)) + post;
    PyIntPadded(pre, n, post);
    assert ToInt(VStr(plain)) == Ok(n);
    assert ToInt(VStr(signed)) == Ok(n);
    PortOnly(VStr(plain), n);
    PortOnly(VStr(signed), n);
  }

  /** A dictionary holding only `smtp_port` gives the defaults elsewhere. */
  lemma PortOnly(v: Value, port: int)
    requires ToInt(v) == Ok(port)
    ensures ConfiguracaoFromDict(map["smtp_port" := v]) == Ok(Configuracao(None, "", "", "", "smtp.gmail.com", port))
  {
    var d := map["smtp_port" := v];
    assert "id" !in d && "email_destinatario" !in d && "email_remetente" !in d;
    assert "senha_app" !in d && "smtp_host" !in d;
    assert IntField(d, "smtp_port", 587) == Ok(port);
  }

  datatype RegistroTrabalho = RegistroTrabalho(
    id: Option<Uuid>, diaTrabalho: Option<Date>, diaSemana: string,
    totalFuncionarios: int, totalValores: Cents, emailEnviado: bool, dataEnvio: Option<string>)

  function RegistroTrabalhoFromDict(data: Dict): (r: Result<RegistroTrabalho>)
    ensures data == map[] ==> r == Ok(RegistroTrabalho(None, None, "", 0, 0, false, None))
    ensures r.Ok? ==> IntField(data, "total_funcionarios", 0) == Ok(r.value.totalFuncionarios)
    ensures IntField(data, "total_funcionarios", 0).Err? ==> r.Err?
  {
    var id :- IdField(data);
    var dia :- DateField(data, "dia_trabalho");
    var diaSemana :- TextField(data, "dia_semana", "");
    var total :- IntField(data, "total_funcionarios", 0);
    var valores :- MoneyField(data, "total_valores");
    var dataEnvio :- OptTextField(data, "data_envio", None);
    Ok(RegistroTrabalho(id, dia, diaSemana, total, valores, BoolField(data, "email_enviado"), dataEnvio))
  }

  datatype Log = Log(
    id: Option<Uuid>, acao: string, tabela: string, registroId: Option<string>,
    dadosAnteriores: Option<Value>, dadosNovos: Option<Value>, usuario: string,
    ipOrigem: Option<string>, createdAt: Option<string>)

  /** `Log.from_dict`: the user defaults to `"sistema"`. */
  function LogFromDict(data: Dict): (r: Result<Log>)
    ensures data == map[] ==> r == Ok(Log(None, "", "", None, None, None, "sistema", None, None))
    ensures r.Ok? && "usuario" !in data ==> r.value.usuario == "sistema"
  {
    var id :- IdField(data);
    var acao :- TextField(data, "acao", "");
    var tabela :- TextField(data, "tabela", "");
    var registroId :- OptTextField(data, "registro_id", None);
    var usuario :- TextField(data, "usuario", "sistema");
    var ip :- OptTextField(data, "ip_origem", None);
    var createdAt :- OptTextField(data, "created_at", None);
    Ok(Log(id, acao, tabela, registroId, RawField(data, "dados_anteriores"),
           RawField(data, "dados_novos"), usuario, ip, createdAt))
  }

  datatype HistoricoPresenca = HistoricoPresenca(
    id: Option<Uuid>, nome: string, diaTrabalho: Option<Date>, horaEntrada: string,
    horaSaida: string, valor: Cents, observacao: Option<string>,
    createdAt: Option<string>, diaFormatado: string)

  function HistoricoPresencaFromDict(data: Dict): (r: Result<HistoricoPresenca>)
    ensures data == map[] ==> r == Ok(HistoricoPresenca(None, "", None, "08:00", "16:00", 0, Some(""), None, ""))
  {
    var id :- IdField(data);
    var nome :- TextField(data, "nome", "");
    var dia :- DateField(data, "dia_trabalho");
    var entrada :- TextField(data, "hora_entrada", "08:00");
    var saida :- TextField(data, "hora_saida", "16:00");
    var valor :- MoneyField(data, "valor_10_percent");
    var obs :- OptTextField(data, "observacao", Some(""));
    var createdAt :- OptTextField(data, "created_at", None);
    var formatado :- TextField(data, "dia_formatado", "");
    Ok(HistoricoPresenca(id, nome, dia, entrada, saida, valor, obs, createdAt, formatado))
  }

  datatype HistoricoPagamento = HistoricoPagamento(
    id: Option<Uuid>, nome: string, diaTrabalho: Option<Date>, valor: Cents,
    vale: Option<Cents>, tipoPagamento: Option<string>, pago: bool,
    dataPagamento: Option<string>, statusPagamento: string, numeroParcela: int)

  function HistoricoPagamentoFromDict(data: Dict): (r: Result<HistoricoPagamento>)
    ensures data == map[] ==> r == Ok(HistoricoPagamento(None, "", None, 0, None, Some("pix"), false, None, "", 0))
    ensures r.Ok? ==> IntField(data, "numero_parcela", 0) == Ok(r.value.numeroParcela)
    ensures IntField(data, "numero_parcela", 0).Err? ==> r.Err?
  {
    var id :- IdField(data);
    var nome :- TextField(data, "nome", "");
    var dia :- DateField(data, "dia_trabalho");
    var valor :- MoneyField(data, "valor_10_percent");
    var vale :- OptMoneyField(data, "vale");
    var tipo :- OptTextField(data, "tipo_pagamento", Some("pix"));
    var dataPagamento :- OptTextField(data, "data_pagamento", None);
    var status :- TextField(data, "status_pagamento", "");
    var parcela :- IntField(data, "numero_parcela", 0);
    Ok(HistoricoPagamento(id, nome, dia, valor, vale, tipo, BoolField(data, "pago"),
                          dataPagamento, status, parcela))
  }

  datatype TotalFuncionarios = TotalFuncionarios(
    totalCadastrados: int, totalRegistros: int, totalDiasTrabalhados: int,
    totalGeralPago: Cents, totalPago: Cents, totalPendente: Cents,
    primeiroRegistro: Option<Date>, ultimoRegistro: Option<Date>)

  function TotalFuncionariosFromDict(data: Dict): (r: Result<TotalFuncionarios>)
    ensures data == map[] ==> r == Ok(TotalFuncionarios(0, 0, 0, 0, 0, 0, None, None))
    ensures r.Ok? ==>
      && IntField(data, "total_cadastrados", 0) == Ok(r.value.totalCadastrados)
      && IntField(data, "total_registros", 0) == Ok(r.value.totalRegistros)
      && IntField(data, "total_dias_trabalhados", 0) == Ok(r.value.totalDiasTrabalhados)
    ensures (|| IntField(data, "total_cadastrados", 0).Err?
             || IntField(data, "total_registros", 0).Err?
             || IntField(data, "total_dias_trabalhados", 0).Err?) ==> r.Err?
  {
    var cadastrados :- IntField(data, "total_cadastrados", 0);
    var registros :- IntField(data, "total_registros", 0);
    var dias :- IntField(data, "total_dias_trabalhados", 0);
    var geral :- MoneyField(data, "total_geral_pago");
    var pago :- MoneyField(data, "total_pago");
    var pendente :- MoneyField(data, "total_pendente");
    var primeiro :- DateField(data, "primeiro_registro");
    var ultimo :- DateField(data, "ultimo_registro");
    Ok(TotalFuncionarios(cadastrados, registros, dias, geral, pago, pendente, primeiro, ultimo))
  }

  datatype DataCadastramento = DataCadastramento(
    nome: string, primeiroDiaTrabalho: Option<Date>, ultimoDiaTrabalho: Option<Date>,
    totalDiasTrabalhados: int, totalRecebido: Cents, dataCadastroBanco: Option<string>,
    diasTrabalhados: seq<Value>)

  /** The dataclass constructor with its `__post_init__`: a `None` list of
      days becomes the empty list. */
  function NewDataCadastramento(nome: string, primeiro: Option<Date>, ultimo: Option<Date>,
                                totalDias: int, totalRecebido: Cents, cadastro: Option<string>,
                                dias: Option<seq<Value>>): (r: DataCadastramento)
    ensures dias.None? ==> r.diasTrabalhados == []
    ensures dias.Some? ==> r.diasTrabalhados == dias.value
    ensures r.nome == nome && r.totalDiasTrabalhados == totalDias && r.totalRecebido == totalRecebido
  {
    DataCadastramento(nome, primeiro, ultimo, totalDias, totalRecebido, cadastro, dias.GetOr([]))
  }

  /** `DataCadastramento.from_dict`: a missing list and a `None` list both end
      up empty. */
  function DataCadastramentoFromDict(data: Dict): (r: Result<DataCadastramento>)
    ensures data == map[] ==> r == Ok(DataCadastramento("", None, None, 0, 0, None, []))
    ensures r.Ok? ==> IntField(data, "total_dias_trabalhados", 0) == Ok(r.value.totalDiasTrabalhados)
    ensures IntField(data, "total_dias_trabalhados", 0).Err? ==> r.Err?
    ensures r.Ok? && ("dias_trabalhados" !in data || data["dias_trabalhados"] == VNone) ==>
              r.value.diasTrabalhados == []
  {
    var nome :- TextField(data, "nome", "");
    var primeiro :- DateField(data, "primeiro_dia_trabalho");
    var ultimo :- DateField(data, "ultimo_dia_trabalho");
    var dias :- IntField(data, "total_dias_trabalhados", 0);
    var recebido :- MoneyField(data, "total_recebido");
    var cadastro :- OptTextField(data, "data_cadastro_banco", None);
    var lista :- match Lookup(data, "dias_trabalhados", VList([]))
      case VNone => Ok(None)
      case VList(items) => Ok(Some(items))
      case _ => Err("dias_trabalhados is not a list");
    Ok(NewDataCadastramento(nome, primeiro, ultimo, dias, recebido, cadastro, lista))
  }

  datatype RankingPagamento = RankingPagamento(
    posicao: int, nome: string, diasTrabalhados: int, totalRecebido: Cents,
    mediaDiaria: Cents, maiorDiaria: Cents, menorDiaria: Cents,
    totalPago: Cents, totalPendente: Cents)

  function RankingPagamentoFromDict(data: Dict): (r: Result<RankingPagamento>)
    ensures data == map[] ==> r == Ok(RankingPagamento(0, "", 0, 0, 0, 0, 0, 0, 0))
    ensures r.Ok? ==>
      && IntField(data, "posicao", 0) == Ok(r.value.posicao)
      && IntField(data, "dias_trabalhados", 0) == Ok(r.value.diasTrabalhados)
    ensures IntField(data, "posicao", 0).Err? || IntField(data, "dias_trabalhados", 0).Err? ==> r.Err?
  {
    var posicao :- IntField(data, "posicao", 0);
    var nome :- TextField(data, "nome", "");
    var dias :- IntField(data, "dias_trabalhados", 0);
    var total :- MoneyField(data, "total_recebido");
    var media :- MoneyField(data, "media_diaria");
    var maior :- MoneyField(data, "maior_diaria");
    var menor :- MoneyField(data, "menor_diaria");
    var pago :- MoneyField(data, "total_pago");
    var pendente :- MoneyField(data, "total_pendente");
    Ok(RankingPagamento(posicao, nome, dias, total, media, maior, menor, pago, pendente))
  }

  // ------------------------------------------------------------------
  // Sums over a day's records, shared by the report, the e-mail and both UIs.

  function ValorOf(f: Funcionario): int {
    f.valor
  }

  /** `sum(f.valor_10_percent for f in funcionarios)`. */
  function TotalOf(fs: seq<Funcionario>): (t: Cents)
    ensures |fs| == 0 ==> t == 0
  {
    SumByNonNegative(fs, ValorOf);
    SumBy(fs, ValorOf)
  }

  lemma TotalOfAppend(a: seq<Funcionario>, b: seq<Funcionario>)
    ensures TotalOf(a + b) == TotalOf(a) + TotalOf(b)
  {
    SumByAppend(a, b, ValorOf);
  }
}

=== FILE: money.dfy ===
/** Money. The source keeps amounts in binary floats and prints them with
    `:.2f`; here an amount is an exact, non-negative number of cents, so that
    `:.2f` becomes an exact rendering and can be read back. */
module Money {
  import opened Common
  import opened Strings

  type Cents = nat

  /** `f"{amount:.2f}"` for an amount of `c` cents. */
  function FormatCents(c: Cents): (s: string)
    ensures |s| >= 4 && s[|s| - 3] == '.'
  {
    NatToString(c / 100) + "." + PadDigits(c % 100, 2)
  }

  /** Reads a `:.2f` rendering back: digits, a point, exactly two digits. */
  function ParseCents(s: string): (r: Option<Cents>)
    ensures r.Some? ==> |s| >= 4 && s[|s| - 3] == '.'
  {
    if |s| >= 4 && s[|s| - 3] == '.' && AllDigits(s[..|s| - 3]) && AllDigits(s[|s| - 2..])
    then Some(DigitsValue(s[..|s| - 3]) * 100 + DigitsValue(s[|s| - 2..]))
    else None
  }

  lemma Pow10Two()
    ensures Pow10(2) == 100
  {
    assert Pow10(1) == 10;
  }

  /** The two-decimal rendering loses nothing: it reads back to the same cents. */
  lemma FormatCentsRoundTrip(c: Cents)
    ensures ParseCents(FormatCents(c)) == Some(c)
  {
    var s := FormatCents(c);
    var whole := NatToString(c / 100);
    assert s[..|s| - 3] == whole;
    assert s[|s| - 2..] == PadDigits(c % 100, 2);
    NatToStringValue(c / 100);
    Pow10Two();
    PadDigitsValue(c % 100, 2);
  }

  /** Hence two amounts print alike exactly when they are equal. */
  lemma FormatCentsInjective(a: Cents, b: Cents)
    ensures FormatCents(a) == FormatCents(b) <==> a == b
  {
    FormatCentsRoundTrip(a);
    FormatCentsRoundTrip(b);
  }

  /** Python's `float(text)` on what an operator types into an amount field,
      restricted to non-negative decimals with at most two fractional digits:
      a leading `+` is dropped, then `12`, `12.`, `12.5`, `.5`, `.50` and
      `12.50` are read. `None` stands for the `ValueError` raised on anything
      else. */
  function ParseMoneyText(s: string): (r: Option<Cents>)
    ensures r.Some? ==> |s| > 0
    ensures |s| > 0 && s[0] != '+' ==> r == DecimalCents(s)
  {
    if |s| > 0 && s[0] == '+' then DecimalCents(s[1..]) else DecimalCents(s)
  }

  /** A bare decimal with at most two fractional digits, as cents. */
  function DecimalCents(t: string): (r: Option<Cents>)
    ensures r.Some? ==> |t| > 0
    ensures |t| > 0 && AllDigits(t) ==> r == Some(DigitsValue(t) * 100)
  {
    if |t| > 0 && AllDigits(t) then Some(DigitsValue(t) * 100)
    else if |t| >= 2 && t[|t| - 1] == '.' && AllDigits(t[..|t| - 1]) then
      Some(DigitsValue(t[..|t| - 1]) * 100)
    else if |t| >= 2 && t[|t| - 2] == '.' && AllDigits(t[..|t| - 2]) && IsDigit(t[|t| - 1]) then
      Some(DigitsValue(t[..|t| - 2]) * 100 + DigitValue(t[|t| - 1]) * 10)
    else if |t| == 3 && t[0] == '.' && AllDigits(t[1..]) then
      Some(DigitsValue(t[1..]))
    else ParseCents(t)
  }

  /** Whatever `:.2f` prints, the amount fields accept back unchanged. */
  lemma ParseMoneyTextOfFormat(c: Cents)
    ensures ParseMoneyText(FormatCents(c)) == Some(c)
  {
    var s := FormatCents(c);
    assert IsDigit(s[0]) by { assert s[0] == NatToString(c / 100)[0]; }
    assert IsDigit(s[|s| - 1]) by { assert s[|s| - 1] == PadDigits(c % 100, 2)[1]; }
    assert !IsDigit(s[|s| - 3]);
    assert !AllDigits(s);
    assert s[|s| - 1] != '.' by { assert IsDigit(s[|s| - 1]) by { assert s[|s| - 1] == PadDigits(c % 100, 2)[1]; } }
    assert s[|s| - 2] != '.' by { assert IsDigit(s[|s| - 2]) by { assert s[|s| - 2] == PadDigits(c % 100, 2)[0]; } }
    FormatCentsRoundTrip(c);
  }

  /** A whole number typed without decimals is that many units. */
  lemma ParseMoneyTextWhole(n: nat)
    ensures ParseMoneyText(NatToString(n)) == Some(100 * n)
  {
    var s := NatToString(n);
    assert DecimalCents(s) == Some(100 * n) by {
      NatToStringValue(n);
    }
    assert IsDigit(s[0]);
  }

  /** A `+` in front of a rendered amount changes nothing. */
  lemma ParseMoneyTextSigned(c: Cents)
    ensures ParseMoneyText("+" + FormatCents(c)) == Some(c)
  {
    var s := FormatCents(c);
    ParseMoneyTextOfFormat(c);
    assert ("+" + s)[1..] == s;
  }

  /** The integer part may be left out: `.5` is half a unit. */
  lemma ParseMoneyTextLeadingPoint(a: char, b: char)
    requires IsDigit(a) && IsDigit(b)
    ensures ParseMoneyText(['.', a]) == Some(DigitValue(a) * 10)
    ensures ParseMoneyText(['.', a, b]) == Some(DigitValue(a) * 10 + DigitValue(b))
  {
    var s1, s2 := ['.', a], ['.', a, b];
    assert DecimalCents(s1) == Some(DigitValue(a) * 10) by {
      assert !IsDigit(s1[0]) && s1[..0] == "";
    }
    assert DecimalCents(s2) == Some(DigitValue(a) * 10 + DigitValue(b)) by {
      assert !IsDigit(s2[0]) && s2[1..] == [a, b] && [a, b][..1] == [a];
      assert DigitsValue([a, b]) == DigitValue(a) * 10 + DigitValue(b);
    }
  }
}

=== FILE: report.dfy ===
/** services/report_generator.py: one day's records rendered in six formats.
    The textual formats are modelled down to their text (CSV, HTML) or down to
    the value tree the library serialises (JSON, XML); the two binary formats
    are modelled by their layout. */
module Report {
  import opened Common
  import opened Strings
  import opened Dates
  import opened Money
  import opened Settings
  import opened Models
  import Json
  import Xml
  import Csv
  import Utf8

  /** A `ReportGenerator` after `__init__`. */
  datatype Generator = Generator(funcionarios: seq<Funcionario>, dia: Date, diaSemana: string, total: Cents)

  /** `ReportGenerator(funcionarios, dia_trabalho)`: the weekday label and the
      total are computed once, here. */
  function NewGenerator(fs: seq<Funcionario>, dia: Date): (g: Generator)
    requires Valid(dia)
    ensures g.funcionarios == fs && g.dia == dia
    ensures g.diaSemana != "" && g.diaSemana == DiasSemana[Weekday(dia)]
    ensures |fs| == 0 ==> g.total == 0
  {
    Generator(fs, dia, WeekdayLabel(dia), TotalOf(fs))
  }

  /** The report total is additive: the report of two lists joined totals
      what the two reports total. */
  lemma NewGeneratorTotalAppend(a: seq<Funcionario>, b: seq<Funcionario>, dia: Date)
    requires Valid(dia)
    ensures NewGenerator(a + b, dia).total == NewGenerator(a, dia).total + NewGenerator(b, dia).total
  {
    TotalOfAppend(a, b);
  }

  /** The total of a single record is that record's share. */
  lemma NewGeneratorTotalSingle(f: Funcionario, dia: Date)
    requires Valid(dia)
    ensures NewGenerator([f], dia).total == f.valor
  {
    assert [f][..0] == [];
    assert TotalOf([f]) == SumBy([f], ValorOf) == SumBy([f][..0], ValorOf) + ValorOf(f);
  }

  // ------------------------------------------------------------------
  // The three renderings of a record's note.

  // `f.observacao or "-"`, shown by HTML, DOCX, XLSX and the e-mail, is
  // `OrDefault(f.observacao, "-")`.

  /** `f.observacao or ""`: CSV and XML. */
  function NoteOrEmpty(o: Option<string>): (r: string)
    ensures o.Some? ==> r == o.value
    ensures o.None? ==> r == ""
  {
    match o
    case Some(s) => s
    case None => ""
  }

  /** JSON writes the raw value: `None` becomes `null`. */
  function NoteJson(o: Option<string>): (r: Json.Json)
    ensures o.None? <==> r.JNull?
    ensures o.Some? ==> r == Json.JStr(o.value)
  {
    match o
    case Some(s) => Json.JStr(s)
    case None => Json.JNull
  }

  /** A missing or empty note: `""` in CSV and XML, `"-"` where a dash is
      shown, and the two renderings agree on every other note. */
  lemma NoteRules(o: Option<string>)
    ensures OrDefault(o, "-") == (if NoteOrEmpty(o) == "" then "-" else NoteOrEmpty(o))
    ensures NoteOrEmpty(o) == "" <==> OrDefault(o, "-") == "-" && (o.None? || o.value != "-")
  {
  }

  // ------------------------------------------------------------------
  // CSV.

  const Headers: seq<string> := ["Nome", "10% (R$)", "Entrada", "Saída", "Observação"]

  /** One `writerow` of `generate_csv`. */
  function CsvRecord(f: Funcionario): (r: seq<string>)
    ensures |r| == |Headers|
    ensures r[0] == f.nome && r[2] == f.horaEntrada && r[3] == f.horaSaida
    ensures ParseCents(r[1]) == Some(f.valor)
    ensures r[4] == NoteOrEmpty(f.observacao)
  {
    FormatCentsRoundTrip(f.valor);
    [f.nome, FormatCents(f.valor), f.horaEntrada, f.horaSaida, NoteOrEmpty(f.observacao)]
  }

  /** The rows `generate_csv` writes: the header, then one row per record in
      input order. */
  function CsvRows(g: Generator): (rows: seq<seq<string>>)
    ensures |rows| == |g.funcionarios| + 1
    ensures rows[0] == Headers
    ensures forall i :: 0 <= i < |g.funcionarios| ==> rows[i + 1] == CsvRecord(g.funcionarios[i])
    ensures Csv.WellFormedRows(rows)
  {
    ConsIndex(Headers, CsvRecords(g.funcionarios));
    [Headers] + CsvRecords(g.funcionarios)
  }

  /** One CSV row per record, in order. */
  function CsvRecords(fs: seq<Funcionario>): (r: seq<seq<string>>)
    ensures |r| == |fs|
    ensures forall i :: 0 <= i < |fs| ==> r[i] == CsvRecord(fs[i])
  {
    if |fs| == 0 then [] else [CsvRecord(fs[0])] + CsvRecords(fs[1..])
  }

  /** `generate_csv()`. */
  function GenerateCsv(g: Generator): string {
    Csv.EncodeRows(CsvRows(g))
  }

  /** Read back with the excel dialect, the CSV text is exactly the header
      followed by one row per record, in order. */
  lemma CsvReadsBack(g: Generator)
    ensures Csv.ParseRows(GenerateCsv(g)) == Some(CsvRows(g))
  {
    Csv.ParseEncodeRows(CsvRows(g));
  }

  /** A field without a comma, quote or line break is written as it is. */
  lemma PlainField(h: string)
    requires forall i :: 0 <= i < |h| ==> !Csv.IsSpecial(h[i])
    ensures Csv.EncodeField(h) == h
  {
  }

  /** A field with no character that forces quoting. */
  predicate Plain(h: string) {
    forall i :: 0 <= i < |h| ==> !Csv.IsSpecial(h[i])
  }

  /** A plain field in front of others is followed by a bare comma. */
  lemma JoinPlainFront(x: string, rest: seq<string>)
    requires Plain(x) && |rest| >= 1
    ensures Csv.JoinFields([x] + rest) == x + "," + Csv.JoinFields(rest)
  {
    PlainField(x);
    assert ([x] + rest)[0] == x && ([x] + rest)[1..] == rest;
  }

  /** Five plain fields are joined by bare commas. */
  lemma JoinFive(a: string, b: string, c: string, d: string, e: string)
    requires Plain(a) && Plain(b) && Plain(c) && Plain(d) && Plain(e)
    ensures Csv.JoinFields([a, b, c, d, e]) == a + "," + (b + "," + (c + "," + (d + "," + e)))
  {
    var de := d + "," + e;
    assert Csv.JoinFields([d, e]) == de by {
      PlainField(e);
      JoinPlainFront(d, [e]);
      assert [d] + [e] == [d, e];
    }
    var cde := c + "," + de;
    assert Csv.JoinFields([c, d, e]) == cde by {
      JoinPlainFront(c, [d, e]);
      assert [c] + [d, e] == [c, d, e];
    }
    var bcde := b + "," + cde;
    assert Csv.JoinFields([b, c, d, e]) == bcde by {
      JoinPlainFront(b, [c, d, e]);
      assert [b] + [c, d, e] == [b, c, d, e];
    }
    assert Csv.JoinFields([a, b, c, d, e]) == a + "," + bcde by {
      JoinPlainFront(a, [b, c, d, e]);
      assert [a] + [b, c, d, e] == [a, b, c, d, e];
    }
  }

  /** The header line: every heading is written as it is. */
  lemma HeaderLine()
    ensures Csv.EncodeRow(Headers) == "Nome" + "," + ("10% (R$)" + "," + ("Entrada" + "," + ("Saída" + "," + "Observação"))) + "\r\n"
  {
    assert Plain("Nome") && Plain("10% (R$)") && Plain("Entrada") && Plain("Saída") && Plain("Observação");
    JoinFive("Nome", "10% (R$)", "Entrada", "Saída", "Observação");
  }

  /** An empty day gives the header line alone. */
  lemma CsvOfEmptyDay(dia: Date)
    requires Valid(dia)
    ensures GenerateCsv(NewGenerator([], dia)) == "Nome" + "," + ("10% (R$)" + "," + ("Entrada" + "," + ("Saída" + "," + "Observação"))) + "\r\n"
  {
    var rows := CsvRows(NewGenerator([], dia));
    assert rows == [Headers];
    HeaderLine();
    assert Csv.EncodeRows(rows) == Csv.EncodeRow(Headers) + Csv.EncodeRows([]);
  }

  // ------------------------------------------------------------------
  // JSON.

  function JsonRecord(f: Funcionario): Json.Json {
    Json.JObject([
      ("nome", Json.JStr(f.nome)),
      ("valor_10_percent", Json.JMoney(f.valor)),
      ("hora_entrada", Json.JStr(f.horaEntrada)),
      ("hora_saida", Json.JStr(f.horaSaida)),
      ("observacao", NoteJson(f.observacao))])
  }

  /** `sum(...)` of an empty list is the integer `0`; of a non-empty list of
      floats, a float. */
  function JsonTotal(g: Generator): Json.Json {
    if |g.funcionarios| == 0 then Json.JInt(0) else Json.JMoney(g.total)
  }

  /** The `data` dictionary of `generate_json`, keys in insertion order. */
  function JsonTree(g: Generator): Json.Json
    requires Valid(g.dia)
  {
    Json.JObject([
      ("relatorio", Json.JObject([
        ("data", Json.JStr(IsoFormat(g.dia))),
        ("dia_semana", Json.JStr(g.diaSemana)),
        ("total_funcionarios", Json.JInt(|g.funcionarios|)),
        ("total_valores", JsonTotal(g))])),
      ("funcionarios", Json.JArray(JsonRecords(g.funcionarios)))])
  }

  /** One JSON object per record, in order. */
  function JsonRecords(fs: seq<Funcionario>): (r: seq<Json.Json>)
    ensures |r| == |fs|
    ensures forall i :: 0 <= i < |fs| ==> r[i] == JsonRecord(fs[i])
  {
    if |fs| == 0 then [] else [JsonRecord(fs[0])] + JsonRecords(fs[1..])
  }

  /** `generate_json()`. */
  function GenerateJson(g: Generator): string
    requires Valid(g.dia)
  {
    Json.Dumps(JsonTree(g))
  }

  // ------------------------------------------------------------------
  // XML.

  function XmlRecord(f: Funcionario): Xml.Node {
    Xml.Branch("funcionario", [], [
      Xml.Leaf("nome", [], f.nome),
      Xml.Leaf("valor_10_percent", [], FormatCents(f.valor)),
      Xml.Leaf("hora_entrada", [], f.horaEntrada),
      Xml.Leaf("hora_saida", [], f.horaSaida),
      Xml.Leaf("observacao", [], NoteOrEmpty(f.observacao))])
  }

  /** One `funcionario` element per record, in order. */
  function XmlRecords(fs: seq<Funcionario>): (r: seq<Xml.Node>)
    ensures |r| == |fs|
    ensures forall i :: 0 <= i < |fs| ==> r[i] == XmlRecord(fs[i])
  {
    if |fs| == 0 then [] else [XmlRecord(fs[0])] + XmlRecords(fs[1..])
  }

  /** The element tree `generate_xml` builds. */
  function XmlTree(g: Generator): Xml.Node
    requires Valid(g.dia)
  {
    Xml.Branch("relatorio", [("data", IsoFormat(g.dia)), ("dia_semana", g.diaSemana)], [
      Xml.Branch("resumo", [], [
        Xml.Leaf("total_funcionarios", [], NatToString(|g.funcionarios|)),
        Xml.Leaf("total_valores", [], FormatCents(g.total))]),
      Xml.Branch("funcionarios", [], XmlRecords(g.funcionarios))])
  }

  /** `generate_xml()`: `Err` where `minidom.parseString` raises. */
  function GenerateXml(g: Generator): Result<string>
    requires Valid(g.dia)
  {
    var t :- Xml.Reparse(XmlTree(g));
    Ok(Xml.PrettyPrint(t))
  }

  /** Every text of a record is a legal XML character sequence. */
  predicate XmlSafe(f: Funcionario) {
    Xml.AllXmlChars(f.nome) && Xml.AllXmlChars(f.horaEntrada) && Xml.AllXmlChars(f.horaSaida)
    && Xml.AllXmlChars(NoteOrEmpty(f.observacao))
  }

  // ------------------------------------------------------------------
  // HTML.

  /** What the HTML report shows, before it is pasted into the template. */
  datatype HtmlPage = HtmlPage(
    date: string, diaSemana: string, count: string, total: string,
    rows: seq<seq<string>>, stamp: string)

  /** The five cells `_get_table_html` writes for a record. */
  function HtmlCells(f: Funcionario): (r: seq<string>)
    ensures |r| == |Headers|
  {
    [f.nome, "R$ " + FormatCents(f.valor), f.horaEntrada, f.horaSaida, OrDefault(f.observacao, "-")]
  }

  /** The cells of `_get_table_html`, one row per record, in order. */
  function HtmlRowsOf(fs: seq<Funcionario>): (r: seq<seq<string>>)
    ensures |r| == |fs|
    ensures forall i :: 0 <= i < |fs| ==> r[i] == HtmlCells(fs[i])
  {
    if |fs| == 0 then [] else [HtmlCells(fs[0])] + HtmlRowsOf(fs[1..])
  }

  function HtmlPageOf(g: Generator, now: DateTime): (p: HtmlPage)
    requires Valid(g.dia) && ValidDateTime(now)
    ensures FiveCells(p.rows) && |p.rows| == |g.funcionarios|
  {
    HtmlPage(
      BrFormat(g.dia), g.diaSemana, NatToString(|g.funcionarios|), FormatCents(g.total),
      HtmlRowsOf(g.funcionarios),
      Stamp(now))
  }

  /** One `<tr>` block of `_get_table_html`. */
  function HtmlRow(cells: seq<string>): string
    requires |cells| == 5
  {
    "\n            <tr>"
      + "\n                <td>" + cells[0] + "</td>"
      + "\n                <td>" + cells[1] + "</td>"
      + "\n                <td>" + cells[2] + "</td>"
      + "\n                <td>" + cells[3] + "</td>"
      + "\n                <td>" + cells[4] + "</td>"
      + "\n            </tr>"
  }

  predicate FiveCells(rows: seq<seq<string>>) {
    forall i :: 0 <= i < |rows| ==> |rows[i]| == 5
  }

  function HtmlRows(rows: seq<seq<string>>): string
    requires FiveCells(rows)
  {
    if |rows| == 0 then "" else HtmlRow(rows[0]) + HtmlRows(rows[1..])
  }

  /** `pieces[0] + values[0] + pieces[1] + ... + pieces[n]`: a template with
      its `n` holes filled in. */
  function Fill(pieces: seq<string>, values: seq<string>): (r: string)
    requires |pieces| == |values| + 1
    ensures |r| >= |pieces[0]| && r[..|pieces[0]|] == pieces[0]
  {
    if |values| == 0 then pieces[0] else pieces[0] + (values[0] + Fill(pieces[1..], values[1..]))
  }

  /** The fixed text of `generate_html`'s f-string, split at its seven
      replacement fields. */
  const HtmlTemplate: seq<string> := [
    "<!DOCTYPE html>\n<html lang=\"pt-BR\">\n<head>\n"
      + "    <meta charset=\"UTF-8\">\n    <title>Relatório de Salários - ",
    "</title>\n"
      + "    <style>\n"
      + "        body { font-family: Arial, sans-serif; margin: 40px; }\n"
      + "        h1 { color: #2E7D32; text-align: center; }\n"
      + "        .info { background: #E8F5E9; padding: 15px; border-radius: 8px; margin: 20px 0; }\n"
      + "        .info p { margin: 5px 0; }\n"
      + "        table { width: 100%; border-collapse: collapse; margin-top: 20px; }\n"
      + "        th { background: #1565C0; color: white; padding: 12px; text-align: left; }\n"
      + "        td { padding: 10px; border-bottom: 1px solid #ddd; }\n"
      + "        tr:nth-child(even) { background: #f9f9f9; }\n"
      + "        .total { font-weight: bold; font-size: 18px; color: #2E7D32; }\n"
      + "        .footer { margin-top: 30px; text-align: center; color: #666; font-size: 12px; }\n"
      + "    </style>\n"
      + "</head>\n"
      + "<body>\n"
      + "    <h1>RELATÓRIO DE SALÁRIOS DOS GARÇONS</h1>\n"
      + "    <div class=\"info\">\n"
      + "        <p><strong>Data:</strong> ",
    "</p>\n        <p><strong>Dia da Semana:</strong> ",
    "</p>\n        <p><strong>Total de Funcionários:</strong> ",
    "</p>\n        <p class=\"total\">Total a Pagar: R$ ",
    ""
      + "</p>\n"
      + "    </div>\n"
      + "    <table>\n"
      + "        <thead>\n"
      + "            <tr>\n"
      + "                <th>Nome</th>\n"
      + "                <th>10% (R$)</th>\n"
      + "                <th>Entrada</th>\n"
      + "                <th>Saída</th>\n"
      + "                <th>Observação</th>\n"
      + "            </tr>\n"
      + "        </thead>\n"
      + "        <tbody>\n"
      + "            ",
    "\n        </tbody>\n    </table>\n    <div class=\"footer\">\n        Gerado em ",
    "\n    </div>\n</body>\n</html>"]

  /** The page text of `generate_html`. */
  function HtmlText(p: HtmlPage): (s: string)
    requires FiveCells(p.rows)
    ensures |s| >= |HtmlTemplate[0]| && s[..|HtmlTemplate[0]|] == HtmlTemplate[0]
  {
    Fill(HtmlTemplate, [p.date, p.date, p.diaSemana, p.count, p.total, HtmlRows(p.rows), p.stamp])
  }

  /** `generate_html()`, with the footer stamp taken from `now`. */
  function GenerateHtml(g: Generator, now: DateTime): string
    requires Valid(g.dia) && ValidDateTime(now)
  {
    HtmlText(HtmlPageOf(g, now))
  }

  // ------------------------------------------------------------------
  // DOCX: the document's content, in order.

  datatype DocxLayout = DocxLayout(heading: string, info: seq<string>, table: seq<seq<string>>, footer: string)

  const Title := "RELATÓRIO DE SALÁRIOS DOS GARÇONS"

  function DocxCells(f: Funcionario): (r: seq<string>)
    ensures |r| == |Headers|
  {
    [f.nome, FormatCents(f.valor), f.horaEntrada, f.horaSaida, OrDefault(f.observacao, "-")]
  }

  /** One table row per record, in order. */
  function DocxRows(fs: seq<Funcionario>): (r: seq<seq<string>>)
    ensures |r| == |fs|
    ensures forall i :: 0 <= i < |fs| ==> r[i] == DocxCells(fs[i])
  {
    if |fs| == 0 then [] else [DocxCells(fs[0])] + DocxRows(fs[1..])
  }

  /** The document `generate_docx()` builds: a level-0 heading, four bold
      info runs, a five-column table whose first row is the header, and the
      footer paragraph. */
  function DocxOf(g: Generator, now: DateTime): DocxLayout
    requires Valid(g.dia) && ValidDateTime(now)
  {
    DocxLayout(
      Title,
      ["Data: " + BrFormat(g.dia) + "\n",
       "Dia da Semana: " + g.diaSemana + "\n",
       "Total de Funcionários: " + NatToString(|g.funcionarios|) + "\n",
       "Total a Pagar: R$ " + FormatCents(g.total)],
      [Headers] + DocxRows(g.funcionarios),
      "\nGerado em: " + Stamp(now))
  }

  /** Every text of the document is a sequence of XML 1.0 characters. lxml
      refuses to store any other character in a run, so python-docx raises
      `ValueError` while building a document that would hold one. */
  predicate DocxWritable(d: DocxLayout) {
    && Xml.AllXmlChars(d.heading)
    && XmlRow(d.info)
    && (forall i :: 0 <= i < |d.table| ==> XmlRow(d.table[i]))
    && Xml.AllXmlChars(d.footer)
  }

  predicate XmlRow(texts: seq<string>) {
    forall j :: 0 <= j < |texts| ==> Xml.AllXmlChars(texts[j])
  }

  const DocxCharError := "All strings must be XML compatible: Unicode or ASCII, no NULL bytes or control characters"

  /** `generate_docx()`: the document, or lxml's `ValueError`. */
  function GenerateDocx(g: Generator, now: DateTime): (r: Result<DocxLayout>)
    requires Valid(g.dia) && ValidDateTime(now)
    ensures r.Ok? <==> DocxWritable(DocxOf(g, now))
    ensures r.Ok? ==> r.value == DocxOf(g, now)
  {
    var d := DocxOf(g, now);
    if DocxWritable(d) then Ok(d) else Err(DocxCharError)
  }

  // ------------------------------------------------------------------
  // XLSX: the cells of the one worksheet.

  datatype Cell = Blank | Text(s: string) | Number(cents: Cents)

  /** A worksheet as its rows from row 1, each row its cells from column A. */
  datatype Sheet = Sheet(title: string, merged: string, rows: seq<seq<Cell>>)

  /** `ws.cell(row, column).value`, 1-based; cells never written are blank. */
  function CellAt(ws: Sheet, row: int, col: int): Cell {
    if 1 <= row <= |ws.rows| && 1 <= col <= |ws.rows[row - 1]| then ws.rows[row - 1][col - 1] else Blank
  }

  /** openpyxl keeps at most 32,767 characters of a text cell. */
  const MaxCellText := 32767

  /** The part of `s` a text cell keeps. */
  function CellText(s: string): (r: string)
    ensures r <= s && |r| <= MaxCellText
    ensures |s| <= MaxCellText ==> r == s
  {
    if |s| <= MaxCellText then s else s[..MaxCellText]
  }

  function SheetRecord(f: Funcionario): seq<Cell> {
    [Text(CellText(f.nome)), Number(f.valor), Text(CellText(f.horaEntrada)), Text(CellText(f.horaSaida)),
     Text(CellText(OrDefault(f.observacao, "-")))]
  }

  /** One worksheet row per record, in order. */
  function SheetRows(fs: seq<Funcionario>): (r: seq<seq<Cell>>)
    ensures |r| == |fs|
    ensures forall i :: 0 <= i < |fs| ==> r[i] == SheetRecord(fs[i])
  {
    if |fs| == 0 then [] else [SheetRecord(fs[0])] + SheetRows(fs[1..])
  }

  /** The worksheet `generate_excel()` fills: title in A1 (merged over
      A1:E1), date and weekday in row 2, count and total in row 3, header in
      row 5, one record per row from row 6. */
  function SheetOf(g: Generator): (ws: Sheet)
    requires Valid(g.dia)
    ensures ws.title == "Relatório" && |ws.rows| == 5 + |g.funcionarios|
  {
    var fs := g.funcionarios;
    Sheet("Relatório", "A1:E1", [
      [Text(Title)],
      [Text("Data: " + BrFormat(g.dia)), Text(CellText("Dia: " + g.diaSemana))],
      [Text("Total Funcionários: " + NatToString(|fs|)), Text("Total a Pagar: R$ " + FormatCents(g.total))],
      [],
      [Text(Headers[0]), Text(Headers[1]), Text(Headers[2]), Text(Headers[3]), Text(Headers[4])]]
      + SheetRows(fs))
  }

  /** `ILLEGAL_CHARACTERS_RE` of openpyxl: the C0 controls other than tab,
      line feed and carriage return. */
  predicate SheetIllegal(c: char) {
    var n := c as int;
    n <= 0x8 || n == 0xB || n == 0xC || 0xE <= n <= 0x1F
  }

  predicate SheetText(s: string) {
    forall i :: 0 <= i < |s| ==> !SheetIllegal(s[i])
  }

  /** No text cell holds a character openpyxl refuses. It checks a text
      when it is assigned, after cutting it to `MaxCellText`. */
  predicate SheetWritable(ws: Sheet) {
    forall r :: 0 <= r < |ws.rows| ==> SheetRow(ws.rows[r])
  }

  predicate SheetRow(row: seq<Cell>) {
    forall c :: 0 <= c < |row| ==> (row[c].Text? ==> SheetText(row[c].s))
  }

  /** The texts of a record's row, as openpyxl checks them. */
  predicate SheetSafe(f: Funcionario) {
    SheetText(CellText(f.nome)) && SheetText(CellText(f.horaEntrada)) && SheetText(CellText(f.horaSaida))
    && SheetText(CellText(OrDefault(f.observacao, "-")))
  }

  /** Whether the cell in row `i`, column `c` (both from zero) is the first
      text cell openpyxl refuses, in the order `generate_excel` assigns
      them: row by row, left to right. */
  predicate FirstRefusedAt(rows: seq<seq<Cell>>, i: nat, c: nat) {
    && i < |rows| && c < |rows[i]|
    && rows[i][c].Text? && !SheetText(rows[i][c].s)
    && (forall k :: 0 <= k < i ==> SheetRow(rows[k]))
    && SheetRow(rows[i][..c])
  }

  lemma SheetRowCons(row: seq<Cell>)
    requires |row| > 0
    ensures SheetRow(row) <==> (row[0].Text? ==> SheetText(row[0].s)) && SheetRow(row[1..])
  {
    assert forall c :: 1 <= c < |row| ==> row[1..][c - 1] == row[c];
  }

  lemma SheetRowPrefixCons(row: seq<Cell>, c: nat)
    requires c < |row| && (row[0].Text? ==> SheetText(row[0].s)) && SheetRow(row[1..][..c])
    ensures SheetRow(row[..c + 1])
  {
    assert forall k :: 0 <= k < c ==> row[1..][..c][k] == row[k + 1];
  }

  /** The column of the first text cell of a row that openpyxl refuses. */
  function FirstRefusedCell(row: seq<Cell>): (r: Option<nat>)
    ensures r.None? <==> SheetRow(row)
    ensures r.Some? ==>
      r.value < |row| && row[r.value].Text? && !SheetText(row[r.value].s) && SheetRow(row[..r.value])
  {
    if |row| == 0 then None
    else
      SheetRowCons(row);
      if row[0].Text? && !SheetText(row[0].s) then Some(0)
      else match FirstRefusedCell(row[1..])
        case None => None
        case Some(c) =>
          SheetRowPrefixCons(row, c);
          Some(c + 1)
  }

  /** The position of the first text cell openpyxl refuses, if any. */
  function FirstRefused(rows: seq<seq<Cell>>): (r: Option<(nat, nat)>)
    ensures r.None? <==> forall k :: 0 <= k < |rows| ==> SheetRow(rows[k])
    ensures r.Some? ==> FirstRefusedAt(rows, r.value.0, r.value.1)
  {
    if |rows| == 0 then None
    else match FirstRefusedCell(rows[0])
      case Some(c) => Some((0, c))
      case None =>
        assert forall k :: 1 <= k < |rows| ==> rows[1..][k - 1] == rows[k];
        match FirstRefused(rows[1..])
        case None => None
        case Some((i, c)) => Some((i + 1, c))
  }

  /** Only one cell is the first refused one, so the message below is
      determined by the sheet. */
  lemma FirstRefusedUnique(rows: seq<seq<Cell>>, i: nat, c: nat, j: nat, d: nat)
    requires FirstRefusedAt(rows, i, c) && FirstRefusedAt(rows, j, d)
    ensures i == j && c == d
  {
  }

  const RefusedSuffix := " cannot be used in worksheets."

  /** `generate_excel()`: the worksheet, or the `IllegalCharacterError` of
      the first cell openpyxl refuses, whose message is that cell's text
      (cut to the cell limit) followed by " cannot be used in worksheets.". */
  function GenerateExcel(g: Generator): (r: Result<Sheet>)
    requires Valid(g.dia)
    ensures r.Ok? <==> SheetWritable(SheetOf(g))
    ensures r.Ok? ==> r.value == SheetOf(g)
    ensures r.Err? ==> exists i: nat, c: nat ::
      FirstRefusedAt(SheetOf(g).rows, i, c) && r.message == SheetOf(g).rows[i][c].s + RefusedSuffix
  {
    var ws := SheetOf(g);
    match FirstRefused(ws.rows)
    case None => Ok(ws)
    case Some((i, c)) => Err(ws.rows[i][c].s + RefusedSuffix)
  }

  /** `generate_excel` puts the header in row 5, the title in A1 and leaves
      row 4 empty. */
  lemma ExcelHeader(g: Generator)
    requires Valid(g.dia)
    ensures var ws := SheetOf(g);
      && (forall c :: 1 <= c <= 5 ==> CellAt(ws, 5, c) == Text(Headers[c - 1]))
      && CellAt(ws, 1, 1) == Text(Title) && CellAt(ws, 4, 1) == Blank
  {
  }

  /** The five cells of a record's row. */
  lemma RecordCells(ws: Sheet, row: int, f: Funcionario)
    requires 1 <= row <= |ws.rows| && ws.rows[row - 1] == SheetRecord(f)
    ensures CellAt(ws, row, 1) == Text(CellText(f.nome)) && CellAt(ws, row, 2) == Number(f.valor)
    ensures CellAt(ws, row, 3) == Text(CellText(f.horaEntrada)) && CellAt(ws, row, 4) == Text(CellText(f.horaSaida))
    ensures CellAt(ws, row, 5) == Text(CellText(OrDefault(f.observacao, "-")))
  {
  }

  /** Row `6 + i` holds record `i`. */
  lemma ExcelRowAt(g: Generator, i: nat)
    requires Valid(g.dia) && i < |g.funcionarios|
    ensures 5 + i < |SheetOf(g).rows|
    ensures SheetOf(g).rows[5 + i] == SheetRecord(g.funcionarios[i])
  {
    var ws := SheetOf(g);
    assert ws.rows[5..] == SheetRows(g.funcionarios);
    assert ws.rows[5 + i] == ws.rows[5..][i];
  }

  /** The five cells of record `i`. */
  lemma ExcelRecordCells(g: Generator, i: nat)
    requires Valid(g.dia) && i < |g.funcionarios|
    ensures var ws := SheetOf(g);
      var f := g.funcionarios[i];
      && CellAt(ws, 6 + i, 1) == Text(CellText(f.nome)) && CellAt(ws, 6 + i, 2) == Number(f.valor)
      && CellAt(ws, 6 + i, 3) == Text(CellText(f.horaEntrada)) && CellAt(ws, 6 + i, 4) == Text(CellText(f.horaSaida))
      && CellAt(ws, 6 + i, 5) == Text(CellText(OrDefault(f.observacao, "-")))
  {
    ExcelRowAt(g, i);
    RecordCells(SheetOf(g), 6 + i, g.funcionarios[i]);
  }

  /** Record `i` is in row `6 + i`, its amount a number in column B. */
  lemma ExcelRecords(g: Generator)
    requires Valid(g.dia)
    ensures var ws := SheetOf(g);
      forall i :: 0 <= i < |g.funcionarios| ==>
        && CellAt(ws, 6 + i, 1) == Text(CellText(g.funcionarios[i].nome))
        && CellAt(ws, 6 + i, 2) == Number(g.funcionarios[i].valor)
        && CellAt(ws, 6 + i, 3) == Text(CellText(g.funcionarios[i].horaEntrada))
        && CellAt(ws, 6 + i, 4) == Text(CellText(g.funcionarios[i].horaSaida))
        && CellAt(ws, 6 + i, 5) == Text(CellText(OrDefault(g.funcionarios[i].observacao, "-")))
  {
    forall i | 0 <= i < |g.funcionarios| {
      ExcelRecordCells(g, i);
    }
  }

  /** Nothing is written below the last record. */
  lemma ExcelBlankBelow(g: Generator)
    requires Valid(g.dia)
    ensures var ws := SheetOf(g);
      forall r, c :: r > 5 + |g.funcionarios| ==> CellAt(ws, r, c) == Blank
  {
  }

  // ------------------------------------------------------------------
  // generate_all.

  /** A textual report, held as the structure its text is rendered from. */
  datatype TextReport =
    | CsvReport(rows: seq<seq<string>>)
    | JsonReport(tree: Json.Json)
    | XmlReport(root: Xml.Node)
    | HtmlReport(page: HtmlPage)

  predicate Renderable(t: TextReport) {
    (t.CsvReport? ==> Csv.WellFormedRows(t.rows)) && (t.HtmlReport? ==> FiveCells(t.page.rows))
  }

  /** The text of a textual report. */
  function TextOf(t: TextReport): string
    requires Renderable(t)
  {
    match t
    case CsvReport(rows) => Csv.EncodeRows(rows)
    case JsonReport(tree) => Json.Dumps(tree)
    case XmlReport(root) => Xml.PrettyPrint(root)
    case HtmlReport(page) => HtmlText(page)
  }

  /** A value of the `generate_all` dictionary: the DOCX and XLSX documents,
      and the textual reports whose bytes are the UTF-8 encoding of their
      text. */
  datatype Payload = Document(layout: DocxLayout) | Workbook(sheet: Sheet) | Utf8Text(report: TextReport)

  /** `.encode('utf-8')` of a textual payload. */
  function BytesOf(p: Payload): (b: seq<Utf8.byte>)
    requires p.Utf8Text? && Renderable(p.report)
    ensures Utf8.Decode(b) == Some(TextOf(p.report))
  {
    Utf8.DecodeEncode(TextOf(p.report));
    Utf8.Encode(TextOf(p.report))
  }

  /** The keys of `REPORT_FORMATS`, as a set. */
  const FormatKeys: set<string> := {"docx", "excel", "csv", "json", "xml", "html"}

  lemma FormatKeysAreReportFormats()
    ensures forall k :: k in FormatKeys <==> k in ReportFormats
  {
  }

  /** The dictionary literal of `generate_all`. */
  function Bundle(docx: Payload, excel: Payload, csv: Payload, json: Payload, xml: Payload, html: Payload)
    : (m: map<string, Payload>)
    ensures m.Keys == FormatKeys
    ensures m["docx"] == docx && m["excel"] == excel && m["csv"] == csv
    ensures m["json"] == json && m["xml"] == xml && m["html"] == html
  {
    map["docx" := docx, "excel" := excel, "csv" := csv, "json" := json, "xml" := xml, "html" := html]
  }

  /** `generate_all()`: the six payloads under the keys of `REPORT_FORMATS`;
      `Err` where one of the generators it calls raises. */
  function GenerateAll(g: Generator, now: DateTime): (r: Result<map<string, Payload>>)
    requires Valid(g.dia) && ValidDateTime(now)
    ensures r.Ok? <==> GenerateDocx(g, now).Ok? && GenerateExcel(g).Ok? && GenerateXml(g).Ok?
    ensures r.Ok? ==> r.value.Keys == FormatKeys
  {
    var docx :- GenerateDocx(g, now);
    var ws :- GenerateExcel(g);
    var root :- Xml.Reparse(XmlTree(g));
    Ok(Bundle(
      Document(docx),
      Workbook(ws),
      Utf8Text(CsvReport(CsvRows(g))),
      Utf8Text(JsonReport(JsonTree(g))),
      Utf8Text(XmlReport(root)),
      Utf8Text(HtmlReport(HtmlPageOf(g, now)))))
  }

  /** The four textual entries decode back to the texts the single-format
      generators produce. */
  lemma GenerateAllCsv(g: Generator, now: DateTime)
    requires Valid(g.dia) && ValidDateTime(now)
    requires GenerateAll(g, now).Ok?
    ensures var m := GenerateAll(g, now).value;
      m["csv"].Utf8Text? && Renderable(m["csv"].report)
      && Utf8.Decode(BytesOf(m["csv"])) == Some(GenerateCsv(g))
  {
  }

  lemma GenerateAllJson(g: Generator, now: DateTime)
    requires Valid(g.dia) && ValidDateTime(now)
    requires GenerateAll(g, now).Ok?
    ensures var m := GenerateAll(g, now).value;
      m["json"].Utf8Text? && Renderable(m["json"].report)
      && Utf8.Decode(BytesOf(m["json"])) == Some(GenerateJson(g))
  {
  }

  lemma GenerateAllXml(g: Generator, now: DateTime)
    requires Valid(g.dia) && ValidDateTime(now)
    requires GenerateAll(g, now).Ok?
    ensures var m := GenerateAll(g, now).value;
      m["xml"].Utf8Text? && Renderable(m["xml"].report)
      && Utf8.Decode(BytesOf(m["xml"])) == Some(GenerateXml(g).value)
  {
    var root := Xml.Reparse(XmlTree(g)).value;
    assert GenerateAll(g, now).value["xml"] == Utf8Text(XmlReport(root));
  }

  /** The `html` entry holds the page `generate_html` renders, so by
      `BytesOf` its bytes decode to that page's text. */
  lemma GenerateAllHtml(g: Generator, now: DateTime)
    requires Valid(g.dia) && ValidDateTime(now)
    requires GenerateAll(g, now).Ok?
    ensures var m := GenerateAll(g, now).value;
      m["html"] == Utf8Text(HtmlReport(HtmlPageOf(g, now)))
  {
  }

  /** The kind of each entry: a document, a workbook, and four texts whose
      reports are the CSV rows, the JSON tree, the parsed XML tree and the
      HTML page. */
  lemma GenerateAllKinds(g: Generator, now: DateTime)
    requires Valid(g.dia) && ValidDateTime(now)
    requires GenerateAll(g, now).Ok?
    ensures var m := GenerateAll(g, now).value;
      && m["docx"].Document? && m["excel"].Workbook?
      && m["csv"] == Utf8Text(CsvReport(CsvRows(g)))
      && m["json"] == Utf8Text(JsonReport(JsonTree(g)))
      && m["xml"].Utf8Text? && m["xml"].report.XmlReport?
      && m["html"] == Utf8Text(HtmlReport(HtmlPageOf(g, now)))
  {
  }

  /** The two documents and the parsed XML tree, entry by entry. */
  lemma GenerateAllDocuments(g: Generator, now: DateTime)
    requires Valid(g.dia) && ValidDateTime(now)
    requires GenerateAll(g, now).Ok?
    ensures Xml.Reparse(XmlTree(g)).Ok?
    ensures var m := GenerateAll(g, now).value;
      && m["docx"] == Document(DocxOf(g, now))
      && m["excel"] == Workbook(SheetOf(g))
      && m["xml"] == Utf8Text(XmlReport(Xml.Reparse(XmlTree(g)).value))
  {
  }
}

=== FILE: settings.dfy ===
/** Process-wide settings read once at start-up (config/settings.py): secrets
    lookup with environment fallback, the SMTP defaults, the list of report
    formats and the weekday-name table. The secrets store and the environment
    are passed in as maps instead of being read as ambient state. */
module Settings {
  import opened Common
  import opened Strings
  import opened Dates

  /** `get_secret(key, default)`: the secrets store when it could be loaded and
      holds the key, else the environment variable, else the default. */
  function GetSecret(secrets: Option<map<string, string>>, env: map<string, string>,
                     key: string, default: string): (r: string)
    ensures secrets.Some? && key in secrets.value ==> r == secrets.value[key]
    ensures !(secrets.Some? && key in secrets.value) && key in env ==> r == env[key]
    ensures !(secrets.Some? && key in secrets.value) && key !in env ==> r == default
  {
    if secrets.Some? && key in secrets.value then secrets.value[key]
    else if key in env then env[key]
    else default
  }

  const DefaultSmtpHost := "smtp.gmail.com"
  const DefaultSmtpPort := 587

  datatype Settings = Settings(
    supabaseUrl: string,
    supabaseKey: string,
    emailDefault: string,
    senhaApp: string,
    smtpHost: string,
    smtpPort: int)

  /** The `SMTP_PORT` text `int()` is applied to: the looked-up value, with
      the empty string replaced by the default. */
  function PortText(secrets: Option<map<string, string>>, env: map<string, string>): (r: string)
    ensures r != ""
    ensures GetSecret(secrets, env, "SMTP_PORT", "587") != "" ==> r == GetSecret(secrets, env, "SMTP_PORT", "587")
  {
    var portText := GetSecret(secrets, env, "SMTP_PORT", "587");
    if portText == "" then "587" else portText
  }

  /** The `Settings` class body. `SMTP_PORT` falls back to 587 both when the
      key is missing and when it is set to the empty string; `SMTP_HOST` falls
      back only when the key is missing; the other four keys fall back to the
      empty string. A port `int()` cannot read makes the module import fail. */
  function LoadSettings(secrets: Option<map<string, string>>, env: map<string, string>): (r: Result<Settings>)
    ensures var port := GetSecret(secrets, env, "SMTP_PORT", "587");
            port == "" || port == "587" ==> r.Ok? && r.value.smtpPort == DefaultSmtpPort
    ensures r.Ok? <==> PyInt(PortText(secrets, env)).Some?
    ensures r.Ok? ==> r.value.smtpPort == PyInt(PortText(secrets, env)).value
    ensures r.Ok? ==> r.value.supabaseUrl == GetSecret(secrets, env, "SUPABASE_URL", "")
    ensures r.Ok? ==> r.value.supabaseKey == GetSecret(secrets, env, "SUPABASE_KEY", "")
    ensures r.Ok? ==> r.value.emailDefault == GetSecret(secrets, env, "EMAIL_DEFAULT", "")
    ensures r.Ok? ==> r.value.senhaApp == GetSecret(secrets, env, "SENHA_APP", "")
    ensures r.Ok? ==> r.value.smtpHost == GetSecret(secrets, env, "SMTP_HOST", DefaultSmtpHost)
    ensures r.Ok? && !(secrets.Some? && "SMTP_HOST" in secrets.value) && "SMTP_HOST" !in env ==>
              r.value.smtpHost == "smtp.gmail.com"
  {
    var portOrDefault := PortText(secrets, env);
    assert PyInt("587") == Some(DefaultSmtpPort) by {
      ParseNatToString(587);
      assert NatToString(587) == "587";
      PyIntOfPlain("587");
    }
    match PyInt(portOrDefault)
    case None => Err("invalid literal for int() with base 10: " + portOrDefault)
    case Some(port) =>
      Ok(Settings(
        GetSecret(secrets, env, "SUPABASE_URL", ""),
        GetSecret(secrets, env, "SUPABASE_KEY", ""),
        GetSecret(secrets, env, "EMAIL_DEFAULT", ""),
        GetSecret(secrets, env, "SENHA_APP", ""),
        GetSecret(secrets, env, "SMTP_HOST", DefaultSmtpHost),
        port))
  }

  /** A port written as a decimal, with white space around it and an
      optional sign, loads as that number. */
  lemma {:induction false} LoadSettingsPort(secrets: Option<map<string, string>>, env: map<string, string>,
                                            pre: string, n: nat, post: string)
    requires !(secrets.Some? && "SMTP_PORT" in secrets.value)
    requires AllSpace(pre) && AllSpace(post)
    ensures var e := env["SMTP_PORT" := pre + NatToString(n) + post];
            LoadSettings(secrets, e).Ok? && LoadSettings(secrets, e).value.smtpPort == n
    ensures var e := env["SMTP_PORT" := pre + ("+" + NatToString(n)) + post];
            LoadSettings(secrets, e).Ok? && LoadSettings(secrets, e).value.smtpPort == n
    ensures var e := env["SMTP_PORT" := pre + ("-" + NatToString(n)) + post];
            LoadSettings(secrets, e).Ok? && LoadSettings(secrets, e).value.smtpPort == -(n as int)
  {
    PyIntPadded(pre, n, post);
    var d := NatToString(n);
    assert d != "" by { assert |d| >= 1; }
    assert (pre + d + post) != "";
    assert (pre + ("+" + d) + post) != "";
    assert (pre + ("-" + d) + post) != "";
  }

  /** A port that is not a number at all stops the load. */
  lemma LoadSettingsRejectsWord(secrets: Option<map<string, string>>, env: map<string, string>)
    requires !(secrets.Some? && "SMTP_PORT" in secrets.value)
    ensures LoadSettings(secrets, env["SMTP_PORT" := "abc"]).Err?
  {
    var e := env["SMTP_PORT" := "abc"];
    assert PortText(secrets, e) == "abc";
    assert Strip("abc") == "abc" by {
      assert !IsPySpace('a') && !IsPySpace('c');
      StripPadded("", "abc", "");
      assert "" + "abc" + "" == "abc";
    }
    assert !IsDigit('a') && !IsDigit("abc"[1]);
    assert !SignedDigits("abc");
  }

  /** `REPORT_FORMATS`: the keys `generate_all` produces, in that order. */
  const ReportFormats: seq<string> := ["docx", "excel", "csv", "json", "xml", "html"]

  /** `DIAS_SEMANA`: weekday index (Monday = 0) to Portuguese day name. */
  const DiasSemana: map<int, string> := map[
    0 := "Segunda-feira",
    1 := "Terça-feira",
    2 := "Quarta-feira",
    3 := "Quinta-feira",
    4 := "Sexta-feira",
    5 := "Sábado",
    6 := "Domingo"]

  /** The table is total on 0..6, starts on Monday and names every day
      differently. */
  lemma DiasSemanaWellFormed()
    ensures forall i :: i in DiasSemana <==> 0 <= i < 7
    ensures DiasSemana[0] == "Segunda-feira" && DiasSemana[6] == "Domingo"
    ensures forall i, j :: i in DiasSemana && j in DiasSemana && i != j ==> DiasSemana[i] != DiasSemana[j]
    ensures forall i :: i in DiasSemana ==> DiasSemana[i] != ""
  {
    assert forall i :: 0 <= i < 7 ==> i in DiasSemana;
  }

  /** `DIAS_SEMANA.get(d.weekday(), "")`: every valid date gets a real day
      name, never the empty fallback. */
  function WeekdayLabel(d: Date): (r: string)
    requires Valid(d)
    ensures r != ""
    ensures r == DiasSemana[Weekday(d)]
  {
    DiasSemanaWellFormed();
    if Weekday(d) in DiasSemana then DiasSemana[Weekday(d)] else ""
  }

  /** 1 May 2024 was a Wednesday. */
  lemma WeekdayLabelExample()
    ensures Valid(Date(2024, 5, 1)) && WeekdayLabel(Date(2024, 5, 1)) == "Quarta-feira"
  {
  }
}

=== FILE: stats.dfy ===
/** The statistics screens of the mobile app: what `getTotalFuncionarios`,
    `listarRankingPagamentos`, `listarHistoricoPresenca`,
    `listarHistoricoPagamentos`, `listarDataCadastramento` and
    `getNomesUnicosFuncionarios` compute from the rows the database returns.
    The query itself is not modelled: its result is an input, `None` when the
    client reports an error or returns no data. */
module Stats {
  import opened Common
  import opened Strings
  import opened Dates

  // ------------------------------------------------------------------
  // Rows.

  /** What `parseFloat` makes of a stored amount: a number of cents, or
      `NaN`. Amounts are exact; floating-point rounding is not modelled. */
  datatype RawAmount = Number(cents: int) | NotANumber

  /** `parseFloat(item.valor_10_percent) || 0`: `NaN` counts as zero. */
  function AmountValue(a: RawAmount): (v: int)
    ensures a.NotANumber? ==> v == 0
    ensures a.Number? ==> v == a.cents
  {
    match a
    case Number(c) => c
    case NotANumber => 0
  }

  /** A row of the `funcionarios` table, its date as the stored ISO text. */
  datatype Row = Row(
    id: Option<string>, nome: string, dia: string, horaEntrada: string, horaSaida: string,
    valor: RawAmount, observacao: Option<string>, vale: Option<int>, tipoPagamento: Option<string>,
    pago: bool)

  function AmountOf(r: Row): int {
    AmountValue(r.valor)
  }

  function NameOf(r: Row): string {
    r.nome
  }

  function DayOf(r: Row): string {
    r.dia
  }

  function IsPaid(r: Row): bool {
    r.pago
  }

  function IsPending(r: Row): bool {
    !r.pago
  }

  function Names(rows: seq<Row>): (ns: seq<string>)
    ensures |ns| == |rows| && forall i :: 0 <= i < |rows| ==> ns[i] == rows[i].nome
  {
    Map(rows, NameOf)
  }

  /** The rows of one employee. */
  function Named(n: string): Row -> bool {
    (r: Row) => r.nome == n
  }

  function RowsOf(rows: seq<Row>, n: string): (rs: seq<Row>)
    ensures forall r :: r in rs <==> r in rows && r.nome == n
  {
    Filter(rows, Named(n))
  }

  // ------------------------------------------------------------------
  // Grand totals.

  datatype Totals = Totals(
    cadastrados: nat, registros: nat, diasTrabalhados: nat,
    geralPago: int, pago: int, pendente: int)

  /** The running sums of the `forEach`: every amount, the paid ones and the
      pending ones. */
  function RunningSums(rows: seq<Row>): (s: (int, int, int))
  {
    if |rows| == 0 then (0, 0, 0)
    else
      var p := RunningSums(rows[..|rows| - 1]);
      var r := rows[|rows| - 1];
      var v := AmountOf(r);
      if r.pago then (p.0 + v, p.1 + v, p.2) else (p.0 + v, p.1, p.2 + v)
  }

  lemma {:induction false} RunningSumsTotal(rows: seq<Row>)
    ensures RunningSums(rows).0 == SumBy(rows, AmountOf)
    decreases |rows|
  {
    if |rows| > 0 {
      RunningSumsTotal(rows[..|rows| - 1]);
    }
  }

  lemma {:induction false} RunningSumsPaid(rows: seq<Row>)
    ensures RunningSums(rows).1 == SumBy(Filter(rows, IsPaid), AmountOf)
    decreases |rows|
  {
    if |rows| > 0 {
      RunningSumsPaid(rows[..|rows| - 1]);
      SumByFilterLast(rows, IsPaid, AmountOf);
    }
  }

  lemma {:induction false} RunningSumsPending(rows: seq<Row>)
    ensures RunningSums(rows).2 == SumBy(Filter(rows, IsPending), AmountOf)
    decreases |rows|
  {
    if |rows| > 0 {
      RunningSumsPending(rows[..|rows| - 1]);
      SumByFilterLast(rows, IsPending, AmountOf);
    }
  }

  /** Each row goes into exactly one of the paid and pending sums. */
  lemma {:induction false} RunningSumsSplit(rows: seq<Row>)
    ensures RunningSums(rows).1 + RunningSums(rows).2 == RunningSums(rows).0
    decreases |rows|
  {
    if |rows| > 0 {
      RunningSumsSplit(rows[..|rows| - 1]);
    }
  }

  /** `getTotalFuncionarios()` on the fetched rows: all zeros when the query
      fails. */
  function GetTotalFuncionarios(fetched: Option<seq<Row>>): (t: Totals)
    ensures fetched.None? ==> t == Totals(0, 0, 0, 0, 0, 0)
    ensures fetched.Some? ==> t.registros == |fetched.value|
  {
    match fetched
    case None => Totals(0, 0, 0, 0, 0, 0)
    case Some(rows) =>
      var s := RunningSums(rows);
      Totals(
        |set n | n in Names(rows)|, |rows|, |set d | d in Map(rows, DayOf)|,
        s.0, s.1, s.2)
  }

  /** The totals count distinct names and days, and split the grand total
      into its paid and pending parts. */
  lemma TotalsMeaning(rows: seq<Row>)
    ensures var t := GetTotalFuncionarios(Some(rows));
      && t.cadastrados == |Dedup(Names(rows))|
      && t.diasTrabalhados == |Dedup(Map(rows, DayOf))|
      && t.geralPago == SumBy(rows, AmountOf)
      && t.pago == SumBy(Filter(rows, IsPaid), AmountOf)
      && t.pendente == SumBy(Filter(rows, IsPending), AmountOf)
      && t.pago + t.pendente == t.geralPago
  {
    RunningSumsTotal(rows);
    RunningSumsPaid(rows);
    RunningSumsPending(rows);
    RunningSumsSplit(rows);
    DedupLengthOfSet(Names(rows));
    DedupLengthOfSet(Map(rows, DayOf));
  }

  // ------------------------------------------------------------------
  // Grouping rows by name.

  /** The left fold of `step` over `rs`, starting from `g`. */
  function Steps<G>(g: G, rs: seq<Row>, step: (G, Row) -> G): G {
    if |rs| == 0 then g else step(Steps(g, rs[..|rs| - 1], step), rs[|rs| - 1])
  }

  /** The position of the entry with this key. */
  function KeyIndex<G>(gs: seq<G>, key: G -> string, n: string): (r: Option<nat>)
    ensures r.Some? ==> r.value < |gs| && key(gs[r.value]) == n
    ensures r.None? ==> forall i :: 0 <= i < |gs| ==> key(gs[i]) != n
  {
    if |gs| == 0 then None
    else if key(gs[0]) == n then Some(0)
    else match KeyIndex(gs[1..], key, n)
      case None => None
      case Some(i) => Some(i + 1)
  }

  /** One iteration of the `forEach` that fills `funcionariosDict`: the
      row's entry is created by `create` when its name is new, then updated
      by `step`. */
  function AddRow<G>(gs: seq<G>, r: Row, create: Row -> G, step: (G, Row) -> G, key: G -> string)
    : (r': seq<G>)
  {
    match KeyIndex(gs, key, r.nome)
    case Some(i) => gs[i := step(gs[i], r)]
    case None => gs + [step(create(r), r)]
  }

  /** `Object.values(funcionariosDict)` after the loop: the entries in the
      order their names first appear. */
  function GroupRows<G>(rows: seq<Row>, create: Row -> G, step: (G, Row) -> G, key: G -> string)
    : seq<G>
  {
    if |rows| == 0 then []
    else AddRow(GroupRows(rows[..|rows| - 1], create, step, key), rows[|rows| - 1], create, step, key)
  }

  /** The entry of name `n` as a fold over that name's rows alone. */
  function Summary<G>(rows: seq<Row>, n: string, create: Row -> G, step: (G, Row) -> G): G
    requires |RowsOf(rows, n)| > 0
  {
    var rs := RowsOf(rows, n);
    Steps(create(rs[0]), rs, step)
  }

  lemma {:induction false} StepsKey<G>(g: G, rs: seq<Row>, step: (G, Row) -> G, key: G -> string)
    requires forall h, r :: key(step(h, r)) == key(h)
    ensures key(Steps(g, rs, step)) == key(g)
    decreases |rs|
  {
    if |rs| > 0 {
      StepsKey(g, rs[..|rs| - 1], step, key);
    }
  }

  /** The rows of a name after one more row. */
  lemma RowsOfSnoc(rows: seq<Row>, n: string)
    requires |rows| > 0
    ensures RowsOf(rows, n) == RowsOf(rows[..|rows| - 1], n)
      + (if rows[|rows| - 1].nome == n then [rows[|rows| - 1]] else [])
  {
  }

  lemma NamesSnoc(rows: seq<Row>)
    requires |rows| > 0
    ensures Names(rows) == Names(rows[..|rows| - 1]) + [rows[|rows| - 1].nome]
  {
  }

  /** A name that does not occur has no rows. */
  lemma RowsOfAbsent(rows: seq<Row>, n: string)
    requires n !in Names(rows)
    ensures RowsOf(rows, n) == []
  {
    forall i | 0 <= i < |rows| ensures !Named(n)(rows[i]) {
      assert Names(rows)[i] == rows[i].nome;
    }
    FilterNone(rows, Named(n));
  }

  /** Appending a row to a group that already holds rows of its name adds
      one step to that name's fold. */
  lemma SummarySnoc<G>(rows: seq<Row>, n: string, create: Row -> G, step: (G, Row) -> G)
    requires |rows| > 0 && rows[|rows| - 1].nome == n
    requires |RowsOf(rows[..|rows| - 1], n)| > 0
    ensures |RowsOf(rows, n)| > 0
    ensures Summary(rows, n, create, step) == step(Summary(rows[..|rows| - 1], n, create, step), rows[|rows| - 1])
  {
    var rs' := RowsOf(rows[..|rows| - 1], n);
    var rs := RowsOf(rows, n);
    RowsOfSnoc(rows, n);
    assert rs == rs' + [rows[|rows| - 1]];
    assert rs[..|rs| - 1] == rs' && rs[0] == rs'[0];
  }

  /** `g` is the entry of name `n`: the fold of that name's rows. */
  ghost predicate EntryOf<G>(g: G, rows: seq<Row>, n: string, create: Row -> G, step: (G, Row) -> G, key: G -> string) {
    key(g) == n && |RowsOf(rows, n)| > 0 && g == Summary(rows, n, create, step)
  }

  /** `gs` holds the entries of the names `ns`, in that order. */
  ghost predicate EntriesOf<G>(gs: seq<G>, ns: seq<string>, rows: seq<Row>, create: Row -> G, step: (G, Row) -> G, key: G -> string) {
    |gs| == |ns| && forall i :: 0 <= i < |gs| ==> EntryOf(gs[i], rows, ns[i], create, step, key)
  }

  /** `gs` holds one entry per distinct name of `rows`, in first-seen order. */
  ghost predicate GroupsOf<G>(gs: seq<G>, rows: seq<Row>, create: Row -> G, step: (G, Row) -> G, key: G -> string) {
    EntriesOf(gs, Dedup(Names(rows)), rows, create, step, key)
  }

  /** The names of all but the last row. */
  lemma NamesOfPrefix(rows: seq<Row>)
    requires |rows| > 0
    ensures Names(rows)[..|rows| - 1] == Names(rows[..|rows| - 1])
    ensures Names(rows)[|rows| - 1] == rows[|rows| - 1].nome
  {
  }

  /** An entry stays valid when a row of another name is added. */
  lemma EntryOfOther<G>(g: G, rows: seq<Row>, n: string, create: Row -> G, step: (G, Row) -> G, key: G -> string)
    requires |rows| > 0 && rows[|rows| - 1].nome != n
    requires EntryOf(g, rows[..|rows| - 1], n, create, step, key)
    ensures EntryOf(g, rows, n, create, step, key)
  {
    RowsOfSnoc(rows, n);
    assert RowsOf(rows, n) == RowsOf(rows[..|rows| - 1], n);
    assert Summary(rows, n, create, step) == Summary(rows[..|rows| - 1], n, create, step);
  }

  /** The entry of the last row's name takes one more step. */
  lemma EntryOfSame<G>(g: G, rows: seq<Row>, create: Row -> G, step: (G, Row) -> G, key: G -> string)
    requires forall h, r :: key(step(h, r)) == key(h)
    requires |rows| > 0
    requires EntryOf(g, rows[..|rows| - 1], rows[|rows| - 1].nome, create, step, key)
    ensures EntryOf(step(g, rows[|rows| - 1]), rows, rows[|rows| - 1].nome, create, step, key)
  {
    SummarySnoc(rows, rows[|rows| - 1].nome, create, step);
  }

  lemma StepKeepsKey<G>(g: G, r: Row, step: (G, Row) -> G, key: G -> string)
    requires forall h, r :: key(step(h, r)) == key(h)
    ensures key(step(g, r)) == key(g)
  {
  }

  /** The first row of a name starts its entry. */
  lemma EntryOfNew<G>(rows: seq<Row>, create: Row -> G, step: (G, Row) -> G, key: G -> string)
    requires forall r :: key(create(r)) == r.nome
    requires forall h, r :: key(step(h, r)) == key(h)
    requires |rows| > 0 && rows[|rows| - 1].nome !in Names(rows[..|rows| - 1])
    ensures EntryOf(step(create(rows[|rows| - 1]), rows[|rows| - 1]), rows, rows[|rows| - 1].nome, create, step, key)
  {
    var r := rows[|rows| - 1];
    RowsOfAbsent(rows[..|rows| - 1], r.nome);
    RowsOfSnoc(rows, r.nome);
    var rs := RowsOf(rows, r.nome);
    assert rs == [r] && rs[..0] == [];
    assert Steps(create(r), rs, step) == step(Steps(create(r), rs[..0], step), r);
    StepKeepsKey(create(r), r, step, key);
  }

  /** Updating the entry of the last row's name in place keeps every entry
      right. */
  lemma EntriesUpdate<G>(gs: seq<G>, ns: seq<string>, i: nat, rows: seq<Row>, create: Row -> G, step: (G, Row) -> G, key: G -> string)
    requires forall h, r :: key(step(h, r)) == key(h)
    requires |rows| > 0 && NoDuplicates(ns) && i < |ns| && ns[i] == rows[|rows| - 1].nome
    requires EntriesOf(gs, ns, rows[..|rows| - 1], create, step, key)
    ensures EntriesOf(gs[i := step(gs[i], rows[|rows| - 1])], ns, rows, create, step, key)
  {
    var r := rows[|rows| - 1];
    var gs2 := gs[i := step(gs[i], r)];
    forall k | 0 <= k < |gs2|
      ensures EntryOf(gs2[k], rows, ns[k], create, step, key)
    {
      assert EntryOf(gs[k], rows[..|rows| - 1], ns[k], create, step, key);
      if k == i {
        EntryOfSame(gs[i], rows, create, step, key);
        assert gs2[k] == step(gs[i], r);
      } else {
        DistinctAt(ns, i, k);
        EntryOfOther(gs[k], rows, ns[k], create, step, key);
        assert gs2[k] == gs[k];
      }
    }
  }

  /** Appending the entry of a new name keeps every entry right. */
  lemma EntriesAppend<G>(gs: seq<G>, ns: seq<string>, rows: seq<Row>, create: Row -> G, step: (G, Row) -> G, key: G -> string)
    requires forall r :: key(create(r)) == r.nome
    requires forall h, r :: key(step(h, r)) == key(h)
    requires |rows| > 0 && rows[|rows| - 1].nome !in Names(rows[..|rows| - 1])
    requires forall k :: 0 <= k < |ns| ==> ns[k] != rows[|rows| - 1].nome
    requires EntriesOf(gs, ns, rows[..|rows| - 1], create, step, key)
    ensures EntriesOf(gs + [step(create(rows[|rows| - 1]), rows[|rows| - 1])], ns + [rows[|rows| - 1].nome], rows, create, step, key)
  {
    var r := rows[|rows| - 1];
    var gs2 := gs + [step(create(r), r)];
    var ns2 := ns + [r.nome];
    forall k | 0 <= k < |gs2|
      ensures EntryOf(gs2[k], rows, ns2[k], create, step, key)
    {
      if k < |gs| {
        assert EntryOf(gs[k], rows[..|rows| - 1], ns[k], create, step, key);
        EntryOfOther(gs[k], rows, ns[k], create, step, key);
        assert gs2[k] == gs[k] && ns2[k] == ns[k];
      } else {
        EntryOfNew(rows, create, step, key);
      }
    }
  }

  /** A name among `ns` has an entry, at its own position. */
  lemma KeyPresent<G>(gs: seq<G>, ns: seq<string>, rows: seq<Row>, n: string, create: Row -> G, step: (G, Row) -> G, key: G -> string)
    requires EntriesOf(gs, ns, rows, create, step, key)
    requires n in ns
    ensures KeyIndex(gs, key, n).Some? && ns[KeyIndex(gs, key, n).value] == n
  {
    var k :| 0 <= k < |ns| && ns[k] == n;
    assert EntryOf(gs[k], rows, ns[k], create, step, key);
    var i := KeyIndex(gs, key, n).value;
    assert EntryOf(gs[i], rows, ns[i], create, step, key);
  }

  /** A seen name does not change the distinct names. */
  lemma DedupNamesSeen(rows: seq<Row>)
    requires |rows| > 0 && rows[|rows| - 1].nome in Names(rows[..|rows| - 1])
    ensures Dedup(Names(rows)) == Dedup(Names(rows[..|rows| - 1]))
  {
    NamesOfPrefix(rows);
    DedupSnoc(Names(rows));
  }

  /** The loop body on a name that already has the entry at `i`. */
  lemma GroupRowsAt<G>(rows: seq<Row>, i: nat, create: Row -> G, step: (G, Row) -> G, key: G -> string)
    requires |rows| > 0
    requires KeyIndex(GroupRows(rows[..|rows| - 1], create, step, key), key, rows[|rows| - 1].nome) == Some(i)
    ensures var gs' := GroupRows(rows[..|rows| - 1], create, step, key);
      GroupRows(rows, create, step, key) == gs'[i := step(gs'[i], rows[|rows| - 1])]
  {
  }

  /** A row whose name was seen before updates that name's entry in place. */
  lemma GroupSeenName<G>(rows: seq<Row>, create: Row -> G, step: (G, Row) -> G, key: G -> string)
    requires forall h, r :: key(step(h, r)) == key(h)
    requires |rows| > 0 && rows[|rows| - 1].nome in Names(rows[..|rows| - 1])
    requires GroupsOf(GroupRows(rows[..|rows| - 1], create, step, key), rows[..|rows| - 1], create, step, key)
    ensures GroupsOf(GroupRows(rows, create, step, key), rows, create, step, key)
  {
    var rows' := rows[..|rows| - 1];
    var r := rows[|rows| - 1];
    var gs' := GroupRows(rows', create, step, key);
    var ns' := Dedup(Names(rows'));
    DedupNamesSeen(rows);
    KeyPresent(gs', ns', rows', r.nome, create, step, key);
    var i := KeyIndex(gs', key, r.nome).value;
    GroupRowsAt(rows, i, create, step, key);
    EntriesUpdate(gs', ns', i, rows, create, step, key);
  }

  /** A name outside `ns` has no entry. */
  lemma KeyAbsent<G>(gs: seq<G>, ns: seq<string>, rows: seq<Row>, n: string, create: Row -> G, step: (G, Row) -> G, key: G -> string)
    requires EntriesOf(gs, ns, rows, create, step, key)
    requires forall k :: 0 <= k < |ns| ==> ns[k] != n
    ensures KeyIndex(gs, key, n).None?
  {
    forall k | 0 <= k < |gs| ensures key(gs[k]) != n {
      assert EntryOf(gs[k], rows, ns[k], create, step, key);
    }
  }

  /** A row with a new name appends that name's entry. */
  lemma GroupNewName<G>(rows: seq<Row>, create: Row -> G, step: (G, Row) -> G, key: G -> string)
    requires forall r :: key(create(r)) == r.nome
    requires forall h, r :: key(step(h, r)) == key(h)
    requires |rows| > 0 && rows[|rows| - 1].nome !in Names(rows[..|rows| - 1])
    requires GroupsOf(GroupRows(rows[..|rows| - 1], create, step, key), rows[..|rows| - 1], create, step, key)
    ensures GroupsOf(GroupRows(rows, create, step, key), rows, create, step, key)
  {
    var rows' := rows[..|rows| - 1];
    var r := rows[|rows| - 1];
    var gs' := GroupRows(rows', create, step, key);
    var ns' := Dedup(Names(rows'));
    NamesOfPrefix(rows);
    assert Dedup(Names(rows)) == ns' + [r.nome];
    assert forall k :: 0 <= k < |ns'| ==> ns'[k] != r.nome by {
      forall k | 0 <= k < |ns'| ensures ns'[k] != r.nome {
        assert ns'[k] in ns';
      }
    }
    KeyAbsent(gs', ns', rows', r.nome, create, step, key);
    assert GroupRows(rows, create, step, key) == gs' + [step(create(r), r)];
    EntriesAppend(gs', ns', rows, create, step, key);
  }

  /** The grouping loop is the per-name fold: one entry per distinct name,
      in first-seen order, each the fold of that name's rows. */
  lemma {:induction false} GroupRowsSpec<G>(rows: seq<Row>, create: Row -> G, step: (G, Row) -> G, key: G -> string)
    requires forall r :: key(create(r)) == r.nome
    requires forall h, r :: key(step(h, r)) == key(h)
    ensures GroupsOf(GroupRows(rows, create, step, key), rows, create, step, key)
    decreases |rows|
  {
    if |rows| > 0 {
      GroupRowsSpec(rows[..|rows| - 1], create, step, key);
      if rows[|rows| - 1].nome in Names(rows[..|rows| - 1]) {
        GroupSeenName(rows, create, step, key);
      } else {
        GroupNewName(rows, create, step, key);
      }
    }
  }

  // ------------------------------------------------------------------
  // The ranking.

  /** The running entry of `listarRankingPagamentos`; `menor == None` stands
      for the initial `Infinity`. */
  datatype Tally = Tally(
    nome: string, dias: nat, total: int, maior: int, menor: Option<int>, pago: int, pendente: int)

  function NewTally(r: Row): Tally {
    Tally(r.nome, 0, 0, 0, None, 0, 0)
  }

  /** The updates the loop makes for one row. */
  function Tallied(t: Tally, r: Row): Tally {
    var v := AmountOf(r);
    Tally(
      t.nome, t.dias + 1, t.total + v,
      if v > t.maior then v else t.maior,
      if t.menor.None? || v < t.menor.value then Some(v) else t.menor,
      if r.pago then t.pago + v else t.pago,
      if r.pago then t.pendente else t.pendente + v)
  }

  function TallyName(t: Tally): string {
    t.nome
  }

  function Max0(rs: seq<Row>): (m: int)
    ensures m >= 0 && forall i :: 0 <= i < |rs| ==> AmountOf(rs[i]) <= m
  {
    if |rs| == 0 then 0
    else
      var m := Max0(rs[..|rs| - 1]);
      if AmountOf(rs[|rs| - 1]) > m then AmountOf(rs[|rs| - 1]) else m
  }

  /** The fold over one name's rows counts them and keeps the name. */
  lemma {:induction false} TallyCount(first: Row, rs: seq<Row>)
    ensures Steps(NewTally(first), rs, Tallied).nome == first.nome
    ensures Steps(NewTally(first), rs, Tallied).dias == |rs|
    decreases |rs|
  {
    if |rs| > 0 {
      TallyCount(first, rs[..|rs| - 1]);
    }
  }

  /** The fold's total is the sum of the rows' amounts. */
  lemma {:induction false} TallyTotal(first: Row, rs: seq<Row>)
    ensures Steps(NewTally(first), rs, Tallied).total == SumBy(rs, AmountOf)
    decreases |rs|
  {
    if |rs| > 0 {
      TallyTotal(first, rs[..|rs| - 1]);
    }
  }

  /** The fold's paid sum is the sum of the paid rows. */
  lemma {:induction false} TallyPaid(first: Row, rs: seq<Row>)
    ensures Steps(NewTally(first), rs, Tallied).pago == SumBy(Filter(rs, IsPaid), AmountOf)
    decreases |rs|
  {
    if |rs| > 0 {
      TallyPaid(first, rs[..|rs| - 1]);
      SumByFilterLast(rs, IsPaid, AmountOf);
    }
  }

  /** The fold's pending sum is the sum of the unpaid rows. */
  lemma {:induction false} TallyPending(first: Row, rs: seq<Row>)
    ensures Steps(NewTally(first), rs, Tallied).pendente == SumBy(Filter(rs, IsPending), AmountOf)
    decreases |rs|
  {
    if |rs| > 0 {
      TallyPending(first, rs[..|rs| - 1]);
      SumByFilterLast(rs, IsPending, AmountOf);
    }
  }

  /** The largest amount, never below the initial 0. */
  lemma {:induction false} TallyMaior(first: Row, rs: seq<Row>)
    ensures Steps(NewTally(first), rs, Tallied).maior == Max0(rs)
    decreases |rs|
  {
    if |rs| > 0 {
      TallyMaior(first, rs[..|rs| - 1]);
    }
  }

  /** The smallest amount: none before the first row, then one of the rows'
      amounts and no larger than any of them. */
  lemma {:induction false} TallyMenor(first: Row, rs: seq<Row>)
    ensures var t := Steps(NewTally(first), rs, Tallied);
      && (t.menor.Some? <==> |rs| > 0)
      && (t.menor.Some? ==> (forall i :: 0 <= i < |rs| ==> t.menor.value <= AmountOf(rs[i]))
                            && exists i :: 0 <= i < |rs| && AmountOf(rs[i]) == t.menor.value)
    decreases |rs|
  {
    if |rs| > 0 {
      var rs' := rs[..|rs| - 1];
      var r := rs[|rs| - 1];
      TallyMenor(first, rs');
      var t' := Steps(NewTally(first), rs', Tallied);
      var t := Steps(NewTally(first), rs, Tallied);
      if t'.menor.Some? {
        var j :| 0 <= j < |rs'| && AmountOf(rs'[j]) == t'.menor.value;
        assert rs[j] == rs'[j];
        if AmountOf(r) < t'.menor.value {
          assert AmountOf(rs[|rs| - 1]) == t.menor.value;
        } else {
          assert AmountOf(rs[j]) == t.menor.value;
        }
      } else {
        assert AmountOf(rs[|rs| - 1]) == t.menor.value;
      }
    }
  }

  /** Everything the ranking reports about one name's rows. */
  lemma TallyFacts(first: Row, rs: seq<Row>)
    ensures var t := Steps(NewTally(first), rs, Tallied);
      && t.nome == first.nome && t.dias == |rs| && t.total == SumBy(rs, AmountOf)
      && t.pago == SumBy(Filter(rs, IsPaid), AmountOf)
      && t.pendente == SumBy(Filter(rs, IsPending), AmountOf)
      && t.pago + t.pendente == t.total
      && t.maior == Max0(rs)
      && (t.menor.Some? <==> |rs| > 0)
      && (t.menor.Some? ==> (forall i :: 0 <= i < |rs| ==> t.menor.value <= AmountOf(rs[i]))
                            && exists i :: 0 <= i < |rs| && AmountOf(rs[i]) == t.menor.value)
  {
    TallyCount(first, rs);
    TallyTotal(first, rs);
    TallyPaid(first, rs);
    TallyPending(first, rs);
    TallyMaior(first, rs);
    TallyMenor(first, rs);
    PaidPlusPending(rs);
  }

  /** Every row is either paid or pending. */
  lemma PaidPlusPending(rs: seq<Row>)
    ensures SumBy(Filter(rs, IsPaid), AmountOf) + SumBy(Filter(rs, IsPending), AmountOf) == SumBy(rs, AmountOf)
  {
    RunningSumsTotal(rs);
    RunningSumsPaid(rs);
    RunningSumsPending(rs);
    RunningSumsSplit(rs);
  }

  /** One entry of the ranking. `mediaDiaria` is the exact quotient. */
  datatype RankingPagamento = RankingPagamento(
    posicao: nat, nome: string, diasTrabalhados: nat, totalRecebido: int, mediaDiaria: real,
    maiorDiaria: int, menorDiaria: int, totalPago: int, totalPendente: int)

  function TotalRecebido(e: RankingPagamento): int {
    e.totalRecebido
  }

  /** The `map` over `Object.values(...)`: `Infinity` becomes 0. */
  function Entry(t: Tally): (e: RankingPagamento)
    requires t.dias >= 1
  {
    RankingPagamento(
      0, t.nome, t.dias, t.total, t.total as real / t.dias as real,
      t.maior, if t.menor.None? then 0 else t.menor.value, t.pago, t.pendente)
  }

  function Entries(ts: seq<Tally>): (es: seq<RankingPagamento>)
    requires forall i :: 0 <= i < |ts| ==> ts[i].dias >= 1
    ensures |es| == |ts| && forall i :: 0 <= i < |ts| ==> es[i] == Entry(ts[i])
  {
    if |ts| == 0 then [] else [Entry(ts[0])] + Entries(ts[1..])
  }

  predicate SortedDesc(s: seq<RankingPagamento>) {
    forall i, j :: 0 <= i < j < |s| ==> s[i].totalRecebido >= s[j].totalRecebido
  }

  /** Places `x` after every entry whose total is at least its own. */
  function InsertDesc(s: seq<RankingPagamento>, x: RankingPagamento): (r: seq<RankingPagamento>)
    ensures |r| == |s| + 1
    ensures multiset(r) == multiset(s) + multiset{x}
  {
    if |s| == 0 then [x]
    else if s[0].totalRecebido < x.totalRecebido then [x] + s
    else
      assert s == [s[0]] + s[1..];
      [s[0]] + InsertDesc(s[1..], x)
  }

  /** Inserting under a bound keeps every total under it. */
  lemma {:induction false} InsertDescBounded(s: seq<RankingPagamento>, x: RankingPagamento, b: int)
    requires forall i :: 0 <= i < |s| ==> s[i].totalRecebido <= b
    requires x.totalRecebido <= b
    ensures forall j :: 0 <= j < |InsertDesc(s, x)| ==> InsertDesc(s, x)[j].totalRecebido <= b
    decreases |s|
  {
    if |s| > 0 && s[0].totalRecebido >= x.totalRecebido {
      InsertDescBounded(s[1..], x, b);
    }
  }

  /** Inserting into a non-increasing sequence keeps it non-increasing. */
  lemma {:induction false} InsertDescSorted(s: seq<RankingPagamento>, x: RankingPagamento)
    requires SortedDesc(s)
    ensures SortedDesc(InsertDesc(s, x))
    decreases |s|
  {
    if |s| > 0 && s[0].totalRecebido >= x.totalRecebido {
      InsertDescSorted(s[1..], x);
      InsertDescBounded(s[1..], x, s[0].totalRecebido);
    }
  }

  /** `resultados.sort((a, b) => b.total_recebido - a.total_recebido)`:
      `Array.prototype.sort` is stable, so this is an insertion sort. */
  function SortDesc(s: seq<RankingPagamento>): (r: seq<RankingPagamento>)
    ensures |r| == |s| && multiset(r) == multiset(s) && SortedDesc(r)
  {
    if |s| == 0 then []
    else
      var sorted := SortDesc(s[..|s| - 1]);
      InsertDescSorted(sorted, s[|s| - 1]);
      assert s == s[..|s| - 1] + [s[|s| - 1]];
      InsertDesc(sorted, s[|s| - 1])
  }

  function HasTotal(v: int): RankingPagamento -> bool {
    (e: RankingPagamento) => e.totalRecebido == v
  }

  /** A non-increasing sequence headed below `v` holds no total `v`. */
  lemma NoneAbove(s: seq<RankingPagamento>, v: int)
    requires SortedDesc(s)
    requires |s| > 0 && s[0].totalRecebido < v
    ensures Filter(s, HasTotal(v)) == []
  {
    forall i | 0 <= i < |s| ensures !HasTotal(v)(s[i]) {
      assert s[i].totalRecebido <= s[0].totalRecebido;
    }
    FilterNone(s, HasTotal(v));
  }

  /** An entry placed in front of smaller totals comes after every entry of
      its own total. */
  lemma InsertFrontStable(s: seq<RankingPagamento>, x: RankingPagamento, v: int)
    requires SortedDesc(s)
    requires |s| > 0 && s[0].totalRecebido < x.totalRecebido
    ensures Filter([x] + s, HasTotal(v)) == Filter(s, HasTotal(v)) + Filter([x], HasTotal(v))
  {
    var p := HasTotal(v);
    FilterSingle(x, p);
    FilterAppend([x], s, p);
    if x.totalRecebido == v {
      NoneAbove(s, x.totalRecebido);
    }
    AppendEmptyCommutes(Filter([x], p), Filter(s, p));
  }

  /** Filtering commutes with putting one more entry in front. */
  lemma FilterConsStable<T(!new)>(y: T, rest: seq<T>, tail: seq<T>, x: T, p: T -> bool)
    requires Filter(rest, p) == Filter(tail, p) + Filter([x], p)
    ensures Filter([y] + rest, p) == Filter([y] + tail, p) + Filter([x], p)
  {
    FilterAppend([y], rest, p);
    FilterAppend([y], tail, p);
    ConcatAssociative(Filter([y], p), Filter(tail, p), Filter([x], p));
  }

  lemma {:induction false} InsertDescStable(s: seq<RankingPagamento>, x: RankingPagamento, v: int)
    requires SortedDesc(s)
    ensures Filter(InsertDesc(s, x), HasTotal(v)) == Filter(s, HasTotal(v)) + Filter([x], HasTotal(v))
    decreases |s|
  {
    if |s| == 0 {
      assert Filter(s, HasTotal(v)) == [];
    } else if s[0].totalRecebido < x.totalRecebido {
      InsertFrontStable(s, x, v);
    } else {
      InsertDescStable(s[1..], x, v);
      FilterConsStable(s[0], InsertDesc(s[1..], x), s[1..], x, HasTotal(v));
      SplitFirst(s);
    }
  }

  /** Entries with the same total keep their relative order. */
  lemma {:induction false} SortDescStable(s: seq<RankingPagamento>, v: int)
    ensures Filter(SortDesc(s), HasTotal(v)) == Filter(s, HasTotal(v))
    decreases |s|
  {
    if |s| > 0 {
      var s' := s[..|s| - 1];
      var x := s[|s| - 1];
      SortDescStable(s', v);
      InsertDescStable(SortDesc(s'), x, v);
      FilterAppend(s', [x], HasTotal(v));
      SplitLast(s);
    }
  }

  lemma {:induction false} InsertDescSum(s: seq<RankingPagamento>, x: RankingPagamento)
    ensures SumBy(InsertDesc(s, x), TotalRecebido) == SumBy(s, TotalRecebido) + x.totalRecebido
    decreases |s|
  {
    if |s| == 0 {
      assert [x][..0] == [];
    } else if s[0].totalRecebido < x.totalRecebido {
      SumByCons(x, s, TotalRecebido);
    } else {
      InsertDescSum(s[1..], x);
      SumByCons(s[0], InsertDesc(s[1..], x), TotalRecebido);
      SumByCons(s[0], s[1..], TotalRecebido);
      SplitFirst(s);
    }
  }

  lemma {:induction false} SortDescSum(s: seq<RankingPagamento>)
    ensures SumBy(SortDesc(s), TotalRecebido) == SumBy(s, TotalRecebido)
    decreases |s|
  {
    if |s| > 0 {
      SortDescSum(s[..|s| - 1]);
      InsertDescSum(SortDesc(s[..|s| - 1]), s[|s| - 1]);
    }
  }

  /** `resultados.map((r, i) => ({ ...r, posicao: i + 1 }))`. */
  function Numbered(s: seq<RankingPagamento>, from: nat): (r: seq<RankingPagamento>)
    ensures |r| == |s|
    ensures forall i :: 0 <= i < |s| ==> r[i] == s[i].(posicao := from + i)
  {
    if |s| == 0 then [] else [s[0].(posicao := from)] + Numbered(s[1..], from + 1)
  }

  /** The entry at `i` keeps everything but its position. */
  lemma NumberedAt(s: seq<RankingPagamento>, from: nat, i: nat)
    requires i < |s|
    ensures |Numbered(s, from)| == |s|
    ensures Numbered(s, from)[i] == s[i].(posicao := from + i)
    ensures Numbered(s, from)[i].nome == s[i].nome
  {
  }

  /** Numbering keeps the order of the totals. */
  lemma NumberedSorted(s: seq<RankingPagamento>, from: nat)
    requires SortedDesc(s)
    ensures SortedDesc(Numbered(s, from))
  {
    var r := Numbered(s, from);
    forall i, j | 0 <= i < j < |r| ensures r[i].totalRecebido >= r[j].totalRecebido {
      assert r[i].totalRecebido == s[i].totalRecebido && r[j].totalRecebido == s[j].totalRecebido;
    }
  }

  lemma {:induction false} NumberedSum(s: seq<RankingPagamento>, from: nat)
    ensures SumBy(Numbered(s, from), TotalRecebido) == SumBy(s, TotalRecebido)
  {
    var r := Numbered(s, from);
    forall i | 0 <= i < |s| ensures TotalRecebido(r[i]) == TotalRecebido(s[i]) {
      NumberedAt(s, from, i);
    }
    SumByPointwise(r, s, TotalRecebido, TotalRecebido);
  }

  function Tallies(rows: seq<Row>): (ts: seq<Tally>)
    ensures forall i :: 0 <= i < |ts| ==> ts[i].dias >= 1
  {
    var ts := GroupRows(rows, NewTally, Tallied, TallyName);
    TalliesAreSummaries(rows);
    ts
  }

  /** Each tally is the fold of its name's rows, which are never none. */
  lemma TalliesAreSummaries(rows: seq<Row>)
    ensures var ts := GroupRows(rows, NewTally, Tallied, TallyName);
      var ns := Dedup(Names(rows));
      |ts| == |ns|
      && forall i :: 0 <= i < |ts| ==>
        |RowsOf(rows, ns[i])| > 0 && ts[i].nome == ns[i] && ts[i].dias == |RowsOf(rows, ns[i])|
        && ts[i] == Steps(NewTally(RowsOf(rows, ns[i])[0]), RowsOf(rows, ns[i]), Tallied)
  {
    GroupRowsSpec(rows, NewTally, Tallied, TallyName);
    var ts := GroupRows(rows, NewTally, Tallied, TallyName);
    var ns := Dedup(Names(rows));
    forall i | 0 <= i < |ts|
      ensures ts[i].dias == |RowsOf(rows, ns[i])|
    {
      TallyCount(RowsOf(rows, ns[i])[0], RowsOf(rows, ns[i]));
    }
  }

  /** `listarRankingPagamentos()` on the fetched rows. */
  function ListarRankingPagamentos(fetched: Option<seq<Row>>): (r: seq<RankingPagamento>)
    ensures fetched.None? ==> r == []
    ensures fetched.Some? ==> |r| == |Dedup(Names(fetched.value))|
    ensures forall i :: 0 <= i < |r| ==> r[i].posicao == i + 1
    ensures SortedDesc(r)
  {
    match fetched
    case None => []
    case Some(rows) =>
      TallyNames(rows);
      var sorted := SortDesc(Entries(Tallies(rows)));
      NumberedSorted(sorted, 1);
      Numbered(sorted, 1)
  }

  function TotalOfTally(t: Tally): int {
    t.total
  }

  /** The grouping loop neither loses nor double-counts an amount. */
  lemma {:induction false} TalliesSum(rows: seq<Row>)
    ensures SumBy(GroupRows(rows, NewTally, Tallied, TallyName), TotalOfTally) == SumBy(rows, AmountOf)
    decreases |rows|
  {
    if |rows| > 0 {
      var rows' := rows[..|rows| - 1];
      var r := rows[|rows| - 1];
      var ts' := GroupRows(rows', NewTally, Tallied, TallyName);
      TalliesSum(rows');
      match KeyIndex(ts', TallyName, r.nome)
      case Some(i) =>
        SumByUpdate(ts', i, Tallied(ts'[i], r), TotalOfTally);
      case None =>
        SumByAppend(ts', [Tallied(NewTally(r), r)], TotalOfTally);
        assert [Tallied(NewTally(r), r)][..0] == [];
    }
  }

  lemma EntriesSum(ts: seq<Tally>)
    requires forall i :: 0 <= i < |ts| ==> ts[i].dias >= 1
    ensures SumBy(Entries(ts), TotalRecebido) == SumBy(ts, TotalOfTally)
  {
    SumByPointwise(Entries(ts), ts, TotalRecebido, TotalOfTally);
  }

  /** The ranking shares out exactly the grand total of the same rows. */
  lemma RankingSum(rows: seq<Row>)
    ensures SumBy(ListarRankingPagamentos(Some(rows)), TotalRecebido) == GetTotalFuncionarios(Some(rows)).geralPago
  {
    var ts := Tallies(rows);
    var es := Entries(ts);
    NumberedSum(SortDesc(es), 1);
    SortDescSum(es);
    EntriesSum(ts);
    TalliesSum(rows);
    RunningSumsTotal(rows);
  }

  /** What a ranking entry says about one employee's rows: the days
      worked, the total split into paid and pending, the average, the
      largest amount and a smallest amount that is one of the amounts. */
  predicate Reports(e: RankingPagamento, rs: seq<Row>) {
    && |rs| > 0
    && e.diasTrabalhados == |rs|
    && e.totalRecebido == SumBy(rs, AmountOf)
    && e.mediaDiaria == e.totalRecebido as real / |rs| as real
    && e.totalPago == SumBy(Filter(rs, IsPaid), AmountOf)
    && e.totalPendente == SumBy(Filter(rs, IsPending), AmountOf)
    && e.maiorDiaria == Max0(rs)
    && (forall j :: 0 <= j < |rs| ==> e.menorDiaria <= AmountOf(rs[j]))
    && (exists j :: 0 <= j < |rs| && AmountOf(rs[j]) == e.menorDiaria)
  }

  /** An entry built from the fold of a name's rows reports those rows. */
  lemma EntryReports(t: Tally, rs: seq<Row>, p: nat)
    requires |rs| > 0 && t == Steps(NewTally(rs[0]), rs, Tallied)
    ensures var e := Entry(t).(posicao := p);
      e.nome == rs[0].nome && Reports(e, rs)
  {
    TallyFacts(rs[0], rs);
  }

  /** Every sorted entry is the entry of one tally. */
  lemma SortedOrigin(ts: seq<Tally>, i: nat)
    requires forall j :: 0 <= j < |ts| ==> ts[j].dias >= 1
    requires i < |SortDesc(Entries(ts))|
    ensures exists k :: 0 <= k < |ts| && SortDesc(Entries(ts))[i] == Entry(ts[k])
  {
    var es := Entries(ts);
    PermutationMember(es, SortDesc(es), i);
  }

  /** The tally at `k` is the fold of the rows of the `k`-th distinct name. */
  lemma TallyAt(rows: seq<Row>, k: nat)
    requires k < |Tallies(rows)|
    ensures var ns := Dedup(Names(rows));
      k < |ns| && |RowsOf(rows, ns[k])| > 0
      && Tallies(rows)[k] == Steps(NewTally(RowsOf(rows, ns[k])[0]), RowsOf(rows, ns[k]), Tallied)
  {
    TalliesAreSummaries(rows);
  }

  /** Where an entry of the ranking comes from: the tally of one name. */
  lemma RankingOrigin(rows: seq<Row>, i: nat)
    requires i < |ListarRankingPagamentos(Some(rows))|
    ensures var ns := Dedup(Names(rows));
      exists k :: 0 <= k < |ns| && |RowsOf(rows, ns[k])| > 0
        && ListarRankingPagamentos(Some(rows))[i]
           == Entry(Steps(NewTally(RowsOf(rows, ns[k])[0]), RowsOf(rows, ns[k]), Tallied)).(posicao := i + 1)
  {
    var ts := Tallies(rows);
    var so := SortDesc(Entries(ts));
    SortedOrigin(ts, i);
    var k :| 0 <= k < |ts| && so[i] == Entry(ts[k]);
    TallyAt(rows, k);
    RankingIsSorted(rows);
    NumberedAt(so, 1, i);
  }

  /** Each ranking entry reports its employee's rows: the days worked, the
      total split into paid and pending, the average, the largest and the
      smallest amount. */
  lemma RankingEntry(rows: seq<Row>, i: nat)
    requires i < |ListarRankingPagamentos(Some(rows))|
    ensures var e := ListarRankingPagamentos(Some(rows))[i];
      e.posicao == i + 1 && e.nome in Names(rows) && Reports(e, RowsOf(rows, e.nome))
  {
    RankingOrigin(rows, i);
    var ns := Dedup(Names(rows));
    var k :| 0 <= k < |ns| && |RowsOf(rows, ns[k])| > 0
        && ListarRankingPagamentos(Some(rows))[i]
           == Entry(Steps(NewTally(RowsOf(rows, ns[k])[0]), RowsOf(rows, ns[k]), Tallied)).(posicao := i + 1);
    var rs := RowsOf(rows, ns[k]);
    EntryReports(Steps(NewTally(rs[0]), rs, Tallied), rs, i + 1);
    assert rs[0] in rs;
    assert ns[k] in ns;
    var e := ListarRankingPagamentos(Some(rows))[i];
    assert e.nome == ns[k];
    assert RowsOf(rows, e.nome) == rs;
  }

  /** The entry of one name's rows never reports a smallest amount above
      the largest, and one row with a non-negative amount shows it as
      both. */
  lemma EntryExtremes(rs: seq<Row>, p: nat)
    requires |rs| > 0
    ensures var e := Entry(Steps(NewTally(rs[0]), rs, Tallied)).(posicao := p);
      && e.menorDiaria <= e.maiorDiaria
      && (|rs| == 1 && AmountOf(rs[0]) >= 0 ==> e.menorDiaria == e.maiorDiaria == AmountOf(rs[0]))
  {
    TallyCount(rs[0], rs);
    TallyMaior(rs[0], rs);
    TallyMenor(rs[0], rs);
    if |rs| == 1 {
      assert rs[..0] == [];
    }
  }

  /** No `Infinity` leaks out of the ranking: see `EntryExtremes`. */
  lemma RankingExtremes(rows: seq<Row>, i: nat)
    requires i < |ListarRankingPagamentos(Some(rows))|
    ensures var e := ListarRankingPagamentos(Some(rows))[i];
      var rs := RowsOf(rows, e.nome);
      && e.menorDiaria <= e.maiorDiaria
      && (|rs| == 1 && AmountOf(rs[0]) >= 0 ==> e.menorDiaria == e.maiorDiaria == AmountOf(rs[0]))
  {
    RankingOrigin(rows, i);
    var ns := Dedup(Names(rows));
    var k :| 0 <= k < |ns| && |RowsOf(rows, ns[k])| > 0
        && ListarRankingPagamentos(Some(rows))[i]
           == Entry(Steps(NewTally(RowsOf(rows, ns[k])[0]), RowsOf(rows, ns[k]), Tallied)).(posicao := i + 1);
    var rs := RowsOf(rows, ns[k]);
    EntryExtremes(rs, i + 1);
    TallyCount(rs[0], rs);
    assert rs[0] in rs;
  }

  /** The tallies come in the order of the distinct names. */
  lemma TallyNames(rows: seq<Row>)
    ensures |Tallies(rows)| == |Dedup(Names(rows))|
    ensures forall i :: 0 <= i < |Tallies(rows)| ==> Tallies(rows)[i].nome == Dedup(Names(rows))[i]
  {
    TalliesAreSummaries(rows);
  }

  /** The ranking is the numbered, sorted entries of the tallies. */
  lemma RankingIsSorted(rows: seq<Row>)
    ensures ListarRankingPagamentos(Some(rows)) == Numbered(SortDesc(Entries(Tallies(rows))), 1)
  {
  }

  /** Sorting keeps every entry's name. */
  lemma {:induction false} SortedHasName(ts: seq<Tally>, k: nat)
    requires forall i :: 0 <= i < |ts| ==> ts[i].dias >= 1
    requires k < |ts|
    ensures exists i :: 0 <= i < |SortDesc(Entries(ts))| && SortDesc(Entries(ts))[i].nome == ts[k].nome
  {
    var es := Entries(ts);
    PermutationMember(SortDesc(es), es, k);
    assert es[k].nome == ts[k].nome;
  }

  /** Every name of the rows has an entry in the ranking. */
  lemma RankingHasName(rows: seq<Row>, n: string)
    requires n in Names(rows)
    ensures exists i :: 0 <= i < |ListarRankingPagamentos(Some(rows))| && ListarRankingPagamentos(Some(rows))[i].nome == n
  {
    var ts := Tallies(rows);
    var ns := Dedup(Names(rows));
    TallyNames(rows);
    var k :| 0 <= k < |ns| && ns[k] == n;
    SortedHasName(ts, k);
    var so := SortDesc(Entries(ts));
    var i :| 0 <= i < |so| && so[i].nome == n;
    RankingIsSorted(rows);
    NumberedAt(so, 1, i);
  }

  /** Every employee appears in the ranking, and nobody else does. */
  lemma RankingNames(rows: seq<Row>, n: string)
    ensures n in Names(rows) <==>
      exists i :: 0 <= i < |ListarRankingPagamentos(Some(rows))| && ListarRankingPagamentos(Some(rows))[i].nome == n
  {
    var r := ListarRankingPagamentos(Some(rows));
    if n in Names(rows) {
      RankingHasName(rows, n);
    }
    forall i | 0 <= i < |r| ensures r[i].nome in Names(rows) {
      RankingEntry(rows, i);
    }
  }

  // ------------------------------------------------------------------
  // Attendance and payment history.

  /** A row with the label the attendance screen shows for its day. */
  datatype Presenca = Presenca(row: Row, diaFormatado: string)

  /** `dia_formatado`: "Hoje" for today, "Ontem" for the day before, the
      stored text otherwise. `today` is the UTC date of the clock. */
  function DiaFormatado(dia: string, today: Date): string
    requires Valid(today)
  {
    var yesterday := PrevDay(today);
    if dia == IsoFormat(today) then "Hoje"
    else if yesterday.Some? && dia == IsoFormat(yesterday.value) then "Ontem"
    else dia
  }

  /** `listarHistoricoPresenca()` on the fetched rows. */
  function ListarHistoricoPresenca(fetched: Option<seq<Row>>, today: Date): (r: seq<Presenca>)
    requires Valid(today)
    ensures fetched.None? ==> r == []
    ensures fetched.Some? ==>
      |r| == |fetched.value| && forall i :: 0 <= i < |r| ==> r[i].row == fetched.value[i]
  {
    match fetched
    case None => []
    case Some(rows) => Map(rows, (x: Row) => Presenca(x, DiaFormatado(x.dia, today)))
  }

  /** For a stored date, the label names it by its distance from today:
      "Hoje" exactly for today, "Ontem" exactly for the day before, and
      the date itself for any other day. */
  lemma DiaFormatadoMeaning(d: Date, today: Date)
    requires Valid(d) && Valid(today)
    ensures DiaFormatado(IsoFormat(d), today) == "Hoje" <==> d == today
    ensures DiaFormatado(IsoFormat(d), today) == "Ontem" <==>
      PrevDay(today).Some? && d == PrevDay(today).value
    ensures d != today && (PrevDay(today).None? || d != PrevDay(today).value) ==>
      DiaFormatado(IsoFormat(d), today) == IsoFormat(d)
  {
    if IsoFormat(d) == IsoFormat(today) {
      IsoFormatInjective(d, today);
    }
    var y := PrevDay(today);
    if y.Some? && IsoFormat(d) == IsoFormat(y.value) {
      IsoFormatInjective(d, y.value);
    }
    var s := IsoFormat(d);
    assert s[4] == '-';
    assert "Hoje"[4..] == [] && "Ontem"[4] == 'm';
  }

  /** A row with the status the payment screen shows. */
  datatype Pagamento = Pagamento(row: Row, statusPagamento: string)

  function StatusPagamento(pago: bool): (s: string)
    ensures s == "Pago" || s == "Pendente"
  {
    if pago then "Pago" else "Pendente"
  }

  function IsPagoStatus(p: Pagamento): bool {
    p.statusPagamento == "Pago"
  }

  /** `listarHistoricoPagamentos()` on the fetched rows. */
  function ListarHistoricoPagamentos(fetched: Option<seq<Row>>): (r: seq<Pagamento>)
    ensures fetched.None? ==> r == []
    ensures fetched.Some? ==>
      |r| == |fetched.value| && forall i :: 0 <= i < |r| ==> r[i].row == fetched.value[i]
  {
    match fetched
    case None => []
    case Some(rows) => Map(rows, (x: Row) => Pagamento(x, StatusPagamento(x.pago)))
  }

  /** The screen shows "Pago" exactly on the paid rows, so it counts as
      many as the totals do. */
  lemma PagamentosStatus(rows: seq<Row>)
    ensures var r := ListarHistoricoPagamentos(Some(rows));
      && (forall i :: 0 <= i < |r| ==> (IsPagoStatus(r[i]) <==> rows[i].pago))
      && CountBy(r, IsPagoStatus) == CountBy(rows, IsPaid)
  {
    var r := ListarHistoricoPagamentos(Some(rows));
    CountByPointwise(r, rows, IsPagoStatus, IsPaid);
  }

  /** Counts agree when the predicates agree position by position. */
  lemma {:induction false} CountByPointwise<A, B>(a: seq<A>, b: seq<B>, p: A -> bool, q: B -> bool)
    requires |a| == |b| && forall i :: 0 <= i < |a| ==> (p(a[i]) <==> q(b[i]))
    ensures CountBy(a, p) == CountBy(b, q)
    decreases |a|
  {
    if |a| > 0 {
      CountByPointwise(a[..|a| - 1], b[..|b| - 1], p, q);
    }
  }

  // ------------------------------------------------------------------
  // First and last working day.

  /** The running entry of `listarDataCadastramento`. Days are compared as
      texts, as JavaScript's `<` and `>` do. */
  datatype Cadastro = Cadastro(nome: string, primeiro: string, ultimo: string, dias: nat, total: int)

  function NewCadastro(r: Row): Cadastro {
    Cadastro(r.nome, r.dia, r.dia, 0, 0)
  }

  function Cadastrado(c: Cadastro, r: Row): Cadastro {
    Cadastro(
      c.nome,
      if LexLess(r.dia, c.primeiro) then r.dia else c.primeiro,
      if LexLess(c.ultimo, r.dia) then r.dia else c.ultimo,
      c.dias + 1, c.total + AmountOf(r))
  }

  function CadastroName(c: Cadastro): string {
    c.nome
  }

  /** The fold from a starting row: the first day is the smallest of the
      days seen, the last the largest, and both are days that occur. */
  lemma {:induction false} CadastroDays(first: Row, rs: seq<Row>)
    ensures var c := Steps(NewCadastro(first), rs, Cadastrado);
      && (c.primeiro == first.dia || exists j :: 0 <= j < |rs| && rs[j].dia == c.primeiro)
      && (c.ultimo == first.dia || exists j :: 0 <= j < |rs| && rs[j].dia == c.ultimo)
      && LexLessEq(c.primeiro, first.dia) && LexLessEq(first.dia, c.ultimo)
      && (forall j :: 0 <= j < |rs| ==> LexLessEq(c.primeiro, rs[j].dia) && LexLessEq(rs[j].dia, c.ultimo))
    decreases |rs|
  {
    if |rs| > 0 {
      var rs' := rs[..|rs| - 1];
      var r := rs[|rs| - 1];
      CadastroDays(first, rs');
      var c' := Steps(NewCadastro(first), rs', Cadastrado);
      var c := Steps(NewCadastro(first), rs, Cadastrado);
      if LexLess(r.dia, c'.primeiro) {
        forall j | 0 <= j < |rs'| ensures LexLessEq(r.dia, rs'[j].dia) {
          LexLessEqTransitive(r.dia, c'.primeiro, rs'[j].dia);
        }
        LexLessEqTransitive(r.dia, c'.primeiro, first.dia);
      } else {
        LexLessTotal(r.dia, c'.primeiro);
      }
      if LexLess(c'.ultimo, r.dia) {
        forall j | 0 <= j < |rs'| ensures LexLessEq(rs'[j].dia, r.dia) {
          LexLessEqTransitive(rs'[j].dia, c'.ultimo, r.dia);
        }
        LexLessEqTransitive(first.dia, c'.ultimo, r.dia);
      } else {
        LexLessTotal(c'.ultimo, r.dia);
      }
      assert forall j :: 0 <= j < |rs'| ==> rs[j] == rs'[j];
    }
  }

  lemma {:induction false} CadastroCounts(first: Row, rs: seq<Row>)
    ensures Steps(NewCadastro(first), rs, Cadastrado).nome == first.nome
    ensures Steps(NewCadastro(first), rs, Cadastrado).dias == |rs|
    ensures Steps(NewCadastro(first), rs, Cadastrado).total == SumBy(rs, AmountOf)
    decreases |rs|
  {
    if |rs| > 0 {
      CadastroCounts(first, rs[..|rs| - 1]);
    }
  }

  /** `listarDataCadastramento()` on the fetched rows: one entry per name,
      in the order names first appear. */
  function ListarDataCadastramento(fetched: Option<seq<Row>>): (r: seq<Cadastro>)
    ensures fetched.None? ==> r == []
  {
    match fetched
    case None => []
    case Some(rows) => GroupRows(rows, NewCadastro, Cadastrado, CadastroName)
  }

  /** Each entry holds its employee's first and last working day (both days
      on which that employee worked), the number of rows and their sum. */
  lemma DataCadastramentoMeaning(rows: seq<Row>)
    ensures var r := ListarDataCadastramento(Some(rows));
      var ns := Dedup(Names(rows));
      |r| == |ns|
      && forall i :: 0 <= i < |r| ==>
        var rs := RowsOf(rows, ns[i]);
        && |rs| > 0 && r[i].nome == ns[i]
        && r[i].dias == |rs| && r[i].total == SumBy(rs, AmountOf)
        && (exists j :: 0 <= j < |rs| && rs[j].dia == r[i].primeiro)
        && (exists j :: 0 <= j < |rs| && rs[j].dia == r[i].ultimo)
        && (forall j :: 0 <= j < |rs| ==> LexLessEq(r[i].primeiro, rs[j].dia) && LexLessEq(rs[j].dia, r[i].ultimo))
  {
    GroupRowsSpec(rows, NewCadastro, Cadastrado, CadastroName);
    var r := ListarDataCadastramento(Some(rows));
    var ns := Dedup(Names(rows));
    forall i | 0 <= i < |r|
      ensures var rs := RowsOf(rows, ns[i]);
        && |rs| > 0 && r[i].nome == ns[i]
        && r[i].dias == |rs| && r[i].total == SumBy(rs, AmountOf)
        && (exists j :: 0 <= j < |rs| && rs[j].dia == r[i].primeiro)
        && (exists j :: 0 <= j < |rs| && rs[j].dia == r[i].ultimo)
        && (forall j :: 0 <= j < |rs| ==> LexLessEq(r[i].primeiro, rs[j].dia) && LexLessEq(rs[j].dia, r[i].ultimo))
    {
      assert EntryOf(r[i], rows, ns[i], NewCadastro, Cadastrado, CadastroName);
      var rs := RowsOf(rows, ns[i]);
      CadastroDays(rs[0], rs);
      CadastroCounts(rs[0], rs);
    }
  }

  // ------------------------------------------------------------------
  // Names.

  /** `getNomesUnicosFuncionarios()`: the names without repetition, in the
      order they first appear; a failed query is an error. */
  function GetNomesUnicos(fetched: Option<seq<Row>>): (r: Result<seq<string>>)
    ensures fetched.None? <==> r.Err?
    ensures r.Ok? ==> NoDuplicates(r.value)
    ensures r.Ok? ==> forall n :: n in r.value <==> n in Names(fetched.value)
    ensures r.Ok? ==> InFirstSeenOrder(Names(fetched.value), r.value)
  {
    match fetched
    case None => Err("query failed")
    case Some(rows) =>
      DedupFirstSeenOrder(Names(rows));
      Ok(Dedup(Names(rows)))
  }

  /** The screens agree on the head count: as many unique names as
      registered employees and as ranking entries. */
  lemma HeadCountsAgree(rows: seq<Row>)
    ensures |GetNomesUnicos(Some(rows)).value| == GetTotalFuncionarios(Some(rows)).cadastrados
    ensures |ListarRankingPagamentos(Some(rows))| == GetTotalFuncionarios(Some(rows)).cadastrados
    ensures |ListarDataCadastramento(Some(rows))| == GetTotalFuncionarios(Some(rows)).cadastrados
  {
    DedupLengthOfSet(Names(rows));
    GroupRowsSpec(rows, NewCadastro, Cadastrado, CadastroName);
  }
}

=== FILE: strings.dfy ===
/** Decimal digits and the string conversions the source gets from Python's
    `str(int)`, `%0Nd`, `int()` and `repr`, plus JavaScript's ordering of
    strings. */
module Strings {
  import opened Common

  predicate IsDigit(c: char) {
    '0' <= c <= '9'
  }

  predicate AllDigits(s: string) {
    forall i :: 0 <= i < |s| ==> IsDigit(s[i])
  }

  function DigitChar(d: nat): (c: char)
    requires d < 10
    ensures IsDigit(c)
  {
    (48 + d) as char
  }

  function DigitValue(c: char): (d: nat)
    requires IsDigit(c)
    ensures d < 10 && DigitChar(d) == c
  {
    c as int - 48
  }

  function Pow10(k: nat): (p: nat)
    ensures p >= 1
  {
    if k == 0 then 1 else 10 * Pow10(k - 1)
  }

  /** The number a string of decimal digits denotes (leading zeros allowed). */
  function DigitsValue(s: string): (n: nat)
    requires AllDigits(s)
    ensures n < Pow10(|s|)
  {
    if |s| == 0 then 0 else 10 * DigitsValue(s[..|s| - 1]) + DigitValue(s[|s| - 1])
  }

  /** `n` written with exactly `width` digits, zero-padded on the left:
      Python's `%0<width>d` for an `n` that fits. */
  function PadDigits(n: nat, width: nat): (r: string)
    ensures |r| == width && AllDigits(r)
  {
    if width == 0 then "" else PadDigits(n / 10, width - 1) + [DigitChar(n % 10)]
  }

  /** Reading back a zero-padded rendering gives the number, when it fits. */
  lemma {:induction false} PadDigitsValue(n: nat, width: nat)
    requires n < Pow10(width)
    ensures DigitsValue(PadDigits(n, width)) == n
    decreases width
  {
    if width > 0 {
      var r := PadDigits(n, width);
      assert r[..width - 1] == PadDigits(n / 10, width - 1);
      PadDigitsValue(n / 10, width - 1);
    }
  }

  /** Conversely, every digit string is the zero-padded rendering of its value. */
  lemma {:induction false} DigitsValuePad(s: string)
    requires AllDigits(s)
    ensures PadDigits(DigitsValue(s), |s|) == s
    decreases |s|
  {
    if |s| > 0 {
      var s' := s[..|s| - 1];
      var n := DigitsValue(s);
      assert n / 10 == DigitsValue(s');
      assert n % 10 == DigitValue(s[|s| - 1]);
      DigitsValuePad(s');
    }
  }

  /** Python's `str(n)` for a non-negative integer: no leading zeros. */
  function NatToString(n: nat): (r: string)
    ensures |r| >= 1 && AllDigits(r)
    ensures |r| > 1 ==> r[0] != '0'
  {
    if n < 10 then [DigitChar(n)] else NatToString(n / 10) + [DigitChar(n % 10)]
  }

  lemma {:induction false} NatToStringValue(n: nat)
    ensures DigitsValue(NatToString(n)) == n
    decreases n
  {
    if n >= 10 {
      var r := NatToString(n);
      assert r[..|r| - 1] == NatToString(n / 10);
      NatToStringValue(n / 10);
    }
  }

  /** Python's `int(s)` on a string, restricted to plain unsigned decimals. */
  function ParseNat(s: string): (r: Option<nat>)
    ensures r.Some? <==> |s| > 0 && AllDigits(s)
  {
    if |s| > 0 && AllDigits(s) then Some(DigitsValue(s)) else None
  }

  lemma ParseNatToString(n: nat)
    ensures ParseNat(NatToString(n)) == Some(n)
  {
    NatToStringValue(n);
  }

  // ------------------------------------------------------------------
  // Python's `int()` on a string, in base 10.

  /** The characters `str.isspace()` accepts, which `int()` strips from both
      ends of its argument. */
  predicate IsPySpace(c: char) {
    c == ' ' || '\t' <= c <= '\r' || '\U{1C}' <= c <= '\U{1F}' || c == '\U{85}' || c == '\U{A0}'
    || c == '\U{1680}' || '\U{2000}' <= c <= '\U{200A}' || c == '\U{2028}' || c == '\U{2029}'
    || c == '\U{202F}' || c == '\U{205F}' || c == '\U{3000}'
  }

  predicate AllSpace(s: string) {
    forall i :: 0 <= i < |s| ==> IsPySpace(s[i])
  }

  /** `s` without its leading white space. */
  function TrimLeft(s: string): (r: string)
    ensures |r| <= |s| && r == s[|s| - |r|..]
    ensures AllSpace(s[..|s| - |r|])
    ensures |r| > 0 ==> !IsPySpace(r[0])
  {
    if |s| > 0 && IsPySpace(s[0]) then TrimLeft(s[1..]) else s
  }

  /** `s` without its trailing white space. */
  function TrimRight(s: string): (r: string)
    ensures |r| <= |s| && r == s[..|r|]
    ensures AllSpace(s[|r|..])
    ensures |r| > 0 ==> !IsPySpace(r[|r| - 1])
  {
    if |s| > 0 && IsPySpace(s[|s| - 1]) then TrimRight(s[..|s| - 1]) else s
  }

  function Strip(s: string): string {
    TrimRight(TrimLeft(s))
  }

  /** The digits of an `int()` literal: decimal digits, with single
      underscores allowed between two digits. */
  predicate DigitGroups(t: string) {
    && |t| > 0 && IsDigit(t[0]) && IsDigit(t[|t| - 1])
    && (forall i :: 0 <= i < |t| ==> IsDigit(t[i]) || t[i] == '_')
    && NoDoubleUnderscore(t)
  }

  predicate NoDoubleUnderscore(t: string) {
    |t| < 2 || (!(t[0] == '_' && t[1] == '_') && NoDoubleUnderscore(t[1..]))
  }

  lemma {:induction false} DigitsNoDoubleUnderscore(d: string)
    requires AllDigits(d)
    ensures NoDoubleUnderscore(d)
    decreases |d|
  {
    if |d| >= 2 {
      assert AllDigits(d[1..]);
      DigitsNoDoubleUnderscore(d[1..]);
    }
  }

  /** A non-empty run of plain digits is a digit literal. */
  lemma DigitsAreGroups(d: string)
    requires |d| > 0 && AllDigits(d)
    ensures DigitGroups(d) && DropUnderscores(d) == d
  {
    DigitsNoDoubleUnderscore(d);
  }

  /** What `int()` accepts once the white space is stripped: the digits,
      optionally after one `+` or `-`. */
  predicate SignedDigits(t: string) {
    DigitGroups(t) || (|t| > 0 && (t[0] == '+' || t[0] == '-') && DigitGroups(t[1..]))
  }

  /** The digits of `t` with the underscores taken out. */
  function DropUnderscores(t: string): (r: string)
    ensures (forall i :: 0 <= i < |t| ==> IsDigit(t[i]) || t[i] == '_') ==> AllDigits(r)
    ensures AllDigits(t) ==> r == t
  {
    if |t| == 0 then "" else (if t[0] == '_' then "" else [t[0]]) + DropUnderscores(t[1..])
  }

  /** `int(s)`: `None` where Python raises `ValueError`. Digits outside
      ASCII, which Python also accepts, are not modelled. */
  function PyInt(s: string): (r: Option<int>)
    ensures r.Some? <==> SignedDigits(Strip(s))
  {
    IntOfStripped(Strip(s))
  }

  /** `int()` on text already stripped of white space. */
  function IntOfStripped(t: string): (r: Option<int>)
    ensures r.Some? <==> SignedDigits(t)
  {
    if DigitGroups(t) then Some(DigitsValue(DropUnderscores(t)))
    else if |t| > 0 && (t[0] == '+' || t[0] == '-') && DigitGroups(t[1..]) then
      var v: int := DigitsValue(DropUnderscores(t[1..]));
      if t[0] == '-' then Some(-v) else Some(v)
    else None
  }

  /** Stripping drops exactly the padding around a text that neither starts
      nor ends with white space. */
  lemma {:induction false} StripPadded(pre: string, x: string, post: string)
    requires AllSpace(pre) && AllSpace(post)
    requires |x| > 0 && !IsPySpace(x[0]) && !IsPySpace(x[|x| - 1])
    ensures Strip(pre + x + post) == x
  {
    assert pre + x + post == pre + (x + post);
    TrimLeftPadded(pre, x + post);
    assert (x + post)[0] == x[0];
    TrimRightPadded(x, post);
  }

  lemma {:induction false} TrimLeftPadded(pre: string, y: string)
    requires AllSpace(pre) && |y| > 0 && !IsPySpace(y[0])
    ensures TrimLeft(pre + y) == y
    decreases |pre|
  {
    if |pre| > 0 {
      assert (pre + y)[1..] == pre[1..] + y;
      TrimLeftPadded(pre[1..], y);
    } else {
      assert pre + y == y;
    }
  }

  lemma {:induction false} TrimRightPadded(x: string, post: string)
    requires AllSpace(post) && |x| > 0 && !IsPySpace(x[|x| - 1])
    ensures TrimRight(x + post) == x
    decreases |post|
  {
    if |post| > 0 {
      assert (x + post)[..|x + post| - 1] == x + post[..|post| - 1];
      TrimRightPadded(x, post[..|post| - 1]);
    } else {
      assert x + post == x;
    }
  }

  /** Plain digits, once stripped, read as their value. */
  lemma PyIntDigits(s: string, d: string)
    requires Strip(s) == d && |d| > 0 && AllDigits(d)
    ensures PyInt(s) == Some(DigitsValue(d))
  {
    DigitsAreGroups(d);
  }

  /** A sign in front of plain digits sets the sign of the value. */
  lemma IntOfSigned(t: string, d: string, n: nat)
    requires |t| > 0 && (t[0] == '+' || t[0] == '-') && t[1..] == d
    requires |d| > 0 && AllDigits(d) && DigitsValue(d) == n
    ensures t[0] == '-' ==> IntOfStripped(t) == Some(-(n as int))
    ensures t[0] == '+' ==> IntOfStripped(t) == Some(n)
  {
    assert !DigitGroups(t) by { assert !IsDigit(t[0]); }
    DigitsAreGroups(d);
  }

  /** A signed literal read through surrounding white space. */
  lemma PyIntSignedPadded(pre: string, t: string, post: string, d: string, n: nat)
    requires AllSpace(pre) && AllSpace(post)
    requires |t| > 0 && (t[0] == '+' || t[0] == '-') && t[1..] == d
    requires |d| > 0 && AllDigits(d) && DigitsValue(d) == n
    ensures t[0] == '-' ==> PyInt(pre + t + post) == Some(-(n as int))
    ensures t[0] == '+' ==> PyInt(pre + t + post) == Some(n)
  {
    assert t[|t| - 1] == d[|d| - 1];
    StripPadded(pre, t, post);
    IntOfSigned(t, d, n);
  }

  /** `int()` reads `str(n)` back, with or without a sign and surrounding
      white space. */
  lemma PyIntPadded(pre: string, n: nat, post: string)
    requires AllSpace(pre) && AllSpace(post)
    ensures PyInt(pre + NatToString(n) + post) == Some(n)
    ensures PyInt(pre + ("+" + NatToString(n)) + post) == Some(n)
    ensures PyInt(pre + ("-" + NatToString(n)) + post) == Some(-(n as int))
  {
    var d := NatToString(n);
    NatToStringValue(n);
    StripPadded(pre, d, post);
    PyIntDigits(pre + d + post, d);
    var plus, minus := "+" + d, "-" + d;
    assert plus[0] == '+' && plus[1..] == d && minus[0] == '-' && minus[1..] == d;
    PyIntSignedPadded(pre, plus, post, d, n);
    PyIntSignedPadded(pre, minus, post, d, n);
  }

  /** On a plain unsigned decimal, `int()` agrees with `ParseNat`. */
  lemma PyIntOfPlain(s: string)
    requires ParseNat(s).Some?
    ensures PyInt(s) == Some(ParseNat(s).value as int)
  {
    assert !IsPySpace(s[0]) && !IsPySpace(s[|s| - 1]);
    StripPadded("", s, "");
    assert "" + s + "" == s;
    PyIntDigits(s, s);
  }

  // ------------------------------------------------------------------
  // Python's `repr` of a string, as `%R` and `%r` put it into a message.

  /** Whether `repr` shows a character as it is. Python escapes what Unicode
      does not call printable; up to U+00FF that is the C0 and C1 controls,
      DEL, the no-break space and the soft hyphen. */
  predicate ReprPrintable(c: char) {
    var n := c as int;
    !(n < 0x20 || 0x7F <= n <= 0xA0 || n == 0xAD)
  }

  /** The quote `repr` wraps a text in: `'`, unless the text holds a `'`
      and no `"`. */
  function ReprQuote(s: string): (q: char)
    ensures q == '\'' || q == '"'
  {
    if '\'' in s && '"' !in s then '"' else '\''
  }

  lemma ReprQuoteChoice(s: string)
    ensures PyRepr(s)[0] == '"' <==> '\'' in s && '"' !in s
  {
  }

  /** A lower-case hexadecimal digit, as `\xNN` writes it. */
  function HexDigit(d: nat): (c: char)
    requires d < 16
  {
    if d < 10 then DigitChar(d) else (87 + d) as char
  }

  function HexValue(c: char): (r: Option<nat>)
    ensures r.Some? ==> r.value < 16
  {
    if IsDigit(c) then Some(DigitValue(c))
    else if 'a' <= c <= 'f' then Some(c as int - 87)
    else None
  }

  lemma HexRoundTrip(d: nat)
    requires d < 16
    ensures HexValue(HexDigit(d)) == Some(d)
  {
  }

  /** One character inside the quotes `q`: a backslash and the quote are
      escaped, tab, line feed and carriage return get their letters, and
      any other unprintable character is written `\xNN`. */
  function ReprChar(c: char, q: char): (r: string)
    ensures |r| >= 1
  {
    if c == q || c == '\\' then ['\\', c]
    else if c == '\t' then "\\t"
    else if c == '\n' then "\\n"
    else if c == '\r' then "\\r"
    else if !ReprPrintable(c) then "\\x" + [HexDigit(c as int / 16), HexDigit(c as int % 16)]
    else [c]
  }

  function ReprBody(s: string, q: char): string {
    if |s| == 0 then "" else ReprChar(s[0], q) + ReprBody(s[1..], q)
  }

  /** `repr(s)`: the text between quotes, with the characters above
      escaped. */
  function PyRepr(s: string): (r: string)
    ensures |r| >= 2 && r[0] == ReprQuote(s) && r[|r| - 1] == ReprQuote(s)
  {
    [ReprQuote(s)] + ReprBody(s, ReprQuote(s)) + [ReprQuote(s)]
  }

  /** Reads the inside of a literal quoted with `q` back: the escapes `repr`
      writes, and any other character except the quote and a lone
      backslash. */
  function ReadReprBody(t: string, q: char): (r: Option<string>)
    decreases |t|
  {
    if |t| == 0 then Some("")
    else
      var step: Option<(char, nat)> :=
        if t[0] == '\\' then
          if |t| < 2 then None
          else if t[1] == '\\' || t[1] == '\'' || t[1] == '"' then Some((t[1], 2))
          else if t[1] == 't' then Some(('\t', 2))
          else if t[1] == 'n' then Some(('\n', 2))
          else if t[1] == 'r' then Some(('\r', 2))
          else if t[1] == 'x' && |t| >= 4 && HexValue(t[2]).Some? && HexValue(t[3]).Some? then
            Some(((16 * HexValue(t[2]).value + HexValue(t[3]).value) as char, 4))
          else None
        else if t[0] == q then None
        else Some((t[0], 1));
      match step
      case None => None
      case Some((c, k)) =>
        match ReadReprBody(t[k..], q)
        case None => None
        case Some(rest) => Some([c] + rest)
  }

  /** Reads a quoted literal back to its text. */
  function ReadRepr(t: string): (r: Option<string>) {
    if |t| >= 2 && (t[0] == '\'' || t[0] == '"') && t[|t| - 1] == t[0] then ReadReprBody(t[1..|t| - 1], t[0])
    else None
  }

  lemma ReadReprStep(c: char, q: char, rest: string, tail: string)
    requires q == '\'' || q == '"'
    requires ReadReprBody(rest, q) == Some(tail)
    ensures ReadReprBody(ReprChar(c, q) + rest, q) == Some([c] + tail)
  {
    var t := ReprChar(c, q) + rest;
    var k := |ReprChar(c, q)|;
    assert t[..k] == ReprChar(c, q) && t[k..] == rest;
    if c == q || c == '\\' {
      assert t[0] == '\\' && t[1] == c;
    } else if c == '\t' || c == '\n' || c == '\r' {
      assert t[0] == '\\';
    } else if !ReprPrintable(c) {
      var n := c as int;
      HexRoundTrip(n / 16);
      HexRoundTrip(n % 16);
      assert t[0] == '\\' && t[1] == 'x' && t[2] == HexDigit(n / 16) && t[3] == HexDigit(n % 16);
      assert (16 * (n / 16) + n % 16) as char == c;
    } else {
      assert t[0] == c;
    }
  }

  lemma {:induction false} ReadReprBodyOf(s: string, q: char)
    requires q == '\'' || q == '"'
    ensures ReadReprBody(ReprBody(s, q), q) == Some(s)
    decreases |s|
  {
    if |s| > 0 {
      ReadReprBodyOf(s[1..], q);
      ReadReprStep(s[0], q, ReprBody(s[1..], q), s[1..]);
      assert s == [s[0]] + s[1..];
    }
  }

  /** `repr` loses nothing: its literal reads back as the text, so two texts
      with the same `repr` are the same text. */
  lemma ReprReadsBack(s: string)
    ensures ReadRepr(PyRepr(s)) == Some(s)
  {
    var q := ReprQuote(s);
    var t := PyRepr(s);
    assert t[1..|t| - 1] == ReprBody(s, q);
    ReadReprBodyOf(s, q);
  }

  /** No character of `s` needs an escape between the quotes `q`. */
  predicate ReprPlainIn(s: string, q: char) {
    forall i :: 0 <= i < |s| ==> ReprPrintable(s[i]) && s[i] != q && s[i] != '\\'
  }

  predicate ReprPlain(s: string) {
    ReprPlainIn(s, '\'')
  }

  lemma {:induction false} ReprBodyPlain(s: string, q: char)
    requires ReprPlainIn(s, q)
    ensures ReprBody(s, q) == s
    decreases |s|
  {
    if |s| > 0 {
      assert ReprPlainIn(s[1..], q) by {
        assert forall i :: 0 <= i < |s[1..]| ==> s[1..][i] == s[i + 1];
      }
      ReprBodyPlain(s[1..], q);
      assert s == [s[0]] + s[1..];
    }
  }

  /** A printable text without `'` or a backslash is shown as it is,
      between single quotes. */
  lemma ReprOfPlain(s: string)
    requires ReprPlain(s)
    ensures PyRepr(s) == "'" + s + "'"
  {
    ReprBodyPlain(s, '\'');
  }

  /** A printable text with a `'` but no `"` or backslash is shown as it
      is, between double quotes. */
  lemma ReprOfApostrophe(s: string)
    requires ReprPlainIn(s, '"') && '\'' in s
    ensures PyRepr(s) == "\"" + s + "\""
  {
    assert '"' !in s;
    ReprBodyPlain(s, '"');
  }

  /** A tab is shown as `\t`. */
  lemma ReprOfTab()
    ensures PyRepr("a\tb") == "'a\\tb'"
  {
    assert '\'' !in "a\tb";
  }

  /** JavaScript's `a < b` on strings: lexicographic order of characters, a
      proper prefix coming first. */
  predicate LexLess(a: string, b: string)
    decreases |a|
  {
    if |a| == 0 then |b| > 0
    else if |b| == 0 then false
    else if a[0] < b[0] then true
    else if a[0] == b[0] then LexLess(a[1..], b[1..])
    else false
  }

  predicate LexLessEq(a: string, b: string) {
    a == b || LexLess(a, b)
  }

  lemma {:induction false} LexLessIrreflexive(a: string)
    ensures !LexLess(a, a)
    decreases |a|
  {
    if |a| > 0 {
      LexLessIrreflexive(a[1..]);
    }
  }

  lemma {:induction false} LexLessTransitive(a: string, b: string, c: string)
    requires LexLess(a, b) && LexLess(b, c)
    ensures LexLess(a, c)
    decreases |a|
  {
    if |a| > 0 && a[0] == b[0] && b[0] == c[0] {
      LexLessTransitive(a[1..], b[1..], c[1..]);
    }
  }

  lemma {:induction false} LexLessTotal(a: string, b: string)
    ensures a == b || LexLess(a, b) || LexLess(b, a)
    decreases |a|
  {
    if |a| > 0 && |b| > 0 && a[0] == b[0] {
      LexLessTotal(a[1..], b[1..]);
      if a[1..] == b[1..] {
        assert a == [a[0]] + a[1..] && b == [b[0]] + b[1..];
      }
    }
  }

  lemma LexLessEqTransitive(a: string, b: string, c: string)
    requires LexLessEq(a, b) && LexLessEq(b, c)
    ensures LexLessEq(a, c)
  {
    if LexLess(a, b) && LexLess(b, c) {
      LexLessTransitive(a, b, c);
    }
  }
}

=== FILE: utf8.dfy ===
/** UTF-8, the encoding `str.encode('utf-8')` applies to the textual reports
    before they are bundled or attached. A Dafny `char` is a Unicode scalar
    value, exactly the set of code points UTF-8 can encode. */
module Utf8 {
  import opened Common

  newtype byte = x: int | 0 <= x < 256

  predicate IsContinuation(b: byte) {
    0x80 <= b < 0xC0
  }

  /** The one to four bytes of one code point. */
  function EncodeChar(c: char): (r: seq<byte>)
    ensures 1 <= |r| <= 4
    ensures (|r| == 1) <==> (c as int < 0x80)
    ensures |r| == 1 ==> r[0] as int == c as int
    ensures forall i :: 1 <= i < |r| ==> IsContinuation(r[i])
  {
    var n := c as int;
    if n < 0x80 then [n as byte]
    else if n < 0x800 then [(0xC0 + n / 64) as byte, (0x80 + n % 64) as byte]
    else if n < 0x10000 then
      [(0xE0 + n / 4096) as byte, (0x80 + n / 64 % 64) as byte, (0x80 + n % 64) as byte]
    else
      [(0xF0 + n / 262144) as byte, (0x80 + n / 4096 % 64) as byte,
       (0x80 + n / 64 % 64) as byte, (0x80 + n % 64) as byte]
  }

  /** `s.encode('utf-8')`. */
  function Encode(s: string): (r: seq<byte>)
    ensures |s| <= |r| <= 4 * |s|
  {
    if |s| == 0 then [] else EncodeChar(s[0]) + Encode(s[1..])
  }

  lemma {:induction false} EncodeAppend(a: string, b: string)
    ensures Encode(a + b) == Encode(a) + Encode(b)
    decreases |a|
  {
    if |a| > 0 {
      assert (a + b)[0] == a[0];
      assert (a + b)[1..] == a[1..] + b;
      EncodeAppend(a[1..], b);
      assert Encode(a + b) == EncodeChar(a[0]) + Encode(a[1..] + b);
    } else {
      assert a + b == b;
    }
  }

  /** Decodes the code point at the head of `b`, with the number of bytes it
      takes; `None` on a malformed, overlong or surrogate sequence, as
      `bytes.decode('utf-8')` rejects them. */
  function DecodeFirst(b: seq<byte>): (r: Option<(char, nat)>)
    ensures r.Some? ==> 1 <= r.value.1 <= |b|
  {
    if |b| == 0 then None
    else
      var b0 := b[0] as int;
      if b0 < 0x80 then Some((b0 as char, 1))
      else if 0xC2 <= b0 < 0xE0 && |b| >= 2 && IsContinuation(b[1]) then
        var n := (b0 - 0xC0) * 64 + (b[1] as int - 0x80);
        Some((n as char, 2))
      else if 0xE0 <= b0 < 0xF0 && |b| >= 3 && IsContinuation(b[1]) && IsContinuation(b[2]) then
        var n := (b0 - 0xE0) * 4096 + (b[1] as int - 0x80) * 64 + (b[2] as int - 0x80);
        if 0x800 <= n < 0xD800 || 0xE000 <= n then Some((n as char, 3)) else None
      else if 0xF0 <= b0 < 0xF5 && |b| >= 4 && IsContinuation(b[1]) && IsContinuation(b[2])
              && IsContinuation(b[3]) then
        var n := (b0 - 0xF0) * 262144 + (b[1] as int - 0x80) * 4096
                 + (b[2] as int - 0x80) * 64 + (b[3] as int - 0x80);
        if 0x10000 <= n < 0x110000 then Some((n as char, 4)) else None
      else None
  }

  /** `b.decode('utf-8')`: `None` where Python raises `UnicodeDecodeError`. */
  function Decode(b: seq<byte>): (r: Option<string>)
    ensures r.Some? ==> |r.value| <= |b|
    decreases |b|
  {
    if |b| == 0 then Some("")
    else match DecodeFirst(b)
      case None => None
      case Some((c, k)) =>
        match Decode(b[k..])
        case None => None
        case Some(rest) => Some([c] + rest)
  }

  lemma DecodeFirstOfEncodeChar(c: char, rest: seq<byte>)
    ensures DecodeFirst(EncodeChar(c) + rest) == Some((c, |EncodeChar(c)|))
  {
    var n := c as int;
    if n < 0x80 {
    } else if n < 0x800 {
      DecodeTwo(c, rest);
    } else if n < 0x10000 {
      DecodeThree(c, rest);
    } else {
      DecodeFour(c, rest);
    }
  }

  lemma DecodeTwo(c: char, rest: seq<byte>)
    requires 0x80 <= c as int < 0x800
    ensures DecodeFirst(EncodeChar(c) + rest) == Some((c, 2))
  {
    var n := c as int;
    var b := EncodeChar(c) + rest;
    assert b[0] as int == 0xC0 + n / 64 && b[1] as int == 0x80 + n % 64;
    assert (n / 64) * 64 + n % 64 == n;
  }

  lemma DecodeThree(c: char, rest: seq<byte>)
    requires 0x800 <= c as int < 0x10000
    ensures DecodeFirst(EncodeChar(c) + rest) == Some((c, 3))
  {
    var n := c as int;
    var b := EncodeChar(c) + rest;
    var q := n / 64;
    assert n == q * 64 + n % 64;
    assert q == (q / 64) * 64 + q % 64;
    assert n / 4096 == q / 64;
    assert b[0] as int == 0xE0 + q / 64;
    assert b[1] as int == 0x80 + q % 64 && b[2] as int == 0x80 + n % 64;
    assert (q / 64) * 4096 + (q % 64) * 64 + n % 64 == n;
  }

  lemma DecodeFour(c: char, rest: seq<byte>)
    requires 0x10000 <= c as int
    ensures DecodeFirst(EncodeChar(c) + rest) == Some((c, 4))
  {
    var n := c as int;
    var b := EncodeChar(c) + rest;
    var q := n / 64;
    var q2 := q / 64;
    assert n == q * 64 + n % 64;
    assert q == q2 * 64 + q % 64;
    assert q2 == (q2 / 64) * 64 + q2 % 64;
    assert n / 4096 == q2;
    assert n / 262144 == q2 / 64;
    assert b[0] as int == 0xF0 + q2 / 64;
    assert b[1] as int == 0x80 + q2 % 64;
    assert b[2] as int == 0x80 + q % 64 && b[3] as int == 0x80 + n % 64;
    assert (q2 / 64) * 262144 + (q2 % 64) * 4096 + (q % 64) * 64 + n % 64 == n;
  }

  /** Decoding undoes encoding: every string survives
      `s.encode('utf-8').decode('utf-8')`. */
  lemma {:induction false} DecodeEncode(s: string)
    ensures Decode(Encode(s)) == Some(s)
    decreases |s|
  {
    if |s| > 0 {
      var e := EncodeChar(s[0]);
      DecodeFirstOfEncodeChar(s[0], Encode(s[1..]));
      assert (e + Encode(s[1..]))[|e|..] == Encode(s[1..]);
      DecodeEncode(s[1..]);
      assert s == [s[0]] + s[1..];
    }
  }

  /** So distinct texts never encode to the same bytes. */
  lemma EncodeInjective(a: string, b: string)
    ensures Encode(a) == Encode(b) <==> a == b
  {
    DecodeEncode(a);
    DecodeEncode(b);
  }

  predicate IsAscii(s: string) {
    forall i :: 0 <= i < |s| ==> s[i] as int < 0x80
  }

  /** ASCII text encodes byte for byte. */
  lemma {:induction false} EncodeAscii(s: string)
    requires IsAscii(s)
    ensures |Encode(s)| == |s|
    ensures forall i :: 0 <= i < |s| ==> Encode(s)[i] as int == s[i] as int
    decreases |s|
  {
    if |s| > 0 {
      EncodeAscii(s[1..]);
      assert forall i :: 1 <= i < |s| ==> Encode(s)[i] == Encode(s[1..])[i - 1];
    }
  }
}

=== FILE: views.dfy ===
/** What a reader of each report format sees as the day's summary: the number
    of records and the amount to pay. Every reader checks the summary the
    document prints against the table it holds, so agreement with the
    records means both the printed figures and the table are right. */
module ReportViews {
  import opened Common
  import opened Strings
  import opened Dates
  import opened Money
  import opened Models
  import opened Report
  import Json
  import Xml
  import Csv

  datatype Summary = Summary(count: nat, total: Cents)

  /** The summary a day's records call for. */
  function SummaryOf(fs: seq<Funcionario>): (s: Summary)
    ensures s.count == |fs|
    ensures |fs| == 0 ==> s.total == 0
  {
    Summary(|fs|, TotalOf(fs))
  }

  /** The sum of the amounts when every one could be read, `None` otherwise. */
  function SumAmounts(xs: seq<Option<Cents>>): (r: Option<Cents>)
    ensures r.Some? <==> forall i :: 0 <= i < |xs| ==> xs[i].Some?
  {
    if |xs| == 0 then Some(0)
    else match SumAmounts(xs[..|xs| - 1])
      case None => None
      case Some(t) =>
        match xs[|xs| - 1]
        case None => None
        case Some(x) => Some(t + x)
  }

  /** A column that reads back record by record sums to the day's total. */
  lemma {:induction false} SumAmountsOfRecords(fs: seq<Funcionario>, xs: seq<Option<Cents>>)
    requires |xs| == |fs|
    requires forall i :: 0 <= i < |fs| ==> xs[i] == Some(fs[i].valor)
    ensures SumAmounts(xs) == Some(TotalOf(fs))
    decreases |fs|
  {
    if |fs| > 0 {
      var n := |fs|;
      SumAmountsOfRecords(fs[..n - 1], xs[..n - 1]);
      assert TotalOf(fs) == TotalOf(fs[..n - 1]) + fs[n - 1].valor;
    }
  }

  /** The text after `prefix`, when `s` starts with it. */
  function After(s: string, prefix: string): (r: Option<string>)
    ensures r.Some? ==> prefix + r.value == s
  {
    if |prefix| <= |s| && s[..|prefix|] == prefix then Some(s[|prefix|..]) else None
  }

  lemma AfterPrefix(prefix: string, rest: string)
    ensures After(prefix + rest, prefix) == Some(rest)
  {
    assert (prefix + rest)[..|prefix|] == prefix;
    assert (prefix + rest)[|prefix|..] == rest;
  }

  /** A line's text without its final line break. */
  function Chomp(s: string): (r: Option<string>)
    ensures r.Some? ==> r.value + "\n" == s
  {
    if |s| > 0 && s[|s| - 1] == '\n' then Some(s[..|s| - 1]) else None
  }

  lemma ChompLine(s: string)
    ensures Chomp(s + "\n") == Some(s)
  {
    assert (s + "\n")[..|s|] == s;
  }

  // ------------------------------------------------------------------
  // CSV, read back from its text.

  /** The amount in the second column, as `:.2f` wrote it. */
  function PlainAmount(row: seq<string>): Option<Cents> {
    if |row| >= 2 then ParseCents(row[1]) else None
  }

  /** The header row, then one row per record: the count is the number of
      rows after the header and the total is the sum of the amount column. */
  function CsvSummary(text: string): (r: Option<Summary>)
    ensures r.Some? ==> Csv.ParseRows(text).Some? && |Csv.ParseRows(text).value| == r.value.count + 1
  {
    match Csv.ParseRows(text)
    case None => None
    case Some(rows) =>
      if |rows| == 0 || rows[0] != Headers then None
      else match SumAmounts(Map(rows[1..], PlainAmount))
        case None => None
        case Some(t) => Some(Summary(|rows| - 1, t))
  }

  lemma CsvAgrees(fs: seq<Funcionario>, dia: Date)
    requires Valid(dia)
    ensures CsvSummary(GenerateCsv(NewGenerator(fs, dia))) == Some(SummaryOf(fs))
  {
    var g := NewGenerator(fs, dia);
    CsvReadsBack(g);
    CsvRowsSum(g);
  }

  /** The amount column below the header sums to the day's total. */
  lemma CsvRowsSum(g: Generator)
    ensures SumAmounts(Map(CsvRows(g)[1..], PlainAmount)) == Some(TotalOf(g.funcionarios))
  {
    var fs := g.funcionarios;
    var rows := CsvRows(g)[1..];
    forall i | 0 <= i < |fs|
      ensures Map(rows, PlainAmount)[i] == Some(fs[i].valor)
    {
      assert rows[i] == CsvRecord(fs[i]);
    }
    SumAmountsOfRecords(fs, Map(rows, PlainAmount));
  }

  // ------------------------------------------------------------------
  // JSON, read from the value tree.

  /** A count as `json.loads` gives it back: a non-negative integer. */
  function JsonCount(j: Json.Json): Option<nat> {
    if j.JInt? && j.i >= 0 then Some(j.i) else None
  }

  /** An amount: a float, or the integer `0` that `sum` of nothing gives. */
  function JsonAmount(j: Json.Json): Option<Cents> {
    match j
    case JMoney(c) => Some(c)
    case JInt(i) => if i >= 0 then Some(i * 100) else None
    case _ => None
  }

  function JsonItemAmount(item: Json.Json): Option<Cents> {
    match Json.Get(item, "valor_10_percent")
    case Some(v) => JsonAmount(v)
    case None => None
  }

  /** `relatorio.total_funcionarios` and `relatorio.total_valores`, checked
      against the length of `funcionarios` and the sum of its amounts. */
  function JsonSummary(j: Json.Json): Option<Summary>
  {
    var rel := Json.Get(j, "relatorio");
    var arr := Json.Get(j, "funcionarios");
    if rel.None? || arr.None? || !arr.value.JArray? then None
    else
      var items := arr.value.items;
      var n := Json.Get(rel.value, "total_funcionarios");
      var t := Json.Get(rel.value, "total_valores");
      if n.None? || t.None? then None
      else
        var count := JsonCount(n.value);
        var total := JsonAmount(t.value);
        var sum := SumAmounts(Map(items, JsonItemAmount));
        if count.Some? && total.Some? && sum.Some? && count.value == |items| && total.value == sum.value
        then Some(Summary(count.value, total.value))
        else None
  }

  lemma JsonRecordAmount(f: Funcionario)
    ensures JsonItemAmount(JsonRecord(f)) == Some(f.valor)
  {
    var ms := JsonRecord(f).members;
    assert ms[0].0 != "valor_10_percent" by { assert ms[0].0[0] == 'n'; }
    assert ms[1..][0] == ("valor_10_percent", Json.JMoney(f.valor));
    assert Json.Find(ms, "valor_10_percent") == Json.Find(ms[1..], "valor_10_percent");
  }

  /** Where `generate_json` puts the count, the total and the records. */
  lemma JsonTreeFields(g: Generator)
    requires Valid(g.dia)
    ensures var rel := Json.Get(JsonTree(g), "relatorio");
      && rel.Some?
      && Json.Get(rel.value, "total_funcionarios") == Some(Json.JInt(|g.funcionarios|))
      && Json.Get(rel.value, "total_valores") == Some(JsonTotal(g))
      && Json.Get(JsonTree(g), "funcionarios") == Some(Json.JArray(JsonRecords(g.funcionarios)))
  {
    var top := JsonTree(g).members;
    assert top[0].0 != "funcionarios" by { assert top[0].0[0] == 'r'; }
    assert Json.Find(top, "funcionarios") == Json.Find(top[1..], "funcionarios");
    var rel := top[0].1.members;
    assert rel[0].0 != "total_funcionarios" && rel[0].0 != "total_valores" by { assert rel[0].0[0] == 'd'; }
    assert rel[1].0 != "total_funcionarios" && rel[1].0 != "total_valores" by { assert rel[1].0[0] == 'd'; }
    assert rel[2].0 != "total_valores" by { assert rel[2].0[6] == 'f'; }
    assert Json.Find(rel, "total_funcionarios") == Json.Find(rel[2..], "total_funcionarios");
    assert Json.Find(rel, "total_valores") == Json.Find(rel[3..], "total_valores");
  }

  /** The amounts of the records array sum to the day's total. */
  lemma JsonRecordsSum(fs: seq<Funcionario>)
    ensures SumAmounts(Map(JsonRecords(fs), JsonItemAmount)) == Some(TotalOf(fs))
  {
    var items := JsonRecords(fs);
    forall i | 0 <= i < |fs|
      ensures Map(items, JsonItemAmount)[i] == Some(fs[i].valor)
    {
      JsonRecordAmount(fs[i]);
    }
    SumAmountsOfRecords(fs, Map(items, JsonItemAmount));
  }

  lemma JsonAgrees(fs: seq<Funcionario>, dia: Date)
    requires Valid(dia)
    ensures JsonSummary(JsonTree(NewGenerator(fs, dia))) == Some(SummaryOf(fs))
  {
    var g := NewGenerator(fs, dia);
    JsonTreeFields(g);
    var items := JsonRecords(fs);
    JsonRecordsSum(fs);
    var rel := Json.Get(JsonTree(g), "relatorio").value;
    assert JsonCount(Json.JInt(|fs|)) == Some(|fs|);
    assert JsonAmount(JsonTotal(g)) == Some(TotalOf(fs));
    JsonSummaryOf(JsonTree(g), rel, items, |fs|, JsonTotal(g), TotalOf(fs));
  }

  lemma JsonSummaryOf(j: Json.Json, rel: Json.Json, items: seq<Json.Json>, n: nat, t: Json.Json, total: Cents)
    requires Json.Get(j, "relatorio") == Some(rel)
    requires Json.Get(j, "funcionarios") == Some(Json.JArray(items))
    requires Json.Get(rel, "total_funcionarios") == Some(Json.JInt(n))
    requires Json.Get(rel, "total_valores") == Some(t)
    requires JsonAmount(t) == Some(total)
    requires n == |items| && SumAmounts(Map(items, JsonItemAmount)) == Some(total)
    ensures JsonSummary(j) == Some(Summary(n, total))
  {
    assert JsonCount(Json.JInt(n)) == Some(n);
  }

  // ------------------------------------------------------------------
  // XML, read from the tree the parser hands back.

  /** Text made of digits and points is legal XML and has no carriage
      return, so the parser hands it back unchanged. */
  predicate NumericText(s: string) {
    forall i :: 0 <= i < |s| ==> IsDigit(s[i]) || s[i] == '.'
  }

  lemma NumericTextSurvives(s: string)
    requires NumericText(s)
    ensures Xml.AllXmlChars(s) && Xml.NormalizeLineEnds(s) == s
  {
    assert Xml.NoCarriageReturn(s);
    Xml.NormalizeLineEndsIdentity(s);
  }

  lemma FormatCentsNumeric(c: Cents)
    ensures NumericText(FormatCents(c))
  {
    var a := NatToString(c / 100);
    var b := PadDigits(c % 100, 2);
    var s := FormatCents(c);
    assert s == a + "." + b;
    forall i | 0 <= i < |s|
      ensures IsDigit(s[i]) || s[i] == '.'
    {
      if i < |a| {
        assert s[i] == a[i];
      } else if i > |a| {
        assert s[i] == b[i - |a| - 1];
      }
    }
  }

  /** A text-only element with no attributes comes back from the parser with
      its text when the text has no carriage return. */
  lemma ReparsedLeaf(tag: string, text: string, n: Xml.Node)
    requires NumericText(text)
    requires Xml.Reparse(Xml.Leaf(tag, [], text)) == Ok(n)
    ensures n == Xml.Leaf(tag, [], text)
  {
    NumericTextSurvives(text);
  }

  /** The amount of a `funcionario` element: the text of its second child. */
  function XmlItemAmount(n: Xml.Node): Option<Cents> {
    if n.Branch? && |n.children| == 5 && n.children[1].Leaf? then ParseCents(n.children[1].text) else None
  }

  /** `resumo/total_funcionarios` and `resumo/total_valores`, checked against
      the number of `funcionario` elements and the sum of their amounts. */
  function XmlSummary(root: Xml.Node): Option<Summary> {
    if !root.Branch? || |root.children| != 2 then None
    else
      var resumo := root.children[0];
      var funcs := root.children[1];
      if !resumo.Branch? || |resumo.children| != 2 || !funcs.Branch? then None
      else if !resumo.children[0].Leaf? || !resumo.children[1].Leaf? then None
      else
        var items := funcs.children;
        var count := ParseNat(resumo.children[0].text);
        var total := ParseCents(resumo.children[1].text);
        var sum := SumAmounts(Map(items, XmlItemAmount));
        if count.Some? && total.Some? && sum.Some? && count.value == |items| && total.value == sum.value
        then Some(Summary(count.value, total.value))
        else None
  }

  lemma ReparsedRecordAmount(f: Funcionario, n: Xml.Node)
    requires Xml.Reparse(XmlRecord(f)) == Ok(n)
    ensures XmlItemAmount(n) == Some(f.valor)
  {
    var cs := XmlRecord(f).children;
    assert Xml.Reparse(cs[1]) == Ok(n.children[1]);
    FormatCentsNumeric(f.valor);
    ReparsedLeaf("valor_10_percent", FormatCents(f.valor), n.children[1]);
    FormatCentsRoundTrip(f.valor);
  }

  /** The `resumo` element as the parser hands it back. */
  lemma ReparsedResumo(g: Generator, root: Xml.Node)
    requires Valid(g.dia) && Xml.Reparse(XmlTree(g)) == Ok(root)
    ensures root.Branch? && |root.children| == 2
    ensures var resumo := root.children[0];
      && resumo.Branch? && |resumo.children| == 2
      && resumo.children[0] == Xml.Leaf("total_funcionarios", [], NatToString(|g.funcionarios|))
      && resumo.children[1] == Xml.Leaf("total_valores", [], FormatCents(g.total))
  {
    var tree := XmlTree(g);
    assert Xml.Reparse(tree.children[0]) == Ok(root.children[0]);
    var leaves := tree.children[0].children;
    var resumo := root.children[0];
    assert Xml.Reparse(leaves[0]) == Ok(resumo.children[0]);
    assert Xml.Reparse(leaves[1]) == Ok(resumo.children[1]);
    assert NumericText(NatToString(|g.funcionarios|));
    ReparsedLeaf("total_funcionarios", NatToString(|g.funcionarios|), resumo.children[0]);
    FormatCentsNumeric(g.total);
    ReparsedLeaf("total_valores", FormatCents(g.total), resumo.children[1]);
  }

  /** The `funcionarios` element as the parser hands it back: one item per
      record, whose amounts sum to the day's total. */
  lemma ReparsedItemsSum(g: Generator, root: Xml.Node)
    requires Valid(g.dia) && Xml.Reparse(XmlTree(g)) == Ok(root)
    ensures root.Branch? && |root.children| == 2 && root.children[1].Branch?
    ensures |root.children[1].children| == |g.funcionarios|
    ensures SumAmounts(Map(root.children[1].children, XmlItemAmount)) == Some(TotalOf(g.funcionarios))
  {
    var fs := g.funcionarios;
    var tree := XmlTree(g);
    assert Xml.Reparse(tree.children[1]) == Ok(root.children[1]);
    var items := root.children[1].children;
    assert |items| == |fs|;
    forall i | 0 <= i < |fs|
      ensures Map(items, XmlItemAmount)[i] == Some(fs[i].valor)
    {
      assert Xml.Reparse(XmlRecords(fs)[i]) == Ok(items[i]);
      ReparsedRecordAmount(fs[i], items[i]);
    }
    SumAmountsOfRecords(fs, Map(items, XmlItemAmount));
  }

  lemma XmlAgrees(fs: seq<Funcionario>, dia: Date, root: Xml.Node)
    requires Valid(dia)
    requires Xml.Reparse(XmlTree(NewGenerator(fs, dia))) == Ok(root)
    ensures XmlSummary(root) == Some(SummaryOf(fs))
  {
    var g := NewGenerator(fs, dia);
    ReparsedResumo(g, root);
    ReparsedItemsSum(g, root);
    ParseNatToString(|fs|);
    FormatCentsRoundTrip(g.total);
  }

  /** The ISO date and every weekday name are legal XML. */
  lemma IsoFormatXmlSafe(d: Date)
    requires Valid(d)
    ensures Xml.AllXmlChars(IsoFormat(d))
  {
    var s := IsoFormat(d);
    var y := PadDigits(d.year, 4);
    var m := PadDigits(d.month, 2);
    var dd := PadDigits(d.day, 2);
    assert s == y + "-" + m + "-" + dd;
    forall i | 0 <= i < |s|
      ensures Xml.IsXmlChar(s[i])
    {
      if i < 4 {
        assert s[i] == y[i];
      } else if 4 < i < 7 {
        assert s[i] == m[i - 5];
      } else if i > 7 {
        assert s[i] == dd[i - 8];
      }
    }
  }

  lemma WeekdayLabelXmlSafe(d: Date)
    requires Valid(d)
    ensures Xml.AllXmlChars(Settings.WeekdayLabel(d))
  {
    var k := Weekday(d);
    var s := Settings.WeekdayLabel(d);
    assert forall i :: 0 <= i < |s| ==> 0x20 <= s[i] as int <= 0xFF;
  }

  /** A `funcionario` element is well-formed exactly when the record is. */
  lemma XmlRecordOk(f: Funcionario)
    ensures Xml.Reparse(XmlRecord(f)).Ok? <==> XmlSafe(f)
  {
    var cs := XmlRecord(f).children;
    Xml.BranchOk("funcionario", cs);
    Xml.ReparseAllOk(cs);
    FormatCentsNumeric(f.valor);
    NumericTextSurvives(FormatCents(f.valor));
    Xml.LeafOk("nome", f.nome);
    Xml.LeafOk("valor_10_percent", FormatCents(f.valor));
    Xml.LeafOk("hora_entrada", f.horaEntrada);
    Xml.LeafOk("hora_saida", f.horaSaida);
    Xml.LeafOk("observacao", NoteOrEmpty(f.observacao));
    assert cs[0] == Xml.Leaf("nome", [], f.nome);
    assert cs[1] == Xml.Leaf("valor_10_percent", [], FormatCents(f.valor));
    assert cs[2] == Xml.Leaf("hora_entrada", [], f.horaEntrada);
    assert cs[3] == Xml.Leaf("hora_saida", [], f.horaSaida);
    assert cs[4] == Xml.Leaf("observacao", [], NoteOrEmpty(f.observacao));
  }

  /** The summary element always goes through the parser. */
  lemma XmlResumoOk(g: Generator)
    requires Valid(g.dia)
    ensures Xml.Reparse(XmlTree(g).children[0]).Ok?
  {
    var resumo := XmlTree(g).children[0];
    Xml.ReparseAllOk(resumo.children);
    assert NumericText(NatToString(|g.funcionarios|));
    NumericTextSurvives(NatToString(|g.funcionarios|));
    FormatCentsNumeric(g.total);
    NumericTextSurvives(FormatCents(g.total));
  }

  /** Each `funcionario` element on its own. */
  lemma XmlRecordsEach(fs: seq<Funcionario>)
    ensures forall i :: 0 <= i < |fs| ==> (Xml.Reparse(XmlRecords(fs)[i]).Ok? <==> XmlSafe(fs[i]))
  {
    forall i | 0 <= i < |fs|
      ensures Xml.Reparse(XmlRecords(fs)[i]).Ok? <==> XmlSafe(fs[i])
    {
      XmlRecordOk(fs[i]);
    }
  }

  lemma XmlRecordsOk(fs: seq<Funcionario>)
    ensures Xml.ReparseAll(XmlRecords(fs)).Ok? <==> forall i :: 0 <= i < |fs| ==> XmlSafe(fs[i])
  {
    XmlRecordsEach(fs);
    Xml.ReparseAllMatches(XmlRecords(fs), fs, XmlSafe);
  }

  /** The date attribute of the root is always legal, so the tree parses
      exactly when the weekday attribute and the children do. */
  lemma XmlRootOk(g: Generator)
    requires Valid(g.dia)
    ensures var tree := XmlTree(g);
      Xml.Reparse(tree).Ok? <==> Xml.AllXmlChars(g.diaSemana) && Xml.ReparseAll(tree.children).Ok?
  {
    var tree := XmlTree(g);
    IsoFormatXmlSafe(g.dia);
    assert tree.attrs[0].1 == IsoFormat(g.dia) && tree.attrs[1].1 == g.diaSemana;
    assert Xml.AttrsOk(tree.attrs) <==> Xml.AllXmlChars(g.diaSemana);
    Xml.BranchAttrsOk(tree.tag, tree.attrs, tree.children);
  }

  /** The summary always parses, so the children parse exactly when the
      records do. */
  lemma XmlChildrenOk(g: Generator)
    requires Valid(g.dia)
    ensures Xml.ReparseAll(XmlTree(g).children).Ok? <==> Xml.ReparseAll(XmlRecords(g.funcionarios)).Ok?
  {
    var cs := XmlTree(g).children;
    XmlResumoOk(g);
    Xml.ReparseAllOk(cs);
    Xml.BranchOk("funcionarios", XmlRecords(g.funcionarios));
    assert cs[1] == Xml.Branch("funcionarios", [], XmlRecords(g.funcionarios));
  }

  /** `generate_xml` fails exactly where the parser does. */
  lemma GenerateXmlOk(g: Generator)
    requires Valid(g.dia)
    ensures GenerateXml(g).Ok? <==> Xml.Reparse(XmlTree(g)).Ok?
  {
  }

  /** `generate_xml` raises exactly when the weekday or some record holds a
      character XML 1.0 does not allow. */
  lemma XmlOkOf(g: Generator)
    requires Valid(g.dia)
    ensures GenerateXml(g).Ok? <==>
      Xml.AllXmlChars(g.diaSemana) && forall i :: 0 <= i < |g.funcionarios| ==> XmlSafe(g.funcionarios[i])
  {
    GenerateXmlOk(g);
    XmlRootOk(g);
    XmlChildrenOk(g);
    XmlRecordsOk(g.funcionarios);
  }

  /** `generate_xml` raises exactly when some record holds a character XML
      1.0 does not allow; the date, weekday and figures always do. */
  lemma XmlOk(fs: seq<Funcionario>, dia: Date)
    requires Valid(dia)
    ensures GenerateXml(NewGenerator(fs, dia)).Ok? <==> forall i :: 0 <= i < |fs| ==> XmlSafe(fs[i])
  {
    XmlOkOf(NewGenerator(fs, dia));
    WeekdayLabelXmlSafe(dia);
  }

  // ------------------------------------------------------------------
  // Where python-docx and openpyxl refuse a text.

  lemma XmlCharsConcat(a: string, b: string)
    ensures Xml.AllXmlChars(a + b) <==> Xml.AllXmlChars(a) && Xml.AllXmlChars(b)
  {
    var ab := a + b;
    if Xml.AllXmlChars(a) && Xml.AllXmlChars(b) {
      forall i | 0 <= i < |ab|
        ensures Xml.IsXmlChar(ab[i])
      {
        if i < |a| {
          assert ab[i] == a[i];
        } else {
          assert ab[i] == b[i - |a|];
        }
      }
    }
    if Xml.AllXmlChars(ab) {
      forall i | 0 <= i < |a|
        ensures Xml.IsXmlChar(a[i])
      {
        assert a[i] == ab[i];
      }
      forall i | 0 <= i < |b|
        ensures Xml.IsXmlChar(b[i])
      {
        assert b[i] == ab[|a| + i];
      }
    }
  }

  /** Text made only of line feeds and characters between U+0020 and
      U+00FF, such as the report's Portuguese labels. */
  predicate Latin1Printable(s: string) {
    forall i :: 0 <= i < |s| ==> s[i] == '\n' || 0x20 <= s[i] as int <= 0xFF
  }

  /** A label followed by a legal value, with or without a line end, is
      legal exactly when the value is. */
  lemma LabelledXml(caption: string, value: string)
    requires Latin1Printable(caption)
    ensures Xml.AllXmlChars(caption + value) <==> Xml.AllXmlChars(value)
    ensures Xml.AllXmlChars(caption + value + "\n") <==> Xml.AllXmlChars(value)
  {
    XmlCharsConcat(caption, value);
    XmlCharsConcat(caption + value, "\n");
  }

  lemma NumericXml(s: string)
    requires NumericText(s)
    ensures Xml.AllXmlChars(s)
  {
  }

  lemma BrFormatXmlSafe(d: Date)
    requires Valid(d)
    ensures Xml.AllXmlChars(BrFormat(d))
  {
    var s := BrFormat(d);
    forall i | 0 <= i < |s|
      ensures Xml.IsXmlChar(s[i])
    {
      if i != 2 && i != 5 {
        assert IsDigit(s[i]) by {
          var dd := PadDigits(d.day, 2);
          var m := PadDigits(d.month, 2);
          var y := PadDigits(d.year, 4);
          assert s == dd + "/" + m + "/" + y;
          if i < 2 {
            assert s[i] == dd[i];
          } else if i < 5 {
            assert s[i] == m[i - 3];
          } else {
            assert s[i] == y[i - 6];
          }
        }
      }
    }
  }

  lemma StampXmlSafe(now: DateTime)
    requires ValidDateTime(now)
    ensures Xml.AllXmlChars(Stamp(now))
  {
    var s := Stamp(now);
    var b := BrFormat(now.date);
    var h := PadDigits(now.hour, 2);
    var m := PadDigits(now.minute, 2);
    BrFormatXmlSafe(now.date);
    assert s == b + " às " + h + ":" + m;
    forall i | 0 <= i < |s|
      ensures Xml.IsXmlChar(s[i])
    {
      if i < 10 {
        assert s[i] == b[i];
      } else if 14 <= i < 16 {
        assert s[i] == h[i - 14];
      } else if 17 <= i {
        assert s[i] == m[i - 17];
      }
    }
  }

  /** The constant texts of both documents. */
  lemma LabelsPrintable()
    ensures Latin1Printable(Title)
    ensures forall j :: 0 <= j < |Headers| ==> Latin1Printable(Headers[j])
    ensures Latin1Printable("Data: ") && Latin1Printable("Dia da Semana: ") && Latin1Printable("Dia: ")
    ensures Latin1Printable("Total de Funcionários: ") && Latin1Printable("Total Funcionários: ")
    ensures Latin1Printable("Total a Pagar: R$ ") && Latin1Printable("\nGerado em: ")
  {
    HeadersPrintable();
    CaptionsPrintable();
  }

  lemma HeadersPrintable()
    ensures Latin1Printable(Title)
    ensures forall j :: 0 <= j < |Headers| ==> Latin1Printable(Headers[j])
  {
  }

  lemma CaptionsPrintable()
    ensures Latin1Printable("Data: ") && Latin1Printable("Dia da Semana: ") && Latin1Printable("Dia: ")
    ensures Latin1Printable("Total de Funcionários: ") && Latin1Printable("Total Funcionários: ")
    ensures Latin1Printable("Total a Pagar: R$ ") && Latin1Printable("\nGerado em: ")
  {
  }

  /** A record's DOCX cells are legal exactly when its XML texts are: the
      amount is digits, and a missing note is `"-"` here and `""` there. */
  lemma DocxCellsXml(f: Funcionario)
    ensures XmlRow(DocxCells(f)) <==> XmlSafe(f)
  {
    FormatCentsNumeric(f.valor);
    NumericXml(FormatCents(f.valor));
    assert Xml.AllXmlChars("-") && Xml.AllXmlChars("");
    var cs := DocxCells(f);
    assert cs[0] == f.nome && cs[2] == f.horaEntrada && cs[3] == f.horaSaida;
    assert cs[1] == FormatCents(f.valor) && cs[4] == OrDefault(f.observacao, "-");
  }

  /** The table's rows are legal exactly when every record is XML-safe: the
      header row always is. */
  lemma DocxTableXml(fs: seq<Funcionario>)
    ensures var t := [Headers] + DocxRows(fs);
      (forall i :: 0 <= i < |t| ==> XmlRow(t[i])) <==> forall i :: 0 <= i < |fs| ==> XmlSafe(fs[i])
  {
    var t := [Headers] + DocxRows(fs);
    LabelsPrintable();
    assert XmlRow(t[0]);
    forall i | 0 <= i < |fs|
      ensures t[i + 1] == DocxCells(fs[i])
      ensures XmlRow(t[i + 1]) <==> XmlSafe(fs[i])
    {
      DocxCellsXml(fs[i]);
    }
    assert forall i :: 1 <= i < |t| ==> t[i] == t[(i - 1) + 1];
  }

  /** The info runs are legal exactly when the weekday is: the date, count
      and total always are. */
  lemma DocxInfoXml(g: Generator, now: DateTime)
    requires Valid(g.dia) && ValidDateTime(now)
    ensures XmlRow(DocxOf(g, now).info) <==> Xml.AllXmlChars(g.diaSemana)
  {
    var info := DocxOf(g, now).info;
    var n := NatToString(|g.funcionarios|);
    LabelsPrintable();
    BrFormatXmlSafe(g.dia);
    LabelledXml("Data: ", BrFormat(g.dia));
    LabelledXml("Dia da Semana: ", g.diaSemana);
    LabelledXml("Total de Funcionários: ", n);
    FormatCentsNumeric(g.total);
    NumericXml(FormatCents(g.total));
    LabelledXml("Total a Pagar: R$ ", FormatCents(g.total));
    assert info[0] == "Data: " + BrFormat(g.dia) + "\n";
    assert info[1] == "Dia da Semana: " + g.diaSemana + "\n";
    assert info[2] == "Total de Funcionários: " + n + "\n";
    assert info[3] == "Total a Pagar: R$ " + FormatCents(g.total);
  }

  /** `generate_docx` raises exactly when the weekday or some record holds a
      character XML 1.0 does not allow, the same condition as `generate_xml`. */
  lemma DocxOkOf(g: Generator, now: DateTime)
    requires Valid(g.dia) && ValidDateTime(now)
    ensures GenerateDocx(g, now).Ok? <==>
      Xml.AllXmlChars(g.diaSemana) && forall i :: 0 <= i < |g.funcionarios| ==> XmlSafe(g.funcionarios[i])
    ensures GenerateDocx(g, now).Ok? <==> GenerateXml(g).Ok?
  {
    var d := DocxOf(g, now);
    LabelsPrintable();
    StampXmlSafe(now);
    LabelledXml("\nGerado em: ", Stamp(now));
    assert Xml.AllXmlChars(d.heading) && Xml.AllXmlChars(d.footer);
    DocxInfoXml(g, now);
    DocxTableXml(g.funcionarios);
    XmlOkOf(g);
  }

  lemma DocxOk(fs: seq<Funcionario>, dia: Date, now: DateTime)
    requires Valid(dia) && ValidDateTime(now)
    ensures GenerateDocx(NewGenerator(fs, dia), now).Ok? <==> forall i :: 0 <= i < |fs| ==> XmlSafe(fs[i])
  {
    DocxOkOf(NewGenerator(fs, dia), now);
    WeekdayLabelXmlSafe(dia);
  }

  /** Every character openpyxl refuses is one XML 1.0 refuses too. */
  lemma XmlCharsSheetText(s: string)
    requires Xml.AllXmlChars(s)
    ensures SheetText(s) && SheetText(CellText(s))
  {
  }

  lemma SheetRecordText(f: Funcionario)
    ensures SheetRow(SheetRecord(f)) <==> SheetSafe(f)
  {
    var cs := SheetRecord(f);
    assert cs[0].s == CellText(f.nome) && cs[2].s == CellText(f.horaEntrada) && cs[3].s == CellText(f.horaSaida);
    assert cs[4].s == CellText(OrDefault(f.observacao, "-")) && !cs[1].Text?;
  }

  lemma SheetRowPair(a: string, b: string)
    ensures SheetRow([Text(a), Text(b)]) <==> SheetText(a) && SheetText(b)
  {
    var row := [Text(a), Text(b)];
    assert row[0].s == a && row[1].s == b;
  }

  /** Rows 1 to 5 can be refused only for the weekday in B2. */
  lemma ExcelHeadRows(g: Generator)
    requires Valid(g.dia)
    ensures var ws := SheetOf(g);
      && SheetRow(ws.rows[0]) && SheetRow(ws.rows[2]) && SheetRow(ws.rows[3]) && SheetRow(ws.rows[4])
      && (SheetRow(ws.rows[1]) <==> SheetText(CellText("Dia: " + g.diaSemana)))
  {
    var ws := SheetOf(g);
    var n := NatToString(|g.funcionarios|);
    LabelsPrintable();
    BrFormatXmlSafe(g.dia);
    LabelledXml("Data: ", BrFormat(g.dia));
    LabelledXml("Total Funcionários: ", n);
    FormatCentsNumeric(g.total);
    NumericXml(FormatCents(g.total));
    LabelledXml("Total a Pagar: R$ ", FormatCents(g.total));
    XmlCharsSheetText(Title);
    XmlCharsSheetText("Data: " + BrFormat(g.dia));
    XmlCharsSheetText("Total Funcionários: " + n);
    XmlCharsSheetText("Total a Pagar: R$ " + FormatCents(g.total));
    forall j | 0 <= j < |Headers|
      ensures SheetText(Headers[j])
    {
      XmlCharsSheetText(Headers[j]);
    }
    assert ws.rows[1] == [Text("Data: " + BrFormat(g.dia)), Text(CellText("Dia: " + g.diaSemana))];
    SheetRowPair("Data: " + BrFormat(g.dia), CellText("Dia: " + g.diaSemana));
    assert ws.rows[4] == [Text(Headers[0]), Text(Headers[1]), Text(Headers[2]), Text(Headers[3]), Text(Headers[4])];
  }

  /** `generate_excel` raises exactly when the weekday cell or some record
      holds a C0 control other than tab, line feed and carriage return,
      within the part of the text the cell keeps. */
  lemma ExcelOkOf(g: Generator)
    requires Valid(g.dia)
    ensures GenerateExcel(g).Ok? <==>
      SheetText(CellText("Dia: " + g.diaSemana))
      && forall i :: 0 <= i < |g.funcionarios| ==> SheetSafe(g.funcionarios[i])
  {
    var fs := g.funcionarios;
    var ws := SheetOf(g);
    ExcelHeadRows(g);
    forall i | 0 <= i < |fs|
      ensures SheetRow(ws.rows[5 + i]) <==> SheetSafe(fs[i])
    {
      ExcelRowAt(g, i);
      SheetRecordText(fs[i]);
    }
    assert forall r :: 5 <= r < |ws.rows| ==> ws.rows[r] == ws.rows[5 + (r - 5)];
  }

  lemma ExcelOk(fs: seq<Funcionario>, dia: Date)
    requires Valid(dia)
    ensures GenerateExcel(NewGenerator(fs, dia)).Ok? <==> forall i :: 0 <= i < |fs| ==> SheetSafe(fs[i])
  {
    ExcelOkOf(NewGenerator(fs, dia));
    WeekdayLabelXmlSafe(dia);
    LabelsPrintable();
    LabelledXml("Dia: ", Settings.WeekdayLabel(dia));
    XmlCharsSheetText("Dia: " + Settings.WeekdayLabel(dia));
  }

  /** A name starting with a control openpyxl refuses stops the workbook at
      its cell, A6, and the message is the name followed by " cannot be
      used in worksheets.": every cell assigned before it is accepted. */
  lemma ExcelRefusesName(f: Funcionario, dia: Date)
    requires Valid(dia) && 0 < |f.nome| <= MaxCellText && SheetIllegal(f.nome[0])
    ensures GenerateExcel(NewGenerator([f], dia)) == Err(f.nome + RefusedSuffix)
  {
    var g := NewGenerator([f], dia);
    var ws := SheetOf(g);
    ExcelHeadRows(g);
    WeekdayLabelXmlSafe(dia);
    LabelsPrintable();
    LabelledXml("Dia: ", Settings.WeekdayLabel(dia));
    XmlCharsSheetText("Dia: " + Settings.WeekdayLabel(dia));
    ExcelRowAt(g, 0);
    assert ws.rows[5][0] == Text(f.nome);
    assert ws.rows[5][..0] == [];
    assert forall k :: 0 <= k < 5 ==> SheetRow(ws.rows[k]);
    assert FirstRefusedAt(ws.rows, 5, 0);
    var r := GenerateExcel(g);
    assert r.Err?;
    var i: nat, c: nat :| FirstRefusedAt(ws.rows, i, c) && r.message == ws.rows[i][c].s + RefusedSuffix;
    FirstRefusedUnique(ws.rows, i, c, 5, 0);
  }

  /** A record XML accepts is one openpyxl accepts. */
  lemma XmlSafeSheetSafe(f: Funcionario)
    requires XmlSafe(f)
    ensures SheetSafe(f)
  {
    XmlCharsSheetText(f.nome);
    XmlCharsSheetText(f.horaEntrada);
    XmlCharsSheetText(f.horaSaida);
    assert Xml.AllXmlChars("-");
    XmlCharsSheetText(OrDefault(f.observacao, "-"));
  }

  /** So `generate_all` raises exactly when `generate_xml` does: the DOCX
      fails on the same characters, and the workbook only on some of them. */
  lemma GenerateAllOk(g: Generator, now: DateTime)
    requires Valid(g.dia) && ValidDateTime(now)
    ensures GenerateAll(g, now).Ok? <==> GenerateXml(g).Ok?
  {
    DocxOkOf(g, now);
    ExcelOkOf(g);
    XmlOkOf(g);
    if GenerateXml(g).Ok? {
      LabelsPrintable();
      LabelledXml("Dia: ", g.diaSemana);
      XmlCharsSheetText("Dia: " + g.diaSemana);
      forall i | 0 <= i < |g.funcionarios|
        ensures SheetSafe(g.funcionarios[i])
      {
        XmlSafeSheetSafe(g.funcionarios[i]);
      }
    }
  }

  // ------------------------------------------------------------------
  // HTML, read from the page.

  /** The amount cell, `R$ ` and then the `:.2f` amount. */
  function HtmlAmount(cells: seq<string>): Option<Cents> {
    if |cells| < 2 then None
    else match After(cells[1], "R$ ")
      case Some(t) => ParseCents(t)
      case None => None
  }

  /** The count and total paragraphs, checked against the table rows. */
  function HtmlSummary(p: HtmlPage): Option<Summary> {
    var count := ParseNat(p.count);
    var total := ParseCents(p.total);
    var sum := SumAmounts(Map(p.rows, HtmlAmount));
    if count.Some? && total.Some? && sum.Some? && count.value == |p.rows| && total.value == sum.value
    then Some(Summary(count.value, total.value))
    else None
  }

  lemma HtmlCellsAmount(f: Funcionario)
    ensures HtmlAmount(HtmlCells(f)) == Some(f.valor)
  {
    AfterPrefix("R$ ", FormatCents(f.valor));
    FormatCentsRoundTrip(f.valor);
  }

  lemma HtmlRowsSum(fs: seq<Funcionario>)
    ensures SumAmounts(Map(HtmlRowsOf(fs), HtmlAmount)) == Some(TotalOf(fs))
  {
    var rows := HtmlRowsOf(fs);
    forall i | 0 <= i < |fs|
      ensures Map(rows, HtmlAmount)[i] == Some(fs[i].valor)
    {
      HtmlCellsAmount(fs[i]);
    }
    SumAmountsOfRecords(fs, Map(rows, HtmlAmount));
  }

  /** A page whose rows, count and total were made from `fs` reads back as
      their summary. */
  lemma HtmlSummaryOf(p: HtmlPage, fs: seq<Funcionario>)
    requires p.rows == HtmlRowsOf(fs)
    requires p.count == NatToString(|fs|) && p.total == FormatCents(TotalOf(fs))
    ensures HtmlSummary(p) == Some(SummaryOf(fs))
  {
    HtmlRowsSum(fs);
    ParseNatToString(|fs|);
    FormatCentsRoundTrip(TotalOf(fs));
  }

  lemma HtmlAgrees(fs: seq<Funcionario>, dia: Date, now: DateTime)
    requires Valid(dia) && ValidDateTime(now)
    ensures HtmlSummary(HtmlPageOf(NewGenerator(fs, dia), now)) == Some(SummaryOf(fs))
  {
    var g := NewGenerator(fs, dia);
    var p := HtmlPageOf(g, now);
    assert p.rows == HtmlRowsOf(fs) && p.count == NatToString(|fs|) && p.total == FormatCents(g.total);
    HtmlSummaryOf(p, fs);
  }

  // ------------------------------------------------------------------
  // DOCX, read from the document's content.

  /** The count and total runs, checked against the table below the header
      row. */
  function DocxSummary(d: DocxLayout): Option<Summary> {
    if |d.info| != 4 || |d.table| == 0 || d.table[0] != Headers then None
    else
      var countLine := After(d.info[2], "Total de Funcionários: ");
      var totalText := After(d.info[3], "Total a Pagar: R$ ");
      if countLine.None? || totalText.None? || Chomp(countLine.value).None? then None
      else
        var count := ParseNat(Chomp(countLine.value).value);
        var total := ParseCents(totalText.value);
        var sum := SumAmounts(Map(d.table[1..], PlainAmount));
        if count.Some? && total.Some? && sum.Some? && count.value == |d.table| - 1 && total.value == sum.value
        then Some(Summary(count.value, total.value))
        else None
  }

  lemma DocxCellsAmount(f: Funcionario)
    ensures PlainAmount(DocxCells(f)) == Some(f.valor)
  {
    FormatCentsRoundTrip(f.valor);
  }

  /** The amount column of the table sums to the day's total. */
  lemma DocxRowsSum(fs: seq<Funcionario>)
    ensures SumAmounts(Map(DocxRows(fs), PlainAmount)) == Some(TotalOf(fs))
  {
    var rows := DocxRows(fs);
    forall i | 0 <= i < |fs|
      ensures Map(rows, PlainAmount)[i] == Some(fs[i].valor)
    {
      DocxCellsAmount(fs[i]);
    }
    SumAmountsOfRecords(fs, Map(rows, PlainAmount));
  }

  /** The count and total runs carry the count and the total after their
      labels. */
  lemma DocxInfoRuns(g: Generator, now: DateTime)
    requires Valid(g.dia) && ValidDateTime(now)
    ensures var d := DocxOf(g, now);
      && |d.info| == 4
      && After(d.info[2], "Total de Funcionários: ") == Some(NatToString(|g.funcionarios|) + "\n")
      && After(d.info[3], "Total a Pagar: R$ ") == Some(FormatCents(g.total))
  {
    var n := NatToString(|g.funcionarios|);
    AfterPrefix("Total de Funcionários: ", n + "\n");
    AfterPrefix("Total a Pagar: R$ ", FormatCents(g.total));
    assert DocxOf(g, now).info[2] == "Total de Funcionários: " + (n + "\n");
  }

  lemma DocxAgrees(fs: seq<Funcionario>, dia: Date, now: DateTime)
    requires Valid(dia) && ValidDateTime(now)
    ensures DocxSummary(DocxOf(NewGenerator(fs, dia), now)) == Some(SummaryOf(fs))
  {
    var g := NewGenerator(fs, dia);
    var d := DocxOf(g, now);
    DocxInfoRuns(g, now);
    ChompLine(NatToString(|fs|));
    assert d.table[0] == Headers && d.table[1..] == DocxRows(fs);
    DocxRowsSum(fs);
    ParseNatToString(|fs|);
    FormatCentsRoundTrip(g.total);
  }

  // ------------------------------------------------------------------
  // XLSX, read from the worksheet's cells.

  /** Column B of a record row, a number. */
  function SheetAmount(row: seq<Cell>): Option<Cents> {
    if |row| >= 2 && row[1].Number? then Some(row[1].cents) else None
  }

  /** The texts in A3 and B3, checked against the rows from row 6 on. */
  function SheetSummary(ws: Sheet): Option<Summary> {
    var a3 := CellAt(ws, 3, 1);
    var b3 := CellAt(ws, 3, 2);
    if |ws.rows| < 5 || !a3.Text? || !b3.Text? then None
    else
      var countText := After(a3.s, "Total Funcionários: ");
      var totalText := After(b3.s, "Total a Pagar: R$ ");
      if countText.None? || totalText.None? then None
      else
        var count := ParseNat(countText.value);
        var total := ParseCents(totalText.value);
        var sum := SumAmounts(Map(ws.rows[5..], SheetAmount));
        if count.Some? && total.Some? && sum.Some? && count.value == |ws.rows| - 5 && total.value == sum.value
        then Some(Summary(count.value, total.value))
        else None
  }

  /** The amount column from row 6 on sums to the day's total. */
  lemma SheetRowsSum(fs: seq<Funcionario>)
    ensures SumAmounts(Map(SheetRows(fs), SheetAmount)) == Some(TotalOf(fs))
  {
    var rows := SheetRows(fs);
    forall i | 0 <= i < |fs|
      ensures Map(rows, SheetAmount)[i] == Some(fs[i].valor)
    {
      assert rows[i] == SheetRecord(fs[i]);
    }
    SumAmountsOfRecords(fs, Map(rows, SheetAmount));
  }

  /** A3 and B3 carry the count and the total after their labels. */
  lemma SheetCountCells(g: Generator)
    requires Valid(g.dia)
    ensures var ws := SheetOf(g);
      && CellAt(ws, 3, 1) == Text("Total Funcionários: " + NatToString(|g.funcionarios|))
      && CellAt(ws, 3, 2) == Text("Total a Pagar: R$ " + FormatCents(g.total))
      && ws.rows[5..] == SheetRows(g.funcionarios)
  {
  }

  lemma SheetAgrees(fs: seq<Funcionario>, dia: Date)
    requires Valid(dia)
    ensures SheetSummary(SheetOf(NewGenerator(fs, dia))) == Some(SummaryOf(fs))
  {
    var g := NewGenerator(fs, dia);
    SheetCountCells(g);
    AfterPrefix("Total Funcionários: ", NatToString(|fs|));
    AfterPrefix("Total a Pagar: R$ ", FormatCents(g.total));
    SheetRowsSum(fs);
    ParseNatToString(|fs|);
    FormatCentsRoundTrip(g.total);
  }

  // ------------------------------------------------------------------
  // All formats together.

  /** The count and the total are the same in every format, and they are the
      number of records and the sum of their amounts. The XML part holds when
      `generate_xml` succeeds, which `XmlOk` characterises. */
  lemma EveryFormatAgrees(fs: seq<Funcionario>, dia: Date, now: DateTime)
    requires Valid(dia) && ValidDateTime(now)
    ensures var g := NewGenerator(fs, dia);
      && CsvSummary(GenerateCsv(g)) == Some(SummaryOf(fs))
      && JsonSummary(JsonTree(g)) == Some(SummaryOf(fs))
      && HtmlSummary(HtmlPageOf(g, now)) == Some(SummaryOf(fs))
      && DocxSummary(DocxOf(g, now)) == Some(SummaryOf(fs))
      && SheetSummary(SheetOf(g)) == Some(SummaryOf(fs))
      && (Xml.Reparse(XmlTree(g)).Ok? ==> XmlSummary(Xml.Reparse(XmlTree(g)).value) == Some(SummaryOf(fs)))
  {
    CsvAgrees(fs, dia);
    JsonAgrees(fs, dia);
    HtmlAgrees(fs, dia, now);
    DocxAgrees(fs, dia, now);
    SheetAgrees(fs, dia);
    var g := NewGenerator(fs, dia);
    if Xml.Reparse(XmlTree(g)).Ok? {
      XmlAgrees(fs, dia, Xml.Reparse(XmlTree(g)).value);
    }
  }

  // ------------------------------------------------------------------
  // Notes.

  /** Each format's rendering of a record's note: the raw value in JSON,
      `""` for a missing note in CSV and XML, `"-"` for a missing or empty one
      in HTML, DOCX and XLSX. */
  lemma NoteRenderings(f: Funcionario)
    ensures CsvRecord(f)[4] == NoteOrEmpty(f.observacao)
    ensures XmlRecord(f).children[4] == Xml.Leaf("observacao", [], NoteOrEmpty(f.observacao))
    ensures HtmlCells(f)[4] == OrDefault(f.observacao, "-") && DocxCells(f)[4] == OrDefault(f.observacao, "-")
    ensures SheetRecord(f)[4] == Text(CellText(OrDefault(f.observacao, "-")))
    ensures Json.Get(JsonRecord(f), "observacao") == Some(NoteJson(f.observacao))
    ensures f.observacao.None? || f.observacao.value == "" ==> OrDefault(f.observacao, "-") == "-"
    ensures f.observacao.None? ==> NoteOrEmpty(f.observacao) == "" && NoteJson(f.observacao) == Json.JNull
  {
    var ms := JsonRecord(f).members;
    assert ms[0].0 != "observacao" by { assert ms[0].0[0] == 'n'; }
    assert ms[1].0 != "observacao" by { assert ms[1].0[0] == 'v'; }
    assert ms[2].0 != "observacao" by { assert ms[2].0[0] == 'h'; }
    assert ms[3].0 != "observacao" by { assert ms[3].0[0] == 'h'; }
    assert Json.Find(ms, "observacao") == Json.Find(ms[4..], "observacao");
  }
}

=== FILE: web.dfy ===
/** ui/web/app_streamlit.py: the Streamlit front end's day filter, the
    validation of its registration form, the listing of a day with its
    totals, and the report download of the sidebar. The session state is
    replaced by the list of records it holds. */
module Web {
  import opened Common
  import opened Strings
  import opened Dates
  import opened Money
  import opened Models
  import opened Report
  import ReportViews
  import Email
  import Desktop

  // ------------------------------------------------------------------
  // get_funcionarios_do_dia.

  function OnDay(dia: Date): Funcionario -> bool {
    (f: Funcionario) => f.diaTrabalho == Some(dia)
  }

  /** The loaded records of one day, in loaded order. */
  function FuncionariosDoDia(fs: seq<Funcionario>, dia: Date): (r: seq<Funcionario>)
    ensures |r| <= |fs|
    ensures forall f :: f in r <==> f in fs && f.diaTrabalho == Some(dia)
  {
    Filter(fs, OnDay(dia))
  }

  /** The filter keeps order: the records of a day in two lists joined are
      those of the first list, then those of the second. */
  lemma FuncionariosDoDiaAppend(a: seq<Funcionario>, b: seq<Funcionario>, dia: Date)
    ensures FuncionariosDoDia(a + b, dia) == FuncionariosDoDia(a, dia) + FuncionariosDoDia(b, dia)
  {
    FilterAppend(a, b, OnDay(dia));
  }

  /** A list of one record keeps it exactly when it is of that day. */
  lemma FuncionariosDoDiaSingle(f: Funcionario, dia: Date)
    ensures FuncionariosDoDia([f], dia) == if f.diaTrabalho == Some(dia) then [f] else []
  {
    FilterSingle(f, OnDay(dia));
  }

  // ------------------------------------------------------------------
  // The registration form.

  /** A value of `st.time_input`. */
  datatype Time = Time(hour: nat, minute: nat)

  predicate ValidTime(t: Time) {
    t.hour < 24 && t.minute < 60
  }

  /** `t.strftime("%H:%M")`. */
  function HourMinute(t: Time): (s: string)
    requires ValidTime(t)
    ensures |s| == 5 && s[2] == ':'
  {
    PadDigits(t.hour, 2) + ":" + PadDigits(t.minute, 2)
  }

  /** Reads `HH:MM` back. */
  function ParseHourMinute(s: string): (r: Option<Time>)
    ensures r.Some? ==> ValidTime(r.value)
  {
    if |s| == 5 && s[2] == ':' && AllDigits(s[..2]) && AllDigits(s[3..]) then
      var t := Time(DigitsValue(s[..2]), DigitsValue(s[3..]));
      if ValidTime(t) then Some(t) else None
    else None
  }

  /** The form's times read back, and they are already in the shape the
      desktop front end normalises times to. */
  lemma HourMinuteRoundTrip(t: Time, default: string)
    requires ValidTime(t)
    ensures ParseHourMinute(HourMinute(t)) == Some(t)
    ensures Desktop.NormalizeTime(HourMinute(t), default) == HourMinute(t)
  {
    var s := HourMinute(t);
    assert s[..2] == PadDigits(t.hour, 2) && s[3..] == PadDigits(t.minute, 2);
    assert Pow10(2) == 100 by { assert Pow10(1) == 10; }
    PadDigitsValue(t.hour, 2);
    PadDigitsValue(t.minute, 2);
    assert s[2] == ':';
  }

  const FillWarning := "Preencha o nome e o valor"

  /** The submit handler: a record is built only for a non-empty name and a
      strictly positive amount; the fields the form does not show keep the
      dataclass defaults. */
  function Cadastrar(nome: string, valor: Cents, entrada: Time, saida: Time, dia: Date, observacao: string)
    : (r: Result<Funcionario>)
    requires ValidTime(entrada) && ValidTime(saida)
    ensures r.Ok? <==> nome != "" && valor > 0
    ensures r.Err? ==> r.message == FillWarning
    ensures r.Ok? ==>
      && r.value.nome == nome && r.value.valor == valor && r.value.diaTrabalho == Some(dia)
      && ParseHourMinute(r.value.horaEntrada) == Some(entrada)
      && ParseHourMinute(r.value.horaSaida) == Some(saida)
      && r.value.observacao == Some(observacao)
      && r.value.id == DefaultFuncionario.id && r.value.pago == DefaultFuncionario.pago
      && r.value.vale == DefaultFuncionario.vale && r.value.tipoVale == DefaultFuncionario.tipoVale
      && r.value.tipoPagamento == DefaultFuncionario.tipoPagamento
  {
    if nome != "" && valor > 0 then
      HourMinuteRoundTrip(entrada, "");
      HourMinuteRoundTrip(saida, "");
      Ok(DefaultFuncionario.(
        nome := nome, valor := valor,
        horaEntrada := HourMinute(entrada), horaSaida := HourMinute(saida),
        diaTrabalho := Some(dia), observacao := Some(observacao)))
    else Err(FillWarning)
  }

  /** A record of a day, once stored after the others, is the last one of
      that day's listing and adds its amount to the day's total. */
  lemma RecordJoinsDay(fs: seq<Funcionario>, f: Funcionario, dia: Date)
    requires f.diaTrabalho == Some(dia)
    ensures FuncionariosDoDia(fs + [f], dia) == FuncionariosDoDia(fs, dia) + [f]
    ensures TotalOf(FuncionariosDoDia(fs + [f], dia)) == TotalOf(FuncionariosDoDia(fs, dia)) + f.valor
  {
    FuncionariosDoDiaAppend(fs, [f], dia);
    FuncionariosDoDiaSingle(f, dia);
    TotalOfAppend(FuncionariosDoDia(fs, dia), [f]);
    assert TotalOf([f]) == SumBy([f], ValorOf) == SumBy([f][..0], ValorOf) + ValorOf(f);
  }

  /** Hence every registration the form accepts shows in its day's
      listing. */
  lemma CadastrarJoinsDay(fs: seq<Funcionario>, nome: string, valor: Cents, entrada: Time, saida: Time,
                          dia: Date, observacao: string)
    requires ValidTime(entrada) && ValidTime(saida)
    requires Cadastrar(nome, valor, entrada, saida, dia, observacao).Ok?
    ensures var f := Cadastrar(nome, valor, entrada, saida, dia, observacao).value;
      && FuncionariosDoDia(fs + [f], dia) == FuncionariosDoDia(fs, dia) + [f]
      && TotalOf(FuncionariosDoDia(fs + [f], dia)) == TotalOf(FuncionariosDoDia(fs, dia)) + valor
  {
    RecordJoinsDay(fs, Cadastrar(nome, valor, entrada, saida, dia, observacao).value, dia);
  }

  // ------------------------------------------------------------------
  // The listing.

  /** What the listing of a day shows: one table row per record, with the
      cells the HTML report gives it (`R$ ` before the amount, `-` for a
      falsy note), the number of records and the amount to pay. */
  datatype Listing = Listing(rows: seq<seq<string>>, count: nat, total: string)

  /** Nothing is listed for a day without records. */
  function Listagem(fs: seq<Funcionario>, dia: Date): (r: Option<Listing>)
    ensures r.None? <==> FuncionariosDoDia(fs, dia) == []
    ensures r.Some? ==> |r.value.rows| == r.value.count == |FuncionariosDoDia(fs, dia)|
  {
    var doDia := FuncionariosDoDia(fs, dia);
    if |doDia| == 0 then None
    else Some(Listing(HtmlRowsOf(doDia), |doDia|, "R$ " + FormatCents(TotalOf(doDia))))
  }

  /** A reader of the listing: the metrics, checked against the table. */
  function ListingSummary(l: Listing): Option<ReportViews.Summary> {
    match ReportViews.After(l.total, "R$ ")
    case None => None
    case Some(text) =>
      match (ParseCents(text), ReportViews.SumAmounts(Map(l.rows, ReportViews.HtmlAmount)))
      case (Some(t), Some(sum)) =>
        if l.count == |l.rows| && t == sum then Some(ReportViews.Summary(l.count, t)) else None
      case _ => None
  }

  /** The listing shows the day's summary, the same one the day's HTML
      report prints. */
  lemma ListagemAgrees(fs: seq<Funcionario>, dia: Date, now: DateTime)
    requires Valid(dia) && ValidDateTime(now)
    requires Listagem(fs, dia).Some?
    ensures ListingSummary(Listagem(fs, dia).value) == Some(ReportViews.SummaryOf(FuncionariosDoDia(fs, dia)))
    ensures ReportViews.HtmlSummary(HtmlPageOf(NewGenerator(FuncionariosDoDia(fs, dia), dia), now))
      == ListingSummary(Listagem(fs, dia).value)
  {
    var doDia := FuncionariosDoDia(fs, dia);
    var rows := HtmlRowsOf(doDia);
    forall i | 0 <= i < |doDia|
      ensures Map(rows, ReportViews.HtmlAmount)[i] == Some(doDia[i].valor)
    {
      ReportViews.HtmlCellsAmount(doDia[i]);
    }
    ReportViews.SumAmountsOfRecords(doDia, Map(rows, ReportViews.HtmlAmount));
    ReportViews.AfterPrefix("R$ ", FormatCents(TotalOf(doDia)));
    FormatCentsRoundTrip(TotalOf(doDia));
    ReportViews.HtmlAgrees(doDia, dia, now);
  }

  // ------------------------------------------------------------------
  // The download button.

  /** The extension and media type of each branch's download. */
  const Downloads: map<string, (string, string)> := map[
    "HTML" := ("html", "text/html"),
    "Excel" := ("xlsx", "application/vnd.openxmlformats-officedocument.spreadsheetml.sheet"),
    "DOCX" := ("docx", "application/vnd.openxmlformats-officedocument.wordprocessingml.document"),
    "CSV" := ("csv", "text/csv"),
    "JSON" := ("json", "application/json"),
    "XML" := ("xml", "application/xml")]

  /** `f"relatorio_{date.today()}.<ext>"`. */
  function DownloadName(today: Date, formato: string): string
    requires Valid(today) && formato in Downloads
  {
    "relatorio_" + IsoFormat(today) + "." + Downloads[formato].0
  }

  /** Every combobox label has a download, with the dialog's extension. */
  lemma DownloadOf(formato: string)
    requires formato in Desktop.FormatLabels
    ensures formato in Downloads && Downloads[formato].0 == Desktop.Extensions[formato]
  {
  }

  /** The format labels in the order of the e-mail's attachment table. */
  const EmailOrder: seq<string> := ["DOCX", "Excel", "CSV", "JSON", "XML", "HTML"]

  /** Every download offers the extension the desktop front end does, and
      its MIME type is the content type the mailer's format table lists for
      the same report, a column the mailer itself never uses. */
  lemma DownloadsFollowEmailTable()
    ensures Downloads.Keys == Desktop.Extensions.Keys
    ensures forall formato :: formato in Downloads ==> Downloads[formato].0 == Desktop.Extensions[formato]
    ensures forall i :: 0 <= i < |EmailOrder| ==>
      && EmailOrder[i] in Downloads
      && Desktop.ReportKeys[EmailOrder[i]] == Email.Formatos[i].key
      && Downloads[EmailOrder[i]].1 == Email.Formatos[i].contentType
  {
  }

  /** And it is named like that attachment, extension included. */
  lemma DownloadNamesFollowEmailTable(today: Date)
    requires Valid(today)
    ensures forall i :: 0 <= i < |EmailOrder| ==>
      EmailOrder[i] in Downloads && DownloadName(today, EmailOrder[i]) == Email.AttachmentName(today, Email.Formatos[i])
  {
    forall i | 0 <= i < |EmailOrder|
      ensures EmailOrder[i] in Downloads && DownloadName(today, EmailOrder[i]) == Email.AttachmentName(today, Email.Formatos[i])
    {
      DownloadNameOf(today, i);
    }
  }

  lemma DownloadNameOf(today: Date, i: nat)
    requires Valid(today) && i < |EmailOrder|
    ensures EmailOrder[i] in Downloads && DownloadName(today, EmailOrder[i]) == Email.AttachmentName(today, Email.Formatos[i])
  {
    var fileName := Email.Formatos[i].fileName;
    assert fileName[..10] == "relatorio.";
    assert Email.Extension(fileName) == Downloads[EmailOrder[i]].0;
  }

  /** A download offered by the sidebar. */
  datatype Download = Download(payload: Payload, fileName: string, mime: string)

  const NoRecordsWarning := "Nenhum funcionário cadastrado para hoje"

  /** The generate button: today's records, reported in the chosen format;
      a warning when today has none. Streamlit sends a `str` as its UTF-8
      encoding, so the textual reports download as the desktop's corrected
      export writes them. An XML, DOCX or Excel generator that raises is an
      error, as it is on the desktop. */
  function Exportar(fs: seq<Funcionario>, formato: string, today: Date, now: DateTime): (r: Result<Download>)
    requires formato in Desktop.FormatLabels && Valid(today) && ValidDateTime(now)
    ensures FuncionariosDoDia(fs, today) == [] ==> r == Err(NoRecordsWarning)
    ensures r.Ok? <==>
      && FuncionariosDoDia(fs, today) != []
      && Desktop.Generates(NewGenerator(FuncionariosDoDia(fs, today), today), formato, now)
    ensures r.Ok? ==>
      && Desktop.PayloadIsA(Desktop.Extensions[formato], r.value.payload)
      && r.value.fileName == "relatorio_" + IsoFormat(today) + "." + Desktop.Extensions[formato]
  {
    var doDia := FuncionariosDoDia(fs, today);
    if |doDia| == 0 then Err(NoRecordsWarning)
    else
      DownloadOf(formato);
      var p :- Desktop.ExportPayload(NewGenerator(doDia, today), formato, now);
      Ok(Download(p, DownloadName(today, formato), Downloads[formato].1))
  }
}

=== FILE: xml.dfy ===
/** The XML the report generator emits: an element tree built with
    `xml.etree.ElementTree`, serialised, parsed again by `xml.dom.minidom` and
    written out with `toprettyxml(indent="  ")`. The round through the parser
    has two visible effects, both modelled: a character XML 1.0 does not allow
    makes the parse fail, and line ends in text are normalised. */
module Xml {
  import opened Common

  /** Section 2.2 of XML 1.0: the characters a document may contain. */
  predicate IsXmlChar(c: char) {
    var n := c as int;
    n == 0x9 || n == 0xA || n == 0xD || (0x20 <= n <= 0xD7FF) || (0xE000 <= n <= 0xFFFD) || 0x10000 <= n
  }

  predicate AllXmlChars(s: string) {
    forall i :: 0 <= i < |s| ==> IsXmlChar(s[i])
  }

  predicate NoCarriageReturn(s: string) {
    forall i :: 0 <= i < |s| ==> s[i] != '\r'
  }

  /** Section 2.11 of XML 1.0: a parser hands `"\r\n"` and a lone `"\r"` to the
      application as `"\n"`. ElementTree writes carriage returns in text
      unescaped, so they do not survive the re-parse. */
  function NormalizeLineEnds(s: string): (r: string)
    ensures |r| <= |s|
    ensures NoCarriageReturn(r)
    decreases |s|
  {
    if |s| == 0 then ""
    else if s[0] == '\r' then
      "\n" + NormalizeLineEnds(if |s| >= 2 && s[1] == '\n' then s[2..] else s[1..])
    else [s[0]] + NormalizeLineEnds(s[1..])
  }

  /** Text without carriage returns goes through the parser unchanged. */
  lemma {:induction false} NormalizeLineEndsIdentity(s: string)
    requires NoCarriageReturn(s)
    ensures NormalizeLineEnds(s) == s
    decreases |s|
  {
    if |s| > 0 {
      assert s[0] != '\r';
      assert NoCarriageReturn(s[1..]) by {
        assert forall i :: 0 <= i < |s[1..]| ==> s[1..][i] == s[i + 1];
      }
      NormalizeLineEndsIdentity(s[1..]);
      assert s == [s[0]] + s[1..];
    }
  }

  /** minidom's `_write_data`: the four characters that could be read as
      markup are written as entity references (section 2.4 of XML 1.0). */
  function EscapeChar(c: char): (r: string)
    ensures |r| >= 1
  {
    if c == '&' then "&amp;"
    else if c == '<' then "&lt;"
    else if c == '"' then "&quot;"
    else if c == '>' then "&gt;"
    else [c]
  }

  function Escape(s: string): (r: string)
    ensures |r| >= |s|
    ensures forall i :: 0 <= i < |r| ==> r[i] != '<' && r[i] != '>' && r[i] != '"'
  {
    if |s| == 0 then "" else EscapeChar(s[0]) + Escape(s[1..])
  }

  /** Reads character data back, resolving the four entity references;
      `None` on a stray `&` or a markup character. */
  function Unescape(s: string): (r: Option<string>)
    decreases |s|
  {
    if |s| == 0 then Some("")
    else
      var step: Option<(char, nat)> :=
        if s[0] == '&' then
          if |s| >= 5 && s[..5] == "&amp;" then Some(('&', 5))
          else if |s| >= 4 && s[..4] == "&lt;" then Some(('<', 4))
          else if |s| >= 4 && s[..4] == "&gt;" then Some(('>', 4))
          else if |s| >= 6 && s[..6] == "&quot;" then Some(('"', 6))
          else None
        else if s[0] == '<' then None
        else Some((s[0], 1));
      match step
      case None => None
      case Some((c, k)) =>
        match Unescape(s[k..])
        case None => None
        case Some(rest) => Some([c] + rest)
  }

  lemma UnescapeStep(c: char, rest: string, tail: string)
    requires Unescape(rest) == Some(tail)
    ensures Unescape(EscapeChar(c) + rest) == Some([c] + tail)
  {
    var t := EscapeChar(c) + rest;
    var k := |EscapeChar(c)|;
    assert t[..k] == EscapeChar(c) && t[k..] == rest;
    if c == '&' {
      assert t[..5] == "&amp;";
    } else if c == '<' {
      assert t[1] == 'l';
      assert |t| < 5 || t[..5][1] != "&amp;"[1];
      assert t[..4] == "&lt;";
    } else if c == '"' {
      assert t[1] == 'q';
      assert t[..5][1] != "&amp;"[1] && t[..4][1] != "&lt;"[1] && t[..4][1] != "&gt;"[1];
      assert t[..6] == "&quot;";
    } else if c == '>' {
      assert t[1] == 'g';
      assert t[..4][1] != "&lt;"[1];
      assert t[..4] == "&gt;";
    } else {
      assert t[0] == c;
    }
  }

  /** Escaping loses nothing: the parser reads every text back. */
  lemma {:induction false} UnescapeEscape(s: string)
    ensures Unescape(Escape(s)) == Some(s)
    decreases |s|
  {
    if |s| > 0 {
      UnescapeEscape(s[1..]);
      UnescapeStep(s[0], Escape(s[1..]), s[1..]);
      assert s == [s[0]] + s[1..];
    }
  }

  // ------------------------------------------------------------------
  // Trees.

  /** An element holding text only, or an element holding elements only: the
      two shapes the report uses. */
  datatype Node =
    | Leaf(tag: string, attrs: seq<(string, string)>, text: string)
    | Branch(tag: string, attrs: seq<(string, string)>, children: seq<Node>)

  predicate AttrsOk(attrs: seq<(string, string)>) {
    forall i :: 0 <= i < |attrs| ==> AllXmlChars(attrs[i].1)
  }

  /** `minidom.parseString(tostring(root))` as seen through the tree: `Err`
      when a text holds a character XML does not allow (expat reports the
      document as not well-formed), otherwise the same tree with its texts'
      line ends normalised. */
  function Reparse(n: Node): (r: Result<Node>)
    ensures r.Ok? ==> r.value.tag == n.tag && r.value.attrs == n.attrs
    ensures r.Ok? ==> (r.value.Leaf? <==> n.Leaf?)
    ensures r.Ok? && n.Branch? ==> |r.value.children| == |n.children|
    decreases n, 1
  {
    if !AttrsOk(n.attrs) then Err("not well-formed (invalid token)")
    else match n
      case Leaf(tag, attrs, text) =>
        if AllXmlChars(text) then Ok(Leaf(tag, attrs, NormalizeLineEnds(text)))
        else Err("not well-formed (invalid token)")
      case Branch(tag, attrs, children) =>
        var cs :- ReparseAll(children);
        Ok(Branch(tag, attrs, cs))
  }

  function ReparseAll(ns: seq<Node>): (r: Result<seq<Node>>)
    ensures r.Ok? ==> |r.value| == |ns|
    ensures r.Ok? ==> forall i :: 0 <= i < |ns| ==> Reparse(ns[i]) == Ok(r.value[i])
    decreases ns, 0
  {
    if |ns| == 0 then Ok([])
    else
      var first :- Reparse(ns[0]);
      var rest :- ReparseAll(ns[1..]);
      Ok([first] + rest)
  }

  /** A leaf without attributes goes through the parser exactly when its
      text is legal. */
  lemma LeafOk(tag: string, text: string)
    ensures Reparse(Leaf(tag, [], text)).Ok? <==> AllXmlChars(text)
  {
  }

  /** A branch without attributes goes through the parser exactly when its
      children do. */
  lemma BranchOk(tag: string, cs: seq<Node>)
    ensures Reparse(Branch(tag, [], cs)).Ok? <==> ReparseAll(cs).Ok?
  {
  }

  /** A branch goes through the parser exactly when its attributes and its
      children do. */
  lemma BranchAttrsOk(tag: string, attrs: seq<(string, string)>, cs: seq<Node>)
    ensures Reparse(Branch(tag, attrs, cs)).Ok? <==> AttrsOk(attrs) && ReparseAll(cs).Ok?
  {
  }

  /** A list of elements goes through the parser exactly when each of them
      does. */
  lemma {:induction false} ReparseAllOk(ns: seq<Node>)
    ensures ReparseAll(ns).Ok? <==> forall i :: 0 <= i < |ns| ==> Reparse(ns[i]).Ok?
    decreases |ns|
  {
    if |ns| > 0 {
      ReparseAllOk(ns[1..]);
      assert forall i :: 1 <= i < |ns| ==> ns[1..][i - 1] == ns[i];
    }
  }

  /** A list of elements goes through the parser exactly when every item
      it was built from satisfies the condition under which its own element
      does. */
  lemma ReparseAllMatches<T>(ns: seq<Node>, xs: seq<T>, p: T -> bool)
    requires |xs| == |ns|
    requires forall i :: 0 <= i < |ns| ==> (Reparse(ns[i]).Ok? <==> p(xs[i]))
    ensures ReparseAll(ns).Ok? <==> forall i :: 0 <= i < |xs| ==> p(xs[i])
  {
    ReparseAllOk(ns);
  }

  /** ` name="value"` for every attribute, in insertion order. */
  function RenderAttrs(attrs: seq<(string, string)>): string {
    if |attrs| == 0 then ""
    else " " + attrs[0].0 + "=\"" + Escape(attrs[0].1) + "\"" + RenderAttrs(attrs[1..])
  }

  /** minidom's `Element.writexml(writer, indent, "  ", "\n")`: an element
      with no child nodes is closed in place, a single text child is written
      inline, and element children go one per line, indented two more
      spaces. */
  function Render(n: Node, indent: string): (r: string)
    ensures |r| > |indent|
    decreases n, 1
  {
    var open := indent + "<" + n.tag + RenderAttrs(n.attrs);
    match n
    case Leaf(tag, _, text) =>
      if text == "" then open + "/>\n"
      else open + ">" + Escape(text) + "</" + tag + ">\n"
    case Branch(tag, _, children) =>
      if |children| == 0 then open + "/>\n"
      else open + ">\n" + RenderAll(children, indent + "  ") + indent + "</" + tag + ">\n"
  }

  function RenderAll(ns: seq<Node>, indent: string): string
    decreases ns, 0
  {
    if |ns| == 0 then "" else Render(ns[0], indent) + RenderAll(ns[1..], indent)
  }

  /** `toprettyxml(indent="  ")` of a document whose root is `root`. */
  function PrettyPrint(root: Node): (r: string)
    ensures |r| > 22 && r[..22] == "<?xml version=\"1.0\" ?>"
  {
    "<?xml version=\"1.0\" ?>\n" + Render(root, "")
  }
}
